=== FILE: README.md ===
# Azure Container Service deployment plugin for Jenkins, modelled in Dafny

This project models the decision-making core of the Jenkins plugin that
deploys configuration files (Kubernetes manifests, Marathon applications,
Docker Compose files) to an Azure Container Service or AKS cluster, and
proves properties of that model. Every module follows one part of the
plugin:

- `BaseContext` — the shared deployment state and log of the command
  pipeline (`AbstractBaseContext`).
- `Pipeline` — `CommandService.executeCommands`, which runs the commands
  of a transition table one after another, and the commands that steer it:
  the orchestrator choice and proxy, `RunOn`, the build-result check, the
  container-service lookups, the public FQDN lookup and the container
  validation.
- `DeploymentContext`, `FormScript`, `Descriptor`, `Forms` — the step's
  configuration: the `name | type` container-service selector and how it is
  read back, the secret namespace, the endpoint URLs, the form checks
  (config file paths, secret name, DC/OS credentials path), the page script
  that shows or hides rows, and the legacy descriptor's defaults and checks.
- `Constants` — the orchestrator types, the supported ones and their SSH
  ports.
- `DeployHelper` — shell quoting, removal and replacement of `$VAR` /
  `${VAR}` references, the Marathon `file://` URI check and the dotted-path
  lookup into nested maps.
- `ServicePorts`, `DeploymentConfigs`, `SwarmConfig`, `MarathonConfig` — the
  ports a deployment publishes: the reader chosen per orchestrator, the
  Docker Compose short and long port syntax, and the Marathon
  `portMappings`.
- `EnablePort` — opening those ports on the public agents: scanning the
  existing inbound security rules, placing new `Allow_<port>` rules at free
  priorities, and adding load-balancer rules for ports no rule serves.
- `MarathonCommand`, `SwarmCommand` — the remote steps of the DC/OS and
  Swarm deployments (credential copies, `docker login`, `docker-compose`,
  Marathon REST calls), as lists of steps.
- `DependencyMigration` — resolving a service principal's endpoints to a
  known Azure environment or building one.
- `ManagementDelegate` — filling ARM template parameters and monitoring a
  template deployment.
- `PluginTelemetry` — normalising the orchestrator name and the event
  property pairs.
- `EnvAction` — the action that injects environment variables into a build.
- `JavaStrings`, `Wrappers`, `Seqs`, `Documents` — the Java library
  behaviour the plugin relies on (`trim`, `isBlank`, `split`, `parseInt`,
  `equalsIgnoreCase`, `int` wrap-around), `null` as `Option`, exceptions as
  `Result`, and parsed JSON/YAML documents as a tree.

Nothing in the model performs I/O: remote commands, Azure calls and parsed
files are inputs, and the commands produce the steps they would perform.

## Model

| member | source | states |
|---|---|---|
| BaseContext.Initial | src/main/java/com/microsoft/jenkins/acs/AbstractBaseContext.java:19 | a new context starts in `Unknown` with an empty log, so it is neither in error nor finished |
| BaseContext.SetState | src/main/java/com/microsoft/jenkins/acs/AbstractBaseContext.java:45-47 | the state becomes the given one and the log is kept |
| BaseContext.LogStatus | src/main/java/com/microsoft/jenkins/acs/AbstractBaseContext.java:66-68 | exactly one status line is appended; the state, the error flag and the finished flag are unchanged |
| BaseContext.LogError | src/main/java/com/microsoft/jenkins/acs/AbstractBaseContext.java:79-82 | exactly one error line is appended and the context is then in error and finished |
| BaseContext.LogException | src/main/java/com/microsoft/jenkins/acs/AbstractBaseContext.java:70-77 | the error line is the prefix followed by the exception's message, and the context is in error |
| BaseContext.StatusKeepsError | src/main/java/com/microsoft/jenkins/acs/AbstractBaseContext.java:53-68 | status lines logged after an error do not clear it |
| BaseContext.ErrorOverwrittenOnlyBySetState | src/main/java/com/microsoft/jenkins/acs/AbstractBaseContext.java:45-82 | after an error, an explicit state change decides the state, and the context stays in error only if that state is `HasError` |
| Constants.SshPort | src/main/java/com/microsoft/jenkins/acs/util/Constants.java:43-55 | the port is positive exactly for the supported orchestrators: 2200 for DC/OS, 22 for Kubernetes, -1 otherwise |
| DeployHelper.EscapeSingleQuote | src/main/java/com/microsoft/jenkins/acs/util/DeployHelper.java:40-42 | an argument without `'` is unchanged, and escaping never shortens it |
| DeployHelper.EscapeAppend | src/main/java/com/microsoft/jenkins/acs/util/DeployHelper.java:40-42 | escaping a concatenation escapes each part on its own: every `'` is replaced independently of its neighbours |
| DeployHelper.EscapeAtFirstQuote | src/main/java/com/microsoft/jenkins/acs/util/DeployHelper.java:40-42 | at its first `'` the argument splits into a quote-free prefix, which is kept, and a rest that is escaped again |
| DeployHelper.QuotedArgumentReadsBack | src/main/java/com/microsoft/jenkins/acs/util/DeployHelper.java:29-42 | a POSIX shell reads the escaped argument in single quotes back as exactly the original text, whatever quotes it holds |
| DeployHelper.ReferenceLength | src/main/java/com/microsoft/jenkins/acs/util/DeployHelper.java:53-56 | a reference is `$` followed by a name or `${…}` and is at least two characters long; text starting with another character holds none |
| DeployHelper.ReplaceVariables | src/main/java/com/microsoft/jenkins/acs/util/DeployHelper.java:63-77 | text without `$` is returned unchanged |
| DeployHelper.ReplaceAtReference | src/main/java/com/microsoft/jenkins/acs/util/DeployHelper.java:63-77 | at a reference the result is the replacement followed by the rest of the text, which is scanned on, and the reference is counted once |
| DeployHelper.ReplacementLength | src/main/java/com/microsoft/jenkins/acs/util/DeployHelper.java:63-77 | the result's length is the length with all references removed plus one replacement per reference |
| DeployHelper.RemoveVariables | src/main/java/com/microsoft/jenkins/acs/util/DeployHelper.java:53-61 | removing references never lengthens the text |
| DeployHelper.RemovalShortens | src/main/java/com/microsoft/jenkins/acs/util/DeployHelper.java:53-61 | each reference removed takes at least two characters with it |
| DeployHelper.RemovalUnchangedIffNoReference | src/main/java/com/microsoft/jenkins/acs/util/DeployHelper.java:53-61 | removing leaves the text unchanged exactly when it holds no reference |
| DeployHelper.QuotePath | src/main/java/com/microsoft/jenkins/acs/util/DeployHelper.java:44-47 | URI quoting never shortens a path, is empty only for the empty path, and writes only characters `java.net.URI` keeps in a path (NUL, spaces and controls not among them) or the `%` of an escape |
| DeployHelper.QuotePathAppend | src/main/java/com/microsoft/jenkins/acs/util/DeployHelper.java:44-47 | quoting works character by character: the quoted form of a concatenation is the concatenation of the quoted forms |
| DeployHelper.NulQuoted | src/main/java/com/microsoft/jenkins/acs/util/DeployHelper.java:44-47 | NUL is written as `%00` |
| DeployHelper.NulEscapedInPath | src/main/java/com/microsoft/jenkins/acs/util/DeployHelper.java:44-47 | in `/a`, NUL, `b` the NUL is written as `%00` |
| DeployHelper.NulEncodedInPath | src/main/java/com/microsoft/jenkins/acs/util/DeployHelper.java:44-51 | `encodeURIPath` of that path returns `/a%00b` |
| DeployHelper.QuotePathUnchangedIff | src/main/java/com/microsoft/jenkins/acs/util/DeployHelper.java:44-47 | quoting leaves a path unchanged exactly when every character of it is one `java.net.URI` keeps in a path |
| DeployHelper.EncodeUriPath | src/main/java/com/microsoft/jenkins/acs/util/DeployHelper.java:44-51 | the result is the quoted path, and `IllegalArgumentException` exactly when the quoted text cannot be read back as a URI: a first segment that is a bad scheme, or a `//` authority that is neither empty before a path nor a server authority (optional user, IPv4 address or host name, optional numeric port) |
| DeployHelper.CheckUriForMarathon | src/main/java/com/microsoft/jenkins/acs/util/DeployHelper.java:91-107 | `true` exactly for a non-empty path with no backslash, `'` or NUL, every character kept by URI quoting, and no bad scheme or authority; an exception exactly when the path passes the character test and its quoted form is such a bad URI |
| DeployHelper.DoubleSlashAuthority | src/main/java/com/microsoft/jenkins/acs/util/DeployHelper.java:44-51 | a path starting with `//` is refused exactly when the text up to the next `/` is empty with nothing after it, or is not a server authority |
| DeployHelper.HostOnlyAuthority | src/main/java/com/microsoft/jenkins/acs/util/DeployHelper.java:44-51 | an authority without `@` or `:` is a server authority exactly when it is an IPv4 address or a host name |
| DeployHelper.HostnameOneLabel | src/main/java/com/microsoft/jenkins/acs/util/DeployHelper.java:44-51 | text without a `.` is a host name exactly when it is one domain label |
| DeployHelper.OneLabelAuthority | src/main/java/com/microsoft/jenkins/acs/util/DeployHelper.java:44-51 | `//` and one dot-free label is refused exactly when the label is not a domain label |
| DeployHelper.EmptyAuthorityRejected | src/main/java/com/microsoft/jenkins/acs/util/DeployHelper.java:44-51 | the path `//` alone throws |
| DeployHelper.UnderscoreHostRejected | src/main/java/com/microsoft/jenkins/acs/util/DeployHelper.java:44-51 | `//a_b`: a host with an underscore throws |
| DeployHelper.UnderscoreHostCheckRaises | src/main/java/com/microsoft/jenkins/acs/util/DeployHelper.java:91-107 | the Marathon check of `//a_b` throws rather than answering |
| DeployHelper.PortNotNumberRejected | src/main/java/com/microsoft/jenkins/acs/util/DeployHelper.java:44-51 | `//host:port` with a port that is not all digits throws |
| DeployHelper.SchemeThenEmptyAuthorityRejected | src/main/java/com/microsoft/jenkins/acs/util/DeployHelper.java:44-51 | `a://` throws: a scheme followed by an empty authority |
| DeployHelper.HostAndPortAccepted | src/main/java/com/microsoft/jenkins/acs/util/DeployHelper.java:44-51 | `//label:digits/rest` with quoting-safe text is accepted and left unchanged |
| DeployHelper.DottedBytesAreIPv4 | src/main/java/com/microsoft/jenkins/acs/util/DeployHelper.java:44-51 | four decimal bytes joined by dots form an IPv4 address |
| DeployHelper.EmptyAuthorityBeforePathAccepted | src/main/java/com/microsoft/jenkins/acs/util/DeployHelper.java:44-51 | `///rest`, an empty authority before a path, is accepted unchanged |
| DeployHelper.SingleSlashPathAccepted | src/main/java/com/microsoft/jenkins/acs/util/DeployHelper.java:44-51 | an absolute path whose second character is not `/` never throws and is quoted |
| DeployHelper.GetPropertyIsWalk | src/main/java/com/microsoft/jenkins/acs/util/DeployHelper.java:126-146 | looking up a dotted path of non-blank keys is the walk through nested maps key by key, including where it fails and the path reported when it does |
| DeploymentConfigs.ResourcePrefix | src/main/java/com/microsoft/jenkins/acs/orchestrators/KubernetesDeploymentConfig.java:15-18 | each reader names its resources with its own prefix: `dcos`, `k8s` or `swarm` |
| DeploymentConfigs.PrefixesIdentifyReader | src/main/java/com/microsoft/jenkins/acs/orchestrators/DeploymentConfig.java:24 | two readers share a resource prefix exactly when they are of the same kind |
| DeploymentConfigs.ServicePortsOf | src/main/java/com/microsoft/jenkins/acs/orchestrators/KubernetesDeploymentConfig.java:20-25 | Kubernetes lists no ports; the Marathon and Swarm readers succeed exactly when their own parser does, with its ports |
| DeploymentConfigs.KubernetesIgnoresFiles | src/main/java/com/microsoft/jenkins/acs/orchestrators/KubernetesDeploymentConfig.java:20-25 | the Kubernetes reader's ports are the empty list whatever files it holds |
| DeploymentConfigs.Build | src/main/java/com/microsoft/jenkins/acs/orchestrators/DeploymentConfig.java:50-70 | no files fails before the type is looked at; a built reader holds exactly the listed files and is the Marathon, Kubernetes or Swarm reader exactly for DC/OS, Kubernetes or Swarm |
| DeploymentConfigs.BuildForAks | src/main/java/com/microsoft/jenkins/acs/orchestrators/DeploymentConfig.java:72-80 | no files fails; otherwise the Kubernetes reader over the listed files |
| DeploymentConfigs.BuildSucceedsIff | src/main/java/com/microsoft/jenkins/acs/orchestrators/DeploymentConfig.java:50-80 | the factory builds a reader exactly when files were found and the type is not Custom, and for Kubernetes it builds what the AKS factory builds |
| DeploymentConfigs.BuiltPrefix | src/main/java/com/microsoft/jenkins/acs/orchestrators/DeploymentConfig.java:59-69 | the reader built for a type names its resources after that type |
| Descriptor.DefaultsAreOffered | src/main/java/com/microsoft/jenkins/acs/ACSDeploymentContextDescriptor.java:27-178 | the default location and VM size are entries of the offered lists (first location, fourteenth of 47 sizes), and the master counts and locations list no entry twice |
| Descriptor.MasterCountsAreOdd | src/main/java/com/microsoft/jenkins/acs/ACSDeploymentContextDescriptor.java:104-110 | the i-th master count choice parses as the odd number 2i+1 |
| Descriptor.CheckAgentCount | src/main/java/com/microsoft/jenkins/acs/ACSDeploymentContextDescriptor.java:35-47 | accepted exactly when a value is given that parses as a Java `int` from 1 to 40; every other input, `null` and unparsable text included, gets the one agent-count error |
| Descriptor.AgentCountAcceptsRange | src/main/java/com/microsoft/jenkins/acs/ACSDeploymentContextDescriptor.java:35-47 | the decimal text of an `int` is accepted exactly when the number is from 1 to 40 |
| Descriptor.DefaultAgentCountAccepted | src/main/java/com/microsoft/jenkins/acs/ACSDeploymentContextDescriptor.java:31-47 | the default agent count passes the agent-count check |
| Descriptor.CheckRequired | src/main/java/com/microsoft/jenkins/acs/ACSDeploymentContextDescriptor.java:49-87 | each required field is rejected, with its own message, exactly when the value is `null` or empty |
| Descriptor.RequiredAcceptsBlank | src/main/java/com/microsoft/jenkins/acs/ACSDeploymentContextDescriptor.java:49-55 | a value of one space is accepted although it is blank: the checks test length, not blankness |
| Descriptor.VerifyConfiguration | src/main/java/com/microsoft/jenkins/acs/ACSDeploymentContextDescriptor.java:180-192 | a blank or missing credentials id is an error without asking Azure; otherwise OK exactly when the answer equals "Success" ignoring case, and any other answer is the error message |
| Descriptor.NoCredentialsIgnoresVerifier | src/main/java/com/microsoft/jenkins/acs/ACSDeploymentContextDescriptor.java:180-183 | without a credentials id the verifier's answer does not change the outcome |
| Descriptor.SuccessInAnyCase | src/main/java/com/microsoft/jenkins/acs/ACSDeploymentContextDescriptor.java:187-191 | "SUCCESS" and "success" are accepted, and "Success." is shown as an error |
| ServicePorts.TransportOf | src/main/java/com/microsoft/jenkins/acs/orchestrators/ServicePort.java:31-39 | a port's load-balancer protocol is never "all", and it is TCP exactly for a TCP port |
| ServicePorts.MatchIsProtocolExact | src/main/java/com/microsoft/jenkins/acs/orchestrators/ServicePort.java:41-43 | two ports matching the same rule have its front-end port as host port and the same protocol, and a rule for all protocols matches no port |
| ServicePorts.Parse | src/main/java/com/microsoft/jenkins/acs/orchestrators/ServicePort.java:45-48 | whatever text reads back as a port has both port numbers in the `int` range |
| ServicePorts.ParseToString | src/main/java/com/microsoft/jenkins/acs/orchestrators/ServicePort.java:45-48 | every port with `int` port numbers reads back from its `host:container/Protocol` string form |
| ServicePorts.ToStringInjective | src/main/java/com/microsoft/jenkins/acs/orchestrators/ServicePort.java:45-67 | two ports have the same string form exactly when host port, container port and protocol are all equal, so `equals` and the string-based `hashCode` agree |
| ServicePorts.StringHash | src/main/java/com/microsoft/jenkins/acs/orchestrators/ServicePort.java:64-67 | the hash is always a 32-bit `int` |
| ServicePorts.HashCode | src/main/java/com/microsoft/jenkins/acs/orchestrators/ServicePort.java:64-67 | a port's hash code is a 32-bit `int` |
| FormScript.SpaceRunStart | src/main/webapp/scripts/deployment-context.js:11-12 | the run of `\s` characters before the given end is all spaces and cannot be extended to the left |
| FormScript.ScanIffMatches | src/main/webapp/scripts/deployment-context.js:11-12 | scanning back from the end (the word, then spaces, then `|`) finds a match exactly when the pattern `\|\s*word$` matches the text, ignoring case |
| FormScript.SpaceRunStops | src/main/webapp/scripts/deployment-context.js:11-12 | going back over the spaces stops just after the last non-space character |
| FormScript.NotBothKubernetesAndSwarm | src/main/webapp/scripts/deployment-context.js:11-12 | no value is read as both Kubernetes and Swarm |
| FormScript.SuffixMismatch | src/main/webapp/scripts/deployment-context.js:11-12 | a mismatch in one of the last characters rules out the word, in any case |
| FormScript.SelectorMatchesWord | src/main/webapp/scripts/deployment-context.js:11-12 | a selector value `name | type` whose type equals the word ignoring case matches it |
| FormScript.SelectorMissesWord | src/main/webapp/scripts/deployment-context.js:11-12 | a selector value whose type ends differently from the word does not match it |
| FormScript.ScriptReadsSelectorType | src/main/webapp/scripts/deployment-context.js:8-16 | for every value the plugin's selector offers, the script sees Kubernetes exactly for a Kubernetes service and Swarm exactly for a Swarm service |
| FormScript.KubernetesSelectorRead | src/main/webapp/scripts/deployment-context.js:11-12 | a Kubernetes selector value is read as Kubernetes and not as Swarm |
| FormScript.SwarmSelectorRead | src/main/webapp/scripts/deployment-context.js:11-12 | a Swarm selector value is read as Swarm and not as Kubernetes |
| FormScript.ScriptHidesBothForAks | src/main/webapp/scripts/deployment-context.js:8-16 | an AKS selector value shows neither optional row |
| FormScript.SetVisibility | src/main/webapp/scripts/deployment-context.js:18-29 | the named row gets the given visibility when the page has it; the page's rows and every other row are unchanged, and a missing field changes nothing |
| FormScript.HandleChange | src/main/webapp/scripts/deployment-context.js:8-16 | the namespace row shows exactly for Kubernetes and the remove-containers row exactly for Swarm; nothing else changes |
| FormScript.HandleChangeOverwrites | src/main/webapp/scripts/deployment-context.js:8-16 | handling a second value gives the same rows as handling only that value |
| FormScript.HandleChangeIdempotent | src/main/webapp/scripts/deployment-context.js:8-16 | handling the same value twice is handling it once |
| FormScript.ReplayIsLastValue | src/main/webapp/scripts/deployment-context.js:31-33 | after installation and any sequence of change or click events, the rows are what the last value calls for |
| FormScript.AtMostOneOptionalRow | src/main/webapp/scripts/deployment-context.js:8-16 | after any evaluation at most one of the two optional rows is visible |
| DeploymentContext.ContainerServiceName | src/main/java/com/microsoft/jenkins/acs/ACSDeploymentContext.java:386-392 | a blank or missing value fails; otherwise the result is the trimmed text before the first `|` and holds no `|`, and a value made only of `|` fails because the split has no first piece |
| DeploymentContext.TrimIsInfix | src/main/java/com/microsoft/jenkins/acs/ACSDeploymentContext.java:386-392 | trimming only removes characters, so the trimmed text holds no character the text did not |
| DeploymentContext.OrchestratorTypeName | src/main/java/com/microsoft/jenkins/acs/ACSDeploymentContext.java:394-406 | succeeds exactly when the value is not blank, splits at `|` into exactly two pieces once trailing empty pieces are dropped, and the second piece is not empty once trimmed; the result is that trimmed piece, and a value without `|` always fails |
| DeploymentContext.ConfiguredOrchestrator | src/main/java/com/microsoft/jenkins/acs/ACSDeploymentContext.java:208-215 | fails exactly when the type text cannot be read, and an orchestrator found is the one whose name equals the type text ignoring case |
| DeploymentContext.SelectorRoundTrip | src/main/java/com/microsoft/jenkins/acs/ACSDeploymentContext.java:386-406 | a `name | type` selector value reads back as the trimmed name and the trimmed type when neither holds `|` and the type is not blank |
| DeploymentContext.SelectorPieces | src/main/java/com/microsoft/jenkins/acs/ACSDeploymentContext.java:386-406 | both `split` forms cut a selector value into the name with its space and the type with its space |
| DeploymentContext.OrchestratorNamesTrimmed | src/main/java/com/microsoft/jenkins/acs/ACSDeploymentContext.java:620-624 | every orchestrator name is non-empty, already trimmed and free of `|` |
| DeploymentContext.ContainerServiceItems | src/main/java/com/microsoft/jenkins/acs/ACSDeploymentContext.java:619-637 | every supported container service is offered as `name | type` and every AKS cluster as `name | AKS`, with no more items than services and clusters together |
| DeploymentContext.SupportedItems | src/main/java/com/microsoft/jenkins/acs/ACSDeploymentContext.java:619-626 | every item is the selector value of a supported service, and every supported service has one |
| DeploymentContext.ListedServiceReadsBack | src/main/java/com/microsoft/jenkins/acs/ACSDeploymentContext.java:386-406 | an item offered for a service whose name holds no `|` reads back as the trimmed name and that service's orchestrator |
| DeploymentContext.NewStep | src/main/java/com/microsoft/jenkins/acs/ACSDeploymentContext.java:100-112 | the resource group, the container service and the file patterns are stored trimmed, and the credentials ids as given |
| DeploymentContext.SetSecretNamespace | src/main/java/com/microsoft/jenkins/acs/ACSDeploymentContext.java:252-259 | the default namespace is stored as `null`, anything else trimmed, and no other field changes |
| DeploymentContext.SecretNamespace | src/main/java/com/microsoft/jenkins/acs/ACSDeploymentContext.java:244-250 | the getter never returns a blank namespace: the default when the stored one is blank, the stored one otherwise |
| DeploymentContext.SecretNamespaceSetGet | src/main/java/com/microsoft/jenkins/acs/ACSDeploymentContext.java:244-259 | reading after setting gives the trimmed value, or the default when that is blank |
| DeploymentContext.SecretNamespaceStable | src/main/java/com/microsoft/jenkins/acs/ACSDeploymentContext.java:244-259 | saving the namespace the page shows keeps the namespace the page shows |
| DeploymentContext.ShownIsTrimmed | src/main/java/com/microsoft/jenkins/acs/ACSDeploymentContext.java:244-259 | the namespace the getter shows is already trimmed |
| DeploymentContext.TrimmedNamespaceKept | src/main/java/com/microsoft/jenkins/acs/ACSDeploymentContext.java:244-259 | a trimmed, non-blank namespace reads back unchanged |
| DeploymentContext.HttpHasSchemePrefix | src/main/java/com/microsoft/jenkins/acs/ACSDeploymentContext.java:331-335 | any text after `http://` has a scheme prefix, so the added prefix is never added twice |
| DeploymentContext.NormalizeUrl | src/main/java/com/microsoft/jenkins/acs/ACSDeploymentContext.java:328-336 | a blank URL is stored as `null`; any other URL is stored trimmed, kept when it starts with a scheme and `://`, and otherwise prefixed with `http://` |
| DeploymentContext.NormalizeEndpoint | src/main/java/com/microsoft/jenkins/acs/ACSDeploymentContext.java:321-338 | an endpoint is dropped exactly when its credentials id is blank; a kept endpoint is in stored form with the normalised URL, and one already stored is kept as it is |
| DeploymentContext.Kept | src/main/java/com/microsoft/jenkins/acs/ACSDeploymentContext.java:321-338 | each endpoint gives at most one stored endpoint, exactly one when it has a credentials id |
| DeploymentContext.NormalizeEndpointsAppend | src/main/java/com/microsoft/jenkins/acs/ACSDeploymentContext.java:319-341 | normalising a list is normalising its parts in order: each endpoint is handled on its own |
| DeploymentContext.NormalizedAreStored | src/main/java/com/microsoft/jenkins/acs/ACSDeploymentContext.java:319-341 | every endpoint kept is in stored form, and none is dropped exactly when all have a credentials id |
| DeploymentContext.NormalizedStored | src/main/java/com/microsoft/jenkins/acs/ACSDeploymentContext.java:319-341 | every endpoint kept is in stored form |
| DeploymentContext.NormalizedCount | src/main/java/com/microsoft/jenkins/acs/ACSDeploymentContext.java:319-341 | the list never grows, and keeps its length exactly when every endpoint has a credentials id |
| DeploymentContext.StoredEndpointsUnchanged | src/main/java/com/microsoft/jenkins/acs/ACSDeploymentContext.java:319-341 | a list of stored endpoints is stored as it is |
| DeploymentContext.NormalizeEndpointsIdempotent | src/main/java/com/microsoft/jenkins/acs/ACSDeploymentContext.java:319-341 | storing the stored list again changes nothing |
| DeploymentContext.Validate | src/main/java/com/microsoft/jenkins/acs/ACSDeploymentContext.java:440-481 | no message exactly for a deployable configuration; each message names the first failing check: credentials, resource group, container service, type, SSH credentials (never for AKS) and an unsupported type |
| DeploymentContext.AksIgnoresSsh | src/main/java/com/microsoft/jenkins/acs/ACSDeploymentContext.java:460-464 | for an AKS selector value the outcome does not depend on the SSH credentials |
| DeploymentContext.AksTypeIgnoresSsh | src/main/java/com/microsoft/jenkins/acs/ACSDeploymentContext.java:460-464 | when the type text is `AKS` the outcome does not depend on the SSH credentials |
| DeploymentContext.CheckConfigFilePaths | src/main/java/com/microsoft/jenkins/acs/ACSDeploymentContext.java:651-657 | an error exactly for a missing or empty value, and OK otherwise |
| DeploymentContext.NamePatternIff | src/main/java/com/microsoft/jenkins/acs/ACSDeploymentContext.java:688-696 | the DNS-label reading of the Kubernetes name pattern and the character-by-character reading agree |
| DeploymentContext.CheckSecretName | src/main/java/com/microsoft/jenkins/acs/ACSDeploymentContext.java:664-697 | only a non-empty name for a Kubernetes service is checked; too long when the name without its variables has more than 253 UTF-16 units, else not matching once the variables are replaced by `a`, else OK; never a warning |
| DeploymentContext.AstralSecretNameTooLong | src/main/java/com/microsoft/jenkins/acs/ACSDeploymentContext.java:682-685 | 127 characters outside the Basic Multilingual Plane are too long for a Kubernetes name, though fewer than 253 characters |
| JavaStrings.Utf16Length | src/main/java/com/microsoft/jenkins/acs/ACSDeploymentContext.java:683 | `String.length()` lies between the number of characters and twice that |
| JavaStrings.Utf16LengthIsCountIff | src/main/java/com/microsoft/jenkins/acs/ACSDeploymentContext.java:683 | `length()` is the number of characters exactly when every character is in the Basic Multilingual Plane |
| JavaStrings.Utf16LengthOfAstral | src/main/java/com/microsoft/jenkins/acs/ACSDeploymentContext.java:683 | characters outside the Basic Multilingual Plane count twice |
| DeploymentContext.ValidSecretNameAccepted | src/main/java/com/microsoft/jenkins/acs/ACSDeploymentContext.java:664-697 | a valid Kubernetes name within the length limit is accepted |
| DeploymentContext.CheckDcosDockerCredentialsPath | src/main/java/com/microsoft/jenkins/acs/ACSDeploymentContext.java:699-734 | a service that is not DC/OS is always OK; for DC/OS an error exactly when the trimmed path is non-empty and starts with neither `/` nor `$`; a path that is only variables is OK; a warning exactly when Marathon would refuse the path stripped of its variables, and an exception exactly when quoting that stripped path throws |
| DeploymentContext.AuthorityLikePathRaises | src/main/java/com/microsoft/jenkins/acs/ACSDeploymentContext.java:699-734 | for a DC/OS service the path `//a_b` makes the check throw instead of answering |
| DeploymentContext.RaisingPathRaises | src/main/java/com/microsoft/jenkins/acs/ACSDeploymentContext.java:699-734 | an absolute path without variables on which the Marathon check throws makes the form check throw too |
| DeploymentContext.AbsolutePathNeverError | src/main/java/com/microsoft/jenkins/acs/ACSDeploymentContext.java:718-731 | a path starting with `/` is never an error, at most a warning |
| SwarmConfig.DigitRun | src/main/java/com/microsoft/jenkins/acs/orchestrators/SwarmDeploymentConfig.java:87-89 | the digits a `[\\d]*` group takes greedily: all digits, and the next character is not one |
| SwarmConfig.MatchRange | src/main/java/com/microsoft/jenkins/acs/orchestrators/SwarmDeploymentConfig.java:87 | the external range `ext(-extEnd)?` read back into its groups, which rebuild the text |
| SwarmConfig.MatchProto | src/main/java/com/microsoft/jenkins/acs/orchestrators/SwarmDeploymentConfig.java:90 | the protocol group is absent or exactly `/udp` or `/tcp`, and nothing else may follow |
| SwarmConfig.MatchInterEndAndProto | src/main/java/com/microsoft/jenkins/acs/orchestrators/SwarmDeploymentConfig.java:89-90 | the optional internal range end and the protocol read back into groups that rebuild the text |
| SwarmConfig.MatchInternal | src/main/java/com/microsoft/jenkins/acs/orchestrators/SwarmDeploymentConfig.java:89-90 | the internal part reads back into a number, an optional range end and a protocol that rebuild the text |
| SwarmConfig.MatchExternal | src/main/java/com/microsoft/jenkins/acs/orchestrators/SwarmDeploymentConfig.java:86-87 | the external part reads back into an optional host address, a possibly empty start and an optional end that rebuild the text |
| SwarmConfig.MatchPortSpec | src/main/java/com/microsoft/jenkins/acs/orchestrators/SwarmDeploymentConfig.java:83-92 | a match yields well-formed groups that render back to the whole text |
| SwarmConfig.MatchRangeOf | src/main/java/com/microsoft/jenkins/acs/orchestrators/SwarmDeploymentConfig.java:87 | any well-formed external range is matched with its own groups |
| SwarmConfig.MatchProtoOf | src/main/java/com/microsoft/jenkins/acs/orchestrators/SwarmDeploymentConfig.java:90 | either protocol, or none, is matched as itself |
| SwarmConfig.InterEndOf | src/main/java/com/microsoft/jenkins/acs/orchestrators/SwarmDeploymentConfig.java:89-90 | a range end followed by a protocol is matched as those groups |
| SwarmConfig.MatchInterEndAndProtoOf | src/main/java/com/microsoft/jenkins/acs/orchestrators/SwarmDeploymentConfig.java:89-90 | any range end and protocol, each optional, are matched as themselves |
| SwarmConfig.MatchInternalOf | src/main/java/com/microsoft/jenkins/acs/orchestrators/SwarmDeploymentConfig.java:89-90 | any well-formed internal part is matched with its own groups |
| SwarmConfig.MatchExternalOf | src/main/java/com/microsoft/jenkins/acs/orchestrators/SwarmDeploymentConfig.java:86-87 | any well-formed external part is matched with its own groups, the host included |
| SwarmConfig.RenderMatches | src/main/java/com/microsoft/jenkins/acs/orchestrators/SwarmDeploymentConfig.java:83-92 | rendering well-formed groups and matching the text gives the same groups back |
| SwarmConfig.MatchesIffRendered | src/main/java/com/microsoft/jenkins/acs/orchestrators/SwarmDeploymentConfig.java:83-92 | a text matches the pattern exactly when it is the rendering of some well-formed groups |
| SwarmConfig.ValueOf | src/main/java/com/microsoft/jenkins/acs/orchestrators/SwarmDeploymentConfig.java:114-124 | `Integer.valueOf` on digits succeeds exactly when the value fits in an `int`, and gives that value; empty text throws |
| SwarmConfig.PortRange | src/main/java/com/microsoft/jenkins/acs/orchestrators/SwarmDeploymentConfig.java:148-151 | one port per external port from the start to the end, each mapped to the internal port at the same offset |
| SwarmConfig.ProtocolOf | src/main/java/com/microsoft/jenkins/acs/orchestrators/SwarmDeploymentConfig.java:139-142 | UDP exactly for the `/udp` group; TCP otherwise, no group included |
| SwarmConfig.PortsOfGroups | src/main/java/com/microsoft/jenkins/acs/orchestrators/SwarmDeploymentConfig.java:108-153 | matched groups never fail the syntax check; the ports are consecutive pairs of valid, non-negative ports that share the group's protocol |
| SwarmConfig.ParseShortSyntax | src/main/java/com/microsoft/jenkins/acs/orchestrators/SwarmDeploymentConfig.java:102-106 | the syntax error is reported exactly for text the pattern does not match |
| SwarmConfig.ShortSyntaxShape | src/main/java/com/microsoft/jenkins/acs/orchestrators/SwarmDeploymentConfig.java:102-153 | parsed ports are consecutive, and UDP exactly when the text ends in `/udp` |
| SwarmConfig.NumberReads | src/main/java/com/microsoft/jenkins/acs/orchestrators/SwarmDeploymentConfig.java:114 | the decimal text of any `int` value reads back as that value |
| SwarmConfig.ParseRendered | src/main/java/com/microsoft/jenkins/acs/orchestrators/SwarmDeploymentConfig.java:102-153 | parsing the rendering of well-formed groups is computing the ports of those groups |
| SwarmConfig.SinglePortSpec | src/main/java/com/microsoft/jenkins/acs/orchestrators/SwarmDeploymentConfig.java:114-137 | `"n"` publishes port n on port n over TCP |
| SwarmConfig.SingleTextPorts | src/main/java/com/microsoft/jenkins/acs/orchestrators/SwarmDeploymentConfig.java:114-137 | a lone number, with leading zeros or not, publishes its value on itself over TCP |
| SwarmConfig.MappedPortSpec | src/main/java/com/microsoft/jenkins/acs/orchestrators/SwarmDeploymentConfig.java:121-137 | `"a:b"` publishes port a on container port b over TCP |
| SwarmConfig.MappedTextPorts | src/main/java/com/microsoft/jenkins/acs/orchestrators/SwarmDeploymentConfig.java:121-137 | a mapping of two numbers publishes the first on the second over TCP |
| SwarmConfig.RangeSpec | src/main/java/com/microsoft/jenkins/acs/orchestrators/SwarmDeploymentConfig.java:126-151 | `"a-b:c-d"` publishes a to b on c to d when the two ranges have the same length, and is rejected otherwise |
| SwarmConfig.ExternalStartWithInternalRange | src/main/java/com/microsoft/jenkins/acs/orchestrators/SwarmDeploymentConfig.java:126-145 | `"e:a-b"` takes its external end from the internal end, so it succeeds only when e is a |
| SwarmConfig.UppercaseProtocolRejected | src/main/java/com/microsoft/jenkins/acs/orchestrators/SwarmDeploymentConfig.java:90 | `"n/UDP"` does not match the pattern, although the code compares the protocol ignoring case |
| SwarmConfig.EmptyExternalStart | src/main/java/com/microsoft/jenkins/acs/orchestrators/SwarmDeploymentConfig.java:87-124 | `":n"` matches with an empty external start, which `Integer.valueOf` rejects |
| SwarmConfig.EmptyExternalText | src/main/java/com/microsoft/jenkins/acs/orchestrators/SwarmDeploymentConfig.java:87-124 | any `":x"` with a number x fails when reading the empty external start |
| SwarmConfig.PortLoopNeverEndsAtIntMax | src/main/java/com/microsoft/jenkins/acs/orchestrators/SwarmDeploymentConfig.java:149-151 | with the end at `Integer.MAX_VALUE` the `int` loop counter wraps and the loop runs out of any fuel |
| SwarmConfig.LargestPortNeverFinishes | src/main/java/com/microsoft/jenkins/acs/orchestrators/SwarmDeploymentConfig.java:149-151 | `"2147483647"` passes every check, yet the loop for it never ends |
| SwarmConfig.PortLoopIsRange | src/main/java/com/microsoft/jenkins/acs/orchestrators/SwarmDeploymentConfig.java:148-151 | below `Integer.MAX_VALUE` the loop as written gives the port range |
| SwarmConfig.ParseLongSyntax | src/main/java/com/microsoft/jenkins/acs/orchestrators/SwarmDeploymentConfig.java:163-184 | a missing or non-`int` target fails first, then a missing published port; otherwise one port, published on target, UDP exactly for `udp` in any case |
| SwarmConfig.LongSyntaxReadsBack | src/main/java/com/microsoft/jenkins/acs/orchestrators/SwarmDeploymentConfig.java:163-184 | a port written in long syntax reads back as itself |
| SwarmConfig.ServicesOf | src/main/java/com/microsoft/jenkins/acs/orchestrators/SwarmDeploymentConfig.java:39-53 | a file without `version` is its own services; a versioned file without `services` fails |
| SwarmConfig.PortsOfPortNode | src/main/java/com/microsoft/jenkins/acs/orchestrators/SwarmDeploymentConfig.java:62-71 | a text entry is short syntax, and an entry that is neither text nor a mapping fails |
| SwarmConfig.PortsOfService | src/main/java/com/microsoft/jenkins/acs/orchestrators/SwarmDeploymentConfig.java:55-60 | a service whose `ports` is not a list has no ports |
| SwarmConfig.ServicePortsInFileOrder | src/main/java/com/microsoft/jenkins/acs/orchestrators/SwarmDeploymentConfig.java:30-77 | the ports of two lists of files are the ports of each, in order, and any failure fails the whole |
| SwarmConfig.ServicePortsInServiceOrder | src/main/java/com/microsoft/jenkins/acs/orchestrators/SwarmDeploymentConfig.java:55-73 | every port of a service of a file is among the file's ports |
| SwarmConfig.NumericPortEntryRejected | src/main/java/com/microsoft/jenkins/acs/orchestrators/SwarmDeploymentConfig.java:67-70 | a bare number in `ports` is an invalid port definition |
| MarathonConfig.Descend | src/main/java/com/microsoft/jenkins/acs/orchestrators/MarathonDeploymentConfig.java:42-52 | a failed walk names one of the keys it was given |
| MarathonConfig.PortMappingsOf | src/main/java/com/microsoft/jenkins/acs/orchestrators/MarathonDeploymentConfig.java:42-52 | found exactly when `container`, `docker` and `portMappings` are there one inside the other, and then it is that node; a missing `container` is named |
| MarathonConfig.PortOfMapping | src/main/java/com/microsoft/jenkins/acs/orchestrators/MarathonDeploymentConfig.java:54-80 | a missing `containerPort` fails first, then a missing `hostPort`; otherwise one port read with Jackson `asInt` (numbers narrowed, text read leniently, including through `Double.parseDouble`), UDP exactly when `protocol` is `udp` in any case |
| MarathonConfig.FractionalTextPortTruncated | src/main/java/com/microsoft/jenkins/acs/orchestrators/MarathonDeploymentConfig.java:64 | a `containerPort` written as the text `80.5` is read as port 80, not rejected and not 0 |
| Documents.TextAsInt | src/main/java/com/microsoft/jenkins/acs/orchestrators/MarathonDeploymentConfig.java:64 | text reads as an `int`; all-digit text within range reads as its decimal value |
| Documents.PlusMinusTextAsInt | src/main/java/com/microsoft/jenkins/acs/orchestrators/MarathonDeploymentConfig.java:64 | a `-` after the removed `+` is read by `Double.parseDouble`: `+-` and digits read as the negated value down to `Integer.MIN_VALUE`, and saturate there |
| Documents.PlusMinusGoesToDouble | src/main/java/com/microsoft/jenkins/acs/orchestrators/MarathonDeploymentConfig.java:64 | after a removed `+`, a `-` is not skipped, so `+-` text is read by `Double.parseDouble` and the cast |
| Documents.PlusMinusReadsNegated | src/main/java/com/microsoft/jenkins/acs/orchestrators/MarathonDeploymentConfig.java:64 | `+-` before plain decimal text reads as the cast of the negated number, as `-` alone does |
| Documents.DecimalTextAsInt | src/main/java/com/microsoft/jenkins/acs/orchestrators/MarathonDeploymentConfig.java:64 | plain decimal text that is not all digits is read by `Double.parseDouble` and then cast to `int` |
| Documents.FractionTextTruncated | src/main/java/com/microsoft/jenkins/acs/orchestrators/MarathonDeploymentConfig.java:64 | digits, `.` and digits read as the whole part |
| Documents.ExponentTextScaled | src/main/java/com/microsoft/jenkins/acs/orchestrators/MarathonDeploymentConfig.java:64 | digits, `e` and digits read as the digits times that power of ten, capped at the `int` maximum |
| Documents.NegatedTextAsInt | src/main/java/com/microsoft/jenkins/acs/orchestrators/MarathonDeploymentConfig.java:64 | a `-` before plain decimal text reads as the cast of the negated number |
| Documents.NegativeFractionTextTruncated | src/main/java/com/microsoft/jenkins/acs/orchestrators/MarathonDeploymentConfig.java:64 | the cast truncates toward zero: `-w.f` reads as `-w` |
| Documents.SpecialTextValues | src/main/java/com/microsoft/jenkins/acs/orchestrators/MarathonDeploymentConfig.java:64 | `NaN` reads as 0, `Infinity` as the `int` maximum and `-Infinity` as the minimum |
| Documents.AsInt | src/main/java/com/microsoft/jenkins/acs/orchestrators/MarathonDeploymentConfig.java:64 | every node reads as an `int`; an `int` number keeps its value; `null`, arrays and objects read as 0 |
| JavaDoubles.ParseDouble | src/main/java/com/microsoft/jenkins/acs/orchestrators/MarathonDeploymentConfig.java:64 | blank text is not a number; trimmed all-digit text is exactly its decimal value |
| JavaDoubles.DoubleToInt | src/main/java/com/microsoft/jenkins/acs/orchestrators/MarathonDeploymentConfig.java:64 | the `(int)` cast truncates toward zero within range and saturates at the `int` bounds |
| JavaDoubles.CastToInt | src/main/java/com/microsoft/jenkins/acs/orchestrators/MarathonDeploymentConfig.java:64 | `NaN` casts to 0, the infinities to the `int` bounds, finite values as `DoubleToInt` |
| JavaDoubles.PlainDecimalText | src/main/java/com/microsoft/jenkins/acs/orchestrators/MarathonDeploymentConfig.java:64 | text starting with a digit, not `0x` and with no type suffix or trailing space is read as an unsigned decimal |
| JavaDoubles.DecimalFraction | src/main/java/com/microsoft/jenkins/acs/orchestrators/MarathonDeploymentConfig.java:64 | `w.f` is read as a value between `w` and `w + 1` |
| JavaDoubles.DecimalExponent | src/main/java/com/microsoft/jenkins/acs/orchestrators/MarathonDeploymentConfig.java:64 | `wEe` is read as `w` times ten to the `e` |
| MarathonConfig.MappingsOf | src/main/java/com/microsoft/jenkins/acs/orchestrators/MarathonDeploymentConfig.java:54-81 | one mapping per port |
| MarathonConfig.MappingReadsBack | src/main/java/com/microsoft/jenkins/acs/orchestrators/MarathonDeploymentConfig.java:54-80 | a mapping written from a port reads back as that port |
| MarathonConfig.AppMappingsFound | src/main/java/com/microsoft/jenkins/acs/orchestrators/MarathonDeploymentConfig.java:42-52 | the walk finds the mappings of an application file written from ports |
| MarathonConfig.AppReadsBack | src/main/java/com/microsoft/jenkins/acs/orchestrators/MarathonDeploymentConfig.java:27-86 | an application file written from a list of ports publishes exactly that list, in order |
| MarathonConfig.NullMappingsPublishNothing | src/main/java/com/microsoft/jenkins/acs/orchestrators/MarathonDeploymentConfig.java:54-55 | a `null` `portMappings` is found but has no elements, so nothing is published |
| MarathonConfig.MissingContainerRejected | src/main/java/com/microsoft/jenkins/acs/orchestrators/MarathonDeploymentConfig.java:44-51 | a file without `container` fails naming that node |
| MarathonConfig.ServicePortsInFileOrder | src/main/java/com/microsoft/jenkins/acs/orchestrators/MarathonDeploymentConfig.java:27-86 | the ports of two lists of files are the ports of each, in order, and any failure fails the whole |
| EnablePort.ParseDestination | src/main/java/com/microsoft/jenkins/acs/commands/EnablePortCommand.java:125-165 | `*` opens every port; text with a `-` is cut at the first one and is a range exactly when both bounds parse, else an invalid range; other text is one port exactly when it parses, else a number format error |
| EnablePort.Remove | src/main/java/com/microsoft/jenkins/acs/commands/EnablePortCommand.java:148-164 | a port stays exactly when it was requested and the destination does not cover it, and distinct ports stay distinct |
| EnablePort.RuleDestination | src/main/java/com/microsoft/jenkins/acs/commands/EnablePortCommand.java:125-165 | a rule without a single destination range throws `NullPointerException`; any other range is read as `ParseDestination` reads it, and it opens every port exactly when it is `*` |
| EnablePort.Scan | src/main/java/com/microsoft/jenkins/acs/commands/EnablePortCommand.java:100-169 | the ports left were all requested, stay distinct, and the highest priority seen is at least the starting one |
| EnablePort.NullRangeRaises | src/main/java/com/microsoft/jenkins/acs/commands/EnablePortCommand.java:124-126 | an inbound allow rule without a single destination range makes the scan throw `NullPointerException` when it is reached |
| EnablePort.NullRangeIneffectiveSkipped | src/main/java/com/microsoft/jenkins/acs/commands/EnablePortCommand.java:107-123 | an outbound or deny rule without a single destination range is skipped, its priority still counted |
| EnablePort.ScannedEnd | src/main/java/com/microsoft/jenkins/acs/commands/EnablePortCommand.java:105-134 | the scan stops right after the first inbound allow rule for `*`, or at the end of the rules |
| EnablePort.ScanSpec | src/main/java/com/microsoft/jenkins/acs/commands/EnablePortCommand.java:100-169 | the scan succeeds exactly when no rule it reaches has an unreadable range; a port is left exactly when no rule reached opens it; the priority returned is the largest among the rules reached, outbound and deny rules included |
| EnablePort.ScanSucceedsIff | src/main/java/com/microsoft/jenkins/acs/commands/EnablePortCommand.java:125-165 | the scan fails exactly when an effective rule it reaches has a range it cannot read |
| EnablePort.ScanKeepsClosed | src/main/java/com/microsoft/jenkins/acs/commands/EnablePortCommand.java:125-165 | a port is left exactly when it was requested and no rule reached lets it in |
| EnablePort.ScanPriority | src/main/java/com/microsoft/jenkins/acs/commands/EnablePortCommand.java:104-109 | every rule reached ranks at or below the priority returned, which is the start or one of theirs |
| EnablePort.FilterKeepsRequested | src/main/java/com/microsoft/jenkins/acs/commands/EnablePortCommand.java:100-169 | only requested ports are left to open |
| EnablePort.IneffectiveRulesOpenNothing | src/main/java/com/microsoft/jenkins/acs/commands/EnablePortCommand.java:111-123 | outbound and deny rules open nothing, yet their priorities still count |
| EnablePort.IneffectiveScan | src/main/java/com/microsoft/jenkins/acs/commands/EnablePortCommand.java:111-123 | a scan over outbound and deny rules alone leaves every port and reaches the end |
| EnablePort.OpenAllStopsScan | src/main/java/com/microsoft/jenkins/acs/commands/EnablePortCommand.java:126-134 | rules after an inbound allow rule for `*` are never looked at |
| EnablePort.OpenAllEmptiesPorts | src/main/java/com/microsoft/jenkins/acs/commands/EnablePortCommand.java:126-134 | an inbound allow rule for `*` leaves nothing to open and hides every rule after it |
| EnablePort.OpenAllLastEmpties | src/main/java/com/microsoft/jenkins/acs/commands/EnablePortCommand.java:126-134 | a scan that ends on a rule for every port leaves nothing to open |
| EnablePort.NoRulesOpenNothing | src/main/java/com/microsoft/jenkins/acs/commands/EnablePortCommand.java:104-168 | without rules every port stays and the priority is `Integer.MIN_VALUE` |
| EnablePort.HostPorts | src/main/java/com/microsoft/jenkins/acs/commands/EnablePortCommand.java:182-185 | the set of ports to open is the host ports of the service ports, each once |
| EnablePort.PublicAgentGroup | src/main/java/com/microsoft/jenkins/acs/commands/EnablePortCommand.java:190-197 | the first group whose name starts with `<prefix>-agent-public-nsg-`, or none when no group does |
| EnablePort.AllowRules | src/main/java/com/microsoft/jenkins/acs/commands/EnablePortCommand.java:209-230 | one `Allow_<port>` rule per port left, or the priority limit error |
| EnablePort.AllowRulesFit | src/main/java/com/microsoft/jenkins/acs/commands/EnablePortCommand.java:209-230 | the rules fit exactly when the last one stays within the lowest priority; rule k is `Allow_<port>` for the k-th port at one more step above the highest priority |
| EnablePort.CreateSecurityRules | src/main/java/com/microsoft/jenkins/acs/commands/EnablePortCommand.java:171-233 | no service ports or no public agent group change nothing; an update always goes to that group |
| EnablePort.SecurityRulesOpenClosedPorts | src/main/java/com/microsoft/jenkins/acs/commands/EnablePortCommand.java:171-233 | the added rules open exactly the requested ports still closed, one rule each, at distinct ascending priorities above every scanned rule and within the lowest priority |
| EnablePort.ScannedPriorityAllowed | src/main/java/com/microsoft/jenkins/acs/commands/EnablePortCommand.java:104-109 | with allowed priorities in the group, the highest one seen is an allowed priority too |
| EnablePort.AllowRulesOpenClosed | src/main/java/com/microsoft/jenkins/acs/commands/EnablePortCommand.java:205-230 | the rules created are for exactly the ports the scan left, each once |
| EnablePort.AllowRulesRankAbove | src/main/java/com/microsoft/jenkins/acs/commands/EnablePortCommand.java:205-230 | the rules created rank above every scanned rule, in ascending order |
| EnablePort.AgentBalancer | src/main/java/com/microsoft/jenkins/acs/commands/EnablePortCommand.java:246-265 | the first balancer named `<prefix>-agent-lb-`, which must have one frontend and one backend, else the mismatch error; none when no balancer has the name |
| EnablePort.RuleFor | src/main/java/com/microsoft/jenkins/acs/commands/EnablePortCommand.java:271-305 | a port the balancer serves gets nothing; any other gets a rule on its host port at both ends, probed on that port, with its transport and a 5 minute idle timeout |
| EnablePort.CreateLoadBalancerRules | src/main/java/com/microsoft/jenkins/acs/commands/EnablePortCommand.java:235-265 | no service ports change nothing; otherwise it fails exactly when the agent balancer does not match |
| EnablePort.BalancerRulesForUnservedPorts | src/main/java/com/microsoft/jenkins/acs/commands/EnablePortCommand.java:266-308 | the rules added are exactly those for the service ports the balancer does not serve, each with the same port at front, back and probe |
| EnablePort.MismatchedBalancerRejected | src/main/java/com/microsoft/jenkins/acs/commands/EnablePortCommand.java:251-254 | an agent balancer without exactly one frontend and one backend fails the command |
| MarathonCommand.TextValue | src/main/java/com/microsoft/jenkins/acs/commands/MarathonDeploymentCommand.java:268-269 | Jackson's `textValue` gives text exactly for a text node, and `null` for any other |
| MarathonCommand.AgentOf | src/main/java/com/microsoft/jenkins/acs/commands/MarathonDeploymentCommand.java:267-271 | a node without `role` or `host_ip` throws; a master gives nothing; any other node gives its host as text, or `null` when that is not text |
| MarathonCommand.AgentNodes | src/main/java/com/microsoft/jenkins/acs/commands/MarathonDeploymentCommand.java:262-265 | no `nodes` array, no agents |
| MarathonCommand.AgentsOfSucceedsIff | src/main/java/com/microsoft/jenkins/acs/commands/MarathonDeploymentCommand.java:267-271 | the list is read exactly when every node has `role` and `host_ip`, and otherwise it throws |
| MarathonCommand.AgentsInNodeOrder | src/main/java/com/microsoft/jenkins/acs/commands/MarathonDeploymentCommand.java:261-273 | agents are listed in node order |
| MarathonCommand.AgentsAreTheNonMasters | src/main/java/com/microsoft/jenkins/acs/commands/MarathonDeploymentCommand.java:267-271 | a host is listed exactly when some node that is not a master has it as its `host_ip` |
| MarathonCommand.ListedComesFromNode | src/main/java/com/microsoft/jenkins/acs/commands/MarathonDeploymentCommand.java:267-271 | every listed host is the `host_ip` of a node that is not a master |
| MarathonCommand.NodeIsListed | src/main/java/com/microsoft/jenkins/acs/commands/MarathonDeploymentCommand.java:267-271 | the host of every node that is not a master is listed |
| MarathonCommand.HealthNodeReads | src/main/java/com/microsoft/jenkins/acs/commands/MarathonDeploymentCommand.java:244-271 | a health report node is dropped exactly when its role is `master` |
| MarathonCommand.MasterDroppedAgentsKept | src/main/java/com/microsoft/jenkins/acs/commands/MarathonDeploymentCommand.java:244-253 | agent, public agent, master, agent: the three agents are listed, in order |
| MarathonCommand.RequireAgents | src/main/java/com/microsoft/jenkins/acs/commands/MarathonDeploymentCommand.java:229-240 | the agents are returned exactly when there is at least one, and no agent is an error |
| MarathonCommand.DropSlashes | src/main/java/com/microsoft/jenkins/acs/commands/MarathonDeploymentCommand.java:288 | removes the trailing run of `/` and nothing else |
| MarathonCommand.StripTrailingSlashes | src/main/java/com/microsoft/jenkins/acs/commands/MarathonDeploymentCommand.java:288 | `/+$` removes the trailing slashes; the result never ends with `/` |
| MarathonCommand.PrepareCredentialsPath | src/main/java/com/microsoft/jenkins/acs/commands/MarathonDeploymentCommand.java:277-295 | a non-blank path must start with `/` and else fails naming it; a blank one gives `/home/<user>/acs-plugin-dcos.docker/<dir>`; a path given is returned without trailing slashes, or as `/` |
| MarathonCommand.PreparedPathIsTrimmedPrefix | src/main/java/com/microsoft/jenkins/acs/commands/MarathonDeploymentCommand.java:282-292 | the path returned starts with `/`; it is `/` exactly when the trimmed path was all slashes, and otherwise it is that path less its trailing slashes |
| MarathonCommand.AllSlashesGiveRoot | src/main/java/com/microsoft/jenkins/acs/commands/MarathonDeploymentCommand.java:288-291 | `///` becomes `/` |
| MarathonCommand.PaddedPathTrimmedAndStripped | src/main/java/com/microsoft/jenkins/acs/commands/MarathonDeploymentCommand.java:282-292 | `" /opt/creds// "` becomes `/opt/creds` |
| MarathonCommand.PrepareIdempotent | src/main/java/com/microsoft/jenkins/acs/commands/MarathonDeploymentCommand.java:277-295 | a prepared path that does not end in a blank prepares to itself, whatever the user and directory |
| MarathonCommand.SpaceBeforeSlashKept | src/main/java/com/microsoft/jenkins/acs/commands/MarathonDeploymentCommand.java:282-292 | `"/a /"` becomes `"/a "`: trimming happens before the slashes are stripped |
| MarathonCommand.SpaceBeforeSlashTrimmedAgain | src/main/java/com/microsoft/jenkins/acs/commands/MarathonDeploymentCommand.java:282-292 | preparing `"/a "` again gives `"/a"`, so preparing is not idempotent in general |
| MarathonCommand.ReplaceUnsafe | src/main/java/com/microsoft/jenkins/acs/commands/MarathonDeploymentCommand.java:304 | each character outside `[0-9a-zA-Z]` becomes `-`, and no other changes |
| MarathonCommand.NameForBuild | src/main/java/com/microsoft/jenkins/acs/commands/MarathonDeploymentCommand.java:298-305 | `acs-plugin-dcos-` and then the run name, each character lowered or replaced by `-` |
| MarathonCommand.RunName | src/main/java/com/microsoft/jenkins/acs/commands/MarathonDeploymentCommand.java:299-303 | the trimmed job and run name, or the UUID when that is blank |
| MarathonCommand.SanitizedCharacters | src/main/java/com/microsoft/jenkins/acs/commands/MarathonDeploymentCommand.java:304 | only lower-case letters, digits and `-` remain |
| MarathonCommand.SanitizedJob | src/main/java/com/microsoft/jenkins/acs/commands/MarathonDeploymentCommand.java:304 | `"Job #1"` and `"job__1"` both become `job--1` |
| MarathonCommand.PlainRunName | src/main/java/com/microsoft/jenkins/acs/commands/MarathonDeploymentCommand.java:299-303 | a name without surrounding blanks is used as it is |
| MarathonCommand.BuildNameCharacters | src/main/java/com/microsoft/jenkins/acs/commands/MarathonDeploymentCommand.java:298-305 | after the prefix the name holds only lower-case letters, digits and `-` |
| MarathonCommand.SanitizeIdempotent | src/main/java/com/microsoft/jenkins/acs/commands/MarathonDeploymentCommand.java:304 | cleaning a cleaned name changes nothing |
| MarathonCommand.NameIgnoresCaseAndPunctuation | src/main/java/com/microsoft/jenkins/acs/commands/MarathonDeploymentCommand.java:298-305 | two runs differing in case and punctuation share a credentials directory |
| MarathonCommand.CopyTargets | src/main/java/com/microsoft/jenkins/acs/commands/MarathonDeploymentCommand.java:193-213 | every agent, or only the first when the path is shared |
| MarathonCommand.StepsForAt | src/main/java/com/microsoft/jenkins/acs/commands/MarathonDeploymentCommand.java:194-207 | for each agent, the directory is made and then the archive is copied to it |
| MarathonCommand.StepsForAll | src/main/java/com/microsoft/jenkins/acs/commands/MarathonDeploymentCommand.java:194-207 | every agent gets the directory and then the copy, in agent order |
| MarathonCommand.AgentSteps | src/main/java/com/microsoft/jenkins/acs/commands/MarathonDeploymentCommand.java:193-213 | the steps on the agents: make the directory then copy, for each target in order |
| MarathonCommand.CopyCredentials | src/main/java/com/microsoft/jenkins/acs/commands/MarathonDeploymentCommand.java:170-227 | no registry credentials copy nothing; a failed path preparation or agent lookup fails with its error; otherwise the copy fails exactly when encoding the archive path throws, and succeeds with the `file://` URI of the encoded path |
| MarathonCommand.Copies | src/main/java/com/microsoft/jenkins/acs/commands/MarathonDeploymentCommand.java:206 | the copies among a list of steps |
| MarathonCommand.CopiesOfStepsFor | src/main/java/com/microsoft/jenkins/acs/commands/MarathonDeploymentCommand.java:194-207 | the archive is copied once to each target, in order |
| MarathonCommand.CopiesAppend | src/main/java/com/microsoft/jenkins/acs/commands/MarathonDeploymentCommand.java:194-213 | the copies of two step lists are the copies of each, in order |
| MarathonCommand.SharedPathCopiesOnce | src/main/java/com/microsoft/jenkins/acs/commands/MarathonDeploymentCommand.java:193-213 | a shared path is copied to the first agent only; otherwise to every agent, in order |
| MarathonCommand.FileSteps | src/main/java/com/microsoft/jenkins/acs/commands/MarathonDeploymentCommand.java:110-143 | each file is copied to the master, then three commands run on the master |
| MarathonCommand.DeleteQuotesTheUrl | src/main/java/com/microsoft/jenkins/acs/commands/MarathonDeploymentCommand.java:123-125 | the delete command passes the app URL as one shell word, whatever the app id holds |
| MarathonCommand.EndpointEscaped | src/main/java/com/microsoft/jenkins/acs/commands/MarathonDeploymentCommand.java:123-125 | escaping the id inside the URL is escaping the URL |
| MarathonCommand.RemoveQuotesTheName | src/main/java/com/microsoft/jenkins/acs/commands/MarathonDeploymentCommand.java:140 | the remove command passes the file name as one shell word |
| MarathonCommand.DeploySteps | src/main/java/com/microsoft/jenkins/acs/commands/MarathonDeploymentCommand.java:110-143 | four steps per file, in file order |
| MarathonCommand.CopyIssued | src/main/java/com/microsoft/jenkins/acs/commands/MarathonDeploymentCommand.java:181-227 | the remote steps issued before the copy ends: none before the path is prepared, then the health query first; on success, exactly the copy's steps |
| MarathonCommand.CopyWithFault | src/main/java/com/microsoft/jenkins/acs/commands/MarathonDeploymentCommand.java:181-227 | a remote step that fails among those issued ends the copy with that step; otherwise the copy's own outcome |
| MarathonCommand.FailingHealthQueryFirst | src/main/java/com/microsoft/jenkins/acs/commands/MarathonDeploymentCommand.java:229-236 | a failing health query ends the copy before the agents are read |
| MarathonCommand.ExtraEnvVars | src/main/java/com/microsoft/jenkins/acs/commands/MarathonDeploymentCommand.java:218-223 | the archive URI under the archive variable's name, and nothing without credentials |
| MarathonCommand.RunTask | src/main/java/com/microsoft/jenkins/acs/commands/MarathonDeploymentCommand.java:57-167 | no configuration files fails with the factory's no-files error before any step; then a failed copy fails with its error, and a failing file step with that step; otherwise it succeeds with the copy's steps and the file steps, carrying the copy's extra variables |
| MarathonCommand.Execute | src/main/java/com/microsoft/jenkins/acs/commands/MarathonDeploymentCommand.java:57-167 | the command succeeds exactly when there are files, the credentials were copied and no file step failed, otherwise the context is in error; each failure logs its one exception through the error prefix and injects nothing; a success logs nothing and injects the copy's extra variables |
| MarathonCommand.CredentialsRunInjectsArchiveUri | src/main/java/com/microsoft/jenkins/acs/commands/MarathonDeploymentCommand.java:149-151 | a run with credentials whose remote steps succeed injects exactly the archive variable, holding the `file://` URI of the encoded archive path |
| MarathonCommand.FailingFileStepInjectsNothing | src/main/java/com/microsoft/jenkins/acs/commands/MarathonDeploymentCommand.java:158-166 | a failing `curl` post is logged as an error and injects nothing |
| SwarmCommand.UserAndPassword | src/main/java/com/microsoft/jenkins/acs/commands/SwarmDeploymentCommand.java:117-124 | the decoded token gives a user and a password exactly when it holds a `:`; the user is the text before the first one and the password everything after |
| SwarmCommand.UserAndPasswordRoundTrip | src/main/java/com/microsoft/jenkins/acs/commands/SwarmDeploymentCommand.java:117-124 | `user:password` splits back into that user and password when the user holds no `:` |
| SwarmCommand.LoginCommandQuotesArguments | src/main/java/com/microsoft/jenkins/acs/commands/SwarmDeploymentCommand.java:127-128 | the user, the password and the server each reach `docker login` as one shell word that reads back as itself |
| SwarmCommand.LoginOf | src/main/java/com/microsoft/jenkins/acs/commands/SwarmDeploymentCommand.java:105-131 | an endpoint without a token logs in nothing; a blank token fails naming the endpoint; a login is `docker login` with the user and password of the decoded token |
| SwarmCommand.Logins | src/main/java/com/microsoft/jenkins/acs/commands/SwarmDeploymentCommand.java:98-133 | when the logins finish, every endpoint was accepted |
| SwarmCommand.EndpointWithoutTokenSkipped | src/main/java/com/microsoft/jenkins/acs/commands/SwarmDeploymentCommand.java:106-110 | an endpoint without credentials changes nothing, wherever it stands |
| SwarmCommand.EmptyTokenStopsAfterEarlierLogins | src/main/java/com/microsoft/jenkins/acs/commands/SwarmDeploymentCommand.java:112-115 | a blank token stops the logins after those before it, with that endpoint's error |
| SwarmCommand.MalformedTokenRejected | src/main/java/com/microsoft/jenkins/acs/commands/SwarmDeploymentCommand.java:117-121 | a decoded token without `:` is rejected before any login |
| SwarmCommand.FileSteps | src/main/java/com/microsoft/jenkins/acs/commands/SwarmDeploymentCommand.java:57-83 | each file is copied, taken `down` only when asked, brought `up -d`, and its copy removed |
| SwarmCommand.DeploySteps | src/main/java/com/microsoft/jenkins/acs/commands/SwarmDeploymentCommand.java:57-83 | three or four steps per file, none without files |
| SwarmCommand.DeployInFileOrder | src/main/java/com/microsoft/jenkins/acs/commands/SwarmDeploymentCommand.java:57-83 | files are deployed one after another, in order |
| SwarmCommand.Planned | src/main/java/com/microsoft/jenkins/acs/commands/SwarmDeploymentCommand.java:54-83 | the logins, then the file steps when every login was accepted, with the logins' error |
| SwarmCommand.WithFault | src/main/java/com/microsoft/jenkins/acs/commands/SwarmDeploymentCommand.java:54-83 | a fault at a step the run reaches ends it there with that step's failure; otherwise the run is unchanged |
| SwarmCommand.Execute | src/main/java/com/microsoft/jenkins/acs/commands/SwarmDeploymentCommand.java:37-96 | no configuration is an error with nothing run; otherwise the connection is opened first and closed last, the run ends at the first failing remote step or failed login, and the deployment succeeds exactly when neither happens; a non-zero exit leaves the context unchanged, and every other failure is logged as an error |
| SwarmCommand.FailingComposeEscapes | src/main/java/com/microsoft/jenkins/acs/commands/SwarmDeploymentCommand.java:78-90 | a `docker-compose up -d` exiting non-zero is not caught: nothing is logged and the state is left as it was |
| SwarmCommand.FailingCopyLogged | src/main/java/com/microsoft/jenkins/acs/commands/SwarmDeploymentCommand.java:62-90 | a failed copy is logged as an error before any command runs |
| SwarmCommand.CopiedFilesAppend | src/main/java/com/microsoft/jenkins/acs/commands/SwarmDeploymentCommand.java:56-85 | the files copied by two runs of steps are those of the first, then those of the second |
| SwarmCommand.FileCopiedOnce | src/main/java/com/microsoft/jenkins/acs/commands/SwarmDeploymentCommand.java:66-80 | deploying one file copies exactly that file |
| SwarmCommand.DeployCopiesEachFile | src/main/java/com/microsoft/jenkins/acs/commands/SwarmDeploymentCommand.java:66-80 | deploying the files copies each of them once, in order |
| SwarmCommand.SuccessfulRunCopiesEachFile | src/main/java/com/microsoft/jenkins/acs/commands/SwarmDeploymentCommand.java:56-85 | with logins and remote steps that succeed, the deployment succeeds and copies exactly the configuration files, in order |
| SwarmCommand.LoginsOnlyExec | src/main/java/com/microsoft/jenkins/acs/commands/SwarmDeploymentCommand.java:98-133 | logging in copies nothing |
| Pipeline.Decide | src/main/java/com/microsoft/jenkins/acs/services/CommandService.java:29-43 | `false` exactly for `HasError`; the loop goes on exactly when `Success` or `UnSuccessful` has its link set to a class in the table, and then to that class's entry |
| Pipeline.Loop | src/main/java/com/microsoft/jenkins/acs/services/CommandService.java:24-46 | the commands run start with the current one and all but the last let the pipeline go on; the answer is `true` exactly when the last state is not an error; the last state recorded is the final state |
| Pipeline.ExecuteCommands | src/main/java/com/microsoft/jenkins/acs/services/CommandService.java:18-50 | an empty table or no start class answers `false` and runs nothing; a start class the table lacks answers `true`; otherwise the first command run is the start entry's, and `false` means it stopped in error |
| Pipeline.MoreFuelSameRun | src/main/java/com/microsoft/jenkins/acs/services/CommandService.java:24-44 | once the loop has answered, letting it run longer changes nothing |
| Pipeline.ErrorStopsAtOnce | src/main/java/com/microsoft/jenkins/acs/services/CommandService.java:41-43 | a command that leaves `HasError` ends the pipeline at once with `false` |
| Pipeline.OwnSuccessorsOverrideEntry | src/main/java/com/microsoft/jenkins/acs/services/CommandService.java:29-40 | a command that names its own successors is followed by those, whatever its entry says |
| Pipeline.ChooseDeployment | src/main/java/com/microsoft/jenkins/acs/commands/DeploymentChoiceCommand.java:24-37 | `Success` exactly for a supported type, which is stored; a missing or unsupported type logs one error and stores nothing new |
| Pipeline.NextCommand | src/main/java/com/microsoft/jenkins/acs/commands/DeploymentChoiceCommand.java:39-52 | Kubernetes, DC/OS and Swarm each go to their own deployment command; no type and any other type throw |
| Pipeline.AcceptedChoiceHasNext | src/main/java/com/microsoft/jenkins/acs/commands/DeploymentChoiceCommand.java:24-52 | after an accepted choice there is always a next command, and it is never the Swarm one |
| Pipeline.Proxy | src/main/java/com/microsoft/jenkins/acs/commands/DeploymentProxyCommand.java:10-25 | DC/OS and Kubernetes are handed over; any other type logs one error and ends `UnSuccessful`, not in error; no type throws |
| Pipeline.ProxyAgreesWithChoice | src/main/java/com/microsoft/jenkins/acs/commands/DeploymentProxyCommand.java:10-25 | the proxy hands over exactly the types the choice accepts, to the command the choice names next |
| Pipeline.ShouldRunOn | src/main/java/com/microsoft/jenkins/acs/commands/RunOn.java:18-31 | no result always goes ahead; `Success` goes ahead only on `SUCCESS`; `SuccessOrUnstable` on `SUCCESS` or `UNSTABLE` |
| Pipeline.SuccessOrUnstableIsWider | src/main/java/com/microsoft/jenkins/acs/commands/RunOn.java:18-31 | `SuccessOrUnstable` lets through all that `Success` does, and `UNSTABLE` besides |
| Pipeline.RunOnFromString | src/main/java/com/microsoft/jenkins/acs/commands/RunOn.java:33-40 | exactly `SuccessOrUnstable` gives that option, any other text gives `Success`, and `null` throws |
| Pipeline.RunOnNameReadsBack | src/main/java/com/microsoft/jenkins/acs/commands/RunOn.java:14-40 | each option's name reads back as that option |
| Pipeline.CheckBuildResult | src/main/java/com/microsoft/jenkins/acs/commands/CheckBuildResultCommand.java:18-30 | one status line, then `Success` exactly when the option lets the result through and `Done` otherwise; never an error |
| Pipeline.GateCombinations | src/main/java/com/microsoft/jenkins/acs/commands/CheckBuildResultCommand.java:18-30 | the gate for each option against `SUCCESS`, `UNSTABLE` and `FAILURE` |
| Pipeline.HeldBackPipelineSucceeds | src/main/java/com/microsoft/jenkins/acs/commands/CheckBuildResultCommand.java:26-29 | a gate that holds the deployment back ends the pipeline after it with `true` |
| Pipeline.AcsInfo | src/main/java/com/microsoft/jenkins/acs/commands/GetContainerServiceInfoCommand.java:93-135 | a missing service, or a configured type that is missing or differs, fails; a match gives the service's FQDN and admin user; the service's type is recorded either way |
| Pipeline.GetContainerServiceInfo | src/main/java/com/microsoft/jenkins/acs/commands/GetContainerServiceInfoCommand.java:35-90 | `AKS` succeeds with no lookup; otherwise `Success` exactly when the lookup found the configured type; the FQDN changes only then; the admin user never |
| Pipeline.GetContainerServiceInfoLegacy | src/main/java/com/microsoft/jenkins/acs/commands/GetContainserServiceInfoCommand.java:17-53 | a missing service is an error that sets nothing; a found one sets the FQDN and admin user and succeeds, even after logging a type mismatch as an error |
| Pipeline.MismatchOnlyLegacySucceeds | src/main/java/com/microsoft/jenkins/acs/commands/GetContainerServiceInfoCommand.java:117-122 | on a type mismatch the current lookup fails and keeps the FQDN, while the older lookup succeeds |
| Pipeline.GetPublicFqdn | src/main/java/com/microsoft/jenkins/acs/commands/GetPublicFQDNCommand.java:13-34 | the status line comes first; an error exactly for a missing service, which sets nothing; otherwise the FQDN and admin user are set and logged, then `Success` |
| Pipeline.FindService | src/main/java/com/microsoft/jenkins/acs/commands/ValidateContainerCommand.java:22-33 | the first service named as wanted is found; a `null` name met before it throws; none found exactly when every name is there and differs |
| Pipeline.ValidateContainer | src/main/java/com/microsoft/jenkins/acs/commands/ValidateContainerCommand.java:13-43 | `Success` only when a service has the wanted name; `UnSuccessful` exactly when the listing worked and no name matches; a failed listing or a `null` name is an error |
| Pipeline.NullPrefixMatchesLiteralNull | src/main/java/com/microsoft/jenkins/acs/commands/ValidateContainerCommand.java:26 | a `null` prefix looks for a service named `containerservice-null` |
| DependencyMigration.WithSlash | src/main/java/com/microsoft/jenkins/acs/util/DependencyMigration.java:80-87 | the URL ends with `/`, one being added only when it did not already end with one |
| DependencyMigration.SameUrl | src/main/java/com/microsoft/jenkins/acs/util/DependencyMigration.java:76-89 | a blank or missing target matches nothing; otherwise the two match when equal once each ends with `/` |
| DependencyMigration.SameUrlMeans | src/main/java/com/microsoft/jenkins/acs/util/DependencyMigration.java:76-89 | two URLs match exactly when they are equal or one is the other plus a single `/` it lacked |
| DependencyMigration.SameUrlSymmetric | src/main/java/com/microsoft/jenkins/acs/util/DependencyMigration.java:76-89 | for non-blank URLs the match does not depend on which is the base |
| DependencyMigration.TrailingSlashMatches | src/main/java/com/microsoft/jenkins/acs/util/DependencyMigration.java:80-88 | a URL matches itself with a trailing `/` added, both ways round |
| DependencyMigration.DoubleSlashDiffers | src/main/java/com/microsoft/jenkins/acs/util/DependencyMigration.java:80-88 | a URL ending in `//` does not match the same URL ending in `/` |
| DependencyMigration.ResolveEnvironment | src/main/java/com/microsoft/jenkins/acs/util/DependencyMigration.java:60-74 | the first known environment all four endpoints match, or none exactly when none matches |
| DependencyMigration.BlankEndpointMatchesNothing | src/main/java/com/microsoft/jenkins/acs/util/DependencyMigration.java:66-79 | a principal with any blank or missing endpoint matches no known environment |
| DependencyMigration.Overridden | src/main/java/com/microsoft/jenkins/acs/util/DependencyMigration.java:49-54 | the public cloud's table with exactly the four endpoints replaced by the principal's, `null` included, and every other entry kept |
| DependencyMigration.BuildAzureEnvironment | src/main/java/com/microsoft/jenkins/acs/util/DependencyMigration.java:39-58 | the first matching known environment when there is one, and otherwise the public cloud's table with the four endpoints put in |
| DependencyMigration.EndpointsOf | src/main/java/com/microsoft/jenkins/acs/util/DependencyMigration.java:41-44 | the four endpoints read off a known environment |
| DependencyMigration.KnownEndpointsMatch | src/main/java/com/microsoft/jenkins/acs/util/DependencyMigration.java:60-74 | a principal copying a known environment's endpoints matches that environment |
| PluginTelemetry.NormalizeType | src/main/java/com/microsoft/jenkins/acs/AzureACSPlugin.java:47-59 | always a canonical name: the first of Kubernetes, DC/OS, Swarm and AKS equal to the type ignoring case, and the custom name for anything else, `null` included |
| PluginTelemetry.RecognisedInAnyCase | src/main/java/com/microsoft/jenkins/acs/AzureACSPlugin.java:47-59 | with distinct names, each of the four types is recognised in any case whatever its place in the chain |
| PluginTelemetry.NormalizeIdempotent | src/main/java/com/microsoft/jenkins/acs/AzureACSPlugin.java:47-59 | normalising a normalised type changes nothing |
| PluginTelemetry.PutPairs | src/main/java/com/microsoft/jenkins/acs/AzureACSPlugin.java:28-38 | the keys afterwards are the earlier keys and the key of every complete pair; keys no pair names keep their values |
| PluginTelemetry.PutPairsAppend | src/main/java/com/microsoft/jenkins/acs/AzureACSPlugin.java:36-38 | one more pair is put last, so it wins |
| PluginTelemetry.TrailingKeyDropped | src/main/java/com/microsoft/jenkins/acs/AzureACSPlugin.java:36 | a key without a value is dropped |
| PluginTelemetry.LaterPairWins | src/main/java/com/microsoft/jenkins/acs/AzureACSPlugin.java:36-38 | the last pair for a key gives its value |
| PluginTelemetry.EventProperties | src/main/java/com/microsoft/jenkins/acs/AzureACSPlugin.java:34-40 | the event carries exactly the keys of the complete pairs |
| PluginTelemetry.EventForProperties | src/main/java/com/microsoft/jenkins/acs/AzureACSPlugin.java:24-32 | the orchestrator and the run's hash are always there and keep their values unless a caller pair names their keys; no other key but the pairs' |
| PluginTelemetry.CallerOverridesSeed | src/main/java/com/microsoft/jenkins/acs/AzureACSPlugin.java:25-30 | a caller pair naming the orchestrator key replaces the orchestrator |
| EnvAction.SinglePair | src/main/java/com/microsoft/jenkins/acs/InjectEnvironmentVariablesAction.java:24-27 | the action holds exactly the one name and value |
| EnvAction.FromMap | src/main/java/com/microsoft/jenkins/acs/InjectEnvironmentVariablesAction.java:29-31 | the action holds a copy of exactly the pairs given |
| EnvAction.Put | src/main/java/com/microsoft/jenkins/acs/InjectEnvironmentVariablesAction.java:39 | `EnvVars.put`: afterwards the name has the value in any case; every name that differs other than in case keeps its value; an existing variable keeps the name it was stored with, a new one takes the name given |
| EnvAction.MergeIsUnique | src/main/java/com/microsoft/jenkins/acs/InjectEnvironmentVariablesAction.java:37-41 | at most one environment is the merge of the pairs over an environment, so the merge does not depend on an order |
| EnvAction.OrderCoversKeys | src/main/java/com/microsoft/jenkins/acs/InjectEnvironmentVariablesAction.java:37-41 | an iteration of the pairs visits every name |
| EnvAction.PutSeqMeaning | src/main/java/com/microsoft/jenkins/acs/InjectEnvironmentVariablesAction.java:37-41 | after putting distinct names, no two differing only in case, the environment is the merge of exactly those pairs |
| EnvAction.MergeStep | src/main/java/com/microsoft/jenkins/acs/InjectEnvironmentVariablesAction.java:38-40 | one more `put` of a name new ignoring case extends the merge by that pair and changes nothing else |
| EnvAction.PutSeqSources | src/main/java/com/microsoft/jenkins/acs/InjectEnvironmentVariablesAction.java:37-41 | after any puts, no variable is lost and each holds its old value or the value of a pair whose name matches ignoring case |
| EnvAction.BuildEnvVars | src/main/java/com/microsoft/jenkins/acs/InjectEnvironmentVariablesAction.java:37-41 | throws exactly when some name or value is `null`; otherwise, when no two held names differ only in case, the result is the merge, whatever the iteration order; no variable is lost, and each holds its old value or that of a held pair of its name |
| EnvAction.CaseTwinsDependOnOrder | src/main/java/com/microsoft/jenkins/acs/InjectEnvironmentVariablesAction.java:37-41 | two held names differing only in case: each iteration order leaves the value put last under the name put first, so the two orders disagree |
| EnvAction.LowerAndUpperADisagree | src/main/java/com/microsoft/jenkins/acs/InjectEnvironmentVariablesAction.java:37-41 | holding `a` = 1 and `A` = 2, the two iteration orders give different environments |
| EnvAction.SinglePairSetsOne | src/main/java/com/microsoft/jenkins/acs/InjectEnvironmentVariablesAction.java:24-41 | a one-pair action's merge is the one `put` of its pair |
| EnvAction.IconFileName | src/main/java/com/microsoft/jenkins/acs/InjectEnvironmentVariablesAction.java:43-46 | no icon |
| EnvAction.DisplayName | src/main/java/com/microsoft/jenkins/acs/InjectEnvironmentVariablesAction.java:48-51 | no display name |
| EnvAction.UrlName | src/main/java/com/microsoft/jenkins/acs/InjectEnvironmentVariablesAction.java:53-56 | no URL |
| ManagementDelegate.Replaced | src/main/java/com/microsoft/jenkins/acs/services/AzureManagementServiceDelegate.java:114 | replacing a value keeps every key in its place |
| ManagementDelegate.ReplacedLookupKey | src/main/java/com/microsoft/jenkins/acs/services/AzureManagementServiceDelegate.java:114 | after the replacement the key holds the new value, if it was held at all |
| ManagementDelegate.ReplacedLookupOther | src/main/java/com/microsoft/jenkins/acs/services/AzureManagementServiceDelegate.java:114 | every other key keeps its value |
| ManagementDelegate.PutFieldLookup | src/main/java/com/microsoft/jenkins/acs/services/AzureManagementServiceDelegate.java:114 | `ObjectNode.replace` sets the one key and leaves every other key's value alone |
| ManagementDelegate.ParameterNode | src/main/java/com/microsoft/jenkins/acs/services/AzureManagementServiceDelegate.java:106-113 | the node has the type, and the value parsed as an `int` for type `int` or as text otherwise; it fails exactly for type `int` with text that is not a Java `int` |
| ManagementDelegate.AddParameter | src/main/java/com/microsoft/jenkins/acs/services/AzureManagementServiceDelegate.java:114 | fails when `parameters` is missing or not an object, and succeeds exactly otherwise |
| ManagementDelegate.AddParameterReadsBack | src/main/java/com/microsoft/jenkins/acs/services/AzureManagementServiceDelegate.java:114 | the parameter is found under its name, other parameters and other fields are unchanged |
| ManagementDelegate.ValidateAndAddFieldValueAsWritten | src/main/java/com/microsoft/jenkins/acs/services/AzureManagementServiceDelegate.java:98-118 | as written: a blank value with a blank message throws, and one with a message is silently accepted |
| ManagementDelegate.ValidateAndAddFieldValue | src/main/java/com/microsoft/jenkins/acs/services/AzureManagementServiceDelegate.java:98-118 | a blank value is accepted without a message and rejected with it, and a rejection always carries a message; a filled value is added exactly when its node can be built and `parameters` is an object |
| ManagementDelegate.FilledParameterReadsBack | src/main/java/com/microsoft/jenkins/acs/services/AzureManagementServiceDelegate.java:104-114 | a filled value added reads back under its name with its typed default value |
| ManagementDelegate.AsWrittenAgreesOnValues | src/main/java/com/microsoft/jenkins/acs/services/AzureManagementServiceDelegate.java:104-114 | for a filled value the code as written and the corrected one agree |
| ManagementDelegate.InvertedMessageTest | src/main/java/com/microsoft/jenkins/acs/services/AzureManagementServiceDelegate.java:115-117 | an empty `agentCount` without a message throws as written, while an empty DNS prefix with its message passes; the corrected version does the opposite |
| ManagementDelegate.SettledCount | src/main/java/com/microsoft/jenkins/acs/services/AzureManagementServiceDelegate.java:136-165 | no more operations settle than there are |
| ManagementDelegate.SucceededLines | src/main/java/com/microsoft/jenkins/acs/services/AzureManagementServiceDelegate.java:155-162 | as written a succeeded operation gives two status lines, `Succeeded` first; corrected, only that one |
| ManagementDelegate.LogAll | src/main/java/com/microsoft/jenkins/acs/services/AzureManagementServiceDelegate.java:156-162 | each line is logged as a status line, in order, after the earlier log, with the state unchanged |
| ManagementDelegate.StateFromText | src/main/java/com/microsoft/jenkins/acs/services/AzureManagementServiceDelegate.java:146 | `ProvisioningState.fromString`: a state is returned only for text equal to its name ignoring case, and `null` only for `null` or text equal to no state's name |
| ManagementDelegate.StateNamesDistinctIgnoringCase | src/main/java/com/microsoft/jenkins/acs/services/AzureManagementServiceDelegate.java:146 | two state names are equal ignoring case exactly when they are the same state |
| ManagementDelegate.StateFromTextName | src/main/java/com/microsoft/jenkins/acs/services/AzureManagementServiceDelegate.java:146 | a state's name in any ASCII case reads back as that state |
| ManagementDelegate.Visit | src/main/java/com/microsoft/jenkins/acs/services/AzureManagementServiceDelegate.java:137-163 | an operation without a target, or with a state text that reads as a state other than a failure, is counted, a settled one lowering the count by one; a failure halts in error; text `fromString` does not know crashes |
| ManagementDelegate.UnknownStateCrashes | src/main/java/com/microsoft/jenkins/acs/services/AzureManagementServiceDelegate.java:146-148 | an operation with a target whose state text reads as `null` throws `NullPointerException` at the `switch` and ends the round |
| ManagementDelegate.RunningStateThrows | src/main/java/com/microsoft/jenkins/acs/services/AzureManagementServiceDelegate.java:120-148 | an operation in state `Running`, which is not a provisioning state, makes `monitor` throw in its first round |
| ManagementDelegate.LowerCaseStateRead | src/main/java/com/microsoft/jenkins/acs/services/AzureManagementServiceDelegate.java:146-162 | `inprogress` reads as `InProgress` and is logged as still to be completed |
| ManagementDelegate.Round | src/main/java/com/microsoft/jenkins/acs/services/AzureManagementServiceDelegate.java:136-164 | the round counts exactly when every operation passes, leaving the operations not settled; a failed operation halts in error; the log only grows |
| ManagementDelegate.Monitor | src/main/java/com/microsoft/jenkins/acs/services/AzureManagementServiceDelegate.java:120-168 | `false` only in error; `true` only after a round in which every operation settled |
| ManagementDelegate.AllSettledFinishes | src/main/java/com/microsoft/jenkins/acs/services/AzureManagementServiceDelegate.java:136-167 | a round whose operations have all succeeded or have no target ends the monitor with `true` |
| ManagementDelegate.AllSettledCount | src/main/java/com/microsoft/jenkins/acs/services/AzureManagementServiceDelegate.java:136-158 | when every operation settled, the count reaches zero |
| ManagementDelegate.NoOperationsFinish | src/main/java/com/microsoft/jenkins/acs/services/AzureManagementServiceDelegate.java:136-167 | a deployment without operations is done at once |
| ManagementDelegate.Targeted | src/main/java/com/microsoft/jenkins/acs/services/AzureManagementServiceDelegate.java:138-143 | no more operations with a target than operations |
| ManagementDelegate.OneLinePerOperation | src/main/java/com/microsoft/jenkins/acs/services/AzureManagementServiceDelegate.java:137-163 | corrected, each operation with a target logs exactly one status line |
| ManagementDelegate.SucceededReportedTwice | src/main/java/com/microsoft/jenkins/acs/services/AzureManagementServiceDelegate.java:155-162 | as written, one succeeded operation logs `Succeeded` and then `To Be Completed` |
| Constants.FromString | src/main/java/com/microsoft/jenkins/acs/ACSDeploymentContext.java:209-212 | the orchestrator read from a type name is one whose name equals the text ignoring case; no orchestrator is read from `null` or from text equal to no name |
| Constants.NamesDistinctIgnoringCase | src/main/java/com/microsoft/jenkins/acs/ACSDeploymentContext.java:470-473 | two orchestrator names are equal ignoring case exactly when they name the same orchestrator, so the reading is unambiguous |
| Constants.FromStringName | src/main/java/com/microsoft/jenkins/acs/ACSDeploymentContext.java:470-473 | an orchestrator's name written in any ASCII case reads back as that orchestrator |

## Left out

- SSH and SFTP sessions, the Azure management SDK calls and the Marathon REST calls: the commands produce the list of remote steps they would perform; the answers of the remote side, and which remote step fails first (and whether by a non-zero exit status), are inputs. Building and connecting the SSH clients is assumed to succeed.
- JSON and YAML parsing (Jackson, SnakeYAML): the parsed document is the input, as a tree of maps, lists and scalars.
- The clock, `UUID.randomUUID` for blank run names and random temporary file names: they are parameters.
- `DependencyMigration.buildAzureTokenCredentials`: it only hands the principal's fields to an SDK constructor.
- Sending telemetry events: the model stops at the property map an event would carry.
- The Jelly pages and the browser host around the page script: the script's decisions are modelled, the DOM is not.
- The Kubernetes and AKS deployment commands (`KubernetesDeploymentCommandBase`, `AKSDeploymentCommand`), the ARM template commands (`TemplateDeployCommand`, `TemplateMonitorCommand`, `ResourceGroupCommand`) and the Azure and Kubernetes client helpers: they hand the work to libraries that are not part of this model; the pipeline sees only the commands' outcomes.
- `DockerConfigBuilder` and `JsonHelper` (tar, gzip and JSON output of registry credentials): the model names the archive it copies, not its bytes.
- `verifyCredentials`, `deploy` and the list-box fill methods other than the container-service selector: they run Azure calls on other threads or list host data.
- The superseded `NetworkResourceProviderHelper` and the `org.jenkinsci.plugins.microsoft` package: `EnablePort` models the current port logic.
- The Jenkins build steps (`ACSDeploymentBuilder`, `ACSDeploymentRecorder`, `JobContext`) and the behaviour-free interfaces of the command data.
- Building the command table (the `Hashtable<Class, TransitionInfo>` a context is configured with): the table is an input to the pipeline.
- Message bundle texts: a message is its key and arguments, not the rendered text.
- `Util.replaceMacro`'s `$$` escape: only the `$VAR` and `${VAR}` forms the plugin documents are modelled.
- `equalsIgnoreCase` and `toLowerCase` fold ASCII letters only; the locale and the Unicode case tables are not modelled.
- `ContainerServiceOchestratorTypes.fromString` and `ProvisioningState.fromString` come from the Azure SDK, which is not part of this model; they are modelled as that SDK's enums do it: the first constant whose name equals the text ignoring case, `null` for any other text. The provisioning states are `Succeeded`, `Failed`, `Canceled`, `InProgress` and `Deleting`.
- `Character.isSpaceChar` and `Character.isISOControl` follow the Unicode 6.2 tables of Java 8, under which U+180E is a space separator.
- Constants the plugin takes from classes that are not part of this model are assumed: the AKS type name `AKS`, the success marker of a deployment operation, the URI scheme prefix, the Kubernetes name limit of 253 characters with the DNS-1123 subdomain pattern, the archive name and the Swarm SSH port; the telemetry names and keys are parameters.
- `EnvVars` is not part of this model: the build environment is modelled as the `TreeMap` ordered by `String.CASE_INSENSITIVE_ORDER` that it is on every platform, refusing `null` names and values; the comparison folds ASCII letters only.
- `ServicePort.equals` compares the protocol enum by reference; the model compares values, which is the same for enum constants.
- The drop-down's `FormValidation.ok(message)` is modelled as a warning carrying the message, the only place the two differ being the icon.
- DependencyMigration.ResolveEnvironment: a known environment is assumed to define all four endpoints, as the SDK's built-in environments do.
- DeploymentContext.ContainerServiceItems: the placeholder entry, the entries for a missing subscription or an Azure error, and the empty-list case of `doFillContainerServiceItems` are not modelled; only the listed services are.
- EnablePort.HostPorts: Java's `HashSet` iterates in an unspecified order; the model fixes first-occurrence order, and the properties of the rules it adds do not depend on that order.
- JavaStrings.ParseInt: only the ASCII digits `0` to `9` are digits; `Integer.parseInt` takes its digits from `Character.digit`, which also accepts the other Unicode decimal digits (Arabic-Indic, Devanagari, full-width and so on), and the model rejects those as not a number.
- Descriptor.CheckAgentCount: an agent count written in non-ASCII Unicode decimal digits is accepted by Java and rejected by the model, because `JavaStrings.ParseInt` reads ASCII digits only.
- ManagementDelegate.ParameterNode: an `int` parameter written in non-ASCII Unicode decimal digits is parsed by Java and fails as not a number in the model, because `JavaStrings.ParseInt` reads ASCII digits only.
- Documents.TextAsInt: `Double.parseDouble` is modelled with the exact value of the text, not rounded to the nearest `double`; the cast then differs only for text with seventeen or more significant digits lying just below an integer (`2.99999999999999999` is 3 in Java and 2 in the model).
- MarathonConfig.PortOfMapping: port text is read as stated for `Documents.TextAsInt`, so the same rounding of long decimal text is not modelled.
- EnvAction.BuildEnvVars: the `HashMap` order is a parameter, so the contract speaks of every order rather than Java's; when two held names differ only in case the result depends on that order, and the contract states only that each variable keeps its old value or takes a held one of its name (`EnvAction.CaseTwinsDependOnOrder` shows both outcomes).
- MarathonCommand.RunTask: the application files' contents and their variable substitution are not modelled; the archive variable the copy puts into the build's variables before the files are substituted is the result's `extraEnvVars`.
- SwarmCommand.Execute: a remote command that exits non-zero throws a `RuntimeException` the command does not catch; the model returns it as the run's error with the context unchanged, and the pipeline, which does not model a command that throws, does not see it end the build step.
- Pipeline.Loop: the `while (current != null)` loop runs for at most a given number of commands (fuel); a pipeline that cycles forever is seen as one that has not answered within that bound.
- ManagementDelegate.Monitor: the polling rounds are a finite list of answers; a deployment that is never settled is seen as still polling once the list ends, and the contract states only what a `true` or `false` answer implies.
- SwarmConfig.PortLoopAsWritten: the loop as written is run with a fuel bound, so its non-termination is stated as "no answer for any fuel".
- SwarmCommand.Logins: the contract states that finished logins accepted every endpoint and that a blank token stops the logins; the text of each `docker login` command line is stated by separate lemmas.
- The Swarm short-syntax pattern matches `/udp` and `/tcp` in lower case only (no case-insensitive flag), so `/UDP` is rejected as malformed even though the later protocol test ignores case; the model follows the pattern.
- `DeploymentChoiceCommand` accepts only Kubernetes and DC/OS, the orchestrators in `SUPPORTED_ORCHESTRATOR`; the model follows that code, not the Swarm and AKS acceptance its unit test text expects.

## Findings

| source | as written | input that shows it | evidently intended | confidence | as-written member | corrected member |
|---|---|---|---|---|---|---|
| src/main/java/com/microsoft/jenkins/acs/services/AzureManagementServiceDelegate.java:115-117 | a blank field value throws only when the error message is blank too (`isBlank(errorMessage)`) | `agentCount` = "" with a `null` message throws; `dnsNamePrefix` = "" with its message is accepted silently | throw the message when there is one (`isNotBlank`), accept a blank optional field without one | high, not executed | ManagementDelegate.InvertedMessageTest | ManagementDelegate.ValidateAndAddFieldValue |
| src/main/java/com/microsoft/jenkins/acs/orchestrators/SwarmDeploymentConfig.java:149-151 | `for (int p = ext; p <= extEnd; p++)` with Java `int` arithmetic | the port `2147483647`: `p++` wraps to a negative value, which is again `<= extEnd`, so the loop never ends | the ports `ext..extEnd`, one each | high, not executed | SwarmConfig.LargestPortNeverFinishes | SwarmConfig.PortLoopIsRange |
| src/main/java/com/microsoft/jenkins/acs/services/AzureManagementServiceDelegate.java:155-162 | the `SUCCEEDED` case has no `break` and falls into `default` | one operation in state `Succeeded`: it logs `Succeeded(...)` and then `To Be Completed(...)` | one status line per operation | medium, not executed | ManagementDelegate.SucceededReportedTwice | ManagementDelegate.OneLinePerOperation |

=== FILE: base_context.dfy ===
/**
 * `AbstractBaseContext`: the deployment state that every command of the
 * pipeline reads and writes, and the log the commands report to.
 */
module BaseContext {

  /** The states a command leaves the deployment in. */
  datatype DeploymentState = Unknown | Running | Success | UnSuccessful | HasError | Done

  /** A line of the build log: a status message or an error. */
  datatype LogLine = Status(text: string) | ErrorLine(text: string)

  /** The part of the context the commands change. */
  datatype Context = Context(state: DeploymentState, log: seq<LogLine>)

  /** A fresh context: nothing logged, state `Unknown`. */
  function Initial(): (c: Context)
    ensures c.state == Unknown && c.log == []
    ensures !InError(c) && !IsFinished(c)
  {
    Context(Unknown, [])
  }

  /** `getHasError`. */
  predicate InError(c: Context) {
    c.state == DeploymentState.HasError
  }

  /** `getIsFinished`: an error or an explicit `Done` ends the pipeline. */
  predicate IsFinished(c: Context) {
    c.state == DeploymentState.HasError || c.state == Done
  }

  /** `setDeploymentState`. */
  function SetState(c: Context, s: DeploymentState): (r: Context)
    ensures r.state == s && r.log == c.log
  {
    c.(state := s)
  }

  /** `logStatus`: one more status line; the state is left alone. */
  function LogStatus(c: Context, message: string): (r: Context)
    ensures r.state == c.state
    ensures InError(r) <==> InError(c)
    ensures IsFinished(r) <==> IsFinished(c)
    ensures r.log == c.log + [Status(message)]
  {
    c.(log := c.log + [Status(message)])
  }

  /** `logError(String)`: one more error line, and the deployment has failed. */
  function LogError(c: Context, message: string): (r: Context)
    ensures InError(r) && IsFinished(r)
    ensures r.log == c.log + [ErrorLine(message)]
  {
    Context(DeploymentState.HasError, c.log + [ErrorLine(message)])
  }

  /**
   * `logError(Exception)` and `logError(prefix, Exception)`: the error line
   * is the prefix followed by the exception's message (the one-argument
   * form passes the plugin's own prefix text).
   */
  function LogException(c: Context, prefix: string, exceptionMessage: string): (r: Context)
    ensures InError(r) && IsFinished(r)
    ensures r.log == c.log + [ErrorLine(prefix + exceptionMessage)]
  {
    LogError(c, prefix + exceptionMessage)
  }

  /** Status lines logged after an error do not clear it. */
  lemma StatusKeepsError(c: Context, message: string, more: string)
    requires InError(c)
    ensures InError(LogStatus(c, message))
    ensures InError(LogStatus(LogStatus(c, message), more))
  {
  }

  /** Only a later explicit state change can overwrite an error. */
  lemma ErrorOverwrittenOnlyBySetState(c: Context, message: string, s: DeploymentState)
    ensures SetState(LogError(c, message), s).state == s
    ensures InError(SetState(LogError(c, message), s)) <==> s == DeploymentState.HasError
  {
  }
}

=== FILE: constants.dfy ===
/**
 * Shared constants of the plugin and the orchestrator types of an Azure
 * Container Service, with the two the plugin deploys to (Kubernetes and
 * DC/OS) and the SSH port it uses for each.
 */
module Constants {
  import opened Wrappers
  import opened JavaStrings

  /** The value of a drop-down entry that stands for "nothing selected". */
  const InvalidOption: string := "*"

  /** Gap between the priorities of consecutive security rules the plugin adds. */
  const PriorityStep: int := 10

  /** Largest (least urgent) priority a network security rule may have. */
  const LowestPriority: int := 4096

  const DcosSshPort: int := 2200
  const KubernetesSshPort: int := 22

  /** The type name the container-service selector uses for an AKS cluster. */
  const Aks: string := "AKS"

  /** The orchestrators an Azure Container Service can be created with. */
  datatype Orchestrator = Swarm | DCOS | Custom | Kubernetes

  /** The orchestrator's name as the management API spells it. */
  function Name(t: Orchestrator): string {
    match t
    case Swarm => "Swarm"
    case DCOS => "DCOS"
    case Custom => "Custom"
    case Kubernetes => "Kubernetes"
  }

  /**
   * `ContainerServiceOchestratorTypes.fromString`: the orchestrator whose
   * name equals the text ignoring case, `null` for any other text and for
   * `null`.
   */
  function FromString(s: Option<string>): (r: Option<Orchestrator>)
    ensures r.Some? ==> s.Some? && EqualsIgnoreCase(Name(r.value), s.value)
    ensures r.None? ==> s.None? || forall t: Orchestrator :: !EqualsIgnoreCase(Name(t), s.value)
  {
    if s.None? then None
    else if EqualsIgnoreCase(Name(Swarm), s.value) then Some(Swarm)
    else if EqualsIgnoreCase(Name(DCOS), s.value) then Some(DCOS)
    else if EqualsIgnoreCase(Name(Custom), s.value) then Some(Custom)
    else if EqualsIgnoreCase(Name(Kubernetes), s.value) then Some(Kubernetes)
    else None
  }

  /** No two orchestrator names are equal ignoring case (their lengths already differ). */
  lemma NamesDistinctIgnoringCase(t: Orchestrator, u: Orchestrator)
    ensures EqualsIgnoreCase(Name(t), Name(u)) <==> t == u
  {
    assert |ToLowerAscii(Name(t))| == |Name(t)| && |ToLowerAscii(Name(u))| == |Name(u)|;
  }

  /** Every orchestrator's own name, in any ASCII case, reads back as that orchestrator. */
  lemma FromStringName(t: Orchestrator, s: string)
    requires EqualsIgnoreCase(Name(t), s)
    ensures FromString(Some(s)) == Some(t)
  {
    var r := FromString(Some(s));
    assert r.Some? by {
      assert EqualsIgnoreCase(Name(t), s);
    }
    NamesDistinctIgnoringCase(r.value, t);
  }

  /** The orchestrators the plugin can deploy to (`SUPPORTED_ORCHESTRATOR`). */
  predicate Supported(t: Orchestrator) {
    t == Kubernetes || t == DCOS
  }

  /**
   * `Constants.sshPort`: the port of the master's SSH endpoint for a
   * supported orchestrator, -1 for any other.
   */
  function SshPort(t: Orchestrator): (p: int)
    ensures p > 0 <==> Supported(t)
    ensures t == DCOS ==> p == DcosSshPort
    ensures t == Kubernetes ==> p == KubernetesSshPort
    ensures !Supported(t) ==> p == -1
  {
    match t
    case DCOS => DcosSshPort
    case Kubernetes => KubernetesSshPort
    case _ => -1
  }
}

=== FILE: dependency_migration.dfy ===
/**
 * `DependencyMigration`: turning the endpoints of an Azure service
 * principal into the Azure environment the SDK talks to. A known
 * environment (the public cloud, China, the US government, Germany) is
 * reused when all four endpoints match it; otherwise the public cloud's
 * endpoint table is copied with the four endpoints put in.
 *
 * An environment is its endpoint table, as `AzureEnvironment.endpoints()`
 * keeps it: names to URLs, where a URL may be `null`.
 */
module DependencyMigration {
  import opened Wrappers
  import opened JavaStrings
  import opened Seqs

  // ---------------------------------------------------------------------
  // sameUrl
  // ---------------------------------------------------------------------

  /** The URL with a `/` appended unless it already ends with one. */
  function WithSlash(s: string): (r: string)
    ensures EndsWith(r, "/")
    ensures r == s || r == s + "/"
    ensures EndsWith(s, "/") ==> r == s
  {
    if EndsWith(s, "/") then s else s + "/"
  }

  /**
   * `sameUrl(base, target)`: a blank or missing target matches nothing;
   * otherwise the two match when they are equal once each ends with `/`.
   */
  function SameUrl(base: string, target: Option<string>): (r: bool)
    ensures IsBlankOrNull(target) ==> !r
    ensures !IsBlankOrNull(target) ==> (r <==> WithSlash(base) == WithSlash(target.value))
  {
    if IsBlankOrNull(target) then false
    else WithSlash(base) == WithSlash(target.value)
  }

  /** `s + "/"` ends with `/`. */
  lemma SlashAppendedEnds(s: string)
    ensures EndsWith(s + "/", "/")
  {
    assert (s + "/")[|s + "/"| - 1..] == "/";
  }

  /**
   * What `sameUrl` means without the normalisation: the two texts are
   * equal, or one is the other with a single `/` added to a text that did
   * not end with one. So `x` matches `x/`, but `x/` does not match `x//`.
   */
  lemma {:induction false} SameUrlMeans(base: string, target: string)
    requires !IsBlank(target)
    ensures SameUrl(base, Some(target)) <==>
              || base == target
              || (base == target + "/" && !EndsWith(target, "/"))
              || (target == base + "/" && !EndsWith(base, "/"))
  {
    SlashAppendedEnds(base);
    SlashAppendedEnds(target);
    if WithSlash(base) == WithSlash(target) {
      if EndsWith(base, "/") && !EndsWith(target, "/") {
        assert base == target + "/";
      } else if !EndsWith(base, "/") && EndsWith(target, "/") {
        assert target == base + "/";
      } else if !EndsWith(base, "/") && !EndsWith(target, "/") {
        assert base + "/" == target + "/";
        assert base == (base + "/")[..|base|];
        assert target == (target + "/")[..|target|];
      }
    }
  }

  /** For two non-blank URLs the match does not depend on which one is the base. */
  lemma SameUrlSymmetric(a: string, b: string)
    requires !IsBlank(a) && !IsBlank(b)
    ensures SameUrl(a, Some(b)) == SameUrl(b, Some(a))
  {
  }

  /** A URL without a trailing `/` matches itself with one, in both directions. */
  lemma TrailingSlashMatches(x: string)
    requires !IsBlank(x) && !EndsWith(x, "/")
    ensures SameUrl(x, Some(x + "/")) && SameUrl(x + "/", Some(x))
  {
    SlashAppendedEnds(x);
    assert !IsBlank(x + "/") by {
      var i :| 0 <= i < |x| && !IsWhitespace(x[i]);
      assert (x + "/")[i] == x[i];
    }
  }

  /** A doubled slash is not the same URL: only one `/` is added. */
  lemma DoubleSlashDiffers()
    ensures !SameUrl("https://management.core.windows.net/", Some("https://management.core.windows.net//"))
  {
    var u := "https://management.core.windows.net/";
    assert !IsBlank(u + "/") by {
      assert !IsWhitespace((u + "/")[0]);
    }
    SlashAppendedEnds(u);
    assert EndsWith(u, "/") by {
      assert u[|u| - 1..] == "/";
    }
    assert |WithSlash(u)| != |WithSlash(u + "/")|;
  }

  // ---------------------------------------------------------------------
  // resolveEnvironment and buildAzureEnvironment
  // ---------------------------------------------------------------------

  /** An endpoint table. */
  type Environment = map<string, Option<string>>

  const ManagementKey: string := "managementEndpointUrl"
  const ActiveDirectoryKey: string := "activeDirectoryEndpointUrl"
  const ResourceManagerKey: string := "resourceManagerEndpointUrl"
  const GraphKey: string := "activeDirectoryGraphResourceId"

  /** The endpoints a service principal names; any of them may be `null`. */
  datatype Endpoints = Endpoints(management: Option<string>, activeDirectory: Option<string>,
                                 resourceManager: Option<string>, graph: Option<string>)

  /** A known environment defines all four endpoints (its accessors never give `null`). */
  predicate Defined(env: Environment) {
    && ManagementKey in env && env[ManagementKey].Some?
    && ActiveDirectoryKey in env && env[ActiveDirectoryKey].Some?
    && ResourceManagerKey in env && env[ResourceManagerKey].Some?
    && GraphKey in env && env[GraphKey].Some?
  }

  predicate AllDefined(known: seq<Environment>) {
    forall i :: 0 <= i < |known| ==> Defined(known[i])
  }

  /** All four endpoints of the principal match the environment's. */
  predicate Matches(env: Environment, e: Endpoints)
    requires Defined(env)
  {
    && SameUrl(env[ManagementKey].value, e.management)
    && SameUrl(env[ActiveDirectoryKey].value, e.activeDirectory)
    && SameUrl(env[ResourceManagerKey].value, e.resourceManager)
    && SameUrl(env[GraphKey].value, e.graph)
  }

  /**
   * `resolveEnvironment`: the index of the first known environment that
   * all four endpoints match, or `None` (`null`) when none does.
   */
  method ResolveEnvironment(known: seq<Environment>, e: Endpoints) returns (r: Option<nat>)
    requires AllDefined(known)
    ensures r.Some? ==> r.value < |known| && Matches(known[r.value], e)
    ensures r.Some? ==> forall j :: 0 <= j < r.value ==> !Matches(known[j], e)
    ensures r.None? <==> forall j :: 0 <= j < |known| ==> !Matches(known[j], e)
  {
    r := FirstIndex(known, (env: Environment) => Defined(env) && Matches(env, e));
  }

  /** A principal with a blank or missing endpoint matches no known environment. */
  lemma BlankEndpointMatchesNothing(known: seq<Environment>, e: Endpoints)
    requires AllDefined(known)
    requires IsBlankOrNull(e.management) || IsBlankOrNull(e.activeDirectory)
             || IsBlankOrNull(e.resourceManager) || IsBlankOrNull(e.graph)
    ensures forall j :: 0 <= j < |known| ==> !Matches(known[j], e)
  {
  }

  /** The public cloud's table with the principal's four endpoints put in. */
  function Overridden(defaults: Environment, e: Endpoints): (r: Environment)
    ensures r.Keys == defaults.Keys + {ManagementKey, ActiveDirectoryKey, ResourceManagerKey, GraphKey}
    ensures r[ManagementKey] == e.management && r[ActiveDirectoryKey] == e.activeDirectory
    ensures r[ResourceManagerKey] == e.resourceManager && r[GraphKey] == e.graph
    ensures forall k :: k in defaults && k !in {ManagementKey, ActiveDirectoryKey, ResourceManagerKey, GraphKey} ==>
              r[k] == defaults[k]
  {
    defaults[ManagementKey := e.management][ActiveDirectoryKey := e.activeDirectory]
            [ResourceManagerKey := e.resourceManager][GraphKey := e.graph]
  }

  /**
   * `buildAzureEnvironment`: the first matching known environment, or else
   * the public cloud's table (`defaults`) with the four endpoints put in.
   */
  method BuildAzureEnvironment(known: seq<Environment>, defaults: Environment, e: Endpoints) returns (env: Environment)
    requires AllDefined(known)
    ensures (exists j :: 0 <= j < |known| && Matches(known[j], e)) ==>
              exists j :: 0 <= j < |known| && env == known[j] && Matches(known[j], e)
                          && forall i :: 0 <= i < j ==> !Matches(known[i], e)
    ensures (forall j :: 0 <= j < |known| ==> !Matches(known[j], e)) ==> env == Overridden(defaults, e)
  {
    var found := ResolveEnvironment(known, e);
    if found.Some? {
      env := known[found.value];
    } else {
      env := Overridden(defaults, e);
    }
  }

  /** The endpoints a known environment defines. */
  function EndpointsOf(env: Environment): (e: Endpoints)
    requires Defined(env)
    ensures e.management == env[ManagementKey] && e.graph == env[GraphKey]
    ensures e.activeDirectory == env[ActiveDirectoryKey] && e.resourceManager == env[ResourceManagerKey]
  {
    Endpoints(env[ManagementKey], env[ActiveDirectoryKey], env[ResourceManagerKey], env[GraphKey])
  }

  /**
   * A principal that copies a known environment's (non-blank) endpoints
   * matches it, so the lookup never falls back to building a table for it.
   */
  lemma KnownEndpointsMatch(env: Environment)
    requires Defined(env)
    requires !IsBlank(env[ManagementKey].value) && !IsBlank(env[ActiveDirectoryKey].value)
    requires !IsBlank(env[ResourceManagerKey].value) && !IsBlank(env[GraphKey].value)
    ensures Matches(env, EndpointsOf(env))
  {
  }
}

=== FILE: deploy_helper.dfy ===
/**
 * `DeployHelper`: quoting of shell arguments, removal and replacement of
 * `$VAR` / `${VAR}` references, the check that a path can be used in a
 * Marathon `file://` URI, and the dotted-path lookup into a map of
 * resource properties.
 */
module DeployHelper {
  import opened Wrappers
  import opened JavaStrings
  import opened Documents

  // ---------------------------------------------------------------------
  // Single-quoted shell arguments
  // ---------------------------------------------------------------------

  /** What one `'` becomes: close the quote, a double-quoted `'`, reopen the quote. */
  const QuoteEscape: string := "'\"'\"'"

  /** `escapeSingleQuote`: every `'` replaced by `'"'"'`, every other character kept. */
  function EscapeSingleQuote(arg: string): (r: string)
    ensures '\'' !in arg ==> r == arg
    ensures |r| >= |arg|
  {
    if arg == [] then [] else EscapeChar(arg[0]) + EscapeSingleQuote(arg[1..])
  }

  /** What one character of the argument becomes. */
  function EscapeChar(c: char): string {
    if c == '\'' then QuoteEscape else [c]
  }

  /** The argument as the plugin puts it into a remote command: `'` + escaped + `'`. */
  function SingleQuoted(arg: string): string {
    "'" + EscapeSingleQuote(arg) + "'"
  }

  lemma {:induction false} EscapeAppend(a: string, b: string)
    ensures EscapeSingleQuote(a + b) == EscapeSingleQuote(a) + EscapeSingleQuote(b)
    decreases |a|
  {
    if a != [] {
      EscapeFirst(a, b);
      EscapeAppend(a[1..], b);
      assert EscapeSingleQuote(a) == EscapeChar(a[0]) + EscapeSingleQuote(a[1..]);
      ConcatAssoc(EscapeChar(a[0]), EscapeSingleQuote(a[1..]), EscapeSingleQuote(b));
    } else {
      assert a + b == b;
    }
  }

  lemma EscapeFirst(a: string, b: string)
    requires a != []
    ensures EscapeSingleQuote(a + b) == EscapeChar(a[0]) + EscapeSingleQuote(a[1..] + b)
  {
    assert (a + b)[0] == a[0] && (a + b)[1..] == a[1..] + b;
  }

  function PrependTo(prefix: string, r: Option<string>): Option<string> {
    if r.Some? then Some(prefix + r.value) else None
  }

  /**
   * The word a POSIX shell reads from a run of quoted segments: a
   * single-quoted segment is taken literally; a double-quoted one is taken
   * literally when it holds no `\`, `$` or backquote (the characters that
   * would make the shell interpret it).  Anything else, such as an
   * unterminated quote, is `None`.
   */
  function ShellWord(w: string): Option<string>
    decreases |w|
  {
    if w == [] then Some([])
    else if w[0] == '\'' && '\'' in w[1..] then
      var k := IndexOf(w[1..], '\'');
      PrependTo(w[1..k + 1], ShellWord(w[k + 2..]))
    else if w[0] == '"' && '"' in w[1..] then
      var k := IndexOf(w[1..], '"');
      var body := w[1..k + 1];
      if '\\' in body || '$' in body || '`' in body then None
      else PrependTo(body, ShellWord(w[k + 2..]))
    else None
  }

  lemma SingleQuotedSegment(content: string, rest: string)
    requires '\'' !in content
    ensures ShellWord("'" + content + "'" + rest) == PrependTo(content, ShellWord(rest))
  {
    var w := "'" + content + "'" + rest;
    assert w[1..] == content + "'" + rest;
    assert w[1..][|content|] == '\'';
    var k := IndexOf(w[1..], '\'');
    assert k == |content| by {
      assert forall j :: 0 <= j < |content| ==> w[1..][j] == content[j];
      assert forall j :: 0 <= j < k ==> w[1..][..k][j] == w[1..][j];
    }
    assert w[1..k + 1] == content;
    assert w[k + 2..] == rest;
  }

  lemma DoubleQuotedSegment(content: string, rest: string)
    requires '"' !in content && '\\' !in content && '$' !in content && '`' !in content
    ensures ShellWord("\"" + content + "\"" + rest) == PrependTo(content, ShellWord(rest))
  {
    var w := "\"" + content + "\"" + rest;
    assert w[1..] == content + "\"" + rest;
    assert w[1..][|content|] == '"';
    var k := IndexOf(w[1..], '"');
    assert k == |content| by {
      assert forall j :: 0 <= j < |content| ==> w[1..][j] == content[j];
      assert forall j :: 0 <= j < k ==> w[1..][..k][j] == w[1..][j];
    }
    assert w[1..k + 1] == content;
    assert w[k + 2..] == rest;
  }

  /** Cutting the argument at its first `'`: the text before it is kept, the `'` becomes `QuoteEscape`. */
  lemma EscapeAtFirstQuote(arg: string) returns (a: string, b: string)
    requires '\'' in arg
    ensures arg == a + "'" + b && '\'' !in a && |b| < |arg|
    ensures EscapeSingleQuote(arg) == a + QuoteEscape + EscapeSingleQuote(b)
  {
    var i := IndexOf(arg, '\'');
    a := arg[..i];
    b := arg[i + 1..];
    CutAt(arg, i);
    EscapeAround(a, b);
  }

  /** One `'` between two texts is escaped on its own, and a text without `'` is kept. */
  lemma EscapeAround(a: string, b: string)
    requires '\'' !in a
    ensures EscapeSingleQuote(a + "'" + b) == a + QuoteEscape + EscapeSingleQuote(b)
  {
    assert a + "'" + b == a + ("'" + b);
    EscapeAppend(a, "'" + b);
    EscapeAppend("'", b);
    assert EscapeSingleQuote("'") == QuoteEscape;
  }

  lemma QuotedLayout(arg: string, a: string, b: string, rest: string)
    requires EscapeSingleQuote(arg) == a + QuoteEscape + EscapeSingleQuote(b)
    ensures SingleQuoted(arg) + rest == "'" + a + "'" + ("\"" + "'" + "\"" + (SingleQuoted(b) + rest))
  {
    Regroup(a, EscapeSingleQuote(b), rest);
  }

  /** The escaped `'` closes the quote, adds a double-quoted `'`, and reopens the quote. */
  lemma Regroup(a: string, e: string, rest: string)
    ensures "'" + (a + QuoteEscape + e) + "'" + rest == "'" + a + "'" + ("\"" + "'" + "\"" + ("'" + e + "'" + rest))
  {
    var l := "'" + (a + QuoteEscape + e) + "'" + rest;
    var r := "'" + a + "'" + ("\"" + "'" + "\"" + ("'" + e + "'" + rest));
    assert l == "'" + a + QuoteEscape + e + "'" + rest;
    assert r == "'" + a + QuoteEscape + e + "'" + rest;
  }

  lemma PrependAssoc(a: string, b: string, x: Option<string>)
    ensures PrependTo(a, PrependTo("'", PrependTo(b, x))) == PrependTo(a + "'" + b, x)
  {
    if x.Some? {
      assert a + ("'" + (b + x.value)) == (a + "'" + b) + x.value;
    }
  }

  /** A quoted argument followed by more quoted text reads as the argument followed by that text. */
  lemma {:induction false} QuotedThenRest(arg: string, rest: string)
    ensures ShellWord(SingleQuoted(arg) + rest) == PrependTo(arg, ShellWord(rest))
    decreases |arg|
  {
    if '\'' !in arg {
      assert SingleQuoted(arg) + rest == "'" + arg + "'" + rest;
      SingleQuotedSegment(arg, rest);
    } else {
      var a, b := EscapeAtFirstQuote(arg);
      var inner := SingleQuoted(b) + rest;
      var tail := "\"" + "'" + "\"" + inner;
      QuotedLayout(arg, a, b, rest);
      SingleQuotedSegment(a, tail);
      DoubleQuotedSegment("'", inner);
      QuotedThenRest(b, rest);
      PrependAssoc(a, b, ShellWord(rest));
    }
  }

  /** The shell reads a quoted argument back as exactly the original text, whatever quotes it holds. */
  lemma QuotedArgumentReadsBack(arg: string)
    ensures ShellWord(SingleQuoted(arg)) == Some(arg)
  {
    QuotedThenRest(arg, []);
    assert SingleQuoted(arg) + [] == SingleQuoted(arg);
    assert arg + [] == arg;
  }

  // ---------------------------------------------------------------------
  // Variable references
  // ---------------------------------------------------------------------

  /** A character of a `$NAME` reference. */
  predicate IsNameChar(c: char) {
    ('A' <= c <= 'Z') || ('a' <= c <= 'z') || ('0' <= c <= '9') || c == '_'
  }

  /** A character of a `${NAME}` reference, which may also hold dots. */
  predicate IsBracedNameChar(c: char) {
    IsNameChar(c) || c == '.'
  }

  function NameRun(s: string): (k: nat)
    ensures k <= |s|
    ensures forall i :: 0 <= i < k ==> IsNameChar(s[i])
    ensures k < |s| ==> !IsNameChar(s[k])
  {
    if s == [] || !IsNameChar(s[0]) then 0 else 1 + NameRun(s[1..])
  }

  function BracedNameRun(s: string): (k: nat)
    ensures k <= |s|
    ensures forall i :: 0 <= i < k ==> IsBracedNameChar(s[i])
    ensures k < |s| ==> !IsBracedNameChar(s[k])
  {
    if s == [] || !IsBracedNameChar(s[0]) then 0 else 1 + BracedNameRun(s[1..])
  }

  /**
   * Length of the variable reference `s` starts with, 0 when it starts with
   * none: `$` and the longest run of name characters, or `${`, one or more
   * name characters or dots, and `}`.
   */
  function ReferenceLength(s: string): (n: nat)
    ensures n <= |s|
    ensures n > 0 ==> n >= 2 && s[0] == '$'
    ensures s != [] && s[0] != '$' ==> n == 0
  {
    if |s| < 2 || s[0] != '$' then 0
    else if IsNameChar(s[1]) then 1 + NameRun(s[1..])
    else if s[1] == '{' then
      var k := BracedNameRun(s[2..]);
      if k > 0 && 2 + k < |s| && s[2 + k] == '}' then 3 + k else 0
    else 0
  }

  /**
   * `replaceVariables`: every variable reference, scanning from the left,
   * replaced by `replacement`; the replacement text is not scanned again.
   */
  function ReplaceVariables(value: string, replacement: string): (r: string)
    ensures '$' !in value ==> r == value
    decreases |value|
  {
    if value == [] then []
    else
      var n := ReferenceLength(value);
      if n > 0 then replacement + ReplaceVariables(value[n..], replacement)
      else [value[0]] + ReplaceVariables(value[1..], replacement)
  }

  /** `removeVariables`: every variable reference removed. */
  function RemoveVariables(value: string): (r: string)
    ensures |r| <= |value|
  {
    RemovalShortens(value);
    ReplaceVariables(value, "")
  }

  /** How many variable references the left-to-right scan finds. */
  function ReferenceCount(value: string): nat
    decreases |value|
  {
    if value == [] then 0
    else
      var n := ReferenceLength(value);
      if n > 0 then 1 + ReferenceCount(value[n..]) else ReferenceCount(value[1..])
  }

  /** Each reference removed takes at least two characters (`$` and a name character or `{`) with it. */
  lemma {:induction false} RemovalShortens(value: string)
    ensures |ReplaceVariables(value, "")| + 2 * ReferenceCount(value) <= |value|
    decreases |value|
  {
    if value != [] {
      var n := ReferenceLength(value);
      if n > 0 {
        RemovalShortens(value[n..]);
      } else {
        RemovalShortens(value[1..]);
      }
    }
  }

  /**
   * Replacing every reference by `replacement` gives the text with the
   * references removed, plus one copy of the replacement per reference.
   */
  lemma {:induction false} ReplacementLength(value: string, replacement: string)
    ensures |ReplaceVariables(value, replacement)|
         == |RemoveVariables(value)| + ReferenceCount(value) * |replacement|
    decreases |value|
  {
    if value != [] {
      var n := ReferenceLength(value);
      if n > 0 {
        ReferenceStep(value, replacement);
      } else {
        ReplacementLength(value[1..], replacement);
      }
    }
  }

  lemma {:induction false} ReferenceStep(value: string, replacement: string)
    requires value != [] && ReferenceLength(value) > 0
    ensures |ReplaceVariables(value, replacement)|
         == |RemoveVariables(value)| + ReferenceCount(value) * |replacement|
    decreases |value|, 0
  {
    var rest := value[ReferenceLength(value)..];
    var k := |replacement|;
    var c := ReferenceCount(rest);
    ReplacementLength(rest, replacement);
    ReplaceAtReference(value, replacement);
    ReplaceAtReference(value, "");
    assert |RemoveVariables(value)| == |RemoveVariables(rest)|;
    assert ReferenceCount(value) == 1 + c;
    MulStep(c, k);
  }

  /** At a reference, the scan emits the replacement and resumes after the reference. */
  lemma ReplaceAtReference(value: string, replacement: string)
    requires value != [] && ReferenceLength(value) > 0
    ensures ReplaceVariables(value, replacement) == replacement + ReplaceVariables(value[ReferenceLength(value)..], replacement)
    ensures ReferenceCount(value) == 1 + ReferenceCount(value[ReferenceLength(value)..])
  {
  }

  lemma MulStep(c: nat, k: nat)
    ensures (1 + c) * k == k + c * k
  {
  }

  /** Removing variables leaves the text unchanged exactly when it holds no reference. */
  lemma {:induction false} RemovalUnchangedIffNoReference(value: string)
    ensures RemoveVariables(value) == value <==> ReferenceCount(value) == 0
    decreases |value|
  {
    RemovalShortens(value);
    if value != [] {
      var n := ReferenceLength(value);
      if n == 0 {
        RemovalUnchangedIffNoReference(value[1..]);
        assert value == [value[0]] + value[1..];
      }
    }
  }

  // ---------------------------------------------------------------------
  // Paths for Marathon file:// URIs
  // ---------------------------------------------------------------------

  predicate IsAsciiAlpha(c: char) {
    ('A' <= c <= 'Z') || ('a' <= c <= 'z')
  }

  predicate IsAsciiAlnum(c: char) {
    IsAsciiAlpha(c) || ('0' <= c <= '9')
  }

  /**
   * `Character.isSpaceChar`: the Unicode space, line and paragraph
   * separators, by the Unicode 6.2 tables of Java 8, where U+180E MONGOLIAN
   * VOWEL SEPARATOR is still a space separator.
   */
  predicate IsSpaceChar(c: char) {
    || c == ' ' || c == '\U{A0}' || c == '\U{1680}' || c == '\U{180E}'
    || ('\U{2000}' <= c <= '\U{200A}')
    || c == '\U{2028}' || c == '\U{2029}' || c == '\U{202F}' || c == '\U{205F}' || c == '\U{3000}'
  }

  /** `Character.isISOControl`. */
  predicate IsIsoControl(c: char) {
    c <= '\U{1F}' || ('\U{7F}' <= c <= '\U{9F}')
  }

  /**
   * Whether `java.net.URI` leaves the character of a path unquoted: ASCII
   * letters and digits, the marks `-_.!~*'()` and the path punctuation
   * `:@&=+$,;/`; a non-ASCII character unless it is a space or control
   * character. NUL is escaped: the mask bit of character 0 stands for
   * "escapes allowed", and `URI.match` refuses character 0 before it looks
   * at the mask.
   */
  predicate KeptInPath(c: char) {
    if c < '\U{80}' then
      IsAsciiAlnum(c) || c in "-_.!~*'()" || c in ":@&=+$,;/"
    else
      !IsSpaceChar(c) && !IsIsoControl(c)
  }

  function HexDigit(v: nat): (c: char)
    requires v < 16
    ensures IsAsciiAlnum(c)
  {
    if v < 10 then ('0' as int + v) as char else ('A' as int + v - 10) as char
  }

  /** `%` and the byte in two upper-case hexadecimal digits. */
  function PercentByte(b: nat): (s: string)
    requires b < 256
    ensures |s| == 3 && s[0] == '%'
    ensures InQuotedAlphabet(s)
  {
    ['%', HexDigit(b / 16), HexDigit(b % 16)]
  }

  /** The UTF-8 bytes of a character. */
  function Utf8(c: char): (bytes: seq<nat>)
    ensures 1 <= |bytes| <= 4
    ensures forall i :: 0 <= i < |bytes| ==> bytes[i] < 256
  {
    var cp := c as int;
    if cp < 0x80 then [cp]
    else if cp < 0x800 then [0xC0 + cp / 0x40, 0x80 + cp % 0x40]
    else if cp < 0x1_0000 then [0xE0 + cp / 0x1000, 0x80 + (cp / 0x40) % 0x40, 0x80 + cp % 0x40]
    else [0xF0 + cp / 0x4_0000, 0x80 + (cp / 0x1000) % 0x40, 0x80 + (cp / 0x40) % 0x40, 0x80 + cp % 0x40]
  }

  function PercentBytes(bytes: seq<nat>): (s: string)
    requires forall i :: 0 <= i < |bytes| ==> bytes[i] < 256
    ensures |s| == 3 * |bytes|
    ensures InQuotedAlphabet(s)
  {
    if bytes == [] then [] else PercentByte(bytes[0]) + PercentBytes(bytes[1..])
  }

  /** A character quoted into a URI: itself when kept, otherwise its UTF-8 bytes as `%XX`. */
  function QuoteChar(c: char): (s: string)
    ensures KeptInPath(c) ==> s == [c]
    ensures !KeptInPath(c) ==> |s| >= 3 && s[0] == '%'
    ensures InQuotedAlphabet(s)
  {
    if KeptInPath(c) then [c]
    else
      var s := PercentBytes(Utf8(c));
      assert s[..3] == PercentByte(Utf8(c)[0]);
      s
  }

  /** Every character is one quoting keeps, or the `%` of an escape. */
  predicate InQuotedAlphabet(s: string) {
    forall i :: 0 <= i < |s| ==> KeptInPath(s[i]) || s[i] == '%'
  }

  /** The path as `new URI(null, null, path, null)` writes it. */
  function QuotePath(path: string): (q: string)
    ensures |q| >= |path|
    ensures q == [] <==> path == []
    ensures InQuotedAlphabet(q)
  {
    if path == [] then [] else QuoteChar(path[0]) + QuotePath(path[1..])
  }

  /** Quoting works character by character, so it distributes over concatenation. */
  lemma {:induction false} QuotePathAppend(a: string, b: string)
    ensures QuotePath(a + b) == QuotePath(a) + QuotePath(b)
    decreases |a|
  {
    if a != [] {
      var ab := a + b;
      assert ab[0] == a[0] && ab[1..] == a[1..] + b;
      QuotePathAppend(a[1..], b);
      calc {
        QuotePath(ab);
        QuoteChar(a[0]) + QuotePath(a[1..] + b);
        QuoteChar(a[0]) + (QuotePath(a[1..]) + QuotePath(b));
        (QuoteChar(a[0]) + QuotePath(a[1..])) + QuotePath(b);
      }
    } else {
      assert a + b == b;
    }
  }

  /** NUL is written as `%00`. */
  lemma NulQuoted()
    ensures QuoteChar('\U{0}') == "%00"
  {
    assert Utf8('\U{0}') == [0];
    assert PercentBytes([0]) == PercentByte(0) + PercentBytes([]);
  }

  /** NUL inside a path is written as `%00`. */
  lemma NulEscapedInPath()
    ensures QuotePath("/a\U{0}b") == "/a%00b"
  {
    NulQuoted();
    QuotePathAppend("/a", "\U{0}b");
    QuotePathAppend("/", "a");
    QuotePathAppend("\U{0}", "b");
    assert QuotePath("/") == "/" by { assert QuotePath("/") == QuoteChar('/') + QuotePath([]); }
    assert QuotePath("a") == "a" by { assert QuotePath("a") == QuoteChar('a') + QuotePath([]); }
    assert QuotePath("b") == "b" by { assert QuotePath("b") == QuoteChar('b') + QuotePath([]); }
    assert QuotePath("\U{0}") == "%00" by { assert QuotePath("\U{0}") == QuoteChar('\U{0}') + QuotePath([]); }
  }

  /** `encodeURIPath` of a path holding NUL gives the path with `%00` in its place. */
  lemma NulEncodedInPath()
    ensures EncodeUriPath("/a\U{0}b") == Success("/a%00b")
  {
    NulEscapedInPath();
    SingleSlashPathAccepted("/a\U{0}b");
  }

  /** Quoting leaves a path unchanged exactly when every character of it is kept. */
  lemma {:induction false} QuotePathUnchangedIff(path: string)
    ensures QuotePath(path) == path <==> forall i :: 0 <= i < |path| ==> KeptInPath(path[i])
    decreases |path|
  {
    if path != [] {
      QuotePathUnchangedIff(path[1..]);
      var q := QuotePath(path);
      if KeptInPath(path[0]) {
        assert path == [path[0]] + path[1..];
        assert q == [path[0]] + QuotePath(path[1..]);
        assert (forall i :: 0 <= i < |path| ==> KeptInPath(path[i]))
           <==> (forall i :: 0 <= i < |path[1..]| ==> KeptInPath(path[1..][i]));
      } else {
        assert |q| > |path|;
      }
    }
  }

  predicate IsSchemeChar(c: char) {
    IsAsciiAlnum(c) || c == '+' || c == '-' || c == '.'
  }

  /** Index of the first `:` or `/`, or the length when there is neither. */
  function FirstColonOrSlash(s: string): (p: nat)
    ensures p <= |s|
    ensures forall i :: 0 <= i < p ==> s[i] != ':' && s[i] != '/'
    ensures p < |s| ==> s[p] == ':' || s[p] == '/'
  {
    if s == [] || s[0] == ':' || s[0] == '/' then 0 else 1 + FirstColonOrSlash(s[1..])
  }

  /**
   * Whether re-reading the quoted text as a URI fails because its first
   * segment ends in `:` and so is read as a scheme: the scheme is empty,
   * does not start with a letter, holds a character other than letters,
   * digits, `+`, `-` and `.`, or nothing follows the `:`.
   */
  predicate SchemeRejected(s: string) {
    var p := FirstColonOrSlash(s);
    p < |s| && s[p] == ':' &&
    (p == 0 || !IsAsciiAlpha(s[0]) || (exists i :: 1 <= i < p && !IsSchemeChar(s[i])) || p == |s| - 1)
  }

  /**
   * Where `java.net.URI` starts reading a hierarchical part: right after a
   * scheme's `:` when a `/` follows it, at the start when there is no
   * scheme, and nowhere (`None`) for an opaque `scheme:rest` text.
   */
  function HierarchicalStart(s: string): (h: Option<nat>)
    ensures h.Some? ==> h.value <= |s|
    ensures h == Some(0) <==> FirstColonOrSlash(s) == |s| || s[FirstColonOrSlash(s)] == '/'
  {
    var p := FirstColonOrSlash(s);
    if p < |s| && s[p] == ':' then
      if p + 1 < |s| && s[p + 1] == '/' then Some(p + 1) else None
    else Some(0)
  }

  /** ASCII letters and digits only. */
  predicate IsAlnumText(s: string) {
    forall i :: 0 <= i < |s| ==> IsAsciiAlnum(s[i])
  }

  /** A host name label: a letter or digit, then letters, digits and `-`, not ending in `-`. */
  predicate IsDomainLabel(l: string) {
    && l != []
    && IsAsciiAlnum(l[0])
    && (forall i :: 0 <= i < |l| ==> IsAsciiAlnum(l[i]) || l[i] == '-')
    && l[|l| - 1] != '-'
  }

  /**
   * A host name as `java.net.URI` reads one: labels separated by single
   * dots, with one optional trailing dot; when there are several labels the
   * last one starts with a letter.
   */
  predicate IsHostname(h: string) {
    HostBody(h) != [] && AreHostLabels(SplitAll(HostBody(h), '.'))
  }

  /** A host name without its one optional trailing dot. */
  function HostBody(h: string): string {
    if h != [] && h[|h| - 1] == '.' then h[..|h| - 1] else h
  }

  /** Every label is a domain label, and the last of several starts with a letter. */
  predicate AreHostLabels(labels: seq<string>) {
    && (forall i :: 0 <= i < |labels| ==> IsDomainLabel(labels[i]))
    && (|labels| > 1 ==> IsAsciiAlpha(labels[|labels| - 1][0]))
  }

  /** One byte of a dotted IPv4 address: one or more digits worth at most 255. */
  predicate IsAddressByte(b: string) {
    b != [] && AllDigits(b) && DigitsValue(b) <= 255
  }

  /** A dotted IPv4 address: exactly four bytes. */
  predicate IsIPv4(h: string) {
    var parts := SplitAll(h, '.');
    |parts| == 4 && forall i :: 0 <= i < 4 ==> IsAddressByte(parts[i])
  }

  /** A port: ASCII digits, either none or worth at most `Integer.MAX_VALUE`. */
  predicate IsPortText(t: string) {
    AllDigits(t) && (t == [] || DigitsValue(t) <= IntMax)
  }

  /**
   * A server-based authority, `[userinfo@]host[:port]`: after the first
   * `@`, the text up to the first `:` is an IPv4 address or a host name,
   * and what follows that `:` is a port. Every character quoting keeps is
   * allowed in the user information.
   */
  predicate IsServerAuthority(a: string) {
    var hostPort := if '@' in a then SplitFirst(a, '@')[1] else a;
    var parts := SplitFirst(hostPort, ':');
    (IsIPv4(parts[0]) || IsHostname(parts[0])) && (|parts| == 2 ==> IsPortText(parts[1]))
  }

  /**
   * Whether re-reading the quoted text fails on its authority. The URI
   * constructor insists on a server-based authority, so once the
   * hierarchical part starts with `//`, the authority up to the next `/`
   * must be one; an empty authority is allowed only before more path.
   */
  predicate AuthorityRejected(s: string) {
    var h := HierarchicalStart(s);
    && h.Some?
    && StartsWith(s[h.value..], "//")
    && var rest := s[h.value + 2..];
       var authority := SplitFirst(rest, '/')[0];
       if authority == [] then rest == [] else !IsServerAuthority(authority)
  }

  /** The quoted text cannot be read back as a URI: a bad scheme or a bad authority. */
  predicate UriRejected(s: string) {
    SchemeRejected(s) || AuthorityRejected(s)
  }

  datatype UriError = IllegalArgument

  /**
   * `encodeURIPath`: the quoted path, or `IllegalArgumentException` when
   * `java.net.URI` cannot read the quoted text back.
   */
  function EncodeUriPath(path: string): (r: Result<string, UriError>)
    ensures r.Success? ==> r.value == QuotePath(path)
    ensures r.Failure? <==> UriRejected(QuotePath(path))
  {
    var q := QuotePath(path);
    if UriRejected(q) then Failure(IllegalArgument) else Success(q)
  }

  /** A character the Mesos fetcher refuses in a local path: backslash, `'`, NUL. */
  predicate FetcherRefuses(c: char) {
    c == '\\' || c == '\'' || c == '\U{0}'
  }

  /**
   * `checkURIForMarathon`: false for an empty path or one the Mesos fetcher
   * refuses; an `IllegalArgumentException` when the quoted path does not
   * read back as a URI (a `//` authority that is not a host, say);
   * otherwise true exactly when URI quoting leaves the path unchanged (the
   * fetcher does not undo `%XX` escapes).
   */
  function CheckUriForMarathon(path: string): (r: Result<bool, UriError>)
    ensures r == Success(true) <==>
              && path != []
              && (forall i :: 0 <= i < |path| ==> !FetcherRefuses(path[i]) && KeptInPath(path[i]))
              && !UriRejected(path)
    ensures r.Failure? <==>
              && path != []
              && (forall i :: 0 <= i < |path| ==> !FetcherRefuses(path[i]))
              && UriRejected(QuotePath(path))
  {
    QuotePathUnchangedIff(path);
    if path == [] then Success(false)
    else if '\\' in path || '\'' in path || '\U{0}' in path then Success(false)
    else
      match EncodeUriPath(path)
      case Failure(e) => Failure(e)
      case Success(q) => Success(q == path)
  }

  /** Every character is one quoting keeps. */
  predicate AllKept(s: string) {
    forall i :: 0 <= i < |s| ==> KeptInPath(s[i])
  }

  /** A path made of characters quoting keeps is its own quoted form. */
  lemma KeptPathQuotedAsItself(path: string)
    requires AllKept(path)
    ensures QuotePath(path) == path
  {
    QuotePathUnchangedIff(path);
  }

  lemma AllKeptConcat(a: string, b: string)
    ensures AllKept(a + b) <==> AllKept(a) && AllKept(b)
  {
    if AllKept(a) && AllKept(b) {
      forall i | |a| <= i < |a + b|
        ensures KeptInPath((a + b)[i])
      {
        assert (a + b)[i] == b[i - |a|];
      }
    }
    if AllKept(a + b) {
      forall i | 0 <= i < |a|
        ensures KeptInPath(a[i])
      {
        assert a[i] == (a + b)[i];
      }
      forall i | 0 <= i < |b|
        ensures KeptInPath(b[i])
      {
        assert b[i] == (a + b)[i + |a|];
      }
    }
  }

  /** Text of letters and digits holds none of the authority's delimiters. */
  lemma NoneOfInAlnum(s: string)
    requires IsAlnumText(s)
    ensures '/' !in s && '@' !in s && ':' !in s && '.' !in s && '_' !in s
  {
  }

  lemma AlnumKept(s: string)
    requires IsAlnumText(s)
    ensures AllKept(s)
  {
  }

  /** After a leading `//`, the authority up to the next `/` decides. */
  lemma DoubleSlashAuthority(rest: string)
    ensures AuthorityRejected("//" + rest) <==>
              var a := SplitFirst(rest, '/')[0];
              if a == [] then rest == [] else !IsServerAuthority(a)
  {
    var q := "//" + rest;
    assert q[0] == '/';
    assert FirstColonOrSlash(q) == 0;
    assert q[0..] == q && q[2..] == rest;
  }

  /** An authority with no user information and no port is just its host. */
  lemma HostOnlyAuthority(a: string)
    requires '@' !in a && ':' !in a
    ensures IsServerAuthority(a) <==> IsIPv4(a) || IsHostname(a)
  {
    SplitWithoutDelimiter(a, ':');
  }

  /** A host name without dots is a single domain label. */
  lemma HostnameOneLabel(h: string)
    requires '.' !in h
    ensures IsHostname(h) <==> IsDomainLabel(h)
  {
    if h != [] {
      assert h[|h| - 1] != '.' by { assert h[|h| - 1] in h; }
      SplitWithoutDelimiter(h, '.');
      assert AreHostLabels([h]) <==> IsDomainLabel([h][0]);
    }
  }

  /**
   * `//` followed by one bare label (no user, port, dot or further path)
   * is accepted exactly when the label is a domain label.
   */
  lemma OneLabelAuthority(a: string)
    requires a != [] && '/' !in a && '@' !in a && ':' !in a && '.' !in a
    ensures AuthorityRejected("//" + a) <==> !IsDomainLabel(a)
  {
    DoubleSlashAuthority(a);
    SplitWithoutDelimiter(a, '/');
    SplitWithoutDelimiter(a, '.');
    HostOnlyAuthority(a);
    HostnameOneLabel(a);
  }

  /** `//` alone names no authority and has no path after it. */
  lemma EmptyAuthorityRejected()
    ensures EncodeUriPath("//").Failure?
  {
    KeptPathQuotedAsItself("//");
    DoubleSlashAuthority([]);
    assert "//" + [] == "//";
  }

  /** `//`, letters and digits, one kept separator and more letters and digits are quoted as themselves. */
  lemma SeparatedAlnumKept(p: string, c: char, q: string)
    requires IsAlnumText(p) && IsAlnumText(q) && KeptInPath(c)
    ensures AllKept(p + [c] + q)
    ensures QuotePath("//" + (p + [c] + q)) == "//" + (p + [c] + q)
  {
    AlnumKept(p);
    AlnumKept(q);
    AllKeptConcat(p, [c]);
    AllKeptConcat(p + [c], q);
    AllKeptConcat("//", p + [c] + q);
    KeptPathQuotedAsItself("//" + (p + [c] + q));
  }

  /** `_` is not allowed in a host name, so `//a_b` is refused. */
  lemma UnderscoreHostRejected(p: string, q: string)
    requires IsAlnumText(p) && IsAlnumText(q)
    ensures EncodeUriPath("//" + p + "_" + q).Failure?
  {
    var a := p + "_" + q;
    assert "//" + p + "_" + q == "//" + a;
    SeparatedAlnumKept(p, '_', q);
    UnderscoreLabel(p, q);
    OneLabelAuthority(a);
  }

  /** `a_b` is one dot-free label with no `/`, `@` or `:`, and not a domain label. */
  lemma UnderscoreLabel(p: string, q: string)
    requires IsAlnumText(p) && IsAlnumText(q)
    ensures var a := p + "_" + q;
            && a != [] && '/' !in a && '@' !in a && ':' !in a && '.' !in a
            && !IsDomainLabel(a)
  {
    var a := p + "_" + q;
    assert a[|p|] == '_';
    assert !IsAsciiAlnum(a[|p|]) && a[|p|] != '-';
    NoneOfInAlnum(p);
    NoneOfInAlnum(q);
  }

  /** The same path makes `checkURIForMarathon` throw, and holds no `$`. */
  lemma UnderscoreHostCheckRaises(p: string, q: string)
    requires IsAlnumText(p) && IsAlnumText(q)
    ensures CheckUriForMarathon("//" + p + "_" + q).Failure?
    ensures '$' !in "//" + p + "_" + q
  {
    var path := "//" + p + "_" + q;
    UnderscoreHostRejected(p, q);
    UnderscorePathChars(p, q);
    assert UriRejected(QuotePath(path));
  }

  /** Every character of `//a_b` is one the fetcher takes, and none is `$`. */
  lemma UnderscorePathChars(p: string, q: string)
    requires IsAlnumText(p) && IsAlnumText(q)
    ensures var path := "//" + p + "_" + q;
            (forall i :: 0 <= i < |path| ==> !FetcherRefuses(path[i])) && '$' !in path
  {
    var path := "//" + p + "_" + q;
    forall i | 0 <= i < |path|
      ensures !FetcherRefuses(path[i]) && path[i] != '$'
    {
      if 2 <= i < 2 + |p| { assert path[i] == p[i - 2]; }
      else if i > 2 + |p| { assert path[i] == q[i - 3 - |p|]; }
    }
  }

  /** A port must be digits, so `//a:b` is refused. */
  lemma PortNotNumberRejected(h: string, port: string)
    requires IsAlnumText(h) && IsAlnumText(port) && !AllDigits(port)
    ensures EncodeUriPath("//" + h + ":" + port).Failure?
  {
    var a := h + ":" + port;
    assert "//" + h + ":" + port == "//" + a;
    SeparatedAlnumKept(h, ':', port);
    NoneOfInAlnum(h);
    NoneOfInAlnum(port);
    assert '/' !in a && '@' !in a;
    DoubleSlashAuthority(a);
    SplitWithoutDelimiter(a, '/');
    SplitFirstOf(h, ':', port);
  }

  /** After a scheme, `//` with nothing behind it is refused as well. */
  lemma SchemeThenEmptyAuthorityRejected()
    ensures EncodeUriPath("a://").Failure?
  {
    SchemeTextKept();
    SchemeThenEmptyAuthority();
  }

  lemma SchemeTextKept()
    ensures QuotePath("a://") == "a://"
  {
    KeptPathQuotedAsItself("a://");
  }

  lemma SchemeThenEmptyAuthority()
    ensures AuthorityRejected("a://")
  {
    var q := "a://";
    assert FirstColonOrSlash(q) == 1;
    assert HierarchicalStart(q) == Some(2);
    assert q[2..] == "//" && q[4..] == [];
  }

  /** A host name label and a port, then more path, are accepted unchanged. */
  lemma HostAndPortAccepted(h: string, port: string, rest: string)
    requires IsDomainLabel(h) && port != [] && AllDigits(port) && DigitsValue(port) <= IntMax
    requires AllKept(rest)
    ensures var s := "//" + h + ":" + port + "/" + rest;
              EncodeUriPath(s) == Success(s)
  {
    var hp := h + ":" + port;
    var a := hp + "/" + rest;
    assert "//" + h + ":" + port + "/" + rest == "//" + a;
    HostPortKept(h, port, rest);
    assert '/' !in hp && '@' !in hp && ':' !in h && '.' !in h;
    DoubleSlashAuthority(a);
    SplitFirstOf(hp, '/', rest);
    SplitFirstOf(h, ':', port);
    HostnameOneLabel(h);
  }

  /** `//label:digits/rest` is quoted as itself. */
  lemma HostPortKept(h: string, port: string, rest: string)
    requires IsDomainLabel(h) && AllDigits(port) && AllKept(rest)
    ensures var a := h + ":" + port + "/" + rest;
            QuotePath("//" + a) == "//" + a
  {
    var hp := h + ":" + port;
    var a := hp + "/" + rest;
    assert AllKept(h) && AllKept(port);
    AllKeptConcat(h, ":");
    AllKeptConcat(h + ":", port);
    AllKeptConcat(hp, "/");
    AllKeptConcat(hp + "/", rest);
    AllKeptConcat("//", a);
    KeptPathQuotedAsItself("//" + a);
  }

  /** Four address bytes joined by dots are an IPv4 address. */
  lemma DottedBytesAreIPv4(b: seq<string>)
    requires |b| == 4 && forall i :: 0 <= i < 4 ==> IsAddressByte(b[i])
    ensures IsIPv4(Join(b, '.'))
  {
    SplitAllJoin(b, '.');
  }

  /** An empty authority before more path is allowed. */
  lemma EmptyAuthorityBeforePathAccepted(rest: string)
    requires AllKept(rest)
    ensures EncodeUriPath("///" + rest) == Success("///" + rest)
  {
    AllKeptConcat("///", rest);
    KeptPathQuotedAsItself("///" + rest);
    assert "///" + rest == "//" + ("/" + rest);
    DoubleSlashAuthority("/" + rest);
    SplitFirstOf("", '/', rest);
  }

  /**
   * A path starting with a single `/` has no authority and no scheme, so
   * quoting it never fails.
   */
  lemma {:induction false} SingleSlashPathAccepted(path: string)
    requires path != [] && path[0] == '/'
    requires |path| == 1 || path[1] != '/'
    ensures EncodeUriPath(path) == Success(QuotePath(path))
  {
    var q := QuotePath(path);
    assert q == QuoteChar('/') + QuotePath(path[1..]);
    assert q[0] == '/';
    assert FirstColonOrSlash(q) == 0;
    if |path| > 1 {
      assert QuotePath(path[1..]) == QuoteChar(path[1]) + QuotePath(path[2..]);
      assert q[1] == QuoteChar(path[1])[0];
    } else {
      assert q == "/";
    }
    assert !StartsWith(q, "//");
  }

  // ---------------------------------------------------------------------
  // Dotted property paths
  // ---------------------------------------------------------------------

  /** `Map.get` on a Java map whose missing keys and JSON nulls are both `null`. */
  function JavaGet(entries: seq<(Value, Value)>, key: string): Value {
    match Lookup(entries, Str(key))
    case None => Null
    case Some(v) => v
  }

  /** `getProperty` fails when the path goes through something that is not a map. */
  datatype PropertyError = NotAMap(visited: string)

  /**
   * `getProperty(properties, visited, remain)`: a blank remaining path
   * returns the current object; otherwise the object must be a map, the
   * path is cut at its first `.`, and the lookup continues in the value
   * under the first segment.
   */
  function GetProperty(properties: Value, visited: string, remain: string): Result<Value, PropertyError>
    decreases |remain|
  {
    if IsBlank(remain) then Success(properties)
    else if !properties.Obj? then Failure(NotAMap(visited))
    else
      var parts := SplitFirst(remain, '.');
      var rest := if |parts| == 2 then parts[1] else [];
      var seen := if visited == [] then parts[0] else visited + "." + parts[0];
      GetProperty(JavaGet(properties.entries, parts[0]), seen, rest)
  }

  /** The reference walk: look each key up in turn in nested maps. */
  function Walk(v: Value, visited: string, keys: seq<string>): Result<Value, PropertyError>
    decreases |keys|
  {
    if keys == [] then Success(v)
    else if !v.Obj? then Failure(NotAMap(visited))
    else
      var seen := if visited == [] then keys[0] else visited + "." + keys[0];
      Walk(JavaGet(v.entries, keys[0]), seen, keys[1..])
  }

  /**
   * For keys that are not blank and hold no `.`, looking up the dotted path
   * is the walk through the keys, failures and the reported position
   * included.
   */
  lemma {:induction false} GetPropertyIsWalk(v: Value, visited: string, keys: seq<string>)
    requires |keys| >= 1
    requires forall i :: 0 <= i < |keys| ==> !IsBlank(keys[i]) && '.' !in keys[i]
    ensures GetProperty(v, visited, Join(keys, '.')) == Walk(v, visited, keys)
    decreases |keys|
  {
    var path := Join(keys, '.');
    assert !IsBlank(path) by {
      var j :| 0 <= j < |keys[0]| && !IsWhitespace(keys[0][j]);
      JoinStartsWithFirst(keys);
      assert path[j] == keys[0][j];
    }
    if v.Obj? {
      var parts := SplitFirst(path, '.');
      if |keys| == 1 {
        assert parts == [keys[0]];
        assert Walk(JavaGet(v.entries, keys[0]), if visited == [] then keys[0] else visited + "." + keys[0], [])
            == Success(JavaGet(v.entries, keys[0]));
        assert IsBlank([]);
      } else {
        assert path == keys[0] + ['.'] + Join(keys[1..], '.');
        SplitFirstAt(keys[0], Join(keys[1..], '.'));
        GetPropertyIsWalk(JavaGet(v.entries, keys[0]),
          if visited == [] then keys[0] else visited + "." + keys[0], keys[1..]);
      }
    }
  }

  lemma {:induction false} JoinStartsWithFirst(keys: seq<string>)
    requires |keys| >= 1
    ensures keys[0] <= Join(keys, '.')
  {
    if |keys| > 1 {
      assert Join(keys, '.') == keys[0] + (['.'] + Join(keys[1..], '.'));
    }
  }

  lemma SplitFirstAt(a: string, b: string)
    requires '.' !in a
    ensures SplitFirst(a + ['.'] + b, '.') == [a, b]
  {
    var s := a + ['.'] + b;
    assert s[|a|] == '.';
    var i := IndexOf(s, '.');
    assert i == |a| by {
      assert forall j :: 0 <= j < |a| ==> s[j] == a[j];
      assert forall j :: 0 <= j < i ==> s[..i][j] == s[j];
    }
    assert s[..i] == a;
    assert s[i + 1..] == b;
  }
}

=== FILE: deployment_config.dfy ===
/**
 * `DeploymentConfig` and its factory: which configuration reader a
 * deployment uses, the config files it was built from, the prefix of the
 * Azure resources it names, and the ports it publishes. The files arrive
 * as the documents the workspace listing found, in listing order; listing
 * and parsing are not part of the model.
 */
module DeploymentConfigs {
  import opened Wrappers
  import opened Constants
  import opened Documents
  import opened ServicePorts
  import MarathonConfig
  import SwarmConfig

  /** The three readers; each holds exactly the files it was built from. */
  datatype DeploymentConfig =
    | MarathonReader(files: seq<Value>)
    | KubernetesReader(files: seq<Value>)
    | SwarmReader(files: seq<Value>)

  /** `KubernetesDeploymentConfig.getResourcePrefix`. */
  const KubernetesPrefix: string := "k8s"

  /** `getResourcePrefix` of each reader. */
  function ResourcePrefix(c: DeploymentConfig): (p: string)
    ensures c.MarathonReader? ==> p == MarathonConfig.ResourcePrefix
    ensures c.KubernetesReader? ==> p == KubernetesPrefix
    ensures c.SwarmReader? ==> p == SwarmConfig.ResourcePrefix
  {
    match c
    case MarathonReader(_) => MarathonConfig.ResourcePrefix
    case KubernetesReader(_) => KubernetesPrefix
    case SwarmReader(_) => SwarmConfig.ResourcePrefix
  }

  /** The readers name their resources apart: no two kinds share a prefix. */
  lemma PrefixesIdentifyReader(a: DeploymentConfig, b: DeploymentConfig)
    ensures ResourcePrefix(a) == ResourcePrefix(b) <==> a.MarathonReader? == b.MarathonReader? && a.SwarmReader? == b.SwarmReader?
  {
    assert MarathonConfig.ResourcePrefix[0] == 'd' && KubernetesPrefix[0] == 'k' && SwarmConfig.ResourcePrefix[0] == 's';
  }

  /** Why a reader could not list its ports. */
  datatype ConfigError =
    | MarathonFormat(marathon: MarathonConfig.MarathonError)
    | SwarmFormat(swarm: SwarmConfig.PortError)

  /**
   * `getServicePorts`. Kubernetes publishes its service ports itself, so
   * its reader lists none and does not look at the files.
   */
  function ServicePortsOf(c: DeploymentConfig): (r: Result<seq<ServicePort>, ConfigError>)
    ensures c.KubernetesReader? ==> r == Success([])
    ensures c.MarathonReader? ==> (r.Success? <==> MarathonConfig.ServicePortsOf(c.files).Success?)
    ensures c.MarathonReader? && r.Success? ==> r.value == MarathonConfig.ServicePortsOf(c.files).value
    ensures c.SwarmReader? ==> (r.Success? <==> SwarmConfig.ServicePortsOf(c.files).Success?)
    ensures c.SwarmReader? && r.Success? ==> r.value == SwarmConfig.ServicePortsOf(c.files).value
  {
    match c
    case KubernetesReader(_) => Success([])
    case MarathonReader(files) =>
      (match MarathonConfig.ServicePortsOf(files)
       case Success(ports) => Success(ports)
       case Failure(e) => Failure(MarathonFormat(e)))
    case SwarmReader(files) =>
      match SwarmConfig.ServicePortsOf(files)
      case Success(ports) => Success(ports)
      case Failure(e) => Failure(SwarmFormat(e))
  }

  /** The Kubernetes reader's ports do not depend on its files. */
  lemma KubernetesIgnoresFiles(a: seq<Value>, b: seq<Value>)
    ensures ServicePortsOf(KubernetesReader(a)) == ServicePortsOf(KubernetesReader(b)) == Success([])
  {
  }

  // ---------------------------------------------------------------------
  // Factory
  // ---------------------------------------------------------------------

  datatype FactoryError =
    | NoConfigFilesFound
    | OrchestratorNotSupported(t: Orchestrator)

  /**
   * `Factory.build`: without any config file the build fails before the
   * type is looked at; DC/OS reads Marathon files, Kubernetes and Swarm
   * their own, and any other type is not supported. `files` is what the
   * workspace listing of the expanded pattern found.
   */
  function Build(t: Orchestrator, files: seq<Value>): (r: Result<DeploymentConfig, FactoryError>)
    ensures files == [] ==> r == Failure(NoConfigFilesFound)
    ensures files != [] && t == Custom ==> r == Failure(OrchestratorNotSupported(t))
    ensures r.Success? ==> r.value.files == files
    ensures r.Success? ==> (r.value.MarathonReader? <==> t == DCOS)
    ensures r.Success? ==> (r.value.KubernetesReader? <==> t == Kubernetes)
    ensures r.Success? ==> (r.value.SwarmReader? <==> t == Swarm)
  {
    if files == [] then Failure(NoConfigFilesFound)
    else
      match t
      case DCOS => Success(MarathonReader(files))
      case Kubernetes => Success(KubernetesReader(files))
      case Swarm => Success(SwarmReader(files))
      case Custom => Failure(OrchestratorNotSupported(t))
  }

  /** `Factory.buildForAKS`: an AKS cluster is always deployed with the Kubernetes reader. */
  function BuildForAks(files: seq<Value>): (r: Result<DeploymentConfig, FactoryError>)
    ensures files == [] ==> r == Failure(NoConfigFilesFound)
    ensures files != [] ==> r == Success(KubernetesReader(files))
  {
    if files == [] then Failure(NoConfigFilesFound) else Success(KubernetesReader(files))
  }

  /** The factory builds a reader exactly for files and a type with a reader, and it is the AKS reader for Kubernetes. */
  lemma BuildSucceedsIff(t: Orchestrator, files: seq<Value>)
    ensures Build(t, files).Success? <==> files != [] && t != Custom
    ensures t == Kubernetes ==> Build(t, files) == BuildForAks(files)
  {
  }

  /** The reader the factory builds names its resources after the orchestrator. */
  lemma BuiltPrefix(t: Orchestrator, files: seq<Value>)
    requires Build(t, files).Success?
    ensures ResourcePrefix(Build(t, files).value) == (if t == DCOS then "dcos" else if t == Kubernetes then "k8s" else "swarm")
  {
  }
}

=== FILE: deployment_context.dfy ===
/**
 * The configuration of one deployment step (`ACSDeploymentContext`): the
 * selected container service, stored as `name | type` so the page script can
 * see the type, how the name and the type are read back, the checks run
 * before a deployment, and the form checks of the secret name and the DC/OS
 * credentials path.
 */
module DeploymentContext {
  import opened Wrappers
  import opened JavaStrings
  import opened Constants
  import opened Forms
  import opened Seqs
  import DeployHelper

  // ---------------------------------------------------------------------
  // The `name | type` selector value
  // ---------------------------------------------------------------------

  /** The `IllegalArgumentException`s (and the one array-index error) of the readers. */
  datatype ArgumentError = BlankContainerService | BlankContainerServiceType | IndexOutOfBounds

  /**
   * `getContainerServiceName(containerService)`: the trimmed text before the
   * first `|`, or the whole trimmed text when there is none. A value made of
   * `|` only splits into no pieces at all, so reading the first piece fails.
   */
  function ContainerServiceName(cs: Option<string>): (r: Result<string, ArgumentError>)
    ensures IsBlankOrNull(cs) ==> r == Failure(BlankContainerService)
    ensures r.Failure? <==> IsBlankOrNull(cs) || forall i :: 0 <= i < |cs.value| ==> cs.value[i] == '|'
    ensures r.Success? ==> r.value == Trim(SplitFirst(cs.value, '|')[0])
    ensures r.Success? ==> '|' !in r.value
  {
    if IsBlankOrNull(cs) then Failure(BlankContainerService)
    else
      var parts := Split(cs.value, '|');
      if parts == [] then Failure(IndexOutOfBounds)
      else
        FirstPieceOfSplit(cs.value, '|');
        TrimIsInfix(parts[0]);
        Success(Trim(parts[0]))
  }

  /** Trimming only removes characters, so it cannot introduce one. */
  lemma TrimIsInfix(s: string)
    ensures forall c :: c in Trim(s) ==> c in s
  {
    var t := Trim(s);
    if t != [] {
      var a := LeadingTrimmable(s);
      forall c | c in t ensures c in s {
        var k :| 0 <= k < |t| && t[k] == c;
        assert s[a + k] == c;
      }
    }
  }

  /**
   * `getOrchestratorType(containerService)`: `split("\\|")` must give exactly
   * two pieces (trailing empty pieces are dropped) and the second must not
   * be empty once trimmed.
   */
  function OrchestratorTypeName(cs: Option<string>): (r: Result<string, ArgumentError>)
    ensures r.Failure? ==> r.error == BlankContainerServiceType
    ensures r.Success? <==>
              && !IsBlankOrNull(cs)
              && |SplitAll(cs.value, '|')| >= 2
              && Trim(SplitAll(cs.value, '|')[1]) != []
              && forall i :: 2 <= i < |SplitAll(cs.value, '|')| ==> SplitAll(cs.value, '|')[i] == []
    ensures r.Success? ==> r.value == Trim(SplitAll(cs.value, '|')[1]) && r.value != [] && '|' !in r.value
    ensures cs.Some? && '|' !in cs.value ==> r.Failure?
  {
    if IsBlankOrNull(cs) then Failure(BlankContainerServiceType)
    else
      var parts := Split(cs.value, '|');
      SplitTwoPieces(cs.value, '|');
      if |parts| == 2 && Trim(parts[1]) != [] then
        TrimIsInfix(parts[1]);
        Success(Trim(parts[1]))
      else Failure(BlankContainerServiceType)
  }

  /**
   * `getOrchestratorType()` of a configured step: the orchestrator the type
   * text names, or `null` (here `None`) when it names none.
   */
  function ConfiguredOrchestrator(cs: Option<string>): (r: Result<Option<Orchestrator>, ArgumentError>)
    ensures r.Failure? <==> OrchestratorTypeName(cs).Failure?
    ensures r.Success? && r.value.Some? ==>
              EqualsIgnoreCase(Name(r.value.value), OrchestratorTypeName(cs).value)
  {
    var name :- OrchestratorTypeName(cs);
    Success(FromString(Some(name)))
  }

  /** The selector value the drop-down offers for a service: `String.format("%s | %s", name, type)`. */
  function SelectorValue(name: string, typeName: string): string {
    name + " | " + typeName
  }

  /**
   * Reading a selector value back gives the trimmed name and the trimmed
   * type, provided neither holds a `|` and the type is not blank.
   */
  lemma SelectorRoundTrip(name: string, typeName: string)
    requires '|' !in name && '|' !in typeName
    requires Trim(typeName) != []
    ensures ContainerServiceName(Some(SelectorValue(name, typeName))) == Success(Trim(name))
    ensures OrchestratorTypeName(Some(SelectorValue(name, typeName))) == Success(Trim(typeName))
  {
    SelectorPieces(name, typeName);
    TrimSpaceAfter(name);
    TrimSpaceBefore(typeName);
  }

  lemma TrimSpaceAfter(s: string)
    ensures Trim(s + " ") == Trim(s)
  {
    TrimPadded([], s, " ");
    assert [] + s + " " == s + " ";
  }

  lemma TrimSpaceBefore(s: string)
    ensures Trim(" " + s) == Trim(s)
  {
    TrimPadded(" ", s, []);
    assert " " + s + [] == " " + s;
  }

  /** How `split` and `split(.., 2)` cut a selector value. */
  lemma SelectorPieces(name: string, typeName: string)
    requires '|' !in name && '|' !in typeName
    ensures SplitAll(SelectorValue(name, typeName), '|') == [name + " ", " " + typeName]
    ensures Split(SelectorValue(name, typeName), '|') == [name + " ", " " + typeName]
    ensures SplitFirst(SelectorValue(name, typeName), '|')[0] == name + " "
    ensures !IsBlank(SelectorValue(name, typeName))
  {
    var v := SelectorValue(name, typeName);
    var left := name + " ";
    var right := " " + typeName;
    assert v == Join([left, right], '|');
    SplitAllJoin([left, right], '|');
    assert v[|left|] == '|';
    assert !IsWhitespace(v[|left|]);
    FirstPieceOfSplit(v, '|');
  }

  /** A trimmed text with no `|` is read back as itself, in either position. */
  lemma OrchestratorNamesTrimmed(t: Orchestrator)
    ensures Trim(Name(t)) == Name(t) && Name(t) != [] && '|' !in Name(t)
  {
    TrimKeepsUntrimmedEnds(Name(t));
  }

  /**
   * The values `doFillContainerServiceItems` lists: each supported container
   * service as `name | type`, then each AKS cluster as `name | AKS`. The
   * Azure listing itself is an input.
   */
  function ContainerServiceItems(services: seq<(string, Orchestrator)>, aksClusters: seq<string>): (items: seq<string>)
    ensures |items| <= |services| + |aksClusters|
    ensures forall n :: n in aksClusters ==> SelectorValue(n, Aks) in items
    ensures forall i :: 0 <= i < |services| && Supported(services[i].1) ==>
              SelectorValue(services[i].0, Name(services[i].1)) in items
  {
    var aks := seq(|aksClusters|, i requires 0 <= i < |aksClusters| => SelectorValue(aksClusters[i], Aks));
    assert forall i :: 0 <= i < |aksClusters| ==> aks[i] == SelectorValue(aksClusters[i], Aks);
    SupportedItems(services) + aks
  }

  function SupportedItems(services: seq<(string, Orchestrator)>): (items: seq<string>)
    ensures |items| <= |services|
    ensures forall i :: 0 <= i < |services| && Supported(services[i].1) ==>
              SelectorValue(services[i].0, Name(services[i].1)) in items
    ensures forall v :: v in items ==>
              exists i :: 0 <= i < |services| && Supported(services[i].1) && v == SelectorValue(services[i].0, Name(services[i].1))
  {
    if services == [] then []
    else
      var rest := SupportedItems(services[1..]);
      var t := services[0].1;
      if Supported(t) then [SelectorValue(services[0].0, Name(t))] + rest else rest
  }

  /**
   * Every item offered for a container service whose name holds no `|` is
   * read back as that service's name and its orchestrator.
   */
  lemma ListedServiceReadsBack(name: string, t: Orchestrator)
    requires '|' !in name
    ensures ContainerServiceName(Some(SelectorValue(name, Name(t)))) == Success(Trim(name))
    ensures ConfiguredOrchestrator(Some(SelectorValue(name, Name(t)))) == Success(Some(t))
  {
    OrchestratorNamesTrimmed(t);
    SelectorRoundTrip(name, Name(t));
    FromStringName(t, Name(t));
  }

  // ---------------------------------------------------------------------
  // The configured step
  // ---------------------------------------------------------------------

  /** A Docker registry endpoint: an optional URL and an optional credentials id. */
  datatype RegistryEndpoint = RegistryEndpoint(url: Option<string>, credentialsId: Option<string>)

  /** The fields of the step the checks and the commands read. */
  datatype Step = Step(
    azureCredentialsId: Option<string>,
    resourceGroupName: string,
    containerService: string,
    sshCredentialsId: Option<string>,
    configFilePaths: string,
    secretNamespace: Option<string>,
    containerRegistryCredentials: seq<RegistryEndpoint>)

  /** The constructor: the resource group, the service and the file patterns are stored trimmed. */
  function NewStep(azureCredentialsId: Option<string>, resourceGroupName: Option<string>,
                   containerService: Option<string>, sshCredentialsId: Option<string>,
                   configFilePaths: Option<string>): (s: Step)
    ensures Trim(s.resourceGroupName) == s.resourceGroupName
    ensures Trim(s.containerService) == s.containerService
    ensures Trim(s.configFilePaths) == s.configFilePaths
    ensures s.azureCredentialsId == azureCredentialsId && s.sshCredentialsId == sshCredentialsId
    ensures s.secretNamespace.None? && s.containerRegistryCredentials == []
  {
    TrimToEmptyTrimmed(resourceGroupName);
    TrimToEmptyTrimmed(containerService);
    TrimToEmptyTrimmed(configFilePaths);
    Step(azureCredentialsId, TrimToEmpty(resourceGroupName), TrimToEmpty(containerService),
         sshCredentialsId, TrimToEmpty(configFilePaths), None, [])
  }

  // ---------------------------------------------------------------------
  // Secret namespace
  // ---------------------------------------------------------------------

  /** `getDefaultSecretNamespace`. */
  const DefaultSecretNamespace: string := "default"

  /** `setSecretNamespace`: the default itself is stored as `null`, anything else trimmed. */
  function SetSecretNamespace(step: Step, ns: Option<string>): (r: Step)
    ensures ns == Some(DefaultSecretNamespace) ==> r.secretNamespace.None?
    ensures ns != Some(DefaultSecretNamespace) ==> r.secretNamespace == Some(TrimToEmpty(ns))
    ensures r.(secretNamespace := step.secretNamespace) == step
  {
    step.(secretNamespace := if ns == Some(DefaultSecretNamespace) then None else Some(TrimToEmpty(ns)))
  }

  /** `getSecretNamespace`: the default whenever the stored value is blank. */
  function SecretNamespace(step: Step): (ns: string)
    ensures !IsBlank(ns)
    ensures IsBlankOrNull(step.secretNamespace) ==> ns == DefaultSecretNamespace
    ensures !IsBlankOrNull(step.secretNamespace) ==> ns == step.secretNamespace.value
  {
    assert !IsWhitespace(DefaultSecretNamespace[0]);
    if IsBlankOrNull(step.secretNamespace) then DefaultSecretNamespace else step.secretNamespace.value
  }

  /**
   * What the getter returns after the setter: the trimmed value, or the
   * default when that is blank.
   */
  lemma SecretNamespaceSetGet(step: Step, ns: Option<string>)
    ensures SecretNamespace(SetSecretNamespace(step, ns)) ==
              if IsBlank(TrimToEmpty(ns)) then DefaultSecretNamespace else TrimToEmpty(ns)
  {
    if ns == Some(DefaultSecretNamespace) {
      TrimKeepsUntrimmedEnds(DefaultSecretNamespace);
      assert !IsWhitespace(DefaultSecretNamespace[0]);
    }
  }

  /** Saving the value the page shows keeps the value the page shows. */
  lemma SecretNamespaceStable(step: Step, ns: Option<string>)
    ensures var s1 := SetSecretNamespace(step, ns);
            SecretNamespace(SetSecretNamespace(s1, Some(SecretNamespace(s1)))) == SecretNamespace(s1)
  {
    var s1 := SetSecretNamespace(step, ns);
    ShownIsTrimmed(step, ns);
    TrimmedNamespaceKept(s1, SecretNamespace(s1));
  }

  /** The namespace the getter shows is already trimmed. */
  lemma ShownIsTrimmed(step: Step, ns: Option<string>)
    ensures Trim(SecretNamespace(SetSecretNamespace(step, ns))) == SecretNamespace(SetSecretNamespace(step, ns))
  {
    TrimKeepsUntrimmedEnds(DefaultSecretNamespace);
    if ns.Some? && ns != Some(DefaultSecretNamespace) {
      TrimIdempotent(ns.value);
    }
  }

  /** Setting a trimmed, non-blank namespace and reading it back gives it unchanged. */
  lemma TrimmedNamespaceKept(step: Step, v: string)
    requires !IsBlank(v) && Trim(v) == v
    ensures SecretNamespace(SetSecretNamespace(step, Some(v))) == v
  {
  }

  // ---------------------------------------------------------------------
  // Registry credentials
  // ---------------------------------------------------------------------

  function SchemeRun(s: string): (k: nat)
    ensures k <= |s|
    ensures forall i :: 0 <= i < k ==> DeployHelper.IsSchemeChar(s[i])
    ensures k < |s| ==> !DeployHelper.IsSchemeChar(s[k])
  {
    if s == [] || !DeployHelper.IsSchemeChar(s[0]) then 0 else 1 + SchemeRun(s[1..])
  }

  /**
   * `URI_SCHEME_PREFIX.matcher(url).find()`: the URL starts with a URI
   * scheme (a letter, then letters, digits, `+`, `-` or `.`) and `://`.
   */
  predicate HasSchemePrefix(url: string) {
    |url| > 0 && DeployHelper.IsAsciiAlpha(url[0]) &&
    var k := 1 + SchemeRun(url[1..]);
    k + 3 <= |url| && url[k..k + 3] == "://"
  }

  lemma HttpHasSchemePrefix(u: string)
    ensures HasSchemePrefix("http://" + u)
  {
    var full := "http://" + u;
    assert full[1..][..3] == "ttp";
    assert SchemeRun(full[1..]) == 3 by {
      assert full[1..][3] == ':';
    }
  }

  /** A URL as stored: trimmed, `null` when blank, `http://` added when there is no scheme. */
  function NormalizeUrl(url: Option<string>): (r: Option<string>)
    ensures r.None? <==> TrimToNull(url).None?
    ensures r.Some? ==> HasSchemePrefix(r.value) && Trim(r.value) == r.value
    ensures r.Some? && HasSchemePrefix(TrimToEmpty(url)) ==> r.value == TrimToEmpty(url)
    ensures r.Some? && !HasSchemePrefix(TrimToEmpty(url)) ==> r.value == "http://" + TrimToEmpty(url)
  {
    match TrimToNull(url)
    case None => None
    case Some(u) =>
      TrimIdempotent(TrimToEmpty(url));
      if HasSchemePrefix(u) then Some(u)
      else
        HttpHasSchemePrefix(u);
        TrimKeepsUntrimmedEnds("http://" + u);
        Some("http://" + u)
  }

  /** An endpoint as the step stores it. */
  predicate IsStored(e: RegistryEndpoint) {
    && e.credentialsId.Some? && e.credentialsId.value != []
    && Trim(e.credentialsId.value) == e.credentialsId.value
    && (e.url.Some? ==> HasSchemePrefix(e.url.value) && Trim(e.url.value) == e.url.value)
  }

  /** The endpoint kept for one input endpoint, or `None` when it has no credentials. */
  function NormalizeEndpoint(e: RegistryEndpoint): (r: Option<RegistryEndpoint>)
    ensures r.None? <==> TrimToNull(e.credentialsId).None?
    ensures r.Some? ==> IsStored(r.value) && r.value.url == NormalizeUrl(e.url)
    ensures IsStored(e) ==> r == Some(e)
  {
    match TrimToNull(e.credentialsId)
    case None => None
    case Some(id) =>
      TrimIdempotent(TrimToEmpty(e.credentialsId));
      assert e.url.Some? && HasSchemePrefix(e.url.value) ==> e.url.value != [];
      Some(RegistryEndpoint(NormalizeUrl(e.url), Some(id)))
  }

  /** The endpoint kept for one input endpoint: none, or the normalized one. */
  function Kept(e: RegistryEndpoint): (r: seq<RegistryEndpoint>)
    ensures |r| <= 1
    ensures |r| == 1 <==> TrimToNull(e.credentialsId).Some?
    ensures |r| == 1 ==> IsStored(r[0])
    ensures IsStored(e) ==> r == [e]
  {
    match NormalizeEndpoint(e)
    case None => []
    case Some(x) => [x]
  }

  /**
   * `setContainerRegistryCredentials`: endpoints without a credentials id
   * are dropped, the others kept in order with the id trimmed and the URL
   * normalized.
   */
  function NormalizeEndpoints(es: seq<RegistryEndpoint>): seq<RegistryEndpoint> {
    FlatMap(Kept, es)
  }

  /** Normalizing a list is normalizing its parts: the order is kept and each endpoint is handled alone. */
  lemma NormalizeEndpointsAppend(a: seq<RegistryEndpoint>, b: seq<RegistryEndpoint>)
    ensures NormalizeEndpoints(a + b) == NormalizeEndpoints(a) + NormalizeEndpoints(b)
  {
    FlatMapAppend(Kept, a, b);
  }

  /** Every endpoint kept is in stored form; an endpoint is kept exactly when it has a credentials id. */
  lemma NormalizedAreStored(es: seq<RegistryEndpoint>)
    ensures forall e :: e in NormalizeEndpoints(es) ==> IsStored(e)
    ensures |NormalizeEndpoints(es)| <= |es|
    ensures |NormalizeEndpoints(es)| == |es| <==> forall i :: 0 <= i < |es| ==> TrimToNull(es[i].credentialsId).Some?
  {
    NormalizedStored(es);
    NormalizedCount(es);
  }

  lemma {:induction false} NormalizedStored(es: seq<RegistryEndpoint>)
    ensures forall e :: e in NormalizeEndpoints(es) ==> IsStored(e)
    decreases |es|
  {
    if es != [] {
      NormalizedStored(es[1..]);
      assert NormalizeEndpoints(es) == Kept(es[0]) + NormalizeEndpoints(es[1..]);
    }
  }

  /** Endpoints that have a credentials id, in the list. */
  predicate AllHaveCredentials(es: seq<RegistryEndpoint>) {
    forall i :: 0 <= i < |es| ==> TrimToNull(es[i].credentialsId).Some?
  }

  lemma {:induction false} NormalizedCount(es: seq<RegistryEndpoint>)
    ensures |NormalizeEndpoints(es)| <= |es|
    ensures |NormalizeEndpoints(es)| == |es| <==> AllHaveCredentials(es)
    decreases |es|
  {
    if es != [] {
      NormalizedCount(es[1..]);
      assert |NormalizeEndpoints(es)| == |Kept(es[0])| + |NormalizeEndpoints(es[1..])|;
      AllHaveCredentialsCons(es);
    }
  }

  lemma AllHaveCredentialsCons(es: seq<RegistryEndpoint>)
    requires es != []
    ensures AllHaveCredentials(es) <==> TrimToNull(es[0].credentialsId).Some? && AllHaveCredentials(es[1..])
  {
    assert forall i :: 1 <= i < |es| ==> es[i] == es[1..][i - 1];
  }

  /** A list of stored endpoints is stored as it is. */
  lemma StoredEndpointsUnchanged(es: seq<RegistryEndpoint>)
    requires forall i :: 0 <= i < |es| ==> IsStored(es[i])
    ensures NormalizeEndpoints(es) == es
  {
    FlatMapIdentity(Kept, es);
  }

  /** Storing the stored list again changes nothing. */
  lemma NormalizeEndpointsIdempotent(es: seq<RegistryEndpoint>)
    ensures NormalizeEndpoints(NormalizeEndpoints(es)) == NormalizeEndpoints(es)
  {
    NormalizedAreStored(es);
    var r := NormalizeEndpoints(es);
    assert forall i :: 0 <= i < |r| ==> r[i] in r;
    StoredEndpointsUnchanged(r);
  }

  // ---------------------------------------------------------------------
  // Checks before a deployment
  // ---------------------------------------------------------------------

  /** The messages `validate` returns. */
  datatype ValidationError =
    | MissingCredentials
    | MissingResourceGroup
    | MissingContainerServiceName
    | TypeNotDetermined(cause: ArgumentError)
    | MissingSshCredentials
    | OrchestratorNotSupported(typeName: string)

  /** A drop-down value that selects nothing: blank or the `*` placeholder. */
  predicate Unselected(s: Option<string>) {
    IsBlankOrNull(s) || s == Some(InvalidOption)
  }

  /** The credentials, the resource group and the container service are all chosen. */
  predicate SelectionComplete(subscriptionId: Option<string>, resourceGroup: Option<string>,
                              containerService: Option<string>) {
    !IsBlankOrNull(subscriptionId) && !Unselected(resourceGroup) && !Unselected(containerService)
  }

  /** The configuration passes every check, written as one condition. */
  predicate Deployable(subscriptionId: Option<string>, resourceGroup: Option<string>,
                       containerService: Option<string>, sshCredentialsId: Option<string>, sshFound: bool) {
    && !IsBlankOrNull(subscriptionId)
    && !Unselected(resourceGroup)
    && !Unselected(containerService)
    && OrchestratorTypeName(containerService).Success?
    && var typeName := OrchestratorTypeName(containerService).value;
       (typeName == Aks
        || (!IsBlankOrNull(sshCredentialsId) && sshFound
            && FromString(Some(typeName)).Some? && Supported(FromString(Some(typeName)).value)))
  }

  /**
   * `validate`: the message of the first check that fails, or `null`.
   * `subscriptionId` is the subscription of the service principal the
   * credentials id resolves to; `sshFound` says whether the SSH credentials
   * id resolves to a key.
   */
  function Validate(subscriptionId: Option<string>, resourceGroup: Option<string>,
                    containerService: Option<string>, sshCredentialsId: Option<string>, sshFound: bool)
    : (r: Option<ValidationError>)
    ensures r.None? <==> Deployable(subscriptionId, resourceGroup, containerService, sshCredentialsId, sshFound)
    ensures r == Some(MissingCredentials) <==> IsBlankOrNull(subscriptionId)
    ensures r == Some(MissingResourceGroup) <==> !IsBlankOrNull(subscriptionId) && Unselected(resourceGroup)
    ensures r == Some(MissingContainerServiceName) <==>
              !IsBlankOrNull(subscriptionId) && !Unselected(resourceGroup) && Unselected(containerService)
    ensures (r.Some? && r.value.TypeNotDetermined?) <==>
              !IsBlankOrNull(subscriptionId) && !Unselected(resourceGroup) && !Unselected(containerService)
              && OrchestratorTypeName(containerService).Failure?
    ensures r == Some(MissingSshCredentials) <==>
              SelectionComplete(subscriptionId, resourceGroup, containerService)
              && OrchestratorTypeName(containerService).Success?
              && OrchestratorTypeName(containerService).value != Aks
              && (IsBlankOrNull(sshCredentialsId) || !sshFound)
    ensures (r.Some? && r.value.OrchestratorNotSupported?) <==>
              SelectionComplete(subscriptionId, resourceGroup, containerService)
              && OrchestratorTypeName(containerService).Success?
              && OrchestratorTypeName(containerService).value != Aks
              && !IsBlankOrNull(sshCredentialsId) && sshFound
              && forall t :: EqualsIgnoreCase(Name(t), OrchestratorTypeName(containerService).value) ==> !Supported(t)
    ensures r.Some? && r.value.OrchestratorNotSupported? ==>
              Success(r.value.typeName) == OrchestratorTypeName(containerService)
  {
    if IsBlankOrNull(subscriptionId) then Some(MissingCredentials)
    else if Unselected(resourceGroup) then Some(MissingResourceGroup)
    else if Unselected(containerService) then Some(MissingContainerServiceName)
    else
      match OrchestratorTypeName(containerService)
      case Failure(e) => Some(TypeNotDetermined(e))
      case Success(typeName) =>
        if typeName == Aks then None
        else if IsBlankOrNull(sshCredentialsId) || !sshFound then Some(MissingSshCredentials)
        else
          var t := FromString(Some(typeName));
          if t.Some? && Supported(t.value) then None
          else
            assert forall u :: EqualsIgnoreCase(Name(u), typeName) ==> !Supported(u) by {
              forall u | EqualsIgnoreCase(Name(u), typeName) ensures !Supported(u) {
                FromStringName(u, typeName);
              }
            }
            Some(OrchestratorNotSupported(typeName))
  }

  /** An AKS cluster needs no SSH credentials: the outcome does not depend on them. */
  lemma AksIgnoresSsh(subscriptionId: Option<string>, resourceGroup: Option<string>, name: string,
                      ssh1: Option<string>, found1: bool, ssh2: Option<string>, found2: bool)
    requires '|' !in name
    ensures Validate(subscriptionId, resourceGroup, Some(SelectorValue(name, Aks)), ssh1, found1)
         == Validate(subscriptionId, resourceGroup, Some(SelectorValue(name, Aks)), ssh2, found2)
  {
    TrimKeepsUntrimmedEnds(Aks);
    SelectorRoundTrip(name, Aks);
    AksTypeIgnoresSsh(subscriptionId, resourceGroup, Some(SelectorValue(name, Aks)), ssh1, found1, ssh2, found2);
  }

  lemma AksTypeIgnoresSsh(subscriptionId: Option<string>, resourceGroup: Option<string>, cs: Option<string>,
                          ssh1: Option<string>, found1: bool, ssh2: Option<string>, found2: bool)
    requires OrchestratorTypeName(cs) == Success(Aks)
    ensures Validate(subscriptionId, resourceGroup, cs, ssh1, found1) == Validate(subscriptionId, resourceGroup, cs, ssh2, found2)
  {
  }

  // ---------------------------------------------------------------------
  // Form checks
  // ---------------------------------------------------------------------

  datatype FormMessage =
    | ConfigFilePathsRequired
    | SecretNameTooLong
    | SecretNameNotMatch
    | OnlyAbsolutePathAllowed
    | UriNotAccepted

  /** `doCheckConfigFilePaths`: only a missing or empty value is an error. */
  function CheckConfigFilePaths(value: Option<string>): (r: FormValidation<FormMessage>)
    ensures r.Error? <==> value.None? || value.value == []
    ensures r.Ok? <==> !r.Error?
  {
    if value.None? || value.value == [] then Error(ConfigFilePathsRequired) else Ok
  }

  /** Longest Kubernetes object name. */
  const NameLengthLimit: nat := 253

  predicate IsLowerAlnum(c: char) {
    ('a' <= c <= 'z') || ('0' <= c <= '9')
  }

  /** One DNS label of the pattern: `[a-z0-9]([-a-z0-9]*[a-z0-9])?`. */
  predicate IsNameLabel(l: string) {
    && l != []
    && IsLowerAlnum(l[0]) && IsLowerAlnum(l[|l| - 1])
    && forall i :: 0 <= i < |l| ==> IsLowerAlnum(l[i]) || l[i] == '-'
  }

  /**
   * `KUBERNETES_NAME_PATTERN` (a DNS-1123 subdomain): one or more labels
   * separated by single dots.
   */
  predicate MatchesNamePattern(s: string) {
    forall i :: 0 <= i < |SplitAll(s, '.')| ==> IsNameLabel(SplitAll(s, '.')[i])
  }

  /**
   * The same pattern, character by character: lower-case letters, digits,
   * `-` and `.`, starting and ending with a letter or digit, and every dot
   * between two letters or digits.
   */
  predicate NameCharsWellPlaced(s: string) {
    && s != []
    && IsLowerAlnum(s[0]) && IsLowerAlnum(s[|s| - 1])
    && (forall i :: 0 <= i < |s| ==> IsLowerAlnum(s[i]) || s[i] == '-' || s[i] == '.')
    && (forall i :: 0 < i < |s| - 1 && s[i] == '.' ==> IsLowerAlnum(s[i - 1]) && IsLowerAlnum(s[i + 1]))
  }

  /** The label reading and the character reading of the pattern agree. */
  lemma {:induction false} NamePatternIff(s: string)
    ensures MatchesNamePattern(s) <==> NameCharsWellPlaced(s)
    decreases |s|
  {
    if '.' !in s {
      assert SplitAll(s, '.') == [s];
    } else {
      var i := IndexOf(s, '.');
      var head := s[..i];
      var tail := s[i + 1..];
      SplitAllAtFirst(s, '.');
      NamePatternIff(tail);
      PatternAtFirstDot(s, head, tail);
      WellPlacedAtFirstDot(head, tail);
    }
  }

  /** Splitting at every `d` is the piece before the first `d`, then the split of the rest. */
  lemma SplitAllAtFirst(s: string, d: char)
    requires d in s
    ensures SplitAll(s, d) == [s[..IndexOf(s, d)]] + SplitAll(s[IndexOf(s, d) + 1..], d)
    ensures s == s[..IndexOf(s, d)] + [d] + s[IndexOf(s, d) + 1..]
    ensures d !in s[..IndexOf(s, d)]
  {
    CutAt(s, IndexOf(s, d));
  }

  lemma PatternAtFirstDot(s: string, head: string, tail: string)
    requires SplitAll(s, '.') == [head] + SplitAll(tail, '.')
    ensures MatchesNamePattern(s) <==> IsNameLabel(head) && MatchesNamePattern(tail)
  {
    var all := SplitAll(s, '.');
    assert all[0] == head;
    assert forall k :: 1 <= k < |all| ==> all[k] == SplitAll(tail, '.')[k - 1];
  }

  lemma WellPlacedAtFirstDot(head: string, tail: string)
    requires '.' !in head
    ensures NameCharsWellPlaced(head + ['.'] + tail) <==> IsNameLabel(head) && NameCharsWellPlaced(tail)
  {
    if NameCharsWellPlaced(head + ['.'] + tail) {
      WellPlacedSplits(head, tail);
    }
    if IsNameLabel(head) && NameCharsWellPlaced(tail) {
      WellPlacedJoins(head, tail);
    }
  }

  lemma WellPlacedSplits(head: string, tail: string)
    requires '.' !in head
    requires NameCharsWellPlaced(head + ['.'] + tail)
    ensures IsNameLabel(head) && NameCharsWellPlaced(tail)
  {
    var s := head + ['.'] + tail;
    var n := |head|;
    assert forall k :: 0 <= k < n ==> s[k] == head[k];
    assert forall k :: n + 1 <= k < |s| ==> s[k] == tail[k - n - 1];
    assert s[n] == '.';
    assert n > 0;
    assert n + 1 < |s|;
    assert IsLowerAlnum(s[n - 1]) && IsLowerAlnum(s[n + 1]);
    assert forall k :: 0 <= k < n ==> head[k] != '.';
    forall k | 0 <= k < |tail| ensures IsLowerAlnum(tail[k]) || tail[k] == '-' || tail[k] == '.' {
      assert tail[k] == s[n + 1 + k];
    }
    forall k | 0 < k < |tail| - 1 && tail[k] == '.' ensures IsLowerAlnum(tail[k - 1]) && IsLowerAlnum(tail[k + 1]) {
      assert s[n + 1 + k] == '.';
      assert tail[k - 1] == s[n + k] && tail[k + 1] == s[n + 2 + k];
    }
  }

  lemma WellPlacedJoins(head: string, tail: string)
    requires IsNameLabel(head) && NameCharsWellPlaced(tail)
    ensures NameCharsWellPlaced(head + ['.'] + tail)
  {
    var s := head + ['.'] + tail;
    var n := |head|;
    assert forall k :: 0 <= k < n ==> s[k] == head[k];
    assert forall k :: n + 1 <= k < |s| ==> s[k] == tail[k - n - 1];
    assert s[n] == '.';
    assert forall k :: 0 <= k < n ==> s[k] != '.';
  }

  /**
   * `doCheckSecretName`: only a non-empty name for a Kubernetes service is
   * checked. Variable references count as nothing towards the length limit
   * and as the valid name `a` towards the pattern; the limit counts UTF-16
   * code units, as `String.length()` does.
   */
  function CheckSecretName(containerService: Option<string>, value: Option<string>): (r: FormValidation<FormMessage>)
    ensures r.Warning? == false
    ensures TrimToEmpty(value) == [] ==> r.Ok?
    ensures ConfiguredOrchestrator(containerService) != Success(Some(Kubernetes)) ==> r.Ok?
    ensures r == Error(SecretNameTooLong) <==>
              TrimToEmpty(value) != [] && ConfiguredOrchestrator(containerService) == Success(Some(Kubernetes))
              && Utf16Length(DeployHelper.RemoveVariables(TrimToEmpty(value))) > NameLengthLimit
    ensures r == Error(SecretNameNotMatch) <==>
              TrimToEmpty(value) != [] && ConfiguredOrchestrator(containerService) == Success(Some(Kubernetes))
              && Utf16Length(DeployHelper.RemoveVariables(TrimToEmpty(value))) <= NameLengthLimit
              && !NameCharsWellPlaced(DeployHelper.ReplaceVariables(TrimToEmpty(value), "a"))
  {
    var name := TrimToEmpty(value);
    if name == [] then Ok
    else if ConfiguredOrchestrator(containerService) != Success(Some(Kubernetes)) then Ok
    else if Utf16Length(DeployHelper.RemoveVariables(name)) > NameLengthLimit then Error(SecretNameTooLong)
    else
      var replaced := DeployHelper.ReplaceVariables(name, "a");
      NamePatternIff(replaced);
      if MatchesNamePattern(replaced) then Ok else Error(SecretNameNotMatch)
  }

  /** A valid Kubernetes name within the limit is accepted as it is. */
  lemma ValidSecretNameAccepted(containerService: Option<string>, name: string)
    requires NameCharsWellPlaced(name) && |name| <= NameLengthLimit
    ensures CheckSecretName(containerService, Some(name)) == Ok
  {
    assert '$' !in name by {
      assert forall i :: 0 <= i < |name| ==> name[i] != '$';
    }
    TrimKeepsUntrimmedEnds(name);
    assert Utf16Length(name) == |name| by {
      assert forall i :: 0 <= i < |name| ==> (name[i] as int) < 0x1_0000;
      Utf16LengthIsCountIff(name);
    }
    assert DeployHelper.RemoveVariables(TrimToEmpty(Some(name))) == name;
  }

  /**
   * 127 characters outside the Basic Multilingual Plane are 254 UTF-16
   * units, over the limit of 253, though only 127 characters long.
   */
  lemma AstralSecretNameTooLong(containerService: Option<string>)
    requires ConfiguredOrchestrator(containerService) == Success(Some(Kubernetes))
    ensures var name := seq(127, _ => '\U{1F600}');
            |name| <= NameLengthLimit && CheckSecretName(containerService, Some(name)) == Error(SecretNameTooLong)
  {
    var name := seq(127, _ => '\U{1F600}');
    assert '$' !in name by {
      assert forall i :: 0 <= i < |name| ==> name[i] != '$';
    }
    TrimKeepsUntrimmedEnds(name);
    Utf16LengthOfAstral(name);
  }

  /**
   * A DC/OS path that starts with `/` or `$` and still holds something once
   * its variables are removed: the paths whose URI form is checked.
   */
  predicate PathChecked(containerService: Option<string>, value: Option<string>) {
    var path := TrimToEmpty(value);
    && path != []
    && ConfiguredOrchestrator(containerService) == Success(Some(DCOS))
    && (path[0] == '/' || path[0] == '$')
    && DeployHelper.RemoveVariables(path) != []
  }

  /**
   * `doCheckDcosDockerCredentialsPath`: only a non-empty path for a DC/OS
   * service is checked. It must start with `/` or `$`; once the variables
   * are removed, a path Marathon may mishandle only draws a warning. The
   * `IllegalArgumentException` URI quoting can raise is not caught.
   */
  function CheckDcosDockerCredentialsPath(containerService: Option<string>, value: Option<string>)
    : (r: Result<FormValidation<FormMessage>, DeployHelper.UriError>)
    ensures r == Success(Error(OnlyAbsolutePathAllowed)) <==>
              TrimToEmpty(value) != [] && ConfiguredOrchestrator(containerService) == Success(Some(DCOS))
              && TrimToEmpty(value)[0] != '/' && TrimToEmpty(value)[0] != '$'
    ensures r.Success? && r.value.Error? ==> r.value.message == OnlyAbsolutePathAllowed
    ensures r == Success(Warning(UriNotAccepted)) <==>
              PathChecked(containerService, value)
              && DeployHelper.CheckUriForMarathon(DeployHelper.RemoveVariables(TrimToEmpty(value))) == Success(false)
    ensures r.Success? && r.value.Warning? ==> r.value.message == UriNotAccepted
    ensures r.Failure? <==>
              PathChecked(containerService, value)
              && DeployHelper.CheckUriForMarathon(DeployHelper.RemoveVariables(TrimToEmpty(value))).Failure?
    ensures ConfiguredOrchestrator(containerService) != Success(Some(DCOS)) ==> r == Success(Ok)
    ensures (&& TrimToEmpty(value) != [] && ConfiguredOrchestrator(containerService) == Success(Some(DCOS))
             && (TrimToEmpty(value)[0] == '/' || TrimToEmpty(value)[0] == '$')
             && DeployHelper.RemoveVariables(TrimToEmpty(value)) == []) ==> r == Success(Ok)
  {
    var path := TrimToEmpty(value);
    if path == [] then Success(Ok)
    else if ConfiguredOrchestrator(containerService) != Success(Some(DCOS)) then Success(Ok)
    else if path[0] != '/' && path[0] != '$' then Success(Error(OnlyAbsolutePathAllowed))
    else
      var stripped := DeployHelper.RemoveVariables(path);
      if stripped == [] then Success(Ok)
      else
        var accepted :- DeployHelper.CheckUriForMarathon(stripped);
        if accepted then Success(Ok) else Success(Warning(UriNotAccepted))
  }

  /** A path that starts with `/` is never refused, only warned about. */
  lemma AbsolutePathNeverError(containerService: Option<string>, path: string)
    requires path != [] && path[0] == '/'
    ensures var r := CheckDcosDockerCredentialsPath(containerService, Some(path));
            r.Success? ==> r.value.Accepted()
  {
    assert LeadingTrimmable(path) == 0;
  }

  /**
   * A DC/OS path that starts `//` names a URI authority; when that is not a
   * host name (here it holds `_`) the quoting throws and the check raises.
   */
  lemma AuthorityLikePathRaises(containerService: Option<string>, p: string, q: string)
    requires ConfiguredOrchestrator(containerService) == Success(Some(DCOS))
    requires DeployHelper.IsAlnumText(p) && DeployHelper.IsAlnumText(q)
    ensures CheckDcosDockerCredentialsPath(containerService, Some("//" + p + "_" + q)).Failure?
  {
    var path := "//" + p + "_" + q;
    DeployHelper.UnderscoreHostCheckRaises(p, q);
    UntrimmedAuthorityPath(p, q);
    RaisingPathRaises(containerService, path);
  }

  lemma UntrimmedAuthorityPath(p: string, q: string)
    requires DeployHelper.IsAlnumText(p) && DeployHelper.IsAlnumText(q)
    ensures TrimToEmpty(Some("//" + p + "_" + q)) == "//" + p + "_" + q
  {
    var path := "//" + p + "_" + q;
    assert !IsTrimmable(path[0]) by { assert path[0] == '/'; }
    assert !IsTrimmable(path[|path| - 1]) by {
      if q != [] { assert path[|path| - 1] == q[|q| - 1]; }
    }
    TrimOf([], path, []);
    assert [] + path + [] == path;
  }

  /** A plain absolute DC/OS path on which `checkURIForMarathon` throws makes the check raise. */
  lemma RaisingPathRaises(containerService: Option<string>, path: string)
    requires ConfiguredOrchestrator(containerService) == Success(Some(DCOS))
    requires TrimToEmpty(Some(path)) == path && path != [] && path[0] == '/' && '$' !in path
    requires DeployHelper.CheckUriForMarathon(path).Failure?
    ensures CheckDcosDockerCredentialsPath(containerService, Some(path)).Failure?
  {
    assert DeployHelper.RemoveVariables(path) == path;
  }
}

=== FILE: descriptor.dfy ===
/**
 * The configuration form of the legacy ACS deployment context
 * (`ACSDeploymentContextDescriptor`): the defaults it fills in, the choices
 * it offers, the per-field checks, and the "verify configuration" button.
 */
module Descriptor {
  import opened Wrappers
  import opened JavaStrings
  import opened Forms

  // ---------------------------------------------------------------------
  // Defaults and choices
  // ---------------------------------------------------------------------

  const DefaultLocation: string := "West US"
  const DefaultAgentCount: string := "3"
  const DefaultAgentVmSize: string := "Standard_D2"
  const DefaultLinuxAdminName: string := "ACSAdmin"

  const MasterCounts: seq<string> := ["1", "3", "5"]

  const Locations: seq<string> := [
    "West US", "East US", "North Central US", "South Central US",
    "North Europe", "West Europe", "East Asia", "Southeast Asia",
    "Japan East", "Japan West", "Brazil South"
  ]

  const AgentVmSizes: seq<string> := [
    "Standard_A0", "Standard_A1", "Standard_A2", "Standard_A3", "Standard_A4",
    "Standard_A5", "Standard_A6", "Standard_A7", "Standard_A8", "Standard_D1",
    "Standard_A9", "Standard_A10", "Standard_A11", "Standard_D2", "Standard_D3",
    "Standard_D4", "Standard_D11", "Standard_D12", "Standard_D13", "Standard_D14",
    "Standard_D1_v2", "Standard_D2_v2", "Standard_D3_v2", "Standard_D4_v2", "Standard_D5_v2",
    "Standard_D11_v2", "Standard_D12_v2", "Standard_D13_v2", "Standard_D14_v2",
    "Standard_G1", "Standard_G2", "Standard_G3", "Standard_G4", "Standard_G5",
    "Standard_DS1", "Standard_DS2", "Standard_DS3", "Standard_DS4",
    "Standard_DS11", "Standard_DS12", "Standard_DS13", "Standard_DS14",
    "Standard_GS1", "Standard_GS2", "Standard_GS3", "Standard_GS4", "Standard_GS5"
  ]

  predicate Distinct<T(==)>(s: seq<T>) {
    forall i, j :: 0 <= i < j < |s| ==> s[i] != s[j]
  }

  /** The defaults are among the offered choices, which name no entry twice. */
  lemma DefaultsAreOffered()
    ensures Locations[0] == DefaultLocation
    ensures AgentVmSizes[13] == DefaultAgentVmSize
    ensures |Locations| == 11 && |AgentVmSizes| == 47
    ensures Distinct(MasterCounts) && Distinct(Locations)
  {
  }

  /** The master counts are the odd numbers 1, 3 and 5, as text. */
  lemma MasterCountsAreOdd()
    ensures forall i :: 0 <= i < |MasterCounts| ==>
      ParseInt(MasterCounts[i]) == Some(2 * i + 1)
  {
    forall i | 0 <= i < |MasterCounts|
      ensures ParseInt(MasterCounts[i]) == Some(2 * i + 1)
    {
      assert MasterCounts[i] == IntToString(2 * i + 1);
      IntToStringParses(2 * i + 1);
    }
  }

  // ---------------------------------------------------------------------
  // Field checks
  // ---------------------------------------------------------------------

  /** The fields that must not be left empty. */
  datatype RequiredField =
    | LinuxAdminUsername
    | SshRsaPublicKey
    | MarathonConfigFile
    | SshKeyFileLocation
    | SshKeyFilePassword

  datatype DescriptorMessage =
    | AgentCountOutOfRange
    | Required(field: RequiredField)
    | NoCredentialsSelected
    | VerifierResponse(response: string)

  const MinAgentCount: int := 1
  const MaxAgentCount: int := 40

  /**
   * `doCheckAgentCount`: the text must parse as a Java `int` from 1 to 40;
   * a value that does not parse (or no value) is the same error.
   */
  function CheckAgentCount(value: Option<string>): (r: FormValidation<DescriptorMessage>)
    ensures r.Ok? || r == Error(AgentCountOutOfRange)
    ensures r.Ok? <==> value.Some? && ParseInt(value.value).Some?
                       && MinAgentCount <= ParseInt(value.value).value <= MaxAgentCount
  {
    if value.None? then Error(AgentCountOutOfRange)
    else
      match ParseInt(value.value)
      case None => Error(AgentCountOutOfRange)
      case Some(n) => if n < MinAgentCount || n > MaxAgentCount then Error(AgentCountOutOfRange) else Ok
  }

  /** The accepted agent counts are exactly the decimal texts of 1 to 40. */
  lemma AgentCountAcceptsRange(n: int)
    requires InInt32(n)
    ensures CheckAgentCount(Some(IntToString(n))).Ok? <==> 1 <= n <= 40
  {
    IntToStringParses(n);
  }

  /** The default agent count passes its own check. */
  lemma DefaultAgentCountAccepted()
    ensures CheckAgentCount(Some(DefaultAgentCount)) == Ok
  {
    assert DefaultAgentCount == IntToString(3);
    AgentCountAcceptsRange(3);
  }

  /**
   * The five "is required" checks: an error for no value or the empty text,
   * and nothing else; a value of only spaces is accepted.
   */
  function CheckRequired(field: RequiredField, value: Option<string>): (r: FormValidation<DescriptorMessage>)
    ensures r.Ok? || r == Error(Required(field))
    ensures r.Error? <==> value.None? || |value.value| == 0
  {
    if value.None? || |value.value| == 0 then Error(Required(field)) else Ok
  }

  /** The required checks look at length, not at blankness. */
  lemma RequiredAcceptsBlank(field: RequiredField)
    ensures CheckRequired(field, Some(" ")).Ok? && IsBlank(" ")
  {
  }

  // ---------------------------------------------------------------------
  // Verify configuration
  // ---------------------------------------------------------------------

  /** `Constants.OP_SUCCESS`. */
  const OpSuccess: string := "Success"

  /**
   * `doVerifyConfiguration`. The credentials check runs against Azure; its
   * answer is the `response` parameter, which is read only when a credentials
   * id is selected. The answer "Success", in any case, is OK (shown with the
   * text "Success"); any other answer is shown as the error.
   */
  function VerifyConfiguration(credentialsId: Option<string>, response: string): (r: FormValidation<DescriptorMessage>)
    ensures IsBlankOrNull(credentialsId) ==> r == Error(NoCredentialsSelected)
    ensures !IsBlankOrNull(credentialsId) ==>
      (r.Ok? <==> EqualsIgnoreCase(OpSuccess, response))
    ensures !IsBlankOrNull(credentialsId) && r.Error? ==> r.message == VerifierResponse(response)
  {
    if IsBlankOrNull(credentialsId) then Error(NoCredentialsSelected)
    else if EqualsIgnoreCase(OpSuccess, response) then Ok
    else Error(VerifierResponse(response))
  }

  /** Without a credentials id the verifier's answer plays no part. */
  lemma NoCredentialsIgnoresVerifier(credentialsId: Option<string>, a: string, b: string)
    requires IsBlankOrNull(credentialsId)
    ensures VerifyConfiguration(credentialsId, a) == VerifyConfiguration(credentialsId, b)
  {
  }

  /** The success answer is recognised whatever its case. */
  lemma SuccessInAnyCase(id: string)
    requires !IsBlank(id)
    ensures VerifyConfiguration(Some(id), "SUCCESS") == Ok
    ensures VerifyConfiguration(Some(id), "success") == Ok
    ensures VerifyConfiguration(Some(id), "Success.") == Error(VerifierResponse("Success."))
  {
    assert ToLowerAscii("SUCCESS") == "success" == ToLowerAscii(OpSuccess);
    assert |ToLowerAscii("Success.")| != |ToLowerAscii(OpSuccess)|;
  }
}

=== FILE: documents.dfy ===
/**
 * Parsed JSON and YAML documents.  The plugin reads Marathon application
 * files and DC/OS node lists with Jackson, Docker Compose files with
 * SnakeYAML, and Azure resource properties as plain Java maps; all of them
 * arrive here as the tree the parser produced, so parsing itself is not
 * part of the model.
 */
module Documents {
  import opened Wrappers
  import opened JavaStrings
  import opened JavaDoubles

  /**
   * A parsed value.  `Int` is a whole number of any size (Java `Integer`,
   * `Long` or `BigInteger`, Jackson `IntNode`, `LongNode` or
   * `BigIntegerNode`), `Dec` a number written with a fraction or exponent.
   * `Obj` keeps the entries in document order; its keys are values because
   * YAML allows non-string keys.
   */
  datatype Value =
    | Null
    | Bool(b: bool)
    | Int(i: int)
    | Dec(d: real)
    | Str(s: string)
    | Arr(items: seq<Value>)
    | Obj(entries: seq<(Value, Value)>)

  /**
   * `Map.get` on a map built by a parser: the value of the last entry with
   * the key (a later duplicate replaces an earlier one), `None` for a
   * missing key.
   */
  function Lookup(entries: seq<(Value, Value)>, key: Value): (r: Option<Value>)
    ensures r.None? <==> forall i :: 0 <= i < |entries| ==> entries[i].0 != key
    ensures r.Some? ==> exists i :: 0 <= i < |entries| && entries[i] == (key, r.value)
                                   && forall j :: i < j < |entries| ==> entries[j].0 != key
  {
    if entries == [] then None
    else if entries[|entries| - 1].0 == key then Some(entries[|entries| - 1].1)
    else
      var init := entries[..|entries| - 1];
      var r := Lookup(init, key);
      assert forall i :: 0 <= i < |init| ==> init[i] == entries[i];
      if r.None? then r
      else
        var i :| 0 <= i < |init| && init[i] == (key, r.value) && forall j :: i < j < |init| ==> init[j].0 != key;
        assert forall j :: i < j < |entries| ==> entries[j].0 != key;
        r
  }

  /** An entry appended last decides its own key and leaves the other keys' values alone. */
  lemma LookupSnoc(entries: seq<(Value, Value)>, k: Value, v: Value, key: Value)
    ensures Lookup(entries + [(k, v)], key) == if k == key then Some(v) else Lookup(entries, key)
  {
    assert (entries + [(k, v)])[..|entries|] == entries;
  }

  /** A map written with three different keys gives back each key's value. */
  lemma LookupOfThree(k0: Value, v0: Value, k1: Value, v1: Value, k2: Value, v2: Value)
    requires k0 != k1 && k0 != k2 && k1 != k2
    ensures Lookup([(k0, v0), (k1, v1), (k2, v2)], k0) == Some(v0)
    ensures Lookup([(k0, v0), (k1, v1), (k2, v2)], k1) == Some(v1)
    ensures Lookup([(k0, v0), (k1, v1), (k2, v2)], k2) == Some(v2)
  {
    var e1, e2 := [(k0, v0)], [(k0, v0), (k1, v1)];
    assert e2 == e1 + [(k1, v1)] && [(k0, v0), (k1, v1), (k2, v2)] == e2 + [(k2, v2)];
    assert e1 == [] + [(k0, v0)];
    LookupSnoc([], k0, v0, k0);
    LookupSnoc(e1, k1, v1, k0);
    LookupSnoc(e1, k1, v1, k1);
    LookupSnoc(e2, k2, v2, k0);
    LookupSnoc(e2, k2, v2, k1);
    LookupSnoc(e2, k2, v2, k2);
  }

  /** `Map.get(String)` on a Java object: a missing key and a non-map both give `null`. */
  function Field(v: Value, key: string): (r: Option<Value>)
    ensures r.Some? ==> v.Obj?
  {
    if v.Obj? then Lookup(v.entries, Str(key)) else None
  }

  /** Whether the key of entry `i` already appeared in an earlier entry. */
  predicate KeySeenBefore(entries: seq<(Value, Value)>, i: nat)
    requires i < |entries|
  {
    exists j :: 0 <= j < i && entries[j].0 == entries[i].0
  }

  /**
   * The values of the map a parser builds (a `LinkedHashMap`), from entry
   * `i` on: one per key, at the place the key first appeared, holding the
   * value of its last entry.
   */
  function MapValuesFrom(entries: seq<(Value, Value)>, i: nat): (r: seq<Value>)
    requires i <= |entries|
    ensures |r| <= |entries| - i
    decreases |entries| - i
  {
    if i == |entries| then []
    else if KeySeenBefore(entries, i) then MapValuesFrom(entries, i + 1)
    else
      var v := Lookup(entries, entries[i].0);
      assert v.Some?;
      [v.value] + MapValuesFrom(entries, i + 1)
  }

  /** `Map.values()` of a parsed map. */
  function MapValues(entries: seq<(Value, Value)>): seq<Value> {
    MapValuesFrom(entries, 0)
  }

  predicate DistinctKeys(entries: seq<(Value, Value)>) {
    forall i, j :: 0 <= i < j < |entries| ==> entries[i].0 != entries[j].0
  }

  /** The values of entries, in order, duplicates and all. */
  function EntryValues(entries: seq<(Value, Value)>): (r: seq<Value>)
    ensures |r| == |entries|
  {
    seq(|entries|, k requires 0 <= k < |entries| => entries[k].1)
  }

  lemma EntryValuesStep(entries: seq<(Value, Value)>, i: nat)
    requires i < |entries|
    ensures EntryValues(entries[i..]) == [entries[i].1] + EntryValues(entries[i + 1..])
  {
    assert entries[i..][1..] == entries[i + 1..];
  }

  /** An entry whose key is new and not repeated later contributes its own value first. */
  lemma MapValuesStep(entries: seq<(Value, Value)>, i: nat)
    requires i < |entries| && !KeySeenBefore(entries, i) && Lookup(entries, entries[i].0) == Some(entries[i].1)
    ensures MapValuesFrom(entries, i) == [entries[i].1] + MapValuesFrom(entries, i + 1)
  {
  }

  /** Without repeated keys the map's values from entry `i` on are the entries' values. */
  lemma {:induction false} DistinctKeysValuesFrom(entries: seq<(Value, Value)>, i: nat)
    requires DistinctKeys(entries) && i <= |entries|
    ensures MapValuesFrom(entries, i) == EntryValues(entries[i..])
    decreases |entries| - i
  {
    if i < |entries| {
      DistinctKeysValuesFrom(entries, i + 1);
      assert !KeySeenBefore(entries, i);
      LookupDistinct(entries, i);
      MapValuesStep(entries, i);
      EntryValuesStep(entries, i);
    }
  }

  /** Without repeated keys, each entry's key looks up its own value. */
  lemma LookupDistinct(entries: seq<(Value, Value)>, i: nat)
    requires DistinctKeys(entries) && i < |entries|
    ensures Lookup(entries, entries[i].0) == Some(entries[i].1)
  {
    var v := Lookup(entries, entries[i].0);
    var k :| 0 <= k < |entries| && entries[k] == (entries[i].0, v.value)
             && forall j :: k < j < |entries| ==> entries[j].0 != entries[i].0;
    assert k == i;
  }

  /** Without repeated keys the map's values are the entries' values, in order. */
  lemma DistinctKeysValues(entries: seq<(Value, Value)>)
    requires DistinctKeys(entries)
    ensures MapValues(entries) == EntryValues(entries)
  {
    DistinctKeysValuesFrom(entries, 0);
    assert entries[0..] == entries;
  }

  /**
   * Jackson `JsonNode.elements()`: the items of an array node, the values
   * of an object node's map, nothing for any other node.
   */
  function Elements(v: Value): (r: seq<Value>)
    ensures v.Arr? ==> r == v.items
    ensures v.Obj? ==> r == MapValues(v.entries)
    ensures !v.Arr? && !v.Obj? ==> r == []
  {
    match v
    case Arr(items) => items
    case Obj(entries) => MapValues(entries)
    case _ => []
  }

  /**
   * Jackson's lenient reading of a text node as an `int`
   * (`NumberInput.parseAsInt`): surrounding whitespace is ignored and one
   * leading `+` removed.  Only a `-` that was the first character of the
   * trimmed text is skipped when looking for digits; a `-` after the
   * removed `+` is not, so `+-5` goes to `Double.parseDouble`.  Text that is
   * a `-` and ASCII digits (or only digits) is read with `Integer.parseInt`,
   * and anything else with `Double.parseDouble` and the `(int)` cast.  Text
   * neither reads, and an integer outside the `int` range, is the default 0.
   */
  function TextAsInt(s: string): (r: int)
    ensures InInt32(r)
    ensures AllDigits(s) && s != [] && DigitsValue(s) <= IntMax ==> r == DigitsValue(s)
  {
    var t := Trim(s);
    assert AllDigits(s) && s != [] ==> t == s by {
      if AllDigits(s) && s != [] {
        TrimKeepsUntrimmedEnds(s);
      }
    }
    var u := if t != [] && t[0] == '+' then t[1..] else t;
    if u == [] then 0
    else
      var digits := if t[0] == '-' then u[1..] else u;
      if !AllDigits(digits) then
        match ParseDouble(u)
        case Some(d) => CastToInt(d)
        case None => 0
      else
        match ParseInt(u)
        case Some(v) => v
        case None => 0
  }

  /** Plain decimal text that is not all digits is read through `Double.parseDouble`. */
  lemma DecimalTextAsInt(s: string)
    requires s != [] && IsDigit(s[0]) && !IsTrimmable(s[|s| - 1]) && !AllDigits(s)
    requires s[|s| - 1] !in {'f', 'F', 'd', 'D'}
    requires |s| >= 2 ==> s[1] !in {'x', 'X'}
    ensures TextAsInt(s) == match ParseDecimal(s) case Some(v) => DoubleToInt(v) case None => 0
  {
    TrimKeepsUntrimmedEnds(s);
    PlainDecimalText(s);
  }

  /** A whole part, `.` and a fraction read as the whole part: `80.5` is 80 and `8080.0` is 8080. */
  lemma FractionTextTruncated(w: string, f: string)
    requires w != [] && AllDigits(w) && AllDigits(f) && DigitsValue(w) <= IntMax
    ensures TextAsInt(w + "." + f) == DigitsValue(w)
  {
    FractionTextShape(w, f);
    DecimalTextAsInt(w + "." + f);
    DecimalFraction(w, f);
  }

  /** `w.f` is plain decimal text: it starts with a digit, is not `0x`, and has no type suffix. */
  lemma FractionTextShape(w: string, f: string)
    requires w != [] && AllDigits(w) && AllDigits(f)
    ensures var s := w + "." + f;
            && s != [] && IsDigit(s[0]) && !IsTrimmable(s[|s| - 1]) && !AllDigits(s)
            && s[|s| - 1] !in {'f', 'F', 'd', 'D'}
            && (|s| >= 2 ==> s[1] !in {'x', 'X'})
  {
    var s := w + "." + f;
    assert s[0] == w[0] && s[|w|] == '.';
    assert s[|s| - 1] == if f == [] then '.' else f[|f| - 1];
    assert |s| >= 2 ==> s[1] == if |w| >= 2 then w[1] else '.';
  }

  /** Digits, `e` and an exponent read as the power of ten times the digits, capped at the `int` maximum: `1e3` is 1000. */
  lemma ExponentTextScaled(w: string, e: string)
    requires w != [] && AllDigits(w) && e != [] && AllDigits(e)
    ensures var m := DigitsValue(w) * Pow(10, DigitsValue(e));
            TextAsInt(w + "e" + e) == if m <= IntMax then m else IntMax
  {
    var s := w + "e" + e;
    assert s[0] == w[0] && s[|w|] == 'e';
    assert s[|s| - 1] == e[|e| - 1];
    assert |s| >= 2 ==> s[1] == if |w| >= 2 then w[1] else 'e';
    DecimalTextAsInt(s);
    DecimalExponent(w, e);
  }

  /** Plain decimal text after a `-` is read through `Double.parseDouble` and negated. */
  lemma NegatedTextAsInt(body: string)
    requires body != [] && IsDigit(body[0]) && !IsTrimmable(body[|body| - 1]) && !AllDigits(body)
    requires body[|body| - 1] !in {'f', 'F', 'd', 'D'}
    requires |body| >= 2 ==> body[1] !in {'x', 'X'}
    ensures TextAsInt("-" + body) == match ParseDecimal(body) case Some(v) => DoubleToInt(-v) case None => 0
  {
    var s := "-" + body;
    assert s[1..] == body && s[|s| - 1] == body[|body| - 1];
    TrimKeepsUntrimmedEnds(s);
    NegatedDecimalText(body);
  }

  /**
   * A `-` after a removed `+` is not skipped, so the text goes to
   * `Double.parseDouble`: `+-5` is -5, and digits beyond the `int` range
   * saturate at `Integer.MIN_VALUE` instead of giving the default 0.
   */
  lemma PlusMinusTextAsInt(d: string)
    requires d != [] && AllDigits(d)
    ensures TextAsInt("+-" + d) == if DigitsValue(d) <= 0 - IntMin then 0 - DigitsValue(d) else IntMin
  {
    DigitsArePlainDecimal(d);
    PlusMinusReadsNegated(d);
    NegatedWholeCast(DigitsValue(d));
  }

  /** `+-` before plain decimal text reads as the cast of the negated number. */
  lemma PlusMinusReadsNegated(body: string)
    requires body != [] && IsDigit(body[0]) && !IsTrimmable(body[|body| - 1])
    requires body[|body| - 1] !in {'f', 'F', 'd', 'D'}
    requires |body| >= 2 ==> body[1] !in {'x', 'X'}
    ensures TextAsInt("+-" + body) == match ParseDecimal(body) case Some(v) => DoubleToInt(-v) case None => 0
  {
    PlusMinusGoesToDouble(body);
    NegatedDecimalText(body);
  }

  /** After `+-` the text is never all digits, so it is read by `Double.parseDouble`. */
  lemma PlusMinusGoesToDouble(body: string)
    requires body != [] && !IsTrimmable(body[|body| - 1])
    ensures TextAsInt("+-" + body) == match ParseDouble("-" + body) case Some(d) => CastToInt(d) case None => 0
  {
    var s := "+-" + body;
    assert s[0] == '+' && s[1..] == "-" + body && s[|s| - 1] == body[|body| - 1];
    TrimKeepsUntrimmedEnds(s);
    assert !AllDigits("-" + body) by { assert ("-" + body)[0] == '-'; }
  }

  /** The cast truncates toward zero, so `-80.5` is -80. */
  lemma NegativeFractionTextTruncated(w: string, f: string)
    requires w != [] && AllDigits(w) && AllDigits(f) && DigitsValue(w) <= IntMax
    ensures TextAsInt("-" + w + "." + f) == 0 - DigitsValue(w)
  {
    var body := w + "." + f;
    assert "-" + w + "." + f == "-" + body;
    FractionTextShape(w, f);
    NegatedTextAsInt(body);
    DecimalFraction(w, f);
    NegatedFractionCast(DigitsValue(w), ParseDecimal(body).value);
  }

  /** A value from `n` up to `n + 1`, negated, casts to `-n`. */
  lemma NegatedFractionCast(n: nat, v: real)
    requires n <= IntMax && n as real <= v < (n + 1) as real
    ensures DoubleToInt(-v) == 0 - n
  {
  }

  /** `NaN` reads as 0 and the infinities as the `int` bounds. */
  lemma SpecialTextValues()
    ensures TextAsInt("NaN") == 0
    ensures TextAsInt("Infinity") == IntMax
    ensures TextAsInt("-Infinity") == IntMin
  {
    TrimKeepsUntrimmedEnds("NaN");
    TrimKeepsUntrimmedEnds("Infinity");
    TrimKeepsUntrimmedEnds("-Infinity");
    assert "-Infinity"[1..] == "Infinity";
    assert !IsDigit("NaN"[0]) && !IsDigit("Infinity"[0]) && !IsDigit("-Infinity"[1]);
  }

  /**
   * Jackson `JsonNode.asInt()`: numbers are narrowed to `int` (whole numbers
   * wrap around, fractions truncate), text is read leniently, booleans are 1
   * and 0, and every other node is 0.
   */
  function AsInt(v: Value): (r: int)
    ensures InInt32(r)
    ensures v.Int? && InInt32(v.i) ==> r == v.i
    ensures v.Null? || v.Arr? || v.Obj? ==> r == 0
  {
    match v
    case Int(i) => Wrap32(i)
    case Dec(d) => DoubleToInt(d)
    case Str(s) => TextAsInt(s)
    case Bool(b) => if b then 1 else 0
    case _ => 0
  }

  /** Whether Jackson's `asText()` of the node equals `word` ignoring case; only text nodes can spell a word. */
  predicate TextEqualsIgnoreCase(v: Value, word: string) {
    v.Str? && EqualsIgnoreCase(v.s, word)
  }

  /** The protocol word a file writes reads as `udp` exactly when it is `udp`. */
  lemma ProtocolWordReads(udp: bool)
    ensures TextEqualsIgnoreCase(Str(if udp then "udp" else "tcp"), "udp") <==> udp
  {
    assert ToLowerAscii("tcp")[0] == 't' && ToLowerAscii("udp")[0] == 'u';
  }
}

=== FILE: enable_port.dfy ===
/**
 * `EnablePortCommand`: opening the deployment's service ports on the
 * public agents. Existing inbound security rules are scanned to find the
 * ports still closed, which get new `Allow_<port>` rules at priorities
 * above every existing one; the agent load balancer gets a probe and a
 * balancing rule for every service port it does not serve yet. The Azure
 * resources are the lists the management API returned; the model computes
 * what is added to them.
 */
module EnablePort {
  import opened Wrappers
  import opened JavaStrings
  import opened Constants
  import opened ServicePorts
  import opened Seqs

  datatype Direction = Inbound | Outbound
  datatype Access = Allow | Deny

  /**
   * The fields of an existing network security rule the scan reads. The
   * single destination range is `null` on a rule that lists its ports in
   * the plural `destinationPortRanges` instead.
   */
  datatype SecurityRule = SecurityRule(name: string, priority: int, direction: Direction, access: Access,
                                       destinationPortRange: Option<string>)

  datatype EnablePortError =
    | InvalidDestinationPortRange(range: string) // a range bound that is not a number
    | NotAPortNumber(range: string)              // a single port that is not a number (an unchecked exception)
    | ExceedMaxPriority
    | BalancerMismatch                           // the agent balancer has other than one frontend and one backend
    | NullDestinationRange                       // `equals` called on a null range: NullPointerException

  // ---------------------------------------------------------------------
  // Destination port ranges
  // ---------------------------------------------------------------------

  /** What a rule's destination port range opens. */
  datatype Destination = AnyPort | PortSpan(lo: int, hi: int) | OnePort(port: int)

  predicate Covers(d: Destination, port: int) {
    match d
    case AnyPort => true
    case PortSpan(lo, hi) => lo <= port <= hi
    case OnePort(p) => p == port
  }

  /**
   * How the scan reads a destination range: `*` is every port; text with
   * a `-` is cut at the first `-` into two bounds that must both parse;
   * anything else must parse as one port.
   */
  function ParseDestination(range: string): (r: Result<Destination, EnablePortError>)
    ensures range == "*" ==> r == Success(AnyPort)
    ensures range != "*" && '-' in range ==>
      var parts := SplitFirst(range, '-');
      (r.Success? <==> ParseInt(parts[0]).Some? && ParseInt(parts[1]).Some?)
      && (r.Success? ==> r.value == PortSpan(ParseInt(parts[0]).value, ParseInt(parts[1]).value))
      && (r.Failure? ==> r.error == InvalidDestinationPortRange(range))
    ensures range != "*" && '-' !in range ==>
      (r.Success? <==> ParseInt(range).Some?)
      && (r.Success? ==> r.value == OnePort(ParseInt(range).value))
      && (r.Failure? ==> r.error == NotAPortNumber(range))
  {
    if range == "*" then Success(AnyPort)
    else if '-' in range then
      var parts := SplitFirst(range, '-');
      match (ParseInt(parts[0]), ParseInt(parts[1]))
      case (Some(lo), Some(hi)) => Success(PortSpan(lo, hi))
      case _ => Failure(InvalidDestinationPortRange(range))
    else
      match ParseInt(range)
      case Some(p) => Success(OnePort(p))
      case None => Failure(NotAPortNumber(range))
  }

  /**
   * The destination of an effective rule as the scan reads it: a `null`
   * range throws at its `equals("*")` test, any other is parsed.
   */
  function RuleDestination(rule: SecurityRule): (r: Result<Destination, EnablePortError>)
    ensures rule.destinationPortRange.None? ==> r == Failure(NullDestinationRange)
    ensures rule.destinationPortRange.Some? ==> r == ParseDestination(rule.destinationPortRange.value)
    ensures r == Success(AnyPort) <==> rule.destinationPortRange == Some("*")
  {
    match rule.destinationPortRange
    case None => Failure(NullDestinationRange)
    case Some(range) => ParseDestination(range)
  }

  // ---------------------------------------------------------------------
  // filterPortsToOpen
  // ---------------------------------------------------------------------

  /** Only inbound allow rules open ports; the others are kept as they are. */
  predicate Effective(rule: SecurityRule) {
    rule.direction == Inbound && rule.access == Allow
  }

  /** An inbound allow rule for every port, which ends the scan. */
  predicate OpensAll(rule: SecurityRule) {
    Effective(rule) && rule.destinationPortRange == Some("*")
  }

  /** An effective rule whose range the scan cannot read. */
  predicate Malformed(rule: SecurityRule) {
    Effective(rule) && RuleDestination(rule).Failure?
  }

  /** The rule already lets traffic to `port` in. */
  predicate Opens(rule: SecurityRule, port: int) {
    Effective(rule) && RuleDestination(rule).Success?
    && Covers(RuleDestination(rule).value, port)
  }

  /** No rule among the first `n` opens the port. */
  predicate StaysClosed(rules: seq<SecurityRule>, n: nat, port: int)
    requires n <= |rules|
  {
    forall j :: 0 <= j < n ==> !Opens(rules[j], port)
  }

  /** The ports a destination leaves closed, in their order. */
  function Remove(ports: seq<int>, d: Destination): (r: seq<int>)
    ensures forall p :: p in r <==> p in ports && !Covers(d, p)
    ensures Distinct(ports) ==> Distinct(r)
  {
    if ports == [] then []
    else
      var rest := Remove(ports[1..], d);
      if Covers(d, ports[0]) then rest else [ports[0]] + rest
  }

  predicate Distinct(ports: seq<int>) {
    forall i, j :: 0 <= i < j < |ports| ==> ports[i] != ports[j]
  }

  /**
   * The scan from rule `i` on, with the ports still closed and the largest
   * priority seen so far. Every rule scanned counts toward the priority,
   * even one that opens nothing.
   */
  function Scan(rules: seq<SecurityRule>, i: nat, ports: seq<int>, maxPriority: int): (r: Result<(seq<int>, int), EnablePortError>)
    requires i <= |rules|
    ensures r.Success? ==> forall p :: p in r.value.0 ==> p in ports
    ensures r.Success? ==> r.value.1 >= maxPriority
    ensures r.Success? && Distinct(ports) ==> Distinct(r.value.0)
    decreases |rules| - i
  {
    if i == |rules| then Success((ports, maxPriority))
    else
      var rule := rules[i];
      var m := if rule.priority > maxPriority then rule.priority else maxPriority;
      if !Effective(rule) then Scan(rules, i + 1, ports, m)
      else
        var d :- RuleDestination(rule);
        if d.AnyPort? then Success(([], m))
        else Scan(rules, i + 1, Remove(ports, d), m)
  }

  /**
   * `filterPortsToOpen`: the requested ports no existing rule opens, and the
   * largest priority among the rules scanned (`Integer.MIN_VALUE` if none).
   */
  function FilterPortsToOpen(rules: seq<SecurityRule>, ports: seq<int>): Result<(seq<int>, int), EnablePortError> {
    Scan(rules, 0, ports, IntMin)
  }

  /**
   * An inbound allow rule without a single destination range throws a
   * `NullPointerException` out of the scan when it is reached.
   */
  lemma NullRangeRaises(rules: seq<SecurityRule>, i: nat, ports: seq<int>, maxPriority: int)
    requires i < |rules| && Effective(rules[i]) && rules[i].destinationPortRange.None?
    ensures Scan(rules, i, ports, maxPriority) == Failure(NullDestinationRange)
  {
  }

  /** A rule without a single destination range is passed over when it is not an inbound allow rule. */
  lemma NullRangeIneffectiveSkipped(rules: seq<SecurityRule>, i: nat, ports: seq<int>, maxPriority: int)
    requires i < |rules| && !Effective(rules[i]) && rules[i].destinationPortRange.None?
    ensures Scan(rules, i, ports, maxPriority)
         == Scan(rules, i + 1, ports, if rules[i].priority > maxPriority then rules[i].priority else maxPriority)
  {
  }

  /** One past the last rule the scan looks at: the first rule opening every port, or the end. */
  function ScannedEnd(rules: seq<SecurityRule>, i: nat): (n: nat)
    requires i <= |rules|
    ensures i <= n <= |rules|
    ensures forall j :: i <= j < n - 1 ==> !OpensAll(rules[j])
    ensures n < |rules| ==> n > i && OpensAll(rules[n - 1])
    ensures n == |rules| && n > i ==> (forall j :: i <= j < n - 1 ==> !OpensAll(rules[j]))
    decreases |rules| - i
  {
    if i == |rules| then i
    else if OpensAll(rules[i]) then i + 1
    else ScannedEnd(rules, i + 1)
  }

  /**
   * What the scan computes, stated without the scan: it fails exactly when
   * a rule it reaches is malformed; it keeps exactly the requested ports
   * that no rule it reaches opens; and it returns the least bound of the
   * starting value and the priorities of the rules it reaches.
   */
  lemma ScanSpec(rules: seq<SecurityRule>, i: nat, ports: seq<int>, maxPriority: int)
    requires i <= |rules|
    ensures var n := ScannedEnd(rules, i);
      var r := Scan(rules, i, ports, maxPriority);
      && (r.Success? <==> forall j :: i <= j < n ==> !Malformed(rules[j]))
      && (r.Success? ==> forall p :: p in r.value.0 <==> p in ports && forall j :: i <= j < n ==> !Opens(rules[j], p))
      && (r.Success? ==> forall j :: i <= j < n ==> rules[j].priority <= r.value.1)
      && (r.Success? ==> r.value.1 == maxPriority || exists j :: i <= j < n && rules[j].priority == r.value.1)
  {
    ScanSucceedsIff(rules, i, ports, maxPriority);
    ScanKeepsClosed(rules, i, ports, maxPriority);
    ScanPriority(rules, i, ports, maxPriority);
  }

  lemma {:induction false} ScanSucceedsIff(rules: seq<SecurityRule>, i: nat, ports: seq<int>, maxPriority: int)
    requires i <= |rules|
    ensures Scan(rules, i, ports, maxPriority).Success? <==> NoneMalformed(rules, i, ScannedEnd(rules, i))
    decreases |rules| - i
  {
    if i < |rules| {
      var rule := rules[i];
      var m := if rule.priority > maxPriority then rule.priority else maxPriority;
      if !Effective(rule) {
        ScanSucceedsIff(rules, i + 1, ports, m);
        NoneMalformedStep(rules, i);
      } else if RuleDestination(rule).Success? {
        var d := RuleDestination(rule).value;
        if d.AnyPort? {
          assert OpensAll(rule);
        } else {
          assert !OpensAll(rule);
          ScanSucceedsIff(rules, i + 1, Remove(ports, d), m);
          NoneMalformedStep(rules, i);
        }
      } else {
        assert !OpensAll(rule);
        NoneMalformedStep(rules, i);
      }
    }
  }

  /** No effective rule from `i` up to `n` has a range the scan cannot read. */
  predicate NoneMalformed(rules: seq<SecurityRule>, i: nat, n: nat)
    requires i <= n <= |rules|
  {
    forall j :: i <= j < n ==> !Malformed(rules[j])
  }

  lemma NoneMalformedStep(rules: seq<SecurityRule>, i: nat)
    requires i < |rules| && !OpensAll(rules[i])
    ensures NoneMalformed(rules, i, ScannedEnd(rules, i))
        <==> !Malformed(rules[i]) && NoneMalformed(rules, i + 1, ScannedEnd(rules, i + 1))
  {
    assert ScannedEnd(rules, i) == ScannedEnd(rules, i + 1);
  }

  lemma {:induction false} ScanKeepsClosed(rules: seq<SecurityRule>, i: nat, ports: seq<int>, maxPriority: int)
    requires i <= |rules|
    ensures var r := Scan(rules, i, ports, maxPriority);
      r.Success? ==> forall p :: p in r.value.0 <==> p in ports && forall j :: i <= j < ScannedEnd(rules, i) ==> !Opens(rules[j], p)
    decreases |rules| - i
  {
    if i < |rules| {
      var rule := rules[i];
      var m := if rule.priority > maxPriority then rule.priority else maxPriority;
      if !Effective(rule) {
        ScanKeepsClosed(rules, i + 1, ports, m);
      } else if RuleDestination(rule).Success? {
        var d := RuleDestination(rule).value;
        if d.AnyPort? {
          assert OpensAll(rule);
          assert Opens(rule, 0);
        } else {
          assert !OpensAll(rule);
          ScanKeepsClosed(rules, i + 1, Remove(ports, d), m);
        }
      }
    }
  }

  lemma {:induction false} ScanPriority(rules: seq<SecurityRule>, i: nat, ports: seq<int>, maxPriority: int)
    requires i <= |rules|
    ensures var r := Scan(rules, i, ports, maxPriority);
      && (r.Success? ==> forall j :: i <= j < ScannedEnd(rules, i) ==> rules[j].priority <= r.value.1)
      && (r.Success? ==> r.value.1 == maxPriority || exists j :: i <= j < ScannedEnd(rules, i) && rules[j].priority == r.value.1)
    decreases |rules| - i
  {
    if i < |rules| {
      var rule := rules[i];
      var m := if rule.priority > maxPriority then rule.priority else maxPriority;
      if !Effective(rule) {
        ScanPriority(rules, i + 1, ports, m);
      } else if RuleDestination(rule).Success? {
        var d := RuleDestination(rule).value;
        if d.AnyPort? {
          assert OpensAll(rule);
        } else {
          assert !OpensAll(rule);
          ScanPriority(rules, i + 1, Remove(ports, d), m);
        }
      }
    }
  }

  /** The scan only closes the list: what it keeps was requested. */
  lemma FilterKeepsRequested(rules: seq<SecurityRule>, ports: seq<int>)
    requires FilterPortsToOpen(rules, ports).Success?
    ensures forall p :: p in FilterPortsToOpen(rules, ports).value.0 ==> p in ports
  {
  }

  /** Rules that are not inbound allow rules open nothing, but their priorities still count. */
  lemma IneffectiveRulesOpenNothing(rules: seq<SecurityRule>, ports: seq<int>)
    requires forall j :: 0 <= j < |rules| ==> !Effective(rules[j])
    ensures FilterPortsToOpen(rules, ports).Success?
    ensures FilterPortsToOpen(rules, ports).value.0 == ports
    ensures forall j :: 0 <= j < |rules| ==> rules[j].priority <= FilterPortsToOpen(rules, ports).value.1
  {
    IneffectiveScan(rules, 0, ports, IntMin);
    ScanSpec(rules, 0, ports, IntMin);
    assert ScannedEnd(rules, 0) == |rules|;
  }

  lemma {:induction false} IneffectiveScan(rules: seq<SecurityRule>, i: nat, ports: seq<int>, m: int)
    requires i <= |rules|
    requires forall j :: i <= j < |rules| ==> !Effective(rules[j])
    ensures Scan(rules, i, ports, m).Success? && Scan(rules, i, ports, m).value.0 == ports
    ensures ScannedEnd(rules, i) == |rules|
    decreases |rules| - i
  {
    if i < |rules| {
      var m' := if rules[i].priority > m then rules[i].priority else m;
      IneffectiveScan(rules, i + 1, ports, m');
    }
  }

  /** Nothing after the first rule that opens every port matters. */
  lemma {:induction false} OpenAllStopsScan(rules: seq<SecurityRule>, k: nat, i: nat, ports: seq<int>, m: int)
    requires i <= k < |rules| && OpensAll(rules[k])
    ensures Scan(rules, i, ports, m) == Scan(rules[..k + 1], i, ports, m)
    decreases k - i
  {
    var prefix := rules[..k + 1];
    assert prefix[i] == rules[i];
    var rule := rules[i];
    var m' := if rule.priority > m then rule.priority else m;
    if i < k {
      if !Effective(rule) {
        OpenAllStopsScan(rules, k, i + 1, ports, m');
      } else if RuleDestination(rule).Success? {
        var d := RuleDestination(rule).value;
        if !d.AnyPort? {
          OpenAllStopsScan(rules, k, i + 1, Remove(ports, d), m');
        }
      }
    }
  }

  /** A rule opening every port leaves nothing to open, whatever follows it. */
  lemma OpenAllEmptiesPorts(before: seq<SecurityRule>, all: SecurityRule, after: seq<SecurityRule>, ports: seq<int>)
    requires OpensAll(all)
    ensures FilterPortsToOpen(before + [all] + after, ports) == FilterPortsToOpen(before + [all], ports)
    ensures FilterPortsToOpen(before + [all], ports).Success? ==> FilterPortsToOpen(before + [all], ports).value.0 == []
  {
    var rules := before + [all] + after;
    assert rules[|before|] == all;
    assert rules[..|before| + 1] == before + [all];
    OpenAllStopsScan(rules, |before|, 0, ports, IntMin);
    OpenAllLastEmpties(before + [all], 0, ports, IntMin);
  }

  lemma {:induction false} OpenAllLastEmpties(rules: seq<SecurityRule>, i: nat, ports: seq<int>, m: int)
    requires i < |rules| && OpensAll(rules[|rules| - 1])
    ensures Scan(rules, i, ports, m).Success? ==> Scan(rules, i, ports, m).value.0 == []
    decreases |rules| - i
  {
    var rule := rules[i];
    var m' := if rule.priority > m then rule.priority else m;
    if i + 1 < |rules| {
      if !Effective(rule) {
        OpenAllLastEmpties(rules, i + 1, ports, m');
      } else if RuleDestination(rule).Success? {
        var d := RuleDestination(rule).value;
        if !d.AnyPort? {
          OpenAllLastEmpties(rules, i + 1, Remove(ports, d), m');
        }
      }
    }
  }

  /** With no rules, every requested port stays closed and the priority is `Integer.MIN_VALUE`. */
  lemma NoRulesOpenNothing(ports: seq<int>)
    ensures FilterPortsToOpen([], ports) == Success((ports, IntMin))
  {
  }

  // ---------------------------------------------------------------------
  // createSecurityRules
  // ---------------------------------------------------------------------

  datatype SecurityGroup = SecurityGroup(name: string, rules: seq<SecurityRule>)

  /** A new inbound rule allowing traffic from the Internet, any protocol, to `port`. */
  datatype AllowRule = AllowRule(name: string, port: int, priority: int)

  datatype SecurityPlan =
    | KeepSecurityGroups
    | UpdateSecurityGroup(group: string, added: seq<AllowRule>)

  /**
   * The host ports of the service ports, each once, in the order they
   * first appear; this stands for the iteration order of the `HashSet` the
   * plugin collects them in.
   */
  function HostPorts(servicePorts: seq<ServicePort>): (r: seq<int>)
    ensures Distinct(r)
    ensures forall p :: p in r <==> exists i :: 0 <= i < |servicePorts| && servicePorts[i].hostPort == p
  {
    if servicePorts == [] then []
    else
      var init := servicePorts[..|servicePorts| - 1];
      var last := servicePorts[|servicePorts| - 1];
      var r := HostPorts(init);
      assert forall i :: 0 <= i < |init| ==> init[i] == servicePorts[i];
      if last.hostPort in r then r else r + [last.hostPort]
  }

  /** The first group named `<prefix>-agent-public-nsg-…`. */
  function PublicAgentGroup(groups: seq<SecurityGroup>, prefix: string): (r: Option<SecurityGroup>)
    ensures r.Some? ==> r.value in groups && StartsWith(r.value.name, prefix + "-agent-public-nsg-")
    ensures r.None? ==> forall g :: g in groups ==> !StartsWith(g.name, prefix + "-agent-public-nsg-")
  {
    if groups == [] then None
    else if StartsWith(groups[0].name, prefix + "-agent-public-nsg-") then Some(groups[0])
    else PublicAgentGroup(groups[1..], prefix)
  }

  /**
   * The rules for the ports still closed, one priority step apart above
   * `priority`, in 32-bit arithmetic; the first priority above the lowest
   * allowed one is an error.
   */
  function AllowRules(ports: seq<int>, priority: int): (r: Result<seq<AllowRule>, EnablePortError>)
    ensures r.Success? ==> |r.value| == |ports|
    ensures r.Failure? ==> r.error == ExceedMaxPriority
    decreases |ports|
  {
    if ports == [] then Success([])
    else
      var next := Wrap32(priority + PriorityStep);
      if next > LowestPriority then Failure(ExceedMaxPriority)
      else
        var rest :- AllowRules(ports[1..], next);
        Success([AllowRule("Allow_" + IntToString(ports[0]), ports[0], next)] + rest)
  }

  /**
   * From a priority Azure allows, the `k`-th new rule gets the priority
   * `k` steps above it: the rules fit exactly when the last one stays within
   * the lowest allowed priority, and no priority wraps around.
   */
  lemma {:induction false} AllowRulesFit(ports: seq<int>, priority: int)
    requires IntMin <= priority <= LowestPriority
    ensures AllowRules(ports, priority).Success? <==> priority + PriorityStep * |ports| <= LowestPriority || ports == []
    ensures AllowRules(ports, priority).Success? ==> forall k :: 0 <= k < |ports| ==>
      AllowRules(ports, priority).value[k] == AllowRule("Allow_" + IntToString(ports[k]), ports[k], priority + PriorityStep * (k + 1))
    decreases |ports|
  {
    if ports != [] {
      var next := priority + PriorityStep;
      assert Wrap32(priority + PriorityStep) == next;
      if next <= LowestPriority {
        AllowRulesFit(ports[1..], next);
        var r := AllowRules(ports, priority);
        if r.Success? {
          var rest := AllowRules(ports[1..], next).value;
          assert r.value == [AllowRule("Allow_" + IntToString(ports[0]), ports[0], next)] + rest;
          forall k | 0 < k < |ports|
            ensures r.value[k] == AllowRule("Allow_" + IntToString(ports[k]), ports[k], priority + PriorityStep * (k + 1))
          {
            assert r.value[k] == rest[k - 1];
            assert ports[1..][k - 1] == ports[k];
          }
        }
      }
    }
  }

  /**
   * `createSecurityRules`: nothing happens without service ports or without
   * the public agents' group; otherwise the group gets one rule per port
   * its rules do not open yet.
   */
  function CreateSecurityRules(servicePorts: seq<ServicePort>, groups: seq<SecurityGroup>, prefix: string)
    : (r: Result<SecurityPlan, EnablePortError>)
    ensures servicePorts == [] ==> r == Success(KeepSecurityGroups)
    ensures PublicAgentGroup(groups, prefix).None? ==> r == Success(KeepSecurityGroups)
    ensures r.Success? && r.value.UpdateSecurityGroup? ==>
      && PublicAgentGroup(groups, prefix).Some?
      && r.value.group == PublicAgentGroup(groups, prefix).value.name
  {
    if servicePorts == [] then Success(KeepSecurityGroups)
    else
      match PublicAgentGroup(groups, prefix)
      case None => Success(KeepSecurityGroups)
      case Some(group) =>
        var filtered :- FilterPortsToOpen(group.rules, HostPorts(servicePorts));
        var added :- AllowRules(filtered.0, filtered.1);
        Success(UpdateSecurityGroup(group.name, added))
  }

  /**
   * The new rules open exactly the requested ports that no scanned rule
   * opens yet, each such port once.
   */
  predicate OpensClosedPorts(added: seq<AllowRule>, rules: seq<SecurityRule>, requested: seq<int>) {
    var n := ScannedEnd(rules, 0);
    && (forall k :: 0 <= k < |added| ==> added[k].port in requested && StaysClosed(rules, n, added[k].port))
    && (forall p :: p in requested && StaysClosed(rules, n, p) ==> exists k :: 0 <= k < |added| && added[k].port == p)
    && (forall k, l :: 0 <= k < l < |added| ==> added[k].port != added[l].port)
  }

  /**
   * The new rules take distinct priorities, ascending, above every scanned
   * rule and within the lowest allowed priority.
   */
  predicate RanksAboveScanned(added: seq<AllowRule>, rules: seq<SecurityRule>) {
    var n := ScannedEnd(rules, 0);
    && (forall k, l :: 0 <= k < l < |added| ==> added[k].priority < added[l].priority)
    && (forall k :: 0 <= k < |added| ==> added[k].priority <= LowestPriority)
    && (forall k, j :: 0 <= k < |added| && 0 <= j < n ==> rules[j].priority < added[k].priority)
  }

  /**
   * What the update adds, for a group whose priorities Azure allows: one
   * rule for each service host port no scanned rule opens, each port once,
   * at distinct priorities above every scanned rule and within the lowest
   * allowed priority.
   */
  lemma SecurityRulesOpenClosedPorts(servicePorts: seq<ServicePort>, groups: seq<SecurityGroup>, prefix: string)
    requires CreateSecurityRules(servicePorts, groups, prefix).Success?
    requires CreateSecurityRules(servicePorts, groups, prefix).value.UpdateSecurityGroup?
    requires forall rule :: rule in PublicAgentGroup(groups, prefix).value.rules ==> rule.priority <= LowestPriority
    ensures OpensClosedPorts(CreateSecurityRules(servicePorts, groups, prefix).value.added,
                             PublicAgentGroup(groups, prefix).value.rules, HostPorts(servicePorts))
    ensures RanksAboveScanned(CreateSecurityRules(servicePorts, groups, prefix).value.added,
                              PublicAgentGroup(groups, prefix).value.rules)
  {
    var group := PublicAgentGroup(groups, prefix).value;
    var ports := HostPorts(servicePorts);
    var filtered := FilterPortsToOpen(group.rules, ports).value;
    assert CreateSecurityRules(servicePorts, groups, prefix).value.added == AllowRules(filtered.0, filtered.1).value;
    ScannedPriorityAllowed(group.rules, ports);
    AllowRulesOpenClosed(group.rules, ports);
    AllowRulesRankAbove(group.rules, ports);
  }

  /** After a scan of rules with allowed priorities, the highest one is allowed too and bounds the scanned ones. */
  lemma ScannedPriorityAllowed(rules: seq<SecurityRule>, ports: seq<int>)
    requires FilterPortsToOpen(rules, ports).Success?
    requires forall rule :: rule in rules ==> rule.priority <= LowestPriority
    ensures IntMin <= FilterPortsToOpen(rules, ports).value.1 <= LowestPriority
    ensures forall j :: 0 <= j < ScannedEnd(rules, 0) ==> rules[j].priority <= FilterPortsToOpen(rules, ports).value.1
  {
    var m := FilterPortsToOpen(rules, ports).value.1;
    ScanSpec(rules, 0, ports, IntMin);
    if m != IntMin {
      var j :| 0 <= j < ScannedEnd(rules, 0) && rules[j].priority == m;
      assert rules[j] in rules;
    }
  }

  /** The new rules open exactly the requested ports the scan left closed. */
  lemma AllowRulesOpenClosed(rules: seq<SecurityRule>, ports: seq<int>)
    requires FilterPortsToOpen(rules, ports).Success?
    requires IntMin <= FilterPortsToOpen(rules, ports).value.1 <= LowestPriority
    requires AllowRules(FilterPortsToOpen(rules, ports).value.0, FilterPortsToOpen(rules, ports).value.1).Success?
    requires Distinct(ports)
    ensures OpensClosedPorts(AllowRules(FilterPortsToOpen(rules, ports).value.0, FilterPortsToOpen(rules, ports).value.1).value, rules, ports)
  {
    var filtered := FilterPortsToOpen(rules, ports).value;
    var added := AllowRules(filtered.0, filtered.1).value;
    ScanSpec(rules, 0, ports, IntMin);
    var n := ScannedEnd(rules, 0);
    AllowRulesFit(filtered.0, filtered.1);
    assert forall k :: 0 <= k < |added| ==> added[k].port == filtered.0[k];
    forall k | 0 <= k < |added|
      ensures added[k].port in ports && StaysClosed(rules, n, added[k].port)
    {
      assert filtered.0[k] in filtered.0;
    }
    forall p | p in ports && StaysClosed(rules, n, p)
      ensures exists k :: 0 <= k < |added| && added[k].port == p
    {
      assert p in filtered.0;
      var k :| 0 <= k < |filtered.0| && filtered.0[k] == p;
      assert added[k].port == p;
    }
  }

  /** The new rules rank, in order, above every scanned rule and within the lowest allowed priority. */
  lemma AllowRulesRankAbove(rules: seq<SecurityRule>, ports: seq<int>)
    requires FilterPortsToOpen(rules, ports).Success?
    requires IntMin <= FilterPortsToOpen(rules, ports).value.1 <= LowestPriority
    requires forall j :: 0 <= j < ScannedEnd(rules, 0) ==> rules[j].priority <= FilterPortsToOpen(rules, ports).value.1
    requires AllowRules(FilterPortsToOpen(rules, ports).value.0, FilterPortsToOpen(rules, ports).value.1).Success?
    ensures RanksAboveScanned(AllowRules(FilterPortsToOpen(rules, ports).value.0, FilterPortsToOpen(rules, ports).value.1).value, rules)
  {
    var filtered := FilterPortsToOpen(rules, ports).value;
    AllowRulesFit(filtered.0, filtered.1);
  }

  // ---------------------------------------------------------------------
  // createLoadBalancerRules
  // ---------------------------------------------------------------------

  /** The names of the balancer's frontends and backends, and the keys of its balancing rules. */
  datatype LoadBalancer = LoadBalancer(name: string, frontends: seq<string>, backends: seq<string>, rules: seq<RuleKey>)

  /** `LOAD_BALANCER_IDLE_TIMEOUT_IN_MINUTES`. */
  const IdleTimeoutMinutes: int := 5

  /** A TCP probe on the port and a rule forwarding the port to the same port of the backend. */
  datatype BalancingRule = BalancingRule(name: string, probeName: string, probePort: int,
                                         protocol: TransportProtocol, frontend: string, frontendPort: int,
                                         backend: string, backendPort: int, idleTimeoutMinutes: int)

  datatype BalancerPlan =
    | KeepBalancers
    | UpdateBalancer(balancer: string, added: seq<BalancingRule>)

  /**
   * The first balancer named `<prefix>-agent-lb-…`: the search stops there,
   * and that balancer must have one frontend and one backend.
   */
  function AgentBalancer(balancers: seq<LoadBalancer>, prefix: string): (r: Result<Option<LoadBalancer>, EnablePortError>)
    ensures r.Success? && r.value.Some? ==>
      && r.value.value in balancers
      && StartsWith(r.value.value.name, prefix + "-agent-lb-")
      && |r.value.value.frontends| == 1 && |r.value.value.backends| == 1
    ensures r.Success? && r.value.None? ==> forall b :: b in balancers ==> !StartsWith(b.name, prefix + "-agent-lb-")
    ensures r.Failure? ==> r.error == BalancerMismatch
  {
    if balancers == [] then Success(None)
    else if StartsWith(balancers[0].name, prefix + "-agent-lb-") then
      if |balancers[0].backends| != 1 || |balancers[0].frontends| != 1 then Failure(BalancerMismatch)
      else Success(Some(balancers[0]))
    else AgentBalancer(balancers[1..], prefix)
  }

  /** Whether one of the balancer's existing rules already serves the port. */
  predicate Served(balancer: LoadBalancer, p: ServicePort) {
    exists i :: 0 <= i < |balancer.rules| && MatchesRule(p, balancer.rules[i])
  }

  /** The probe and rule for a port the balancer does not serve; nothing for one it serves. */
  function RuleFor(balancer: LoadBalancer, p: ServicePort): (r: seq<BalancingRule>)
    requires |balancer.frontends| == 1 && |balancer.backends| == 1
    ensures |r| <= 1 && (r == [] <==> Served(balancer, p))
    ensures r != [] ==>
      && r[0].frontendPort == r[0].backendPort == r[0].probePort == p.hostPort
      && r[0].protocol == TransportOf(p.protocol) && r[0].idleTimeoutMinutes == IdleTimeoutMinutes
  {
    if Served(balancer, p) then []
    else
      var port := IntToString(p.hostPort);
      [BalancingRule("JLBRule" + ProtocolName(p.protocol) + port, "tcpPort" + port + "Probe", p.hostPort,
                     TransportOf(p.protocol), balancer.frontends[0], p.hostPort,
                     balancer.backends[0], p.hostPort, IdleTimeoutMinutes)]
  }

  /**
   * `createLoadBalancerRules`: nothing happens without service ports or
   * without the agent balancer; otherwise every service port, in order, that
   * no existing rule serves gets its probe and rule, in one update.
   */
  function CreateLoadBalancerRules(servicePorts: seq<ServicePort>, balancers: seq<LoadBalancer>, prefix: string)
    : (r: Result<BalancerPlan, EnablePortError>)
    ensures servicePorts == [] ==> r == Success(KeepBalancers)
    ensures servicePorts != [] ==> (r.Failure? <==> AgentBalancer(balancers, prefix).Failure?)
  {
    if servicePorts == [] then Success(KeepBalancers)
    else
      var found :- AgentBalancer(balancers, prefix);
      match found
      case None => Success(KeepBalancers)
      case Some(balancer) =>
        Success(UpdateBalancer(balancer.name, FlatMap(p => RuleFor(balancer, p), servicePorts)))
  }

  /**
   * A rule is added for a port exactly when the port is a service port the
   * balancer does not serve yet, and every added rule forwards its port to
   * the same port.
   */
  lemma BalancerRulesForUnservedPorts(servicePorts: seq<ServicePort>, balancers: seq<LoadBalancer>, prefix: string)
    requires CreateLoadBalancerRules(servicePorts, balancers, prefix).Success?
    requires CreateLoadBalancerRules(servicePorts, balancers, prefix).value.UpdateBalancer?
    ensures var balancer := AgentBalancer(balancers, prefix).value.value;
      var added := CreateLoadBalancerRules(servicePorts, balancers, prefix).value.added;
      && (forall p :: p in servicePorts && !Served(balancer, p) ==> RuleFor(balancer, p)[0] in added)
      && (forall rule :: rule in added ==> exists p :: p in servicePorts && !Served(balancer, p) && rule == RuleFor(balancer, p)[0])
      && (forall rule :: rule in added ==> rule.frontendPort == rule.backendPort == rule.probePort)
  {
    var balancer := AgentBalancer(balancers, prefix).value.value;
    var f := p => RuleFor(balancer, p);
    var added := FlatMap(f, servicePorts);
    forall p | p in servicePorts && !Served(balancer, p) ensures RuleFor(balancer, p)[0] in added {
      var i :| 0 <= i < |servicePorts| && servicePorts[i] == p;
      FlatMapContains(f, servicePorts, i, RuleFor(balancer, p)[0]);
    }
    forall rule | rule in added
      ensures exists p :: p in servicePorts && !Served(balancer, p) && rule == RuleFor(balancer, p)[0]
    {
      FlatMapMember(f, servicePorts, rule);
      var i :| 0 <= i < |servicePorts| && rule in f(servicePorts[i]);
      assert servicePorts[i] in servicePorts;
    }
  }

  /** A mismatched agent balancer stops the command before anything is added to it. */
  lemma MismatchedBalancerRejected(servicePorts: seq<ServicePort>, b: LoadBalancer, prefix: string)
    requires servicePorts != [] && StartsWith(b.name, prefix + "-agent-lb-")
    requires |b.frontends| != 1 || |b.backends| != 1
    ensures CreateLoadBalancerRules(servicePorts, [b], prefix) == Failure(BalancerMismatch)
  {
  }
}

=== FILE: env_action.dfy ===
/**
 * `InjectEnvironmentVariablesAction`: a build action holding name/value
 * pairs that it puts into a build's environment. The pairs live in a
 * `HashMap`, so a name or a value may be `null`; the build's `EnvVars`
 * refuses to store either, which ends the loop with an exception after the
 * pairs already put.
 *
 * `EnvVars` is a `TreeMap` ordered by `String.CASE_INSENSITIVE_ORDER`, on
 * every platform: names that differ only in case are one variable, and a
 * `put` of such a name replaces the value but keeps the name stored first.
 *
 * `HashMap` iterates in an order the model does not fix: it is a parameter
 * (`order`). The result without an exception does not depend on it as long
 * as no two held names differ only in case; with two such names it does.
 */
module EnvAction {
  import opened Wrappers
  import opened JavaStrings

  /** The pairs an action holds. */
  type Pairs = map<Option<string>, Option<string>>

  /** One variable of an environment: the name it was first stored with, and its value. */
  datatype Var = Var(name: string, value: string)

  /** A build's environment, filed by the case-folded name. */
  type Env = map<string, Var>

  datatype Action = Action(envs: Pairs)

  /** The one-pair constructor: the action holds exactly `name` to `value`. */
  function SinglePair(name: Option<string>, value: Option<string>): (a: Action)
    ensures a.envs.Keys == {name} && a.envs[name] == value
  {
    Action(map[name := value])
  }

  /**
   * The map constructor copies its argument: the action holds the same
   * pairs. Maps are values here, so a later `put` into the argument cannot
   * reach the copy.
   */
  function FromMap(pairs: Pairs): (a: Action)
    ensures a.envs.Keys == pairs.Keys
    ensures forall k :: k in pairs ==> a.envs[k] == pairs[k]
  {
    Action(map k | k in pairs :: pairs[k])
  }

  /** Every variable is filed under its own name, case-folded. */
  predicate WellKeyed(env: Env) {
    forall f :: f in env ==> ToLowerAscii(env[f].name) == f
  }

  /** `EnvVars.get`: the value of a name, ignoring case. */
  function Get(env: Env, name: string): Option<string> {
    var f := ToLowerAscii(name);
    if f in env then Some(env[f].value) else None
  }

  /**
   * `EnvVars.put` of a name and a value, neither `null`: afterwards the
   * name, in any case, has the value; a name new to the environment is
   * stored as given, while an existing one keeps the name it was stored
   * with; no other variable changes.
   */
  function Put(env: Env, name: string, value: string): (r: Env)
    requires WellKeyed(env)
    ensures WellKeyed(r)
    ensures forall n :: EqualsIgnoreCase(n, name) ==> Get(r, n) == Some(value)
    ensures forall n :: !EqualsIgnoreCase(n, name) ==> Get(r, n) == Get(env, n)
    ensures r.Keys == env.Keys + {ToLowerAscii(name)}
    ensures forall f :: f in env && f != ToLowerAscii(name) ==> r[f] == env[f]
    ensures ToLowerAscii(name) in env ==> r[ToLowerAscii(name)].name == env[ToLowerAscii(name)].name
    ensures ToLowerAscii(name) !in env ==> r[ToLowerAscii(name)].name == name
  {
    var f := ToLowerAscii(name);
    env[f := Var(if f in env then env[f].name else name, value)]
  }

  /** Every pair has a name and a value. */
  predicate AllPresent(envs: Pairs) {
    forall k :: k in envs ==> k.Some? && envs[k].Some?
  }

  /** The pairs named in `held` are held, with a name and a value. */
  predicate HeldPresent(envs: Pairs, held: set<Option<string>>) {
    forall k :: k in held ==> k in envs && k.Some? && envs[k].Some?
  }

  /** The case-folded names in `held`. */
  function FoldedNames(held: set<Option<string>>): set<string> {
    set k | k in held && k.Some? :: ToLowerAscii(k.value)
  }

  /** No two names in `held` differ only in case (a `HashMap` may hold both `a` and `A`). */
  predicate DistinctIgnoringCase(held: set<Option<string>>) {
    forall k, l :: k in held && l in held && k.Some? && l.Some? && EqualsIgnoreCase(k.value, l.value) ==> k == l
  }

  /** After the puts, the variable of `name` has `value`, under the name stored before if there was one. */
  predicate Takes(env: Env, out: Env, name: string, value: string) {
    var f := ToLowerAscii(name);
    f in out && out[f] == Var(if f in env then env[f].name else name, value)
  }

  /**
   * `out` is `env` with the pairs named in `held` put: it has the old
   * variables and the held names; each held name takes its held value; every
   * other variable is unchanged.
   */
  predicate MergedOver(env: Env, envs: Pairs, held: set<Option<string>>, out: Env)
    requires HeldPresent(envs, held)
  {
    && out.Keys == env.Keys + FoldedNames(held)
    && (forall k :: k in held ==> Takes(env, out, k.value, envs[k].value))
    && (forall f :: f in env && f !in FoldedNames(held) ==> out[f] == env[f])
  }

  /** The environment once every pair is put: the reference the loop is checked against. */
  predicate IsMerge(env: Env, envs: Pairs, out: Env)
    requires AllPresent(envs)
  {
    MergedOver(env, envs, envs.Keys, out)
  }

  /** At most one environment is the merge: the reference does not depend on an order. */
  lemma MergeIsUnique(env: Env, envs: Pairs, a: Env, b: Env)
    requires AllPresent(envs) && IsMerge(env, envs, a) && IsMerge(env, envs, b)
    ensures a == b
  {
    forall f | f in a ensures a[f] == b[f] {
      if f in FoldedNames(envs.Keys) {
        var k :| k in envs.Keys && k.Some? && ToLowerAscii(k.value) == f;
        assert Takes(env, a, k.value, envs[k].value) && Takes(env, b, k.value, envs[k].value);
      }
    }
  }

  /** Every name in `ks` is held, and it and its value are present. */
  predicate PresentIn(envs: Pairs, ks: seq<Option<string>>) {
    forall i :: 0 <= i < |ks| ==> ks[i] in envs && ks[i].Some? && envs[ks[i]].Some?
  }

  /** The names listed in `ks`. */
  function Elems(ks: seq<Option<string>>): set<Option<string>> {
    set k | k in ks
  }

  /** The environment after putting the pairs named by `ks`, in that order. */
  function PutSeq(env: Env, envs: Pairs, ks: seq<Option<string>>): (r: Env)
    requires WellKeyed(env) && PresentIn(envs, ks)
    ensures WellKeyed(r)
    decreases |ks|
  {
    if ks == [] then env
    else
      var k := ks[|ks| - 1];
      Put(PutSeq(env, envs, ks[..|ks| - 1]), k.value, envs[k].value)
  }

  /**
   * After the puts of distinct names, no two of them differing only in
   * case, the environment is `env` with exactly those pairs merged in.
   */
  lemma {:induction false} PutSeqMeaning(env: Env, envs: Pairs, ks: seq<Option<string>>)
    requires WellKeyed(env) && PresentIn(envs, ks)
    requires forall i, j :: 0 <= i < j < |ks| ==> ks[i] != ks[j]
    requires DistinctIgnoringCase(Elems(ks))
    ensures HeldPresent(envs, Elems(ks))
    ensures MergedOver(env, envs, Elems(ks), PutSeq(env, envs, ks))
    decreases |ks|
  {
    if ks == [] {
      assert Elems(ks) == {};
      assert FoldedNames(Elems(ks)) == {};
    } else {
      var init, k := ks[..|ks| - 1], ks[|ks| - 1];
      ElemsSnoc(ks);
      PutSeqMeaning(env, envs, init);
      assert ToLowerAscii(k.value) !in FoldedNames(Elems(init));
      MergeStep(env, envs, Elems(init), k, PutSeq(env, envs, init));
    }
  }

  lemma ElemsSnoc(ks: seq<Option<string>>)
    requires ks != [] && forall i, j :: 0 <= i < j < |ks| ==> ks[i] != ks[j]
    ensures Elems(ks) == Elems(ks[..|ks| - 1]) + {ks[|ks| - 1]}
    ensures ks[|ks| - 1] !in Elems(ks[..|ks| - 1])
  {
    var init, k := ks[..|ks| - 1], ks[|ks| - 1];
    forall x ensures x in ks <==> x in init || x == k {
      if x in ks {
        var i :| 0 <= i < |ks| && ks[i] == x;
        if i < |ks| - 1 { assert init[i] == x; }
      }
    }
    forall i | 0 <= i < |init| ensures init[i] != k {
      assert init[i] == ks[i];
    }
  }

  /** Putting one more pair, whose name is new ignoring case, extends the merge by that pair. */
  lemma MergeStep(env: Env, envs: Pairs, held: set<Option<string>>, k: Option<string>, out: Env)
    requires WellKeyed(env) && WellKeyed(out) && HeldPresent(envs, held) && MergedOver(env, envs, held, out)
    requires k in envs && k.Some? && envs[k].Some? && k !in held
    requires ToLowerAscii(k.value) !in FoldedNames(held)
    ensures HeldPresent(envs, held + {k})
    ensures MergedOver(env, envs, held + {k}, Put(out, k.value, envs[k].value))
  {
    var f := ToLowerAscii(k.value);
    assert FoldedNames(held + {k}) == FoldedNames(held) + {f};
    var r := Put(out, k.value, envs[k].value);
    forall l | l in held ensures Takes(env, r, l.value, envs[l].value) {
      assert Takes(env, out, l.value, envs[l].value);
    }
  }

  /** Each variable after the puts has its old value or the value of a pair whose name matches it, ignoring case. */
  predicate FromHeld(envs: Pairs, f: string, v: string) {
    exists k :: k in envs && k.Some? && ToLowerAscii(k.value) == f && envs[k] == Some(v)
  }

  lemma {:induction false} PutSeqSources(env: Env, envs: Pairs, ks: seq<Option<string>>)
    requires WellKeyed(env) && PresentIn(envs, ks)
    ensures env.Keys <= PutSeq(env, envs, ks).Keys
    ensures forall f :: f in PutSeq(env, envs, ks) ==>
              (f in env && PutSeq(env, envs, ks)[f] == env[f]) || FromHeld(envs, f, PutSeq(env, envs, ks)[f].value)
    decreases |ks|
  {
    if ks != [] {
      var init, k := ks[..|ks| - 1], ks[|ks| - 1];
      PutSeqSources(env, envs, init);
      var r := PutSeq(env, envs, ks);
      assert FromHeld(envs, ToLowerAscii(k.value), r[ToLowerAscii(k.value)].value);
    }
  }

  /** `order` lists the held names exactly once each: one iteration of the `HashMap`. */
  predicate IsOrder(envs: Pairs, order: seq<Option<string>>) {
    && |order| == |envs.Keys|
    && (forall i :: 0 <= i < |order| ==> order[i] in envs)
    && (forall i, j :: 0 <= i < j < |order| ==> order[i] != order[j])
  }

  /** Every held name is visited by an iteration order. */
  lemma {:induction false} OrderCoversKeys(envs: Pairs, order: seq<Option<string>>)
    requires IsOrder(envs, order)
    ensures forall k :: k in envs ==> k in order
  {
    var seen := set i | 0 <= i < |order| :: order[i];
    assert seen <= envs.Keys;
    DistinctCount(order);
    if seen != envs.Keys {
      var k :| k in envs.Keys && k !in seen;
      assert seen < envs.Keys;
      SubsetCard(seen, envs.Keys);
      assert false;
    }
  }

  lemma {:induction false} DistinctCount<T>(xs: seq<T>)
    requires forall i, j :: 0 <= i < j < |xs| ==> xs[i] != xs[j]
    ensures |set i | 0 <= i < |xs| :: xs[i]| == |xs|
    decreases |xs|
  {
    if xs != [] {
      var init := xs[..|xs| - 1];
      DistinctCount(init);
      var s := set i | 0 <= i < |init| :: init[i];
      var t := set i | 0 <= i < |xs| :: xs[i];
      assert t == s + {xs[|xs| - 1]} by {
        forall x | x in t ensures x in s + {xs[|xs| - 1]} {
          var i :| 0 <= i < |xs| && xs[i] == x;
          if i < |xs| - 1 { assert init[i] == x; }
        }
        forall x | x in s ensures x in t {
          var i :| 0 <= i < |init| && init[i] == x;
          assert xs[i] == x;
        }
      }
      assert xs[|xs| - 1] !in s by {
        forall i | 0 <= i < |init| ensures init[i] != xs[|xs| - 1] {
          assert init[i] == xs[i];
        }
      }
    }
  }

  lemma SubsetCard<T>(a: set<T>, b: set<T>)
    requires a < b
    ensures |a| < |b|
  {
    var x :| x in b && x !in a;
    assert a <= b - {x};
    SubsetLeCard(a, b - {x});
  }

  lemma {:induction false} SubsetLeCard<T>(a: set<T>, b: set<T>)
    requires a <= b
    ensures |a| <= |b|
    decreases |b|
  {
    if b != {} {
      var x :| x in b;
      SubsetLeCard(a - {x}, b - {x});
    }
  }

  lemma OrderedArePresent(envs: Pairs, order: seq<Option<string>>)
    requires PresentIn(envs, order)
    requires forall k :: k in envs ==> k in order
    ensures AllPresent(envs)
    ensures Elems(order) == envs.Keys
  {
    forall k | k in envs ensures k.Some? && envs[k].Some? {
      var j :| 0 <= j < |order| && order[j] == k;
    }
  }

  lemma PresentExtends(envs: Pairs, order: seq<Option<string>>, i: nat)
    requires i < |order| && PresentIn(envs, order[..i])
    requires order[i] in envs && order[i].Some? && envs[order[i]].Some?
    ensures PresentIn(envs, order[..i + 1])
    ensures order[..i + 1][..i] == order[..i] && order[..i + 1][i] == order[i]
  {
    assert forall j :: 0 <= j < i ==> order[..i + 1][j] == order[..i][j];
  }

  /**
   * `buildEnvVars`: each pair is put in iteration order. A `null` name or
   * value throws, leaving the pairs before it in place. Otherwise, when no
   * two held names differ only in case, the environment ends as the merge,
   * whatever the order was. Either way no variable is lost, and each holds
   * its old value or the value of a held pair of its name.
   */
  method BuildEnvVars(a: Action, order: seq<Option<string>>, env: Env) returns (out: Env, thrown: bool)
    requires IsOrder(a.envs, order) && WellKeyed(env)
    ensures thrown <==> !AllPresent(a.envs)
    ensures !thrown && DistinctIgnoringCase(a.envs.Keys) ==> AllPresent(a.envs) && IsMerge(env, a.envs, out)
    ensures !thrown ==> out == PutSeq(env, a.envs, order)
    ensures WellKeyed(out) && env.Keys <= out.Keys
    ensures forall f :: f in out ==> (f in env && out[f] == env[f]) || FromHeld(a.envs, f, out[f].value)
  {
    out := env;
    var i := 0;
    while i < |order|
      invariant 0 <= i <= |order|
      invariant PresentIn(a.envs, order[..i])
      invariant out == PutSeq(env, a.envs, order[..i])
    {
      var k := order[i];
      var v := a.envs[k];
      if k.None? || v.None? {
        thrown := true;
        PutSeqSources(env, a.envs, order[..i]);
        return;
      }
      PresentExtends(a.envs, order, i);
      out := Put(out, k.value, v.value);
      i := i + 1;
    }
    thrown := false;
    assert order[..i] == order;
    PutSeqSources(env, a.envs, order);
    OrderCoversKeys(a.envs, order);
    OrderedArePresent(a.envs, order);
    if DistinctIgnoringCase(a.envs.Keys) {
      PutSeqMeaning(env, a.envs, order);
    }
  }

  /**
   * Two held names that differ only in case make the result depend on the
   * order: each order leaves the value put last, under the name put first.
   */
  lemma CaseTwinsDependOnOrder(n: string, m: string, v: string, w: string)
    requires n != m && EqualsIgnoreCase(n, m) && v != w
    ensures var envs: Pairs := map[Some(n) := Some(v), Some(m) := Some(w)];
            && IsOrder(envs, [Some(n), Some(m)]) && IsOrder(envs, [Some(m), Some(n)])
            && PutSeq(map[], envs, [Some(n), Some(m)]) == map[ToLowerAscii(n) := Var(n, w)]
            && PutSeq(map[], envs, [Some(m), Some(n)]) == map[ToLowerAscii(n) := Var(m, v)]
  {
    var envs: Pairs := map[Some(n) := Some(v), Some(m) := Some(w)];
    TwinsOrders(n, m, v, w);
    PutTwo(map[], envs, Some(n), Some(m));
    PutTwo(map[], envs, Some(m), Some(n));
    PutTwinOverEmpty(n, m, v, w);
    PutTwinOverEmpty(m, n, w, v);
  }

  lemma TwinsOrders(n: string, m: string, v: string, w: string)
    requires n != m
    ensures var envs: Pairs := map[Some(n) := Some(v), Some(m) := Some(w)];
            IsOrder(envs, [Some(n), Some(m)]) && IsOrder(envs, [Some(m), Some(n)])
  {
    var envs: Pairs := map[Some(n) := Some(v), Some(m) := Some(w)];
    assert envs.Keys == {Some(n), Some(m)};
  }

  /** Into an empty environment, `n` then its case twin `m` leaves `m`'s value under the name `n`. */
  lemma PutTwinOverEmpty(n: string, m: string, v: string, w: string)
    requires EqualsIgnoreCase(n, m)
    ensures Put(Put(map[], n, v), m, w) == map[ToLowerAscii(n) := Var(n, w)]
  {
    assert Put(map[], n, v) == map[ToLowerAscii(n) := Var(n, v)];
  }

  /** Putting two pairs is two `put`s, the first listed first. */
  lemma PutTwo(env: Env, envs: Pairs, x: Option<string>, y: Option<string>)
    requires WellKeyed(env)
    requires x in envs && x.Some? && envs[x].Some? && y in envs && y.Some? && envs[y].Some?
    ensures PresentIn(envs, [x, y])
    ensures PutSeq(env, envs, [x, y]) == Put(Put(env, x.value, envs[x].value), y.value, envs[y].value)
  {
    assert [x, y][..1] == [x] && [x][..0] == [];
    assert PutSeq(env, envs, [x]) == Put(env, x.value, envs[x].value);
  }

  /** `a` and `A` held with different values: the two orders disagree. */
  lemma LowerAndUpperADisagree()
    ensures var envs: Pairs := map[Some("a") := Some("1"), Some("A") := Some("2")];
            PutSeq(map[], envs, [Some("a"), Some("A")]) != PutSeq(map[], envs, [Some("A"), Some("a")])
  {
    assert EqualsIgnoreCase("a", "A") by { assert ToLowerAscii("A") == "a"; }
    CaseTwinsDependOnOrder("a", "A", "1", "2");
    assert Var("a", "2") != Var("A", "1");
  }

  /** Putting the pairs of a one-pair action sets that one variable. */
  lemma SinglePairSetsOne(name: string, value: string, env: Env)
    requires WellKeyed(env)
    ensures AllPresent(SinglePair(Some(name), Some(value)).envs)
    ensures IsMerge(env, SinglePair(Some(name), Some(value)).envs, Put(env, name, value))
  {
    var envs := SinglePair(Some(name), Some(value)).envs;
    assert FoldedNames(envs.Keys) == {ToLowerAscii(name)};
  }

  /** The action shows nothing in the user interface: no icon, name or URL. */
  function IconFileName(a: Action): (r: Option<string>)
    ensures r.None?
  {
    None
  }

  function DisplayName(a: Action): (r: Option<string>)
    ensures r.None?
  {
    None
  }

  function UrlName(a: Action): (r: Option<string>)
    ensures r.None?
  {
    None
  }
}

=== FILE: form_script.dfy ===
/**
 * The page script of the deployment step (`deployment-context.js`): it reads
 * the orchestrator type from the end of the selected `name | type` value and
 * shows the Kubernetes namespace row only for Kubernetes and the "remove
 * containers first" row only for Swarm. The rows of the page are a map from
 * field name to visibility; a field the page does not have is absent.
 */
module FormScript {
  import opened Wrappers
  import opened JavaStrings
  import opened Constants
  import DeploymentContext

  // ---------------------------------------------------------------------
  // The two regular expressions
  // ---------------------------------------------------------------------

  /** `\s` of a JavaScript regular expression. */
  predicate IsJsSpace(c: char) {
    || c == '\t' || c == '\n' || c == '\U{B}' || c == '\U{C}' || c == '\r' || c == ' '
    || c == '\U{A0}' || c == '\U{1680}' || ('\U{2000}' <= c <= '\U{200A}')
    || c == '\U{2028}' || c == '\U{2029}' || c == '\U{202F}' || c == '\U{205F}'
    || c == '\U{3000}' || c == '\U{FEFF}'
  }

  /**
   * What `RegExp.test` reads: the selected value, or the text `"null"` when
   * the select has no value.
   */
  function JsText(value: Option<string>): string {
    if value.None? then "null" else value.value
  }

  /**
   * The meaning of `/\|\s*word$/i` (no multiline flag, so `$` is the end of
   * the text): some `|` is followed only by `\s` characters and then by the
   * word, in any ASCII case, at the very end.
   */
  predicate MatchesTypeSuffix(v: string, word: string) {
    exists k :: 0 <= k && k + 1 + |word| <= |v| && v[k] == '|'
      && (forall i :: k + 1 <= i < |v| - |word| ==> IsJsSpace(v[i]))
      && EqualsIgnoreCase(v[|v| - |word|..], word)
  }

  /** Start of the run of `\s` characters that ends at `end`. */
  function SpaceRunStart(v: string, end: nat): (j: nat)
    requires end <= |v|
    ensures j <= end
    ensures forall i :: j <= i < end ==> IsJsSpace(v[i])
    ensures j > 0 ==> !IsJsSpace(v[j - 1])
  {
    if end == 0 || !IsJsSpace(v[end - 1]) then end else SpaceRunStart(v, end - 1)
  }

  /**
   * The matcher as the script's engine runs it, from the end: the word,
   * then back over the spaces, then a `|`.
   */
  predicate ScanTypeSuffix(v: string, word: string) {
    |word| < |v| && EqualsIgnoreCase(v[|v| - |word|..], word) &&
    var j := SpaceRunStart(v, |v| - |word|);
    j > 0 && v[j - 1] == '|'
  }

  /** The backward scan finds a match exactly when the pattern matches. */
  lemma ScanIffMatches(v: string, word: string)
    ensures ScanTypeSuffix(v, word) <==> MatchesTypeSuffix(v, word)
  {
    if ScanTypeSuffix(v, word) {
      var j := SpaceRunStart(v, |v| - |word|);
      assert v[j - 1] == '|';
      assert forall i :: j <= i < |v| - |word| ==> IsJsSpace(v[i]);
    }
    if MatchesTypeSuffix(v, word) {
      var k :| 0 <= k && k + 1 + |word| <= |v| && v[k] == '|'
        && (forall i :: k + 1 <= i < |v| - |word| ==> IsJsSpace(v[i]))
        && EqualsIgnoreCase(v[|v| - |word|..], word);
      var j := SpaceRunStart(v, |v| - |word|);
      SpaceRunStops(v, |v| - |word|, k);
    }
  }

  /** Going back over spaces stops right after the non-space `|`. */
  lemma {:induction false} SpaceRunStops(v: string, end: nat, k: nat)
    requires k < end <= |v| && !IsJsSpace(v[k])
    requires forall i :: k + 1 <= i < end ==> IsJsSpace(v[i])
    ensures SpaceRunStart(v, end) == k + 1
    decreases end
  {
    if end > k + 1 {
      SpaceRunStops(v, end - 1, k);
    }
  }

  /** `isKubernetes` of the script. */
  predicate IsKubernetes(value: Option<string>) {
    ScanTypeSuffix(JsText(value), "kubernetes")
  }

  /** `isSwarm` of the script. */
  predicate IsSwarm(value: Option<string>) {
    ScanTypeSuffix(JsText(value), "swarm")
  }

  /** No value is both: the two words end differently. */
  lemma NotBothKubernetesAndSwarm(value: Option<string>)
    ensures !(IsKubernetes(value) && IsSwarm(value))
  {
    var v := JsText(value);
    if |v| > 10 && EqualsIgnoreCase(v[|v| - 10..], "kubernetes") {
      assert LowerAscii(v[|v| - 5]) == ToLowerAscii(v[|v| - 10..])[5] == 'n';
      SuffixMismatch(v, "swarm", 4);
    }
  }

  /** A mismatch in one of the last characters rules the word out. */
  lemma SuffixMismatch(v: string, word: string, i: nat)
    requires i < |word| <= |v|
    requires LowerAscii(v[|v| - 1 - i]) != LowerAscii(word[|word| - 1 - i])
    ensures !EqualsIgnoreCase(v[|v| - |word|..], word)
  {
    var s := v[|v| - |word|..];
    assert s[|word| - 1 - i] == v[|v| - 1 - i];
    assert ToLowerAscii(s)[|word| - 1 - i] != ToLowerAscii(word)[|word| - 1 - i];
  }

  /** A selector value whose type is the word, in any ASCII case, matches. */
  lemma SelectorMatchesWord(name: string, typeName: string, word: string)
    requires |typeName| == |word| && EqualsIgnoreCase(typeName, word)
    ensures ScanTypeSuffix(DeploymentContext.SelectorValue(name, typeName), word)
  {
    var v := DeploymentContext.SelectorValue(name, typeName);
    var k := |name| + 1;
    assert v[|v| - |word|..] == typeName;
    assert v[k] == '|' && v[k + 1] == ' ';
    assert forall i :: k + 1 <= i < |v| - |word| ==> IsJsSpace(v[i]);
    assert MatchesTypeSuffix(v, word);
    ScanIffMatches(v, word);
  }

  /** A selector value whose type ends differently from the word does not match. */
  lemma SelectorMissesWord(name: string, typeName: string, word: string, i: nat)
    requires i < |typeName| && i < |word|
    requires LowerAscii(typeName[|typeName| - 1 - i]) != LowerAscii(word[|word| - 1 - i])
    ensures !ScanTypeSuffix(DeploymentContext.SelectorValue(name, typeName), word)
  {
    var v := DeploymentContext.SelectorValue(name, typeName);
    assert v[|v| - 1 - i] == typeName[|typeName| - 1 - i];
    if |word| <= |v| {
      SuffixMismatch(v, word, i);
    }
  }

  /**
   * The script and the plugin agree: for a selector value the plugin
   * offers, the script sees Kubernetes exactly for a Kubernetes service and
   * Swarm exactly for a Swarm service.
   */
  lemma ScriptReadsSelectorType(name: string, t: Orchestrator)
    ensures IsKubernetes(Some(DeploymentContext.SelectorValue(name, Name(t)))) <==> t == Kubernetes
    ensures IsSwarm(Some(DeploymentContext.SelectorValue(name, Name(t)))) <==> t == Swarm
  {
    match t
    case Kubernetes => KubernetesSelectorRead(name);
    case Swarm => SwarmSelectorRead(name);
    case DCOS =>
      SelectorMissesWord(name, "DCOS", "kubernetes", 1);
      SelectorMissesWord(name, "DCOS", "swarm", 0);
    case Custom =>
      SelectorMissesWord(name, "Custom", "kubernetes", 0);
      SelectorMissesWord(name, "Custom", "swarm", 1);
  }

  lemma KubernetesSelectorRead(name: string)
    ensures IsKubernetes(Some(DeploymentContext.SelectorValue(name, "Kubernetes")))
    ensures !IsSwarm(Some(DeploymentContext.SelectorValue(name, "Kubernetes")))
  {
    SelectorMatchesWord(name, "Kubernetes", "kubernetes");
    SelectorMissesWord(name, "Kubernetes", "swarm", 4);
  }

  lemma SwarmSelectorRead(name: string)
    ensures !IsKubernetes(Some(DeploymentContext.SelectorValue(name, "Swarm")))
    ensures IsSwarm(Some(DeploymentContext.SelectorValue(name, "Swarm")))
  {
    SelectorMatchesWord(name, "Swarm", "swarm");
    SelectorMissesWord(name, "Swarm", "kubernetes", 4);
  }

  /** An AKS cluster shows neither optional row. */
  lemma ScriptHidesBothForAks(name: string)
    ensures !IsKubernetes(Some(DeploymentContext.SelectorValue(name, Aks)))
    ensures !IsSwarm(Some(DeploymentContext.SelectorValue(name, Aks)))
  {
    SelectorMissesWord(name, Aks, "kubernetes", 1);
    SelectorMissesWord(name, Aks, "swarm", 0);
  }

  // ---------------------------------------------------------------------
  // Row visibility
  // ---------------------------------------------------------------------

  const NamespaceField: string := "kubernetesNamespace"
  const RemoveContainersField: string := "swarmRemoveContainersFirst"

  /**
   * `setElementVisibility`: show or hide the row of the named field; a field
   * that cannot be found leaves the rows as they are.
   */
  function SetVisibility(rows: map<string, bool>, field: string, show: bool): (r: map<string, bool>)
    ensures r.Keys == rows.Keys
    ensures field in rows ==> r[field] == show
    ensures forall f :: f in rows && f != field ==> r[f] == rows[f]
  {
    if field in rows then rows[field := show] else rows
  }

  /** `handleChange`: both rows set from the current value. */
  function HandleChange(rows: map<string, bool>, value: Option<string>): (r: map<string, bool>)
    ensures r.Keys == rows.Keys
    ensures NamespaceField in rows ==> r[NamespaceField] == IsKubernetes(value)
    ensures RemoveContainersField in rows ==> r[RemoveContainersField] == IsSwarm(value)
    ensures forall f :: f in rows && f != NamespaceField && f != RemoveContainersField ==> r[f] == rows[f]
  {
    SetVisibility(SetVisibility(rows, NamespaceField, IsKubernetes(value)), RemoveContainersField, IsSwarm(value))
  }

  /** Visibility is overwritten, not toggled: the last value alone decides. */
  lemma HandleChangeOverwrites(rows: map<string, bool>, a: Option<string>, b: Option<string>)
    ensures HandleChange(HandleChange(rows, a), b) == HandleChange(rows, b)
  {
  }

  /** Handling the same value twice is handling it once. */
  lemma HandleChangeIdempotent(rows: map<string, bool>, value: Option<string>)
    ensures HandleChange(HandleChange(rows, value), value) == HandleChange(rows, value)
  {
    HandleChangeOverwrites(rows, value, value);
  }

  /**
   * The rows after the script is installed with the select holding
   * `values[0]` and then sees a change or click event for each later value.
   */
  function Replay(rows: map<string, bool>, values: seq<Option<string>>): map<string, bool>
    requires values != []
    decreases |values|
  {
    if |values| == 1 then HandleChange(rows, values[0])
    else HandleChange(Replay(rows, values[..|values| - 1]), values[|values| - 1])
  }

  /** Whatever happened before, the rows show what the last value calls for. */
  lemma {:induction false} ReplayIsLastValue(rows: map<string, bool>, values: seq<Option<string>>)
    requires values != []
    ensures Replay(rows, values) == HandleChange(rows, values[|values| - 1])
    decreases |values|
  {
    if |values| > 1 {
      ReplayIsLastValue(rows, values[..|values| - 1]);
      HandleChangeOverwrites(rows, values[|values| - 2], values[|values| - 1]);
    }
  }

  /** At most one of the two optional rows is visible after any evaluation. */
  lemma AtMostOneOptionalRow(rows: map<string, bool>, value: Option<string>)
    requires NamespaceField in rows && RemoveContainersField in rows
    ensures !(HandleChange(rows, value)[NamespaceField] && HandleChange(rows, value)[RemoveContainersField])
  {
    NotBothKubernetesAndSwarm(value);
  }
}

=== FILE: forms.dfy ===
/**
 * The outcome of a Jenkins form check (`FormValidation`): OK, OK with a
 * warning shown next to the field, or an error that blocks saving.
 */
module Forms {

  datatype FormValidation<+M> = Ok | Warning(message: M) | Error(message: M)
  {
    /** Whether the form can be saved with this value. */
    predicate Accepted() {
      !Error?
    }
  }
}

=== FILE: java_doubles.dfy ===
/**
 * `Double.parseDouble` and the `(int)` cast of a `double`, as Jackson's
 * lenient `asInt` uses them on text that is not a plain integer.  The value
 * read is kept exact: rounding to the nearest `double` is not modelled.
 */
module JavaDoubles {
  import opened Wrappers
  import opened JavaStrings

  /** What `Double.parseDouble` reads: not-a-number, an infinity, or a finite value. */
  datatype DoubleText = NaN | Infinity(negative: bool) | Finite(value: real)

  function Pow(base: nat, n: nat): (r: nat)
    requires base >= 1
    ensures r >= 1
  {
    if n == 0 then 1 else base * Pow(base, n - 1)
  }

  /** `m` times `base` to the power `e`, exactly, for an exponent of either sign. */
  function Scaled(m: nat, base: nat, e: int): (r: real)
    requires base >= 1
    ensures r >= 0.0
  {
    if e >= 0 then (m * Pow(base, e)) as real else m as real / Pow(base, -e) as real
  }

  /** The first position holding one of `cs`, or the length when there is none. */
  function FirstOf(s: string, cs: set<char>): (k: nat)
    ensures k <= |s|
    ensures forall i :: 0 <= i < k ==> s[i] !in cs
    ensures k < |s| ==> s[k] in cs
  {
    if s == [] || s[0] in cs then 0 else 1 + FirstOf(s[1..], cs)
  }

  /** Digits hold no exponent marker and no `.`. */
  lemma PlainDigitsFound(b: string)
    ensures AllDigits(b) ==> FirstOf(b, {'e', 'E'}) == |b| && FirstOf(b, {'.'}) == |b|
  {
    if AllDigits(b) {
      AbsentNotFound(b, {'e', 'E'});
      AbsentNotFound(b, {'.'});
    }
  }

  lemma {:induction false} AbsentNotFound(s: string, cs: set<char>)
    requires forall i :: 0 <= i < |s| ==> s[i] !in cs
    ensures FirstOf(s, cs) == |s|
    decreases |s|
  {
    if s != [] {
      AbsentNotFound(s[1..], cs);
    }
  }

  /** The first of `cs` is found right after a prefix free of them. */
  lemma {:induction false} FirstOfAfter(w: string, c: char, rest: string, cs: set<char>)
    requires forall i :: 0 <= i < |w| ==> w[i] !in cs
    requires c in cs
    ensures FirstOf(w + [c] + rest, cs) == |w|
    decreases |w|
  {
    if w != [] {
      assert (w + [c] + rest)[1..] == w[1..] + [c] + rest;
      FirstOfAfter(w[1..], c, rest, cs);
    }
  }

  predicate IsHexDigit(c: char) {
    IsDigit(c) || ('a' <= c <= 'f') || ('A' <= c <= 'F')
  }

  predicate AllHexDigits(s: string) {
    forall i :: 0 <= i < |s| ==> IsHexDigit(s[i])
  }

  function HexDigitValue(c: char): (v: nat)
    requires IsHexDigit(c)
    ensures v < 16
  {
    if IsDigit(c) then DigitValue(c)
    else if 'a' <= c <= 'f' then c as int - 'a' as int + 10
    else c as int - 'A' as int + 10
  }

  /** The value of a string of hexadecimal digits, most significant first. */
  function HexDigitsValue(s: string): nat
    requires AllHexDigits(s)
  {
    if s == [] then 0 else HexDigitsValue(s[..|s| - 1]) * 16 + HexDigitValue(s[|s| - 1])
  }

  /** A decimal exponent: an optional sign and at least one digit. */
  function ParseExponent(s: string): (r: Option<int>)
    ensures s != [] && AllDigits(s) ==> r == Some(DigitsValue(s))
    ensures r.Some? ==> s != []
  {
    var negative := s != [] && s[0] == '-';
    var digits := if s != [] && (s[0] == '-' || s[0] == '+') then s[1..] else s;
    if digits == [] || !AllDigits(digits) then None
    else
      var v: int := DigitsValue(digits);
      Some(if negative then -v else v)
  }

  /**
   * An unsigned decimal number: digits with at most one `.` among them (at
   * least one digit in all), then optionally `e` or `E` and an exponent.
   */
  function ParseDecimal(b: string): (r: Option<real>)
    ensures b != [] && AllDigits(b) ==> r == Some(DigitsValue(b) as real)
    ensures r.Some? ==> r.value >= 0.0
  {
    PlainDigitsFound(b);
    var k := FirstOf(b, {'e', 'E'});
    assert AllDigits(b) ==> b[..k] == b;
    ParseMantissa(b[..k], if k < |b| then ParseExponent(b[k + 1..]) else Some(0))
  }

  /** The digits before the exponent, with at most one `.` among them, scaled by the exponent read. */
  function ParseMantissa(mantissa: string, exponent: Option<int>): (r: Option<real>)
    ensures mantissa != [] && AllDigits(mantissa) && exponent.Some? ==> r == Some(Scaled(DigitsValue(mantissa), 10, exponent.value))
    ensures mantissa != [] && AllDigits(mantissa) && exponent == Some(0) ==> r == Some(DigitsValue(mantissa) as real)
    ensures r.Some? ==> r.value >= 0.0
  {
    PlainDigitsFound(mantissa);
    var dot := FirstOf(mantissa, {'.'});
    var whole := mantissa[..dot];
    var fraction := if dot < |mantissa| then mantissa[dot + 1..] else [];
    assert AllDigits(mantissa) ==> whole == mantissa && fraction == [];
    assert whole + [] == whole;
    if exponent.None? || whole + fraction == [] || !AllDigits(whole + fraction) then None
    else
      ScaledByNothing(DigitsValue(whole + fraction));
      Some(Scaled(DigitsValue(whole + fraction), 10, exponent.value - |fraction|))
  }

  /**
   * An unsigned hexadecimal number after its `0x`: hexadecimal digits with
   * at most one `.` among them (at least one digit in all), then `p` or `P`
   * and a decimal power of two, which is not optional.
   */
  function ParseHex(b: string): (r: Option<real>)
    ensures r.Some? ==> r.value >= 0.0
  {
    var k := FirstOf(b, {'p', 'P'});
    var mantissa := b[..k];
    var dot := FirstOf(mantissa, {'.'});
    var whole := mantissa[..dot];
    var fraction := if dot < |mantissa| then mantissa[dot + 1..] else [];
    if k == |b| || whole + fraction == [] || !AllHexDigits(whole + fraction) then None
    else
      match ParseExponent(b[k + 1..])
      case None => None
      case Some(e) => Some(Scaled(HexDigitsValue(whole + fraction), 2, e - 4 * |fraction|))
  }

  /**
   * `Double.parseDouble`: surrounding whitespace is ignored; an optional
   * sign, then `NaN`, `Infinity`, a hexadecimal number after `0x` or `0X`,
   * or a decimal one, each number optionally followed by one of `fFdD`.
   * Any other text is a `NumberFormatException`, modelled as `None`.
   */
  function ParseDouble(s: string): (r: Option<DoubleText>)
    ensures Trim(s) != [] && AllDigits(Trim(s)) ==> r == Some(Finite(DigitsValue(Trim(s)) as real))
    ensures Trim(s) == [] ==> r.None?
  {
    var t := Trim(s);
    var negative := t != [] && t[0] == '-';
    var body := if t != [] && (t[0] == '-' || t[0] == '+') then t[1..] else t;
    ParseUnsigned(body, negative)
  }

  /** What follows the sign: `NaN`, `Infinity` or a number with an optional type suffix, negated after a `-`. */
  function ParseUnsigned(body: string, negative: bool): (r: Option<DoubleText>)
    ensures body != [] && AllDigits(body) && !negative ==> r == Some(Finite(DigitsValue(body) as real))
    ensures body == [] ==> r.None?
  {
    if body == "NaN" then Some(NaN)
    else if body == "Infinity" then Some(Infinity(negative))
    else
      var number := if body != [] && body[|body| - 1] in {'f', 'F', 'd', 'D'} then body[..|body| - 1] else body;
      var magnitude :=
        if |number| >= 2 && number[0] == '0' && number[1] in {'x', 'X'} then ParseHex(number[2..])
        else ParseDecimal(number);
      match magnitude
      case None => None
      case Some(v) => Some(Finite(if negative then -v else v))
  }

  /** The Java `(int)` cast of a `double`: truncation toward zero, saturating at the `int` range. */
  function DoubleToInt(d: real): (r: int)
    ensures InInt32(r)
    ensures 0.0 <= d < (IntMax + 1) as real ==> r as real <= d < (r + 1) as real
    ensures (IntMin - 1) as real < d <= 0.0 ==> (r - 1) as real < d <= r as real
    ensures d >= (IntMax + 1) as real ==> r == IntMax
    ensures d <= (IntMin - 1) as real ==> r == IntMin
  {
    var t := if d >= 0.0 then d.Floor else -((-d).Floor);
    if t > IntMax then IntMax else if t < IntMin then IntMin else t
  }

  /** The `(int)` cast of what was read: `NaN` is 0 and the infinities are the `int` bounds. */
  function CastToInt(d: DoubleText): (r: int)
    ensures InInt32(r)
    ensures d.NaN? ==> r == 0
    ensures d.Infinity? ==> r == if d.negative then IntMin else IntMax
    ensures d.Finite? ==> r == DoubleToInt(d.value)
  {
    match d
    case NaN => 0
    case Infinity(negative) => if negative then IntMin else IntMax
    case Finite(v) => DoubleToInt(v)
  }

  // ---------------------------------------------------------------------
  // Digit strings
  // ---------------------------------------------------------------------

  /** Digits written after others shift them left by their own count. */
  lemma {:induction false} DigitsValueConcat(a: string, b: string)
    requires AllDigits(a) && AllDigits(b)
    ensures AllDigits(a + b)
    ensures DigitsValue(a + b) == DigitsValue(a) * Pow(10, |b|) + DigitsValue(b)
    decreases |b|
  {
    if b != [] {
      var b' := b[..|b| - 1];
      var d := DigitValue(b[|b| - 1]);
      assert (a + b)[..|a + b| - 1] == a + b';
      assert (a + b)[|a + b| - 1] == b[|b| - 1];
      DigitsValueConcat(a, b');
      var x := DigitsValue(a);
      var p := Pow(10, |b'|);
      calc {
        DigitsValue(a + b);
        DigitsValue(a + b') * 10 + d;
        (x * p + DigitsValue(b')) * 10 + d;
        { MulAssoc(x, p, 10); }
        x * (p * 10) + (DigitsValue(b') * 10 + d);
      }
    } else {
      assert a + b == a;
    }
  }

  lemma MulAssoc(x: int, p: int, q: int)
    ensures (x * p) * q == x * (p * q)
  {
  }

  /** `n` digits are worth less than ten to the `n`. */
  lemma {:induction false} DigitsValueBound(s: string)
    requires AllDigits(s)
    ensures DigitsValue(s) < Pow(10, |s|)
    decreases |s|
  {
    if s != [] {
      DigitsValueBound(s[..|s| - 1]);
    }
  }

  /** A whole part and a fraction: the number lies between the whole part and the next integer. */
  lemma FractionBetween(w: string, f: string)
    requires AllDigits(w) && AllDigits(f)
    ensures AllDigits(w + f)
    ensures var v := Scaled(DigitsValue(w + f), 10, -|f|);
            DigitsValue(w) as real <= v < (DigitsValue(w) + 1) as real
  {
    DigitsValueConcat(w, f);
    DigitsValueBound(f);
    ScaledBetween(DigitsValue(w), DigitsValue(f), |f|);
  }

  /** `a` followed by the `n` digits of `d`, scaled back by `n` places, lies in `[a, a + 1)`. */
  lemma ScaledBetween(a: nat, d: nat, n: nat)
    requires d < Pow(10, n)
    ensures var v := Scaled(a * Pow(10, n) + d, 10, -(n as int));
            a as real <= v < (a + 1) as real
  {
    if n == 0 {
      ScaledBetweenNone(a, d, n);
    } else {
      ScaledBetweenSome(a, d, n);
    }
  }

  lemma ScaledBetweenSome(a: nat, d: nat, n: nat)
    requires n > 0 && d < Pow(10, n)
    ensures var v := Scaled(a * Pow(10, n) + d, 10, -(n as int));
            a as real <= v < (a + 1) as real
  {
    var p := Pow(10, n);
    ScaledBack(a * p + d, n);
    ShareBetween(a, d, p, Scaled(a * p + d, 10, -(n as int)));
  }

  lemma ScaledBetweenNone(a: nat, d: nat, n: nat)
    requires n == 0 && d < Pow(10, n)
    ensures Scaled(a * Pow(10, n) + d, 10, -(n as int)) == a as real
  {
    assert Pow(10, n) == 1 && d == 0;
    MulOne(a, Pow(10, n));
    ScaledByNothing(a);
  }

  lemma ScaledByNothing(m: nat)
    ensures Scaled(m, 10, 0) == m as real
  {
    MulOne(m, Pow(10, 0));
  }

  /** A non-negative exponent multiplies by that power. */
  lemma ScaledUp(m: nat, base: nat, e: nat)
    requires base >= 1
    ensures Scaled(m, base, e) == (m * Pow(base, e)) as real
  {
  }

  lemma MulOne(a: nat, p: nat)
    requires p == 1
    ensures a * p == a
  {
  }

  /** Scaling down by `n` places and back up gives the number again. */
  lemma ScaledBack(m: nat, n: nat)
    requires n > 0
    ensures Scaled(m, 10, -(n as int)) * Pow(10, n) as real == m as real
  {
    assert -(-(n as int)) == n;
  }

  /** `(a * p + d) / p` lies in `[a, a + 1)` when `0 <= d < p`. */
  lemma ShareBetween(a: nat, d: nat, p: nat, v: real)
    requires d < p
    requires v * p as real == (a * p + d) as real
    ensures a as real <= v < (a + 1) as real
  {
    var pr := p as real;
    assert (a * p + d) as real == a as real * pr + d as real;
    assert (v - a as real) * pr == d as real;
    assert (v - (a + 1) as real) * pr == d as real - pr;
    SignOfProduct(v - a as real, pr);
    SignOfProduct(v - (a + 1) as real, pr);
  }

  lemma SignOfProduct(x: real, y: real)
    requires y > 0.0
    ensures x * y >= 0.0 ==> x >= 0.0
    ensures x * y < 0.0 ==> x < 0.0
  {
  }

  // ---------------------------------------------------------------------
  // Reading plain decimal text
  // ---------------------------------------------------------------------

  /**
   * Text that starts with a digit, is not `0x`, and ends in neither
   * whitespace nor a type suffix is read as an unsigned decimal number.
   */
  lemma PlainDecimalText(s: string)
    requires s != [] && IsDigit(s[0]) && !IsTrimmable(s[|s| - 1])
    requires s[|s| - 1] !in {'f', 'F', 'd', 'D'}
    requires |s| >= 2 ==> s[1] !in {'x', 'X'}
    ensures ParseDouble(s) == (match ParseDecimal(s) case Some(v) => Some(Finite(v)) case None => None)
  {
    TrimKeepsUntrimmedEnds(s);
    assert s[0] != '-' && s[0] != '+';
    UnsignedDecimal(s, false);
  }

  /** A number that starts with a digit, is not `0x` and has no type suffix is read as a decimal. */
  lemma UnsignedDecimal(body: string, negative: bool)
    requires body != [] && IsDigit(body[0])
    requires body[|body| - 1] !in {'f', 'F', 'd', 'D'}
    requires |body| >= 2 ==> body[1] !in {'x', 'X'}
    ensures ParseUnsigned(body, negative) ==
              (match ParseDecimal(body) case Some(v) => Some(Finite(if negative then -v else v)) case None => None)
  {
    assert body != "NaN" && body != "Infinity" by {
      assert "NaN"[0] == 'N' && "Infinity"[0] == 'I';
    }
  }

  /** The same text after a `-` is read as the negated number. */
  lemma NegatedDecimalText(body: string)
    requires body != [] && IsDigit(body[0]) && !IsTrimmable(body[|body| - 1])
    requires body[|body| - 1] !in {'f', 'F', 'd', 'D'}
    requires |body| >= 2 ==> body[1] !in {'x', 'X'}
    ensures ParseDouble("-" + body) == (match ParseDecimal(body) case Some(v) => Some(Finite(-v)) case None => None)
  {
    var s := "-" + body;
    assert s[1..] == body && s[|s| - 1] == body[|body| - 1];
    TrimKeepsUntrimmedEnds(s);
    UnsignedDecimal(body, true);
  }

  /** Digits are plain decimal text: no sign, no `0x`, no type suffix, and they read as their value. */
  lemma DigitsArePlainDecimal(d: string)
    requires d != [] && AllDigits(d)
    ensures IsDigit(d[0]) && !IsTrimmable(d[|d| - 1]) && d[|d| - 1] !in {'f', 'F', 'd', 'D'}
    ensures |d| >= 2 ==> d[1] !in {'x', 'X'}
    ensures ParseDecimal(d) == Some(DigitsValue(d) as real)
  {
  }

  /** A negated whole number casts to itself down to `Integer.MIN_VALUE`, and saturates below it. */
  lemma NegatedWholeCast(n: nat)
    ensures DoubleToInt(-(n as real)) == if n <= 0 - IntMin then 0 - n else IntMin
  {
  }

  /** Digits, a `.` and more digits: the value lies between the whole part and the next integer. */
  lemma DecimalFraction(w: string, f: string)
    requires w != [] && AllDigits(w) && AllDigits(f)
    ensures var v := ParseDecimal(w + "." + f);
            && v.Some?
            && DigitsValue(w) as real <= v.value < (DigitsValue(w) + 1) as real
  {
    var s := w + "." + f;
    assert s == w + ['.'] + f;
    forall i | 0 <= i < |s|
      ensures s[i] !in {'e', 'E'}
    {
      if i < |w| { assert s[i] == w[i]; }
      else if i > |w| { assert s[i] == f[i - |w| - 1]; }
    }
    AbsentNotFound(s, {'e', 'E'});
    assert s[..|s|] == s;
    FirstOfAfter(w, '.', f, {'.'});
    assert s[..|w|] == w && s[|w| + 1..] == f;
    FractionBetween(w, f);
  }

  /** Digits, `e` and more digits: the digits times that power of ten. */
  lemma DecimalExponent(w: string, e: string)
    requires w != [] && AllDigits(w) && e != [] && AllDigits(e)
    ensures ParseDecimal(w + "e" + e) == Some((DigitsValue(w) * Pow(10, DigitsValue(e))) as real)
  {
    var s := w + "e" + e;
    ExponentTextSplits(w, e);
    WholeTimesPower(s, |w|, DigitsValue(e));
  }

  /** Digits with no `.`, then an exponent marker and a non-negative exponent: the digits times that power of ten. */
  lemma WholeTimesPower(b: string, k: nat, x: nat)
    requires k == FirstOf(b, {'e', 'E'}) && k < |b|
    requires b[..k] != [] && AllDigits(b[..k])
    requires ParseExponent(b[k + 1..]) == Some(x)
    ensures ParseDecimal(b) == Some((DigitsValue(b[..k]) * Pow(10, x)) as real)
  {
    DigitsTimesPower(b[..k], x);
  }

  lemma DigitsTimesPower(m: string, x: nat)
    requires m != [] && AllDigits(m)
    ensures ParseMantissa(m, Some(x)) == Some((DigitsValue(m) * Pow(10, x)) as real)
  {
    ScaledUp(DigitsValue(m), 10, x);
  }


  /** In `w` `e` `x`, the marker is found right after the digits `w`, and splits the text there. */
  lemma ExponentTextSplits(w: string, e: string)
    requires AllDigits(w)
    ensures var s := w + "e" + e;
            && FirstOf(s, {'e', 'E'}) == |w|
            && s[..|w|] == w && s[|w| + 1..] == e
  {
    var s := w + "e" + e;
    assert s == w + ['e'] + e;
    FirstOfAfter(w, 'e', e, {'e', 'E'});
  }

}

=== FILE: java_strings.dfy ===
/**
 * The parts of `java.lang.String`, `java.lang.Integer`, `java.lang.Character`
 * and Apache Commons `StringUtils` that the plugin relies on, written out so
 * that their edge cases are visible: `trim` only removes characters up to
 * U+0020, `isBlank` uses `Character.isWhitespace`, `split` drops trailing
 * empty pieces, and `int` arithmetic wraps around at 32 bits.
 */
module JavaStrings {
  import opened Wrappers

  // ---------------------------------------------------------------------
  // 32-bit integers
  // ---------------------------------------------------------------------

  const IntMin: int := -0x8000_0000
  const IntMax: int := 0x7FFF_FFFF
  const TwoTo32: int := 0x1_0000_0000

  predicate InInt32(x: int) {
    IntMin <= x <= IntMax
  }

  /** The value a Java `int` holds after an arithmetic result `x` wraps around. */
  function Wrap32(x: int): (r: int)
    ensures InInt32(r)
    ensures (x - r) % TwoTo32 == 0
    ensures InInt32(x) ==> r == x
  {
    var m := x % TwoTo32;
    if m > IntMax then m - TwoTo32 else m
  }

  /** The `int` that differs from `x` by a multiple of 2^32 is the wrapped `x`. */
  lemma Wrap32Unique(x: int, r: int)
    requires InInt32(r) && (x - r) % TwoTo32 == 0
    ensures Wrap32(x) == r
  {
    var w := Wrap32(x);
    var q1, q2 := (x - r) / TwoTo32, (x - w) / TwoTo32;
    assert x - r == TwoTo32 * q1;
    assert x - w == TwoTo32 * q2;
    assert w - r == TwoTo32 * (q1 - q2);
  }

  /** Wrapping an intermediate result and then subtracting gives the wrapped difference. */
  lemma Wrap32Sub(a: int, b: int)
    ensures Wrap32(Wrap32(a) - b) == Wrap32(a - b)
  {
    var w := Wrap32(a);
    var q := (a - w) / TwoTo32;
    assert a - w == TwoTo32 * q;
    var t := Wrap32(a - b);
    var q2 := (a - b - t) / TwoTo32;
    assert a - b - t == TwoTo32 * q2;
    assert (w - b) - t == TwoTo32 * (q2 - q);
    Wrap32Unique(w - b, t);
  }

  // ---------------------------------------------------------------------
  // Whitespace, blank, trim
  // ---------------------------------------------------------------------

  /**
   * `Character.isWhitespace`: the Unicode space, line and paragraph
   * separators other than the no-break spaces, plus the ASCII controls
   * TAB, LF, VT, FF, CR and FS, GS, RS, US.
   */
  predicate IsWhitespace(c: char) {
    || c == ' ' || c == '\t' || c == '\n' || c == '\U{B}' || c == '\U{C}' || c == '\r'
    || ('\U{1C}' <= c <= '\U{1F}')
    || c == '\U{1680}'
    || ('\U{2000}' <= c <= '\U{2006}')
    || ('\U{2008}' <= c <= '\U{200A}')
    || c == '\U{2028}' || c == '\U{2029}' || c == '\U{205F}' || c == '\U{3000}'
  }

  /** `StringUtils.isBlank` on a non-null string: empty or whitespace only. */
  predicate IsBlank(s: string) {
    forall i :: 0 <= i < |s| ==> IsWhitespace(s[i])
  }

  /** `StringUtils.isBlank` on a reference that may be `null`. */
  predicate IsBlankOrNull(s: Option<string>) {
    s.None? || IsBlank(s.value)
  }

  /** A character `String.trim` removes: every code point up to U+0020. */
  predicate IsTrimmable(c: char) {
    c <= ' '
  }

  /** Length of the longest prefix of trimmable characters. */
  function LeadingTrimmable(s: string): (k: nat)
    ensures k <= |s|
    ensures forall i :: 0 <= i < k ==> IsTrimmable(s[i])
    ensures k < |s| ==> !IsTrimmable(s[k])
  {
    if s == [] || !IsTrimmable(s[0]) then 0 else 1 + LeadingTrimmable(s[1..])
  }

  /** Start of the longest suffix of trimmable characters. */
  function TrailingTrimmable(s: string): (k: nat)
    ensures k <= |s|
    ensures forall i :: k <= i < |s| ==> IsTrimmable(s[i])
    ensures 0 < k ==> !IsTrimmable(s[k - 1])
  {
    if s == [] || !IsTrimmable(s[|s| - 1]) then |s| else TrailingTrimmable(s[..|s| - 1])
  }

  /** `String.trim` (and `StringUtils.trimToEmpty` on a non-null string). */
  function Trim(s: string): (r: string)
    ensures |r| <= |s|
    ensures r == [] <==> forall i :: 0 <= i < |s| ==> IsTrimmable(s[i])
    ensures r != [] ==> !IsTrimmable(r[0]) && !IsTrimmable(r[|r| - 1])
    ensures r != [] ==> r == s[LeadingTrimmable(s)..TrailingTrimmable(s)]
  {
    var a := LeadingTrimmable(s);
    var b := TrailingTrimmable(s);
    if a < b then s[a..b]
    else
      assert a == |s|;
      []
  }

  /** Trimming a trimmed string changes nothing. */
  lemma TrimIdempotent(s: string)
    ensures Trim(Trim(s)) == Trim(s)
  {
    var t := Trim(s);
    if t != [] {
      assert LeadingTrimmable(t) == 0;
      TrailingOfUntrimmedEnd(t);
      assert t[0..|t|] == t;
    }
  }

  /** A string that neither starts nor ends with a trimmable character is its own trim. */
  lemma TrimKeepsUntrimmedEnds(s: string)
    requires s != [] && !IsTrimmable(s[0]) && !IsTrimmable(s[|s| - 1])
    ensures Trim(s) == s
  {
    TrailingOfUntrimmedEnd(s);
    assert s[0..|s|] == s;
  }

  lemma TrailingOfUntrimmedEnd(t: string)
    requires t != [] && !IsTrimmable(t[|t| - 1])
    ensures TrailingTrimmable(t) == |t|
  {
  }

  predicate AllTrimmable(s: string) {
    forall i :: 0 <= i < |s| ==> IsTrimmable(s[i])
  }

  /** Trimming removes exactly a trimmable frame around a core with untrimmable ends. */
  lemma TrimOf(u: string, r: string, v: string)
    requires AllTrimmable(u) && AllTrimmable(v)
    requires r != [] && !IsTrimmable(r[0]) && !IsTrimmable(r[|r| - 1])
    ensures Trim(u + r + v) == r
  {
    var x := u + r + v;
    assert x[|u|] == r[0];
    assert x[|u| + |r| - 1] == r[|r| - 1];
    assert forall i :: 0 <= i < |u| ==> x[i] == u[i];
    assert forall i :: |u| + |r| <= i < |x| ==> x[i] == v[i - |u| - |r|];
    var a := LeadingTrimmable(x);
    assert a == |u|;
    var b := TrailingTrimmable(x);
    assert b == |u| + |r|;
    assert x[a..b] == r;
  }

  /** Trimmable padding on either side does not change the trimmed text. */
  lemma TrimPadded(p: string, s: string, q: string)
    requires AllTrimmable(p) && AllTrimmable(q)
    ensures Trim(p + s + q) == Trim(s)
  {
    if Trim(s) == [] {
      AllTrimmableConcat(p, s, q);
    } else {
      TrimPaddedCore(p, s, q);
    }
  }

  lemma TrimPaddedCore(p: string, s: string, q: string)
    requires AllTrimmable(p) && AllTrimmable(q)
    requires Trim(s) != []
    ensures Trim(p + s + q) == Trim(s)
  {
    TrimFrame(s);
    TrimOfFramed(p, s, s[..LeadingTrimmable(s)], Trim(s), s[TrailingTrimmable(s)..], q);
  }

  /** `s` is `t`, with untrimmable ends, inside the trimmable frame `x` and `z`. */
  predicate Framed(s: string, x: string, t: string, z: string) {
    && AllTrimmable(x) && AllTrimmable(z)
    && t != [] && !IsTrimmable(t[0]) && !IsTrimmable(t[|t| - 1])
    && s == x + t + z
  }

  /** A string with a non-empty trim is that trim inside a trimmable frame. */
  lemma TrimFrame(s: string)
    requires Trim(s) != []
    ensures LeadingTrimmable(s) <= TrailingTrimmable(s)
    ensures Framed(s, s[..LeadingTrimmable(s)], Trim(s), s[TrailingTrimmable(s)..])
  {
    var a := LeadingTrimmable(s);
    var b := TrailingTrimmable(s);
    assert Trim(s) == s[a..b];
    SliceThree(s, a, b);
    TrimFrameTrimmable(s);
  }

  /** The characters `Trim` cuts off are trimmable. */
  lemma TrimFrameTrimmable(s: string)
    ensures AllTrimmable(s[..LeadingTrimmable(s)]) && AllTrimmable(s[TrailingTrimmable(s)..])
  {
    var a := LeadingTrimmable(s);
    var b := TrailingTrimmable(s);
    assert forall i :: 0 <= i < a ==> s[..a][i] == s[i];
    assert forall i :: 0 <= i < |s| - b ==> s[b..][i] == s[b + i];
  }

  lemma ConcatAssoc<T>(x: seq<T>, y: seq<T>, z: seq<T>)
    ensures x + (y + z) == (x + y) + z
  {
    assert |x + (y + z)| == |(x + y) + z|;
  }

  /** A string is the text before position `i`, the character at `i`, and the text after it. */
  lemma CutAt(s: string, i: int)
    requires 0 <= i < |s|
    ensures s == s[..i] + [s[i]] + s[i + 1..]
  {
    assert s[..i] + [s[i]] == s[..i + 1];
  }

  /** A sequence is its three slices at `a` and `b` put back together. */
  lemma SliceThree<T>(s: seq<T>, a: int, b: int)
    requires 0 <= a <= b <= |s|
    ensures s == s[..a] + s[a..b] + s[b..]
  {
    assert s[..a] + s[a..b] == s[..b];
  }

  lemma TrimOfFramed(p: string, s: string, x: string, t: string, z: string, q: string)
    requires AllTrimmable(p) && AllTrimmable(q) && Framed(s, x, t, z)
    ensures Trim(p + s + q) == t
  {
    assert p + s + q == (p + x) + t + (z + q);
    AllTrimmableConcat(p, x, []);
    AllTrimmableConcat([], z, q);
    assert p + x + [] == p + x;
    assert [] + z + q == z + q;
    TrimOf(p + x, t, z + q);
  }

  lemma AllTrimmableConcat(p: string, s: string, q: string)
    requires AllTrimmable(p) && AllTrimmable(s) && AllTrimmable(q)
    ensures AllTrimmable(p + s + q)
  {
    var x := p + s + q;
    assert forall i :: 0 <= i < |p| ==> x[i] == p[i];
    assert forall i :: |p| <= i < |p| + |s| ==> x[i] == s[i - |p|];
    assert forall i :: |p| + |s| <= i < |x| ==> x[i] == q[i - |p| - |s|];
  }

  /** `StringUtils.trimToEmpty` on a reference that may be `null`. */
  function TrimToEmpty(s: Option<string>): (r: string)
    ensures s.None? ==> r == []
    ensures s.Some? ==> r == Trim(s.value)
  {
    if s.None? then [] else Trim(s.value)
  }

  /** What `trimToEmpty` returns is already trimmed. */
  lemma TrimToEmptyTrimmed(s: Option<string>)
    ensures Trim(TrimToEmpty(s)) == TrimToEmpty(s)
  {
    if s.Some? {
      TrimIdempotent(s.value);
    }
  }

  /** `StringUtils.trimToNull`: the trimmed text, or `null` when it is empty. */
  function TrimToNull(s: Option<string>): (r: Option<string>)
    ensures r.Some? ==> r.value != [] && r.value == TrimToEmpty(s)
    ensures r.None? <==> TrimToEmpty(s) == []
  {
    var t := TrimToEmpty(s);
    if t == [] then None else Some(t)
  }

  /**
   * `String.valueOf` of a reference that may be `null`, which is also what
   * string concatenation and `%s` produce: the text `"null"` for `null`.
   */
  function ValueOf(s: Option<string>): string {
    if s.None? then "null" else s.value
  }

  // ---------------------------------------------------------------------
  // Length in UTF-16 code units
  // ---------------------------------------------------------------------

  /** The UTF-16 code units of one character: two for one outside the Basic Multilingual Plane. */
  function CharUnits(c: char): (n: nat)
    ensures n == 1 <==> (c as int) < 0x1_0000
    ensures n == 1 || n == 2
  {
    if (c as int) < 0x1_0000 then 1 else 2
  }

  /**
   * `String.length()`: Java strings hold UTF-16 code units, so a character
   * outside the Basic Multilingual Plane counts twice.
   */
  function Utf16Length(s: string): (n: nat)
    ensures |s| <= n <= 2 * |s|
  {
    if s == [] then 0 else CharUnits(s[0]) + Utf16Length(s[1..])
  }

  /** The UTF-16 length is the number of characters exactly when every character is in the Basic Multilingual Plane. */
  lemma {:induction false} Utf16LengthIsCountIff(s: string)
    ensures Utf16Length(s) == |s| <==> forall i :: 0 <= i < |s| ==> (s[i] as int) < 0x1_0000
  {
    if s != [] {
      Utf16LengthIsCountIff(s[1..]);
      assert forall i :: 1 <= i < |s| ==> s[i] == s[1..][i - 1];
    }
  }

  /** A string of characters outside the Basic Multilingual Plane has twice as many UTF-16 units. */
  lemma {:induction false} Utf16LengthOfAstral(s: string)
    requires forall i :: 0 <= i < |s| ==> (s[i] as int) >= 0x1_0000
    ensures Utf16Length(s) == 2 * |s|
  {
    if s != [] {
      assert forall i :: 0 <= i < |s| - 1 ==> s[1..][i] == s[i + 1];
      Utf16LengthOfAstral(s[1..]);
    }
  }

  // ---------------------------------------------------------------------
  // Searching and splitting on a single literal character
  // ---------------------------------------------------------------------

  /** Index of the first occurrence of `c`. */
  function IndexOf(s: string, c: char): (i: nat)
    requires c in s
    ensures i < |s| && s[i] == c
    ensures c !in s[..i]
  {
    if s[0] == c then 0
    else
      assert c in s[1..] by { var k :| 0 <= k < |s| && s[k] == c; assert s[1..][k - 1] == c; }
      var j := IndexOf(s[1..], c);
      assert s[..j + 1] == [s[0]] + s[1..][..j];
      1 + j
  }

  /** Index of the last occurrence of `c`. */
  function LastIndexOf(s: string, c: char): (i: nat)
    requires c in s
    ensures i < |s| && s[i] == c
    ensures c !in s[i + 1..]
  {
    if s[|s| - 1] == c then |s| - 1
    else
      var t := s[..|s| - 1];
      assert c in t by { var k :| 0 <= k < |s| && s[k] == c; assert t[k] == c; }
      var j := LastIndexOf(t, c);
      assert s[j + 1..] == t[j + 1..] + [s[|s| - 1]];
      j
  }

  /** The last `c` is the one after which no `c` follows. */
  lemma LastIndexOfSplit(a: string, c: char, b: string)
    requires c !in b
    ensures c in a + [c] + b
    ensures LastIndexOf(a + [c] + b, c) == |a|
  {
    var s := a + [c] + b;
    assert s[|a|] == c;
    assert s[|a| + 1..] == b;
  }

  /** Pieces joined back with the delimiter between consecutive pieces. */
  function Join(parts: seq<string>, d: char): string
    requires |parts| >= 1
  {
    if |parts| == 1 then parts[0] else parts[0] + [d] + Join(parts[1..], d)
  }

  /** Every piece between two delimiters, empty ones included (a negative split limit). */
  function SplitAll(s: string, d: char): (parts: seq<string>)
    ensures |parts| >= 1
    ensures forall i :: 0 <= i < |parts| ==> d !in parts[i]
    ensures Join(parts, d) == s
    decreases |s|
  {
    if d !in s then [s]
    else
      var i := IndexOf(s, d);
      var rest := SplitAll(s[i + 1..], d);
      assert s == s[..i] + [d] + s[i + 1..];
      [s[..i]] + rest
  }

  /** Splitting what `Join` produced gives back the pieces. */
  lemma {:induction false} SplitAllJoin(parts: seq<string>, d: char)
    requires |parts| >= 1
    requires forall i :: 0 <= i < |parts| ==> d !in parts[i]
    ensures SplitAll(Join(parts, d), d) == parts
    decreases |parts|
  {
    if |parts| > 1 {
      var rest := Join(parts[1..], d);
      SplitAllJoin(parts[1..], d);
      SplitAtFirst(parts[0], d, rest);
      assert SplitAll(Join(parts, d), d) == [parts[0]] + SplitAll(rest, d);
    } else {
      assert Join(parts, d) == parts[0];
    }
  }

  /** The first delimiter of `p + [d] + rest` is the one after `p` when `p` holds none. */
  lemma SplitAtFirst(p: string, d: char, rest: string)
    requires d !in p
    ensures d in p + [d] + rest
    ensures IndexOf(p + [d] + rest, d) == |p|
    ensures (p + [d] + rest)[..|p|] == p && (p + [d] + rest)[|p| + 1..] == rest
  {
    var s := p + [d] + rest;
    assert s[|p|] == d;
    assert s[..|p|] == p;
    assert s[|p| + 1..] == rest;
  }

  /** Cutting `p + [d] + rest` at its first delimiter gives `p` and `rest` when `p` holds none. */
  /** Text without the delimiter splits into itself alone. */
  lemma SplitWithoutDelimiter(s: string, d: char)
    requires d !in s
    ensures SplitAll(s, d) == [s] && SplitFirst(s, d) == [s]
  {
  }

  lemma SplitFirstOf(p: string, d: char, rest: string)
    requires d !in p
    ensures SplitFirst(p + [d] + rest, d) == [p, rest]
  {
    SplitAtFirst(p, d, rest);
  }

  /** The pieces with every trailing empty piece removed. */
  function DropTrailingEmpty(parts: seq<string>): (r: seq<string>)
    ensures r <= parts
    ensures r == [] || r[|r| - 1] != []
    ensures forall i :: |r| <= i < |parts| ==> parts[i] == []
  {
    if parts != [] && parts[|parts| - 1] == [] then DropTrailingEmpty(parts[..|parts| - 1]) else parts
  }

  /**
   * `String.split(regex)` for a regex matching one literal character `d`:
   * the input itself when `d` does not occur, otherwise every piece with the
   * trailing empty pieces removed.
   */
  function Split(s: string, d: char): (parts: seq<string>)
    ensures d !in s ==> parts == [s]
    ensures d in s ==> parts <= SplitAll(s, d)
    ensures parts == [] <==> |s| > 0 && forall i :: 0 <= i < |s| ==> s[i] == d
    ensures forall i :: 0 <= i < |parts| ==> d !in parts[i]
  {
    if d !in s then
      assert |s| > 0 ==> s[0] in s;
      [s]
    else
      var all := SplitAll(s, d);
      var r := DropTrailingEmpty(all);
      assert r == [] <==> forall i :: 0 <= i < |s| ==> s[i] == d by {
        if r == [] {
          forall i | 0 <= i < |s| ensures s[i] == d {
            AllEmptyJoinIsDelims(all, d, i);
          }
        } else {
          var j :| 0 <= j < |r[|r| - 1]| && true;
          var k := JoinPosition(all, d, |r| - 1, j);
          assert s[k] == all[|r| - 1][j];
          assert s[k] != d;
        }
      }
      r
  }

  /** The first piece `split` returns is the text before the first delimiter. */
  lemma FirstPieceOfSplit(s: string, d: char)
    requires Split(s, d) != []
    ensures Split(s, d)[0] == SplitFirst(s, d)[0]
  {
    if d in s {
      assert SplitAll(s, d)[0] == s[..IndexOf(s, d)];
    }
  }

  /**
   * `split` returns exactly two pieces when the second piece is not empty
   * and every piece after it is.
   */
  lemma SplitTwoPieces(s: string, d: char)
    ensures |Split(s, d)| == 2 <==>
              |SplitAll(s, d)| >= 2 && SplitAll(s, d)[1] != []
              && forall i :: 2 <= i < |SplitAll(s, d)| ==> SplitAll(s, d)[i] == []
    ensures |Split(s, d)| == 2 ==> Split(s, d)[1] == SplitAll(s, d)[1]
  {
    var all := SplitAll(s, d);
    if d !in s {
      assert all == [s];
    } else {
      var r := Split(s, d);
      assert r == DropTrailingEmpty(all);
      if |all| >= 2 && all[1] != [] && forall i :: 2 <= i < |all| ==> all[i] == [] {
        assert |r| >= 2;
        assert r[|r| - 1] == all[|r| - 1];
        assert |r| == 2;
      }
    }
  }

  /** When every piece is empty, the joined string is delimiters only. */
  lemma {:induction false} AllEmptyJoinIsDelims(parts: seq<string>, d: char, i: int)
    requires |parts| >= 1
    requires forall k :: 0 <= k < |parts| ==> parts[k] == []
    requires 0 <= i < |Join(parts, d)|
    ensures Join(parts, d)[i] == d
    decreases |parts|
  {
    if |parts| > 1 {
      assert Join(parts, d) == [d] + Join(parts[1..], d);
      if i > 0 {
        AllEmptyJoinIsDelims(parts[1..], d, i - 1);
      }
    }
  }

  /** Where the `j`-th character of piece `p` lands in the joined string. */
  lemma {:induction false} JoinPosition(parts: seq<string>, d: char, p: int, j: int) returns (k: int)
    requires |parts| >= 1
    requires 0 <= p < |parts| && 0 <= j < |parts[p]|
    ensures 0 <= k < |Join(parts, d)|
    ensures Join(parts, d)[k] == parts[p][j]
    decreases |parts|
  {
    if p == 0 {
      if |parts| == 1 {
        k := j;
      } else {
        k := j;
        assert Join(parts, d) == parts[0] + ([d] + Join(parts[1..], d));
      }
    } else {
      var k' := JoinPosition(parts[1..], d, p - 1, j);
      assert Join(parts, d) == (parts[0] + [d]) + Join(parts[1..], d);
      k := |parts[0]| + 1 + k';
    }
  }

  /**
   * `String.split(regex, 2)` for a one-character regex: at most two pieces,
   * cut at the first occurrence of `d`; empty pieces are kept.
   */
  function SplitFirst(s: string, d: char): (parts: seq<string>)
    ensures 1 <= |parts| <= 2
    ensures |parts| == 2 <==> d in s
    ensures |parts| == 1 ==> parts[0] == s
    ensures |parts| == 2 ==> s == parts[0] + [d] + parts[1] && d !in parts[0]
  {
    if d !in s then [s]
    else
      var i := IndexOf(s, d);
      assert s == s[..i] + [d] + s[i + 1..];
      [s[..i], s[i + 1..]]
  }

  /** `String.startsWith`. */
  predicate StartsWith(s: string, prefix: string) {
    prefix <= s
  }

  /** `String.endsWith`. */
  predicate EndsWith(s: string, suffix: string) {
    |suffix| <= |s| && s[|s| - |suffix|..] == suffix
  }

  // ---------------------------------------------------------------------
  // ASCII case
  // ---------------------------------------------------------------------

  function LowerAscii(c: char): (r: char)
    ensures !('A' <= r <= 'Z')
    ensures 'a' <= c <= 'z' ==> r == c
  {
    if 'A' <= c <= 'Z' then (c as int - 'A' as int + 'a' as int) as char else c
  }

  /** `String.toLowerCase` on text whose letters are all ASCII. */
  function ToLowerAscii(s: string): (r: string)
    ensures |r| == |s|
    ensures forall i :: 0 <= i < |s| ==> r[i] == LowerAscii(s[i])
  {
    seq(|s|, i requires 0 <= i < |s| => LowerAscii(s[i]))
  }

  /** `String.equalsIgnoreCase`, folding the ASCII letters. */
  predicate EqualsIgnoreCase(a: string, b: string) {
    ToLowerAscii(a) == ToLowerAscii(b)
  }

  lemma EqualsIgnoreCaseSymmetric(a: string, b: string)
    ensures EqualsIgnoreCase(a, b) <==> EqualsIgnoreCase(b, a)
  {
  }

  // ---------------------------------------------------------------------
  // Decimal integers
  // ---------------------------------------------------------------------

  predicate IsDigit(c: char) {
    '0' <= c <= '9'
  }

  predicate AllDigits(s: string) {
    forall i :: 0 <= i < |s| ==> IsDigit(s[i])
  }

  function DigitValue(c: char): (v: nat)
    requires IsDigit(c)
    ensures v < 10
  {
    c as int - '0' as int
  }

  function DigitChar(v: nat): (c: char)
    requires v < 10
    ensures IsDigit(c) && DigitValue(c) == v
  {
    ('0' as int + v) as char
  }

  /** The value of a string of decimal digits, most significant first. */
  function DigitsValue(s: string): nat
    requires AllDigits(s)
  {
    if s == [] then 0 else DigitsValue(s[..|s| - 1]) * 10 + DigitValue(s[|s| - 1])
  }

  /**
   * `Integer.parseInt(s)` (and `Integer.valueOf`): an optional `+` or `-`,
   * then one or more decimal digits, and the value must fit in an `int`;
   * anything else is a `NumberFormatException`, modelled as `None`.
   */
  function ParseInt(s: string): (r: Option<int>)
    ensures r.Some? ==> InInt32(r.value)
    ensures s == [] ==> r.None?
    ensures AllDigits(s) && s != [] ==> (r.Some? <==> DigitsValue(s) <= IntMax)
    ensures AllDigits(s) && s != [] && r.Some? ==> r.value == DigitsValue(s)
  {
    if s == [] then None
    else if s[0] == '-' || s[0] == '+' then
      var body := s[1..];
      if body == [] || !AllDigits(body) then None
      else
        var mag: int := DigitsValue(body);
        var v := if s[0] == '-' then 0 - mag else mag;
        if InInt32(v) then Some(v) else None
    else if AllDigits(s) then
      var v := DigitsValue(s);
      if v <= IntMax then Some(v) else None
    else None
  }

  /** Decimal digits of a natural number, without leading zeros. */
  function NatToString(n: nat): (s: string)
    ensures s != [] && AllDigits(s)
    ensures |s| > 1 ==> s[0] != '0'
    decreases n
  {
    if n < 10 then [DigitChar(n)] else NatToString(n / 10) + [DigitChar(n % 10)]
  }

  /** `Integer.toString` / `%d`: decimal digits with a leading `-` when negative. */
  function IntToString(n: int): (s: string)
    ensures s != []
    ensures n >= 0 <==> s[0] != '-'
    ensures forall i :: 0 < i < |s| ==> IsDigit(s[i])
    ensures ':' !in s && '/' !in s
  {
    if n < 0 then "-" + NatToString(-n) else NatToString(n)
  }

  lemma {:induction false} NatToStringValue(n: nat)
    ensures DigitsValue(NatToString(n)) == n
    decreases n
  {
    if n >= 10 {
      var s := NatToString(n);
      var h := NatToString(n / 10);
      assert s[..|s| - 1] == h;
      NatToStringValue(n / 10);
    }
  }

  /** Reading back what `IntToString` writes gives the same `int`. */
  lemma IntToStringParses(n: int)
    requires InInt32(n)
    ensures ParseInt(IntToString(n)) == Some(n)
  {
    NatToStringValue(if n < 0 then -n else n);
    if n < 0 {
      assert IntToString(n)[1..] == NatToString(-n);
    }
  }

  /** Different integers are written differently. */
  lemma IntToStringInjective(a: int, b: int)
    requires InInt32(a) && InInt32(b)
    requires IntToString(a) == IntToString(b)
    ensures a == b
  {
    IntToStringParses(a);
    IntToStringParses(b);
  }
}

=== FILE: management_delegate.dfy ===
/**
 * `AzureManagementServiceDelegate`: filling one parameter of an ARM
 * template (`validateAndAddFieldValue`) and watching a template deployment
 * until its operations have finished (`monitor`).
 *
 * The template is the parsed JSON tree. The deployment operations the
 * management API lists in each polling round are a parameter: one entry per
 * round, either the operations or the message of the exception the listing
 * threw.
 */
module ManagementDelegate {
  import opened Wrappers
  import opened JavaStrings
  import opened Documents
  import BaseContext

  // ---------------------------------------------------------------------
  // Objects of the JSON tree
  // ---------------------------------------------------------------------

  /** Every entry with `key` given the value `v`, the other entries as they were. */
  function Replaced(entries: seq<(Value, Value)>, key: Value, v: Value): (r: seq<(Value, Value)>)
    ensures |r| == |entries|
    ensures forall i :: 0 <= i < |r| ==> r[i].0 == entries[i].0
  {
    if entries == [] then []
    else
      var last := entries[|entries| - 1];
      Replaced(entries[..|entries| - 1], key, v) + [if last.0 == key then (key, v) else last]
  }

  /** `Replaced` changes the last entry and then the entries before it. */
  lemma ReplacedSnoc(init: seq<(Value, Value)>, last: (Value, Value), key: Value, v: Value)
    ensures Replaced(init + [last], key, v) == Replaced(init, key, v) + [if last.0 == key then (key, v) else last]
  {
    assert (init + [last])[..|init|] == init;
  }

  /** After `Replaced`, the key reads `v` if it was there. */
  lemma {:induction false} ReplacedLookupKey(entries: seq<(Value, Value)>, key: Value, v: Value)
    ensures Lookup(Replaced(entries, key, v), key) == if Lookup(entries, key).Some? then Some(v) else None
    decreases |entries|
  {
    if entries != [] {
      var init, last := entries[..|entries| - 1], entries[|entries| - 1];
      assert entries == init + [last];
      ReplacedSnoc(init, last, key, v);
      ReplacedLookupKey(init, key, v);
      LookupSnoc(init, last.0, last.1, key);
      if last.0 == key {
        LookupSnoc(Replaced(init, key, v), key, v, key);
      } else {
        LookupSnoc(Replaced(init, key, v), last.0, last.1, key);
      }
    }
  }

  /** After `Replaced`, every other key reads as before. */
  lemma {:induction false} ReplacedLookupOther(entries: seq<(Value, Value)>, key: Value, v: Value, k: Value)
    requires k != key
    ensures Lookup(Replaced(entries, key, v), k) == Lookup(entries, k)
    decreases |entries|
  {
    if entries != [] {
      var init, last := entries[..|entries| - 1], entries[|entries| - 1];
      assert entries == init + [last];
      ReplacedSnoc(init, last, key, v);
      ReplacedLookupOther(init, key, v, k);
      LookupSnoc(init, last.0, last.1, k);
      if last.0 == key {
        LookupSnoc(Replaced(init, key, v), key, v, k);
      } else {
        LookupSnoc(Replaced(init, key, v), last.0, last.1, k);
      }
    }
  }

  /**
   * `ObjectNode.replace(key, v)` / `put`: an existing key keeps its place
   * and takes the new value; a new key is added last.
   */
  function PutField(entries: seq<(Value, Value)>, key: Value, v: Value): (r: seq<(Value, Value)>)
  {
    if Lookup(entries, key).Some? then Replaced(entries, key, v) else entries + [(key, v)]
  }

  /** `PutField` sets one key and leaves every other key's value alone. */
  lemma PutFieldLookup(entries: seq<(Value, Value)>, key: Value, v: Value, k: Value)
    ensures Lookup(PutField(entries, key, v), k) == if k == key then Some(v) else Lookup(entries, k)
  {
    if Lookup(entries, key).Some? {
      if k == key {
        ReplacedLookupKey(entries, key, v);
      } else {
        ReplacedLookupOther(entries, key, v, k);
      }
    } else {
      LookupSnoc(entries, key, v, k);
    }
  }

  // ---------------------------------------------------------------------
  // validateAndAddFieldValue
  // ---------------------------------------------------------------------

  /** Why filling a template parameter fails. */
  datatype FieldError =
    | Rejected(message: Option<string>)  // AzureCloudException carrying the error message
    | NotANumber                         // Integer.parseInt: NumberFormatException
    | NoParameters                       // tmp.get("parameters") is null: NullPointerException
    | ParametersNotObject                // the cast to ObjectNode: ClassCastException

  /** `ObjectNode.put(String, String)`: a `null` text is stored as a JSON `null`. */
  function TextNode(s: Option<string>): Value {
    if s.None? then Null else Str(s.value)
  }

  /**
   * The parameter node `{"type": type, "defaultValue": value}`; for type
   * `int` the value is parsed as a Java `int`.
   */
  function ParameterNode(fieldType: Option<string>, fieldValue: string): (r: Result<Value, FieldError>)
    ensures r.Failure? <==> fieldType == Some("int") && ParseInt(fieldValue).None?
    ensures r.Failure? ==> r.error == NotANumber
    ensures r.Success? ==> r.value.Obj? && Lookup(r.value.entries, Str("type")) == Some(TextNode(fieldType))
    ensures r.Success? && fieldType == Some("int") ==>
              Lookup(r.value.entries, Str("defaultValue")) == Some(Int(ParseInt(fieldValue).value))
    ensures r.Success? && fieldType != Some("int") ==>
              Lookup(r.value.entries, Str("defaultValue")) == Some(Str(fieldValue))
  {
    var defaultValue :=
      if fieldType == Some("int") then
        var n := ParseInt(fieldValue);
        if n.None? then Failure(NotANumber) else Success(Int(n.value))
      else Success(Str(fieldValue));
    if defaultValue.Failure? then Failure(NotANumber)
    else
      var entries := [(Str("type"), TextNode(fieldType)), (Str("defaultValue"), defaultValue.value)];
      assert entries == [(Str("type"), TextNode(fieldType))] + [(Str("defaultValue"), defaultValue.value)];
      assert [(Str("type"), TextNode(fieldType))] == [] + [(Str("type"), TextNode(fieldType))];
      LookupSnoc([], Str("type"), TextNode(fieldType), Str("defaultValue"));
      LookupSnoc([], Str("type"), TextNode(fieldType), Str("type"));
      LookupSnoc([(Str("type"), TextNode(fieldType))], Str("defaultValue"), defaultValue.value, Str("defaultValue"));
      LookupSnoc([(Str("type"), TextNode(fieldType))], Str("defaultValue"), defaultValue.value, Str("type"));
      Success(Obj(entries))
  }

  /**
   * `((ObjectNode) tmp.get("parameters")).replace(fieldName, parameter)`:
   * the template with its `parameters` object holding the new node.
   */
  function AddParameter(tmp: Value, fieldName: string, parameter: Value): (r: Result<Value, FieldError>)
    ensures Field(tmp, "parameters").None? ==> r == Failure(NoParameters)
    ensures Field(tmp, "parameters").Some? && !Field(tmp, "parameters").value.Obj? ==> r == Failure(ParametersNotObject)
    ensures r.Success? <==> Field(tmp, "parameters").Some? && Field(tmp, "parameters").value.Obj?
    ensures r.Success? ==> r.value.Obj?
  {
    match Field(tmp, "parameters")
    case None => Failure(NoParameters)
    case Some(params) =>
      if !params.Obj? then Failure(ParametersNotObject)
      else Success(Obj(PutField(tmp.entries, Str("parameters"), Obj(PutField(params.entries, Str(fieldName), parameter)))))
  }

  /** The new parameter reads back from the template, and every other parameter and field is untouched. */
  lemma AddParameterReadsBack(tmp: Value, fieldName: string, parameter: Value, other: string, key: string)
    requires AddParameter(tmp, fieldName, parameter).Success?
    ensures var r := AddParameter(tmp, fieldName, parameter).value;
            && Field(r, "parameters").Some? && Field(r, "parameters").value.Obj?
            && Lookup(Field(r, "parameters").value.entries, Str(fieldName)) == Some(parameter)
            && (other != fieldName ==>
                  Lookup(Field(r, "parameters").value.entries, Str(other))
                    == Lookup(Field(tmp, "parameters").value.entries, Str(other)))
            && (key != "parameters" ==> Field(r, key) == Field(tmp, key))
  {
    var params := Field(tmp, "parameters").value;
    var inner := PutField(params.entries, Str(fieldName), parameter);
    PutFieldLookup(tmp.entries, Str("parameters"), Obj(inner), Str("parameters"));
    PutFieldLookup(tmp.entries, Str("parameters"), Obj(inner), Str(key));
    PutFieldLookup(params.entries, Str(fieldName), parameter, Str(fieldName));
    PutFieldLookup(params.entries, Str(fieldName), parameter, Str(other));
  }

  /**
   * `validateAndAddFieldValue` as written: a non-blank value is put into
   * the template; for a blank value the test on the error message is
   * inverted, so a call WITHOUT a message throws and a call WITH one
   * silently leaves the template as it was.
   */
  function ValidateAndAddFieldValueAsWritten(fieldType: Option<string>, fieldValue: Option<string>, fieldName: string,
                                             errorMessage: Option<string>, tmp: Value): (r: Result<Value, FieldError>)
    ensures IsBlankOrNull(fieldValue) && IsBlankOrNull(errorMessage) ==> r == Failure(Rejected(errorMessage))
    ensures IsBlankOrNull(fieldValue) && !IsBlankOrNull(errorMessage) ==> r == Success(tmp)
  {
    if !IsBlankOrNull(fieldValue) then
      var parameter :- ParameterNode(fieldType, fieldValue.value);
      AddParameter(tmp, fieldName, parameter)
    else if IsBlankOrNull(errorMessage) then Failure(Rejected(errorMessage))
    else Success(tmp)
  }

  /**
   * `validateAndAddFieldValue` as its callers use it: a blank value of a
   * field that comes with an error message (a required field) is rejected
   * with that message, and a blank value of a field without one (an
   * optional field) leaves the template unchanged.
   */
  function ValidateAndAddFieldValue(fieldType: Option<string>, fieldValue: Option<string>, fieldName: string,
                                    errorMessage: Option<string>, tmp: Value): (r: Result<Value, FieldError>)
    ensures IsBlankOrNull(fieldValue) && IsBlankOrNull(errorMessage) ==> r == Success(tmp)
    ensures IsBlankOrNull(fieldValue) && !IsBlankOrNull(errorMessage) ==> r == Failure(Rejected(errorMessage))
    ensures r.Failure? && r.error.Rejected? ==> !IsBlankOrNull(r.error.message)
    ensures !IsBlankOrNull(fieldValue) ==>
              (r.Success? <==> ParameterNode(fieldType, fieldValue.value).Success?
                               && AddParameter(tmp, fieldName, ParameterNode(fieldType, fieldValue.value).value).Success?)
    ensures !IsBlankOrNull(fieldValue) && r.Success? ==>
              r == AddParameter(tmp, fieldName, ParameterNode(fieldType, fieldValue.value).value)
  {
    if !IsBlankOrNull(fieldValue) then
      var parameter :- ParameterNode(fieldType, fieldValue.value);
      AddParameter(tmp, fieldName, parameter)
    else if !IsBlankOrNull(errorMessage) then Failure(Rejected(errorMessage))
    else Success(tmp)
  }

  /**
   * A filled `int` parameter reads back as the number and a filled text
   * parameter as the text, under the field's name in `parameters`.
   */
  lemma FilledParameterReadsBack(fieldType: Option<string>, fieldValue: string, fieldName: string,
                                 errorMessage: Option<string>, tmp: Value)
    requires !IsBlank(fieldValue)
    requires ValidateAndAddFieldValue(fieldType, Some(fieldValue), fieldName, errorMessage, tmp).Success?
    ensures var r := ValidateAndAddFieldValue(fieldType, Some(fieldValue), fieldName, errorMessage, tmp).value;
            var params := Field(r, "parameters");
            && params.Some? && params.value.Obj?
            && var node := Lookup(params.value.entries, Str(fieldName));
               && node.Some? && node.value.Obj?
               && Lookup(node.value.entries, Str("defaultValue")) ==
                    Some(if fieldType == Some("int") then Int(ParseInt(fieldValue).value) else Str(fieldValue))
  {
    var parameter := ParameterNode(fieldType, fieldValue).value;
    AddParameterReadsBack(tmp, fieldName, parameter, fieldName, "parameters");
  }

  /** For a non-blank value the code as written and the corrected one agree. */
  lemma AsWrittenAgreesOnValues(fieldType: Option<string>, fieldValue: Option<string>, fieldName: string,
                                errorMessage: Option<string>, tmp: Value)
    requires !IsBlankOrNull(fieldValue)
    ensures ValidateAndAddFieldValueAsWritten(fieldType, fieldValue, fieldName, errorMessage, tmp)
            == ValidateAndAddFieldValue(fieldType, fieldValue, fieldName, errorMessage, tmp)
  {
  }

  /**
   * The inverted test, on the calls the older deployment context makes: an
   * empty optional agent count (no message) aborts the template, and an
   * empty DNS name prefix, whose call carries a message, is skipped.
   */
  lemma InvertedMessageTest(tmp: Value)
    ensures ValidateAndAddFieldValueAsWritten(Some("int"), Some(""), "agentCount", None, tmp)
            == Failure(Rejected(None))
    ensures ValidateAndAddFieldValueAsWritten(Some("string"), Some(""), "dnsNamePrefix",
                                              Some("Invalid DNS name prefix ''"), tmp) == Success(tmp)
    ensures ValidateAndAddFieldValue(Some("int"), Some(""), "agentCount", None, tmp) == Success(tmp)
    ensures ValidateAndAddFieldValue(Some("string"), Some(""), "dnsNamePrefix", Some("Invalid DNS name prefix ''"), tmp)
            == Failure(Rejected(Some("Invalid DNS name prefix ''")))
  {
    assert !IsWhitespace("Invalid DNS name prefix ''"[0]);
  }

  // ---------------------------------------------------------------------
  // monitor
  // ---------------------------------------------------------------------

  /** `ProvisioningState` of the Azure SDK's App Service package, in its declaration order. */
  datatype ProvisioningState = Succeeded | Failed | Canceled | InProgress | Deleting

  /** The state's name: what `toString` and `%s` write, and what `fromString` compares with. */
  function StateName(s: ProvisioningState): string {
    match s
    case Succeeded => "Succeeded"
    case Failed => "Failed"
    case Canceled => "Canceled"
    case InProgress => "InProgress"
    case Deleting => "Deleting"
  }

  /**
   * `ProvisioningState.fromString`: the first state whose name equals the
   * text ignoring case, `null` for any other text and for `null`.
   */
  function StateFromText(t: Option<string>): (r: Option<ProvisioningState>)
    ensures r.Some? ==> t.Some? && EqualsIgnoreCase(StateName(r.value), t.value)
    ensures r.None? ==> t.None? || forall s: ProvisioningState :: !EqualsIgnoreCase(StateName(s), t.value)
  {
    if t.None? then None
    else if EqualsIgnoreCase(StateName(Succeeded), t.value) then Some(Succeeded)
    else if EqualsIgnoreCase(StateName(Failed), t.value) then Some(Failed)
    else if EqualsIgnoreCase(StateName(Canceled), t.value) then Some(Canceled)
    else if EqualsIgnoreCase(StateName(InProgress), t.value) then Some(InProgress)
    else if EqualsIgnoreCase(StateName(Deleting), t.value) then Some(Deleting)
    else None
  }

  /** No two state names are equal ignoring case: their lengths or first letters differ. */
  lemma StateNamesDistinctIgnoringCase(s: ProvisioningState, u: ProvisioningState)
    ensures EqualsIgnoreCase(StateName(s), StateName(u)) <==> s == u
  {
    assert |ToLowerAscii(StateName(s))| == |StateName(s)| && |ToLowerAscii(StateName(u))| == |StateName(u)|;
    assert ToLowerAscii(StateName(s))[0] == LowerAscii(StateName(s)[0]);
    assert ToLowerAscii(StateName(u))[0] == LowerAscii(StateName(u)[0]);
  }

  /** A state's name, in any ASCII case, reads back as that state. */
  lemma StateFromTextName(s: ProvisioningState, t: string)
    requires EqualsIgnoreCase(StateName(s), t)
    ensures StateFromText(Some(t)) == Some(s)
  {
    var r := StateFromText(Some(t));
    assert r.Some? by {
      assert EqualsIgnoreCase(StateName(s), t);
    }
    StateNamesDistinctIgnoringCase(r.value, s);
  }

  /** A state that makes `monitor` give up. */
  predicate Terminal(s: ProvisioningState) {
    s == Canceled || s == Failed || s == Deleting
  }

  /** The resource a deployment operation works on. */
  datatype Target = Target(name: Option<string>, kind: Option<string>)

  /**
   * A deployment operation: its target (may be `null`) and the text of its
   * provisioning state (may be `null`).
   */
  datatype Operation = Operation(target: Option<Target>, state: Option<string>)

  /** The operation's state as `fromString` reads it. */
  function StateOf(op: Operation): Option<ProvisioningState> {
    StateFromText(op.state)
  }

  /** An operation that no longer counts as outstanding: no target, or succeeded. */
  predicate Settled(op: Operation) {
    op.target.None? || StateOf(op) == Some(Succeeded)
  }

  /** The number of settled operations. */
  function SettledCount(ops: seq<Operation>): (n: nat)
    ensures n <= |ops|
  {
    if ops == [] then 0 else (if Settled(ops[0]) then 1 else 0) + SettledCount(ops[1..])
  }

  /** `%s: %s:%s` of a state, a resource type and a resource name. */
  function Described(what: string, s: ProvisioningState, t: Target): string {
    what + "(" + StateName(s) + "): " + ValueOf(t.kind) + ":" + ValueOf(t.name)
  }

  /**
   * The status lines for a succeeded operation. As written, the
   * `SUCCEEDED` case has no `break` and falls into `default`, so a
   * succeeded operation is also reported as still to be completed.
   */
  function SucceededLines(t: Target, asWritten: bool): (lines: seq<string>)
    ensures |lines| == if asWritten then 2 else 1
    ensures lines[0] == Described("Succeeded", Succeeded, t)
  {
    if asWritten then [Described("Succeeded", Succeeded, t), Described("To Be Completed", Succeeded, t)]
    else [Described("Succeeded", Succeeded, t)]
  }

  function LogAll(c: BaseContext.Context, lines: seq<string>): (r: BaseContext.Context)
    ensures r.state == c.state && |r.log| == |c.log| + |lines|
    ensures forall i :: 0 <= i < |lines| ==> r.log[|c.log| + i] == BaseContext.Status(lines[i])
    ensures r.log[..|c.log|] == c.log
    decreases |lines|
  {
    if lines == [] then c else LogAll(BaseContext.LogStatus(c, lines[0]), lines[1..])
  }

  /** How one polling round ends. */
  datatype RoundEnd =
    | Halted(context: BaseContext.Context)                 // a failed operation: monitor returns false
    | Crashed(context: BaseContext.Context)                // a state `fromString` does not know: NullPointerException
    | Counted(remaining: int, context: BaseContext.Context) // every operation looked at

  /** An operation the round passes over: no target, or a known state that is not a failure. */
  predicate Passes(op: Operation) {
    op.target.None? || (StateOf(op).Some? && !Terminal(StateOf(op).value))
  }

  /** The context's log starts with the earlier context's log. */
  predicate Extends(after: BaseContext.Context, before: BaseContext.Context) {
    |after.log| >= |before.log| && after.log[..|before.log|] == before.log
  }

  /**
   * One pass of the loop body. `Counted` here means the loop goes on, with
   * the new count.
   */
  function Visit(c: BaseContext.Context, op: Operation, completed: int, asWritten: bool): (r: RoundEnd)
    ensures r.Counted? <==> Passes(op)
    ensures r.Counted? ==> r.remaining == completed - (if Settled(op) then 1 else 0)
    ensures r.Counted? && !asWritten ==> |r.context.log| == |c.log| + (if op.target.Some? then 1 else 0)
    ensures r.Halted? ==> BaseContext.InError(r.context)
    ensures !r.Halted? ==> r.context.state == c.state
    ensures Extends(r.context, c)
  {
    if op.target.None? then Counted(completed - 1, c)
    else match StateOf(op)
      case None => Crashed(c)
      case Some(state) =>
        if Terminal(state) then
          Halted(BaseContext.LogError(c, Described("Failed", state, op.target.value)))
        else if state == Succeeded then
          Counted(completed - 1, LogAll(c, SucceededLines(op.target.value, asWritten)))
        else
          Counted(completed, BaseContext.LogStatus(c, Described("To Be Completed", state, op.target.value)))
  }

  /**
   * The `for` loop of one round: operations without a target and succeeded
   * operations are subtracted from `completed`; the first canceled, failed
   * or deleting operation logs an error and stops the round.
   */
  function Round(c: BaseContext.Context, ops: seq<Operation>, completed: int, asWritten: bool): (r: RoundEnd)
    decreases |ops|
    ensures r.Counted? <==> forall i :: 0 <= i < |ops| ==> Passes(ops[i])
    ensures r.Counted? ==> r.remaining == completed - SettledCount(ops)
    ensures r.Halted? ==> BaseContext.InError(r.context)
    ensures !r.Halted? ==> r.context.state == c.state
    ensures Extends(r.context, c)
  {
    if ops == [] then Counted(completed, c)
    else
      match Visit(c, ops[0], completed, asWritten)
      case Counted(left, after) =>
        var r := Round(after, ops[1..], left, asWritten);
        assert forall i :: 1 <= i < |ops| ==> ops[i] == ops[1..][i - 1];
        r
      case other => other
  }

  /** What `monitor` ends with. */
  datatype MonitorEnd =
    | Answer(ok: bool, context: BaseContext.Context)
    | Thrown(context: BaseContext.Context)       // the NullPointerException of a round escapes
    | StillPolling(context: BaseContext.Context) // the given rounds ran out before the count reached 0

  /**
   * `monitor`: the `do ... while (completed != 0)` loop over the rounds the
   * management API answers. A failed listing logs an error and returns
   * `false`, as does a failed operation; a round that leaves nothing
   * outstanding returns `true`.
   */
  function Monitor(c: BaseContext.Context, rounds: seq<Result<seq<Operation>, string>>, asWritten: bool): (r: MonitorEnd)
    decreases |rounds|
    ensures r.Answer? && !r.ok ==> BaseContext.InError(r.context)
    ensures r.Answer? && r.ok ==>
              exists i :: 0 <= i < |rounds| && rounds[i].Success?
                          && SettledCount(rounds[i].value) == |rounds[i].value|
    ensures rounds == [] ==> r == StillPolling(c)
  {
    if rounds == [] then StillPolling(c)
    else match rounds[0]
      case Failure(message) =>
        Answer(false, BaseContext.LogError(c, "Failed getting deployment operations" + message))
      case Success(ops) =>
        match Round(c, ops, |ops|, asWritten)
        case Halted(after) => Answer(false, after)
        case Crashed(after) => Thrown(after)
        case Counted(remaining, after) =>
          if remaining == 0 then Answer(true, after)
          else
            var r := Monitor(after, rounds[1..], asWritten);
            assert r.Answer? && r.ok ==> exists i :: 1 <= i < |rounds| && rounds[i] == rounds[1..][i - 1]
                                                     && rounds[i].Success?
                                                     && SettledCount(rounds[i].value) == |rounds[i].value|;
            r
  }

  /** If every operation of the first round is settled, `monitor` returns `true` after that round. */
  lemma AllSettledFinishes(c: BaseContext.Context, ops: seq<Operation>, more: seq<Result<seq<Operation>, string>>,
                           asWritten: bool)
    requires forall i :: 0 <= i < |ops| ==> Settled(ops[i])
    ensures Monitor(c, [Success(ops)] + more, asWritten).Answer?
    ensures Monitor(c, [Success(ops)] + more, asWritten).ok
  {
    AllSettledCount(ops);
  }

  lemma {:induction false} AllSettledCount(ops: seq<Operation>)
    requires forall i :: 0 <= i < |ops| ==> Settled(ops[i])
    ensures SettledCount(ops) == |ops|
    decreases |ops|
  {
    if ops != [] {
      AllSettledCount(ops[1..]);
    }
  }

  /** An empty listing finishes at once: the count starts at 0. */
  lemma NoOperationsFinish(c: BaseContext.Context, more: seq<Result<seq<Operation>, string>>, asWritten: bool)
    ensures Monitor(c, [Success([])] + more, asWritten) == Answer(true, c)
  {
  }

  /** The number of operations with a target. */
  function Targeted(ops: seq<Operation>): (n: nat)
    ensures n <= |ops|
  {
    if ops == [] then 0 else (if ops[0].target.Some? then 1 else 0) + Targeted(ops[1..])
  }

  /**
   * Corrected reporting: a round that looks at every operation writes
   * exactly one status line for each operation with a target.
   */
  lemma {:induction false} OneLinePerOperation(c: BaseContext.Context, ops: seq<Operation>, completed: int)
    requires Round(c, ops, completed, false).Counted?
    ensures |Round(c, ops, completed, false).context.log| == |c.log| + Targeted(ops)
    decreases |ops|
  {
    if ops != [] {
      var v := Visit(c, ops[0], completed, false);
      assert Passes(ops[0]);
      OneLinePerOperation(v.context, ops[1..], v.remaining);
    }
  }

  /**
   * As written, a single succeeded operation is reported twice, the second
   * time as still to be completed.
   */
  lemma SucceededReportedTwice(c: BaseContext.Context, t: Target)
    ensures var r := Round(c, [Operation(Some(t), Some("Succeeded"))], 1, true);
            && r == Counted(0, r.context)
            && r.context.log == c.log + [BaseContext.Status(Described("Succeeded", Succeeded, t)),
                                         BaseContext.Status(Described("To Be Completed", Succeeded, t))]
  {
    StateFromTextName(Succeeded, "Succeeded");
    var ops := [Operation(Some(t), Some("Succeeded"))];
    assert ops[1..] == [];
    var a, b := Described("Succeeded", Succeeded, t), Described("To Be Completed", Succeeded, t);
    assert [a, b][1..] == [b] && [b][1..] == [];
    assert SucceededLines(t, true) == [a, b];
    var after := LogAll(c, [a, b]);
    var c1 := BaseContext.LogStatus(c, a);
    assert after == LogAll(c1, [b]);
    assert LogAll(c1, [b]) == LogAll(BaseContext.LogStatus(c1, b), []);
    assert after.log == c.log + [BaseContext.Status(Described("Succeeded", Succeeded, t)),
                                 BaseContext.Status(Described("To Be Completed", Succeeded, t))];
  }

  /**
   * An operation with a target whose state text `fromString` does not know
   * (or `null`) ends the round with a `NullPointerException` at the
   * `switch`.
   */
  lemma UnknownStateCrashes(c: BaseContext.Context, op: Operation, completed: int, asWritten: bool)
    requires op.target.Some? && StateOf(op).None?
    ensures Visit(c, op, completed, asWritten) == Crashed(c)
    ensures Round(c, [op], completed, asWritten) == Crashed(c)
  {
  }

  /** `Running` is not a provisioning state: `monitor` throws out of its first round. */
  lemma RunningStateThrows(c: BaseContext.Context, t: Target, more: seq<Result<seq<Operation>, string>>, asWritten: bool)
    ensures Monitor(c, [Success([Operation(Some(t), Some("Running"))])] + more, asWritten) == Thrown(c)
  {
    var op := Operation(Some(t), Some("Running"));
    assert StateOf(op).None? by {
      forall s: ProvisioningState
        ensures !EqualsIgnoreCase(StateName(s), "Running")
      {
        assert |ToLowerAscii(StateName(s))| == |StateName(s)| != 7;
      }
    }
    UnknownStateCrashes(c, op, 1, asWritten);
  }

  /** A state name in another case is read as that state: `inprogress` is still to be completed. */
  lemma LowerCaseStateRead(c: BaseContext.Context, t: Target)
    ensures Visit(c, Operation(Some(t), Some("inprogress")), 1, false)
         == Counted(1, BaseContext.LogStatus(c, Described("To Be Completed", InProgress, t)))
  {
    assert EqualsIgnoreCase(StateName(InProgress), "inprogress") by {
      assert ToLowerAscii("InProgress") == "inprogress";
    }
    StateFromTextName(InProgress, "inprogress");
  }
}

=== FILE: marathon_command.dfy ===
/**
 * `MarathonDeploymentCommand`: deploys Marathon application files to a
 * DC/OS cluster.  The model covers the decisions the command takes (which
 * agents receive the registry credentials, where they are put, the name
 * of the per-build directory) and the remote commands it issues, as a list
 * of steps; the SSH connections themselves are not modelled.
 */
module MarathonCommand {
  import opened Wrappers
  import opened JavaStrings
  import opened Documents
  import opened DeployHelper
  import opened Seqs
  import BaseContext

  /** Why the command stops. */
  datatype CommandError =
    | NullPointer                          // a health node without `role`, or an agent without `host_ip`
    | RelativePathNotAllowed(path: string) // the configured credentials path is not absolute
    | NoAgentFound                         // the master lists no agent
    | UriRejected                          // `encodeURIPath` cannot quote the archive path
    | NoConfigFilesFound                   // `Factory.build` finds no configuration file
    | RemoteFailed(step: Step)             // a remote command or copy failed

  // ---------------------------------------------------------------------
  // Agents reported by the DC/OS health service
  // ---------------------------------------------------------------------

  /** Jackson's `textValue`: the text of a text node, `null` for any other node. */
  function TextValue(v: Value): (r: Option<string>)
    ensures r.Some? <==> v.Str?
  {
    if v.Str? then Some(v.s) else None
  }

  /** A node whose role reads as the text `master`. */
  predicate IsMaster(node: Value) {
    Field(node, "role").Some? && TextValue(Field(node, "role").value) == Some("master")
  }

  /**
   * A node the loop can read without dereferencing `null`: it has a
   * `role`, and unless it is the master it has a `host_ip`.
   */
  predicate Readable(node: Value) {
    Field(node, "role").Some? && (!IsMaster(node) ==> Field(node, "host_ip").Some?)
  }

  /**
   * One node of the `nodes` array: nothing for the master, the text of
   * `host_ip` for any other role (`null` when it is not text), and a
   * `NullPointerException` for a missing field.
   */
  function AgentOf(node: Value): (r: Result<seq<Option<string>>, CommandError>)
    ensures r.Success? <==> Readable(node)
    ensures r.Failure? ==> r.error == NullPointer
    ensures r.Success? && IsMaster(node) ==> r.value == []
    ensures r.Success? && !IsMaster(node) ==> r.value == [TextValue(Field(node, "host_ip").value)]
  {
    match Field(node, "role")
    case None => Failure(NullPointer)
    case Some(role) =>
      if TextValue(role) == Some("master") then Success([])
      else
        match Field(node, "host_ip")
        case None => Failure(NullPointer)
        case Some(ip) => Success([TextValue(ip)])
  }

  /** The loop over the `nodes` array. */
  function AgentsOf(nodes: seq<Value>): Result<seq<Option<string>>, CommandError> {
    FlatMapResult(AgentOf, nodes)
  }

  /**
   * `getAgentNodes(String)` on the parsed health report: the agents of the
   * `nodes` array, or none when `nodes` is missing or not an array.
   */
  function AgentNodes(root: Value): (r: Result<seq<Option<string>>, CommandError>)
    ensures (Field(root, "nodes").None? || !Field(root, "nodes").value.Arr?) ==> r == Success([])
  {
    match Field(root, "nodes")
    case Some(Arr(nodes)) => AgentsOf(nodes)
    case _ => Success([])
  }

  /** The report is read through exactly when every node is readable. */
  lemma AgentsOfSucceedsIff(nodes: seq<Value>)
    ensures AgentsOf(nodes).Success? <==> forall i :: 0 <= i < |nodes| ==> Readable(nodes[i])
    ensures AgentsOf(nodes).Failure? ==> AgentsOf(nodes).error == NullPointer
  {
    FlatMapResultSuccess(AgentOf, nodes);
    if AgentsOf(nodes).Failure? {
      FlatMapResultFailure(AgentOf, nodes);
    }
  }

  /** The agents of two runs of nodes are the agents of the first run, then of the second. */
  lemma AgentsInNodeOrder(a: seq<Value>, b: seq<Value>)
    ensures AgentsOf(a + b).Success? <==> AgentsOf(a).Success? && AgentsOf(b).Success?
    ensures AgentsOf(a + b).Success? ==> AgentsOf(a + b).value == AgentsOf(a).value + AgentsOf(b).value
  {
    FlatMapResultAppend(AgentOf, a, b);
  }

  /** An address is listed exactly when some non-master node carries it as its `host_ip` text. */
  lemma AgentsAreTheNonMasters(nodes: seq<Value>, host: string)
    requires AgentsOf(nodes).Success?
    ensures Some(host) in AgentsOf(nodes).value <==>
              exists i :: 0 <= i < |nodes| && !IsMaster(nodes[i]) && Field(nodes[i], "host_ip") == Some(Str(host))
  {
    if Some(host) in AgentsOf(nodes).value {
      ListedComesFromNode(nodes, host);
    }
    if exists i :: 0 <= i < |nodes| && !IsMaster(nodes[i]) && Field(nodes[i], "host_ip") == Some(Str(host)) {
      var i :| 0 <= i < |nodes| && !IsMaster(nodes[i]) && Field(nodes[i], "host_ip") == Some(Str(host));
      NodeIsListed(nodes, i, host);
    }
  }

  lemma ListedComesFromNode(nodes: seq<Value>, host: string)
    requires AgentsOf(nodes).Success? && Some(host) in AgentsOf(nodes).value
    ensures exists i :: 0 <= i < |nodes| && !IsMaster(nodes[i]) && Field(nodes[i], "host_ip") == Some(Str(host))
  {
    FlatMapResultSuccess(AgentOf, nodes);
    var f := OrEmpty(AgentOf);
    FlatMapMember(f, nodes, Some(host));
    var i :| 0 <= i < |nodes| && Some(host) in f(nodes[i]);
    ListedHost(nodes[i], host);
  }

  lemma ListedHost(node: Value, host: string)
    requires AgentOf(node).Success? && Some(host) in AgentOf(node).value
    ensures !IsMaster(node) && Field(node, "host_ip") == Some(Str(host))
  {
  }

  lemma NodeIsListed(nodes: seq<Value>, i: int, host: string)
    requires AgentsOf(nodes).Success?
    requires 0 <= i < |nodes| && !IsMaster(nodes[i]) && Field(nodes[i], "host_ip") == Some(Str(host))
    ensures Some(host) in AgentsOf(nodes).value
  {
    FlatMapResultSuccess(AgentOf, nodes);
    var f := OrEmpty(AgentOf);
    assert AgentOf(nodes[i]).Success?;
    assert f(nodes[i]) == [Some(host)];
    FlatMapContains(f, nodes, i, Some(host));
  }

  /** A health node as the service reports it. */
  function HealthNode(ip: string, role: string): Value {
    Obj([(Str("host_ip"), Str(ip)), (Str("health"), Int(0)), (Str("role"), Str(role))])
  }

  lemma HealthNodeReads(ip: string, role: string)
    ensures AgentOf(HealthNode(ip, role)) == if role == "master" then Success([]) else Success([Some(ip)])
  {
    assert "host_ip"[1] != "health"[1] && "host_ip"[0] != "role"[0] && "health"[0] != "role"[0];
    LookupOfThree(Str("host_ip"), Str(ip), Str("health"), Int(0), Str("role"), Str(role));
    var node := HealthNode(ip, role);
    assert Field(node, "role") == Some(Str(role));
    assert Field(node, "host_ip") == Some(Str(ip));
  }

  /** Three agents around a master: the master is dropped and the agents keep their order. */
  lemma MasterDroppedAgentsKept(a: string, b: string, m: string, c: string)
    ensures AgentsOf([HealthNode(a, "agent"), HealthNode(b, "agent_public"), HealthNode(m, "master"), HealthNode(c, "agent")])
            == Success([Some(a), Some(b), Some(c)])
  {
    var x, y, z, w := [HealthNode(a, "agent")], [HealthNode(b, "agent_public")], [HealthNode(m, "master")], [HealthNode(c, "agent")];
    assert "agent" != "master" && "agent_public" != "master";
    OneAgent(a, "agent");
    OneAgent(b, "agent_public");
    OneAgent(m, "master");
    OneAgent(c, "agent");
    AgentsInNodeOrder(x, y);
    AgentsInNodeOrder(x + y, z);
    AgentsInNodeOrder(x + y + z, w);
    assert AgentsOf(x + y + z).value == [Some(a), Some(b)] + [];
    assert AgentsOf(x + y + z + w).value == [Some(a), Some(b)] + [Some(c)] == [Some(a), Some(b), Some(c)];
    assert x + y + z + w == [HealthNode(a, "agent"), HealthNode(b, "agent_public"), HealthNode(m, "master"), HealthNode(c, "agent")];
  }

  /** A single health node lists its address unless it is the master. */
  lemma OneAgent(ip: string, role: string)
    ensures AgentsOf([HealthNode(ip, role)]) == if role == "master" then Success([]) else Success([Some(ip)])
  {
    HealthNodeReads(ip, role);
    var n := [HealthNode(ip, role)];
    assert n[1..] == [];
    assert FlatMapResult(AgentOf, n[1..]) == Success([]);
    assert AgentOf(n[0]).value + [] == AgentOf(n[0]).value;
  }

  /** `getAgentNodes(SSHClient)`: the agents of the report, of which there must be at least one. */
  function RequireAgents(report: Value): (r: Result<seq<Option<string>>, CommandError>)
    ensures r.Success? <==> AgentNodes(report).Success? && AgentNodes(report).value != []
    ensures r.Success? ==> r.value == AgentNodes(report).value
    ensures AgentNodes(report) == Success([]) ==> r == Failure(NoAgentFound)
  {
    var agents :- AgentNodes(report);
    if agents == [] then Failure(NoAgentFound) else Success(agents)
  }

  // ---------------------------------------------------------------------
  // The remote directory for the credentials archive
  // ---------------------------------------------------------------------

  /** The text with its trailing run of `/` removed. */
  function DropSlashes(s: string): (r: string)
    ensures r <= s
    ensures forall i :: |r| <= i < |s| ==> s[i] == '/'
    ensures r == [] || r[|r| - 1] != '/'
    decreases |s|
  {
    if s != [] && s[|s| - 1] == '/' then DropSlashes(s[..|s| - 1]) else s
  }

  /** A line terminator of Java's regular expressions (outside `UNIX_LINES` mode). */
  predicate IsLineTerminator(c: char) {
    c == '\n' || c == '\r' || c == '\U{85}' || c == '\U{2028}' || c == '\U{2029}'
  }

  /**
   * The length of the final line terminator that `$` may stand before: 2
   * for a final CR LF, 1 for any other final terminator, 0 for none.
   */
  function FinalTerminatorLength(s: string): (k: nat)
    ensures k <= |s|
    ensures k == 0 <==> s == [] || !IsLineTerminator(s[|s| - 1])
  {
    if |s| >= 2 && s[|s| - 2..] == "\r\n" then 2
    else if s != [] && IsLineTerminator(s[|s| - 1]) then 1
    else 0
  }

  /**
   * `replaceAll("/+$", "")`: `$` holds at the end of the text and before a
   * final line terminator, so the run of `/` removed is the one that ends
   * there.
   */
  function StripTrailingSlashes(s: string): (r: string)
    ensures FinalTerminatorLength(s) == 0 ==> r == DropSlashes(s)
    ensures r == [] || r[|r| - 1] != '/'
  {
    var k := |s| - FinalTerminatorLength(s);
    var r := DropSlashes(s[..k]) + s[k..];
    assert k < |s| ==> r[|r| - 1] == s[|s| - 1];
    r
  }

  /** The directory used when no path is configured. */
  function DefaultCredentialsPath(user: string, dirName: string): string {
    "/home/" + user + "/acs-plugin-dcos.docker/" + dirName
  }

  /**
   * `prepareCredentialsPath`, given the configured path after `EnvVars.expand`:
   * a non-blank path must be absolute and loses its trailing slashes (all
   * slashes leave `/`); a blank one gives the per-user default directory.
   */
  function PrepareCredentialsPath(expanded: Option<string>, dirName: string, user: string): (r: Result<string, CommandError>)
    ensures var name := TrimToEmpty(expanded);
            && (r.Failure? <==> !IsBlank(name) && name[0] != '/')
            && (r.Failure? ==> r.error == RelativePathNotAllowed(name))
            && (IsBlank(name) ==> r == Success(DefaultCredentialsPath(user, dirName)))
            && (r.Success? && !IsBlank(name) ==> r.value != [] && (r.value == "/" || r.value[|r.value| - 1] != '/'))
  {
    var name := TrimToEmpty(expanded);
    if !IsBlank(name) then
      if name[0] != '/' then Failure(RelativePathNotAllowed(name))
      else
        var stripped := StripTrailingSlashes(name);
        Success(if stripped == [] then "/" else stripped)
    else Success(DefaultCredentialsPath(user, dirName))
  }

  /**
   * Without a final line terminator the result is the trimmed path with its
   * trailing slashes cut off, and `/` when the path is nothing but slashes.
   */
  lemma PreparedPathIsTrimmedPrefix(expanded: Option<string>, dirName: string, user: string)
    requires !IsBlank(TrimToEmpty(expanded))
    requires FinalTerminatorLength(TrimToEmpty(expanded)) == 0
    requires PrepareCredentialsPath(expanded, dirName, user).Success?
    ensures var name := TrimToEmpty(expanded);
            var p := PrepareCredentialsPath(expanded, dirName, user).value;
            && p != [] && p[0] == '/'
            && (p == "/" <==> forall i :: 0 <= i < |name| ==> name[i] == '/')
            && (p != "/" ==> p <= name && forall i :: |p| <= i < |name| ==> name[i] == '/')
  {
    var name := TrimToEmpty(expanded);
    var d := DropSlashes(name);
    if d != [] {
      assert d[0] == name[0];
      assert d != "/" by { assert d[|d| - 1] != '/'; }
    }
  }

  /** An absolute path that does not end in a character `trim` removes is its own trimmed, non-blank text. */
  lemma AbsoluteUntrimmed(s: string)
    requires s != [] && s[0] == '/' && !IsTrimmable(s[|s| - 1])
    ensures TrimToEmpty(Some(s)) == s && !IsBlank(s)
  {
    TrimKeepsUntrimmedEnds(s);
    assert !IsWhitespace(s[0]);
  }

  /** All-slash paths become the root directory. */
  lemma AllSlashesGiveRoot()
    ensures PrepareCredentialsPath(Some("///"), "d", "u") == Success("/")
  {
    var s := "///";
    AbsoluteUntrimmed(s);
    assert FinalTerminatorLength(s) == 0;
    assert DropSlashes(s) == [] by {
      assert s[..2][..1][..0] == [];
      assert s[..2] == "//" && s[..2][..1] == "/";
    }
  }

  /** Surrounding spaces and trailing slashes are removed from an absolute path. */
  lemma PaddedPathTrimmedAndStripped()
    ensures PrepareCredentialsPath(Some(" /opt/creds// "), "d", "u") == Success("/opt/creds")
  {
    var name := "/opt/creds//";
    PaddedPathTrimmed();
    AbsoluteUntrimmed(name);
    assert FinalTerminatorLength(name) == 0;
    CredsSlashesDropped();
  }

  lemma CredsSlashesDropped()
    ensures DropSlashes("/opt/creds//") == "/opt/creds"
  {
    var name := "/opt/creds//";
    assert name[..|name| - 1] == "/opt/creds/";
    assert name[..|name| - 1][..|name| - 2] == "/opt/creds";
  }

  lemma PaddedPathTrimmed()
    ensures TrimToEmpty(Some(" /opt/creds// ")) == "/opt/creds//"
  {
    var t := " /opt/creds// ";
    var name := "/opt/creds//";
    assert t == [' '] + name + [' '];
    TrimPadded([' '], name, [' ']);
    TrimKeepsUntrimmedEnds(name);
  }

  /**
   * Without a final line terminator, feeding a prepared path back in gives
   * it again, as long as what is left after the slashes does not end in a
   * character `trim` removes.
   */
  lemma PrepareIdempotent(expanded: Option<string>, dirName: string, user: string, dirName': string, user': string)
    requires !IsBlank(TrimToEmpty(expanded))
    requires FinalTerminatorLength(TrimToEmpty(expanded)) == 0
    requires PrepareCredentialsPath(expanded, dirName, user).Success?
    requires var p := PrepareCredentialsPath(expanded, dirName, user).value;
             !IsTrimmable(p[|p| - 1]) && !IsLineTerminator(p[|p| - 1])
    ensures var p := PrepareCredentialsPath(expanded, dirName, user).value;
            PrepareCredentialsPath(Some(p), dirName', user') == Success(p)
  {
    var p := PrepareCredentialsPath(expanded, dirName, user).value;
    PreparedPathIsTrimmedPrefix(expanded, dirName, user);
    AbsoluteUntrimmed(p);
    assert FinalTerminatorLength(p) == 0;
    if p == "/" {
      assert DropSlashes(p) == [] by { assert p[..0] == []; }
    }
  }

  /** A space before the trailing slashes survives the first call and is trimmed by the second. */
  lemma SpaceBeforeSlashKept()
    ensures PrepareCredentialsPath(Some("/a /"), "d", "u") == Success("/a ")
  {
    var s := "/a /";
    AbsoluteUntrimmed(s);
    assert FinalTerminatorLength(s) == 0;
    assert DropSlashes(s) == "/a " by { assert s[..3] == "/a "; }
  }

  lemma SpaceBeforeSlashTrimmedAgain()
    ensures PrepareCredentialsPath(Some("/a "), "d", "u") == Success("/a")
  {
    var t := "/a ";
    assert Trim(t) == "/a" by {
      assert t == "/a" + [' '];
      TrimPadded([], "/a", [' ']);
      TrimKeepsUntrimmedEnds("/a");
    }
    AbsoluteUntrimmed("/a");
    assert FinalTerminatorLength("/a") == 0;
  }

  // ---------------------------------------------------------------------
  // The per-build directory name
  // ---------------------------------------------------------------------

  const BuildNamePrefix: string := "acs-plugin-dcos-"

  /** `replaceAll("[^0-9a-zA-Z]", "-")`: every other character becomes `-`. */
  function ReplaceUnsafe(s: string): (r: string)
    ensures |r| == |s|
    ensures forall i :: 0 <= i < |s| ==> r[i] == if IsAsciiAlnum(s[i]) then s[i] else '-'
  {
    seq(|s|, i requires 0 <= i < |s| => if IsAsciiAlnum(s[i]) then s[i] else '-')
  }

  /** A character of a build name: a lower-case ASCII letter, a digit or `-`. */
  predicate IsBuildNameChar(c: char) {
    ('a' <= c <= 'z') || ('0' <= c <= '9') || c == '-'
  }

  /**
   * `nameForBuild`: the prefix followed by the job and display names
   * (trimmed) with every character outside `[0-9a-zA-Z]` turned into `-`,
   * lower-cased; a blank run name is replaced by `uuid`.
   */
  function NameForBuild(runName: string, uuid: string): (r: string)
    ensures var n := RunName(runName, uuid);
            && |r| == |BuildNamePrefix| + |n|
            && r[..|BuildNamePrefix|] == BuildNamePrefix
            && forall i :: 0 <= i < |n| ==>
                 r[|BuildNamePrefix| + i] == if IsAsciiAlnum(n[i]) then LowerAscii(n[i]) else '-'
  {
    var t := ToLowerAscii(ReplaceUnsafe(RunName(runName, uuid)));
    assert LowerAscii('-') == '-';
    assert forall i :: 0 <= i < |t| ==> (BuildNamePrefix + t)[|BuildNamePrefix| + i] == t[i];
    BuildNamePrefix + t
  }

  /** The job and display names, trimmed, or `uuid` when they are blank. */
  function RunName(runName: string, uuid: string): (n: string)
    ensures IsBlank(Trim(runName)) ==> n == uuid
    ensures !IsBlank(Trim(runName)) ==> n == Trim(runName)
  {
    if IsBlank(Trim(runName)) then uuid else Trim(runName)
  }

  /** What the sanitising step produces holds only build-name characters. */
  lemma SanitizedCharacters(n: string)
    ensures forall i :: 0 <= i < |n| ==> IsBuildNameChar(ToLowerAscii(ReplaceUnsafe(n))[i])
  {
  }

  /** Both spellings of the run name sanitise to the same text. */
  lemma SanitizedJob(s: string)
    requires s == "Job #1" || s == "job__1"
    ensures ToLowerAscii(ReplaceUnsafe(s)) == "job--1"
  {
    var t := ToLowerAscii(ReplaceUnsafe(s));
    assert |t| == 6;
    assert t[0] == 'j' && t[1] == 'o' && t[2] == 'b' && t[3] == '-' && t[4] == '-' && t[5] == '1';
  }

  /** A run name that starts with a visible character and ends with one is used as it is. */
  lemma PlainRunName(s: string, uuid: string)
    requires s != [] && !IsTrimmable(s[0]) && !IsTrimmable(s[|s| - 1]) && !IsWhitespace(s[0])
    ensures RunName(s, uuid) == s
  {
    TrimKeepsUntrimmedEnds(s);
  }

  /** Every character after the prefix is one a build name may hold. */
  lemma BuildNameCharacters(runName: string, uuid: string)
    ensures var r := NameForBuild(runName, uuid);
            forall i :: |BuildNamePrefix| <= i < |r| ==> IsBuildNameChar(r[i])
  {
    var t := ToLowerAscii(ReplaceUnsafe(RunName(runName, uuid)));
    SanitizedCharacters(RunName(runName, uuid));
    PrefixedCharacters(BuildNamePrefix, t);
  }

  lemma PrefixedCharacters(p: string, t: string)
    requires forall i :: 0 <= i < |t| ==> IsBuildNameChar(t[i])
    ensures forall i :: |p| <= i < |p + t| ==> IsBuildNameChar((p + t)[i])
  {
    assert forall i :: |p| <= i < |p + t| ==> (p + t)[i] == t[i - |p|];
  }

  /** The sanitising step leaves a name it produced unchanged. */
  lemma SanitizeIdempotent(s: string)
    ensures ToLowerAscii(ReplaceUnsafe(ToLowerAscii(ReplaceUnsafe(s)))) == ToLowerAscii(ReplaceUnsafe(s))
  {
    SanitizedCharacters(s);
  }

  /** Run names that differ only in letter case, or in which special character they hold, share a directory. */
  lemma NameIgnoresCaseAndPunctuation()
    ensures NameForBuild("Job #1", "u") == NameForBuild("job__1", "u")
  {
    var a := "Job #1";
    var b := "job__1";
    PlainRunName(a, "u");
    PlainRunName(b, "u");
    SanitizedJob(a);
    SanitizedJob(b);
  }

  // ---------------------------------------------------------------------
  // Remote steps
  // ---------------------------------------------------------------------

  /** The machine a step runs on: the master, or an agent reached through it by address. */
  datatype Host = Master | Agent(address: Option<string>)

  /** A remote command, or a file copied to a remote path. */
  datatype Step = Exec(host: Host, command: string) | Copy(host: Host, target: string)

  const HealthQuery: string := "curl http://leader.mesos:1050/system/health/v1/nodes"

  function MakeDirectory(path: string): string {
    "mkdir -p -- " + SingleQuoted(path)
  }

  /**
   * The agents the archive is copied to: all of them, or only the first
   * when the path is shared between agents.
   */
  function CopyTargets(agents: seq<Option<string>>, shared: bool): (t: seq<Option<string>>)
    ensures shared && agents != [] ==> t == [agents[0]]
    ensures !shared ==> t == agents
  {
    if shared && agents != [] then agents[..1] else agents
  }

  /** Create the directory and copy the archive on each target, in order. */
  function StepsFor(targets: seq<Option<string>>, remotePath: string, archivePath: string): (r: seq<Step>)
    ensures |r| == 2 * |targets|
    decreases |targets|
  {
    if targets == [] then []
    else
      [Exec(Agent(targets[0]), MakeDirectory(remotePath)), Copy(Agent(targets[0]), archivePath)]
      + StepsFor(targets[1..], remotePath, archivePath)
  }

  /** The two steps for the `i`-th target sit at `2 * i` and `2 * i + 1`. */
  lemma {:induction false} StepsForAt(targets: seq<Option<string>>, remotePath: string, archivePath: string, i: nat)
    requires i < |targets|
    ensures StepsFor(targets, remotePath, archivePath)[2 * i] == Exec(Agent(targets[i]), MakeDirectory(remotePath))
    ensures StepsFor(targets, remotePath, archivePath)[2 * i + 1] == Copy(Agent(targets[i]), archivePath)
    decreases i
  {
    if i > 0 {
      StepsForAt(targets[1..], remotePath, archivePath, i - 1);
      assert targets[1..][i - 1] == targets[i];
    }
  }

  lemma StepsForAll(targets: seq<Option<string>>, remotePath: string, archivePath: string)
    ensures forall i :: 0 <= i < |targets| ==>
              && StepsFor(targets, remotePath, archivePath)[2 * i] == Exec(Agent(targets[i]), MakeDirectory(remotePath))
              && StepsFor(targets, remotePath, archivePath)[2 * i + 1] == Copy(Agent(targets[i]), archivePath)
  {
    forall i | 0 <= i < |targets| {
      StepsForAt(targets, remotePath, archivePath, i);
    }
  }

  /**
   * The loop over the agents: create the directory and copy the archive on
   * each, leaving the loop after the first when the path is shared.
   */
  function AgentSteps(agents: seq<Option<string>>, remotePath: string, archivePath: string, shared: bool): (r: seq<Step>)
    ensures |r| == 2 * |CopyTargets(agents, shared)|
    ensures forall i :: 0 <= i < |CopyTargets(agents, shared)| ==>
              && r[2 * i] == Exec(Agent(CopyTargets(agents, shared)[i]), MakeDirectory(remotePath))
              && r[2 * i + 1] == Copy(Agent(CopyTargets(agents, shared)[i]), archivePath)
  {
    StepsForAll(CopyTargets(agents, shared), remotePath, archivePath);
    StepsFor(CopyTargets(agents, shared), remotePath, archivePath)
  }

  /** What copying the credentials produces: the steps and the archive URI to inject, if any. */
  datatype Copied = Copied(steps: seq<Step>, archiveUri: Option<string>)

  /**
   * `copyCredentialsToAgents`: nothing at all without registry
   * credentials; otherwise the directory is prepared, the master is asked
   * for its agents, the archive is copied, and its `file://` URI is
   * returned for injection.  `archiveName` is the archive's file name and
   * `report` the master's parsed answer to the health query.
   */
  function CopyCredentials(hasCredentials: bool, expandedPath: Option<string>, shared: bool,
                           dirName: string, user: string, archiveName: string, report: Value)
    : (r: Result<Copied, CommandError>)
    ensures !hasCredentials ==> r == Success(Copied([], None))
    ensures hasCredentials && PrepareCredentialsPath(expandedPath, dirName, user).Failure? ==>
              r == Failure(PrepareCredentialsPath(expandedPath, dirName, user).error)
    ensures (&& hasCredentials && PrepareCredentialsPath(expandedPath, dirName, user).Success?
             && RequireAgents(report).Failure?) ==>
              r == Failure(RequireAgents(report).error)
    ensures (&& hasCredentials && PrepareCredentialsPath(expandedPath, dirName, user).Success?
             && RequireAgents(report).Success?) ==>
              var encoded := EncodeUriPath(PrepareCredentialsPath(expandedPath, dirName, user).value + "/" + archiveName);
              && (r.Failure? <==> encoded.Failure?)
              && (r.Failure? ==> r.error == UriRejected)
              && (r.Success? ==> r.value.archiveUri == Some("file://" + encoded.value))
  {
    if !hasCredentials then Success(Copied([], None))
    else
      var remotePath :- PrepareCredentialsPath(expandedPath, dirName, user);
      var archivePath := remotePath + "/" + archiveName;
      var agents :- RequireAgents(report);
      var steps := [Exec(Master, HealthQuery)] + AgentSteps(agents, remotePath, archivePath, shared);
      // `checkURIForMarathon` only decides a log line; by its contract it
      // throws only when `encodeURIPath` then would.
      match EncodeUriPath(archivePath)
      case Failure(_) => Failure(UriRejected)
      case Success(encoded) => Success(Copied(steps, Some("file://" + encoded)))
  }

  /** The archive copies in a successful run. */
  function Copies(steps: seq<Step>): (r: seq<Host>)
    ensures |r| <= |steps|
  {
    if steps == [] then []
    else (if steps[0].Copy? then [steps[0].host] else []) + Copies(steps[1..])
  }

  /** One archive copy per target, in order. */
  lemma {:induction false} CopiesOfStepsFor(targets: seq<Option<string>>, remotePath: string, archivePath: string)
    ensures Copies(StepsFor(targets, remotePath, archivePath))
            == seq(|targets|, i requires 0 <= i < |targets| => Agent(targets[i]))
    decreases |targets|
  {
    if targets != [] {
      var here := [Exec(Agent(targets[0]), MakeDirectory(remotePath)), Copy(Agent(targets[0]), archivePath)];
      assert Copies(here) == [Agent(targets[0])] by {
        assert here[1..][1..] == [];
      }
      CopiesOfStepsFor(targets[1..], remotePath, archivePath);
      CopiesAppend(here, StepsFor(targets[1..], remotePath, archivePath));
    }
  }

  lemma {:induction false} CopiesAppend(a: seq<Step>, b: seq<Step>)
    ensures Copies(a + b) == Copies(a) + Copies(b)
    decreases |a|
  {
    if a != [] {
      assert (a + b)[1..] == a[1..] + b;
      CopiesAppend(a[1..], b);
    } else {
      assert a + b == b;
    }
  }

  /**
   * With a shared path the archive goes to the first agent only; otherwise
   * to every agent the master listed, in its order.
   */
  lemma SharedPathCopiesOnce(hasCredentials: bool, expandedPath: Option<string>, shared: bool,
                             dirName: string, user: string, archiveName: string, report: Value)
    requires hasCredentials
    requires CopyCredentials(hasCredentials, expandedPath, shared, dirName, user, archiveName, report).Success?
    ensures var agents := RequireAgents(report).value;
            var copies := Copies(CopyCredentials(hasCredentials, expandedPath, shared, dirName, user, archiveName, report).value.steps);
            && (shared ==> copies == [Agent(agents[0])])
            && (!shared ==> |copies| == |agents| && forall i :: 0 <= i < |agents| ==> copies[i] == Agent(agents[i]))
  {
    var remotePath := PrepareCredentialsPath(expandedPath, dirName, user).value;
    var archivePath := remotePath + "/" + archiveName;
    var agents := RequireAgents(report).value;
    var tail := AgentSteps(agents, remotePath, archivePath, shared);
    CopiesOfStepsFor(CopyTargets(agents, shared), remotePath, archivePath);
    CopiesAppend([Exec(Master, HealthQuery)], tail);
    assert Copies([Exec(Master, HealthQuery)]) == [];
  }

  /**
   * The remote steps `copyCredentialsToAgents` issues, whether it then
   * succeeds or not: none before the path is prepared, the health query
   * before the agents are read, and the directory and copy steps before
   * the archive path is encoded.
   */
  function CopyIssued(hasCredentials: bool, expandedPath: Option<string>, shared: bool,
                      dirName: string, user: string, archiveName: string, report: Value): (r: seq<Step>)
    ensures CopyCredentials(hasCredentials, expandedPath, shared, dirName, user, archiveName, report).Success? ==>
              r == CopyCredentials(hasCredentials, expandedPath, shared, dirName, user, archiveName, report).value.steps
    ensures !hasCredentials || PrepareCredentialsPath(expandedPath, dirName, user).Failure? ==> r == []
    ensures hasCredentials && PrepareCredentialsPath(expandedPath, dirName, user).Success? ==>
              r != [] && r[0] == Exec(Master, HealthQuery)
  {
    if !hasCredentials then []
    else
      match PrepareCredentialsPath(expandedPath, dirName, user)
      case Failure(_) => []
      case Success(remotePath) =>
        match RequireAgents(report)
        case Failure(_) => [Exec(Master, HealthQuery)]
        case Success(agents) => [Exec(Master, HealthQuery)] + AgentSteps(agents, remotePath, remotePath + "/" + archiveName, shared)
  }

  /**
   * Copying the credentials when the remote side can fail: `fault` is the
   * index of the first remote step that fails, if any.  A failing step the
   * copy reaches ends it with that step, before any later check.
   */
  function CopyWithFault(hasCredentials: bool, expandedPath: Option<string>, shared: bool,
                         dirName: string, user: string, archiveName: string, report: Value, fault: Option<nat>)
    : (r: Result<Copied, CommandError>)
    ensures var issued := CopyIssued(hasCredentials, expandedPath, shared, dirName, user, archiveName, report);
            && (fault.Some? && fault.value < |issued| ==> r == Failure(RemoteFailed(issued[fault.value])))
            && (!(fault.Some? && fault.value < |issued|) ==>
                  r == CopyCredentials(hasCredentials, expandedPath, shared, dirName, user, archiveName, report))
  {
    var issued := CopyIssued(hasCredentials, expandedPath, shared, dirName, user, archiveName, report);
    if fault.Some? && fault.value < |issued| then Failure(RemoteFailed(issued[fault.value]))
    else CopyCredentials(hasCredentials, expandedPath, shared, dirName, user, archiveName, report)
  }

  /**
   * A health query that fails ends the copy with that query, whatever the
   * master would have listed.
   */
  lemma FailingHealthQueryFirst(expandedPath: Option<string>, shared: bool, dirName: string, user: string,
                                archiveName: string, report: Value)
    requires PrepareCredentialsPath(expandedPath, dirName, user).Success?
    ensures CopyWithFault(true, expandedPath, shared, dirName, user, archiveName, report, Some(0))
            == Failure(RemoteFailed(Exec(Master, HealthQuery)))
  {
  }

  // ---------------------------------------------------------------------
  // Deploying the application files
  // ---------------------------------------------------------------------

  /** An application file: the random remote name it is copied to and the `id` the file declares. */
  datatype AppFile = AppFile(deployedName: string, appId: string)

  const AppsEndpoint: string := "http://localhost/marathon/v2/apps/"

  function DeleteApp(appId: string): string {
    "curl -i -X DELETE '" + AppsEndpoint + EscapeSingleQuote(appId) + "'"
  }

  function PostApp(deployedName: string): string {
    "curl -i -H 'Content-Type: application/json' -d@" + SingleQuoted(deployedName) + " http://localhost/marathon/v2/apps?force=true"
  }

  function RemoveFile(name: string): string {
    "rm -f -- " + SingleQuoted(name)
  }

  /** What one file takes on the master: copy, delete the old application, post the new one, remove the copy. */
  function FileSteps(f: AppFile): (r: seq<Step>)
    ensures |r| == 4 && r[0] == Copy(Master, f.deployedName)
    ensures forall i :: 1 <= i < 4 ==> r[i].Exec? && r[i].host == Master
  {
    [Copy(Master, f.deployedName), Exec(Master, DeleteApp(f.appId)),
     Exec(Master, PostApp(f.deployedName)), Exec(Master, RemoveFile(f.deployedName))]
  }

  /** The URL of the application to delete reads back as one shell word, whatever quotes the id holds. */
  lemma DeleteQuotesTheUrl(appId: string)
    ensures DeleteApp(appId) == "curl -i -X DELETE " + SingleQuoted(AppsEndpoint + appId)
    ensures ShellWord(SingleQuoted(AppsEndpoint + appId)) == Some(AppsEndpoint + appId)
  {
    var u := AppsEndpoint + appId;
    QuotedArgumentReadsBack(u);
    EndpointEscaped(appId);
    DeleteLayout(AppsEndpoint, EscapeSingleQuote(appId));
  }

  lemma EndpointEscaped(appId: string)
    ensures EscapeSingleQuote(AppsEndpoint + appId) == AppsEndpoint + EscapeSingleQuote(appId)
  {
    EscapeAppend(AppsEndpoint, appId);
    EndpointUnescaped();
  }

  lemma DeleteLayout(p: string, e: string)
    ensures "curl -i -X DELETE '" + p + e + "'" == "curl -i -X DELETE " + ("'" + (p + e) + "'")
  {
  }

  lemma EndpointUnescaped()
    ensures EscapeSingleQuote(AppsEndpoint) == AppsEndpoint
  {
    assert '\'' !in AppsEndpoint;
  }

  /** The removed file reads back as one shell word. */
  lemma RemoveQuotesTheName(name: string)
    ensures exists q :: RemoveFile(name) == "rm -f -- " + q && ShellWord(q) == Some(name)
  {
    QuotedArgumentReadsBack(name);
    var q := SingleQuoted(name);
    assert RemoveFile(name) == "rm -f -- " + q;
  }

  function DeploySteps(files: seq<AppFile>): (r: seq<Step>)
    ensures |r| == 4 * |files|
    ensures forall i :: 0 <= i < |files| ==> r[4 * i..4 * i + 4] == FileSteps(files[i])
    decreases |files|
  {
    if files == [] then []
    else
      var rest := DeploySteps(files[1..]);
      BlocksShift(FileSteps(files[0]), rest, files);
      FileSteps(files[0]) + rest
  }

  /** Putting one file's block in front shifts the blocks of the later files by one. */
  lemma BlocksShift(head: seq<Step>, rest: seq<Step>, files: seq<AppFile>)
    requires files != [] && head == FileSteps(files[0])
    requires |rest| == 4 * (|files| - 1)
    requires forall i :: 0 <= i < |files| - 1 ==> rest[4 * i..4 * i + 4] == FileSteps(files[1..][i])
    ensures forall i :: 0 <= i < |files| ==> (head + rest)[4 * i..4 * i + 4] == FileSteps(files[i])
  {
    forall i | 0 <= i < |files| ensures (head + rest)[4 * i..4 * i + 4] == FileSteps(files[i]) {
      if i > 0 {
        var j := i - 1;
        assert 4 * i == 4 * j + 4;
        assert (head + rest)[4 * i..4 * i + 4] == rest[4 * j..4 * j + 4];
        assert files[1..][j] == files[i];
      }
    }
  }

  /** The outcome of the task run on the workspace's node. */
  datatype TaskResult = TaskResult(state: BaseContext.DeploymentState, steps: seq<Step>, extraEnvVars: map<string, string>)

  /**
   * The variables `copyCredentialsToAgents` adds: the archive's URI under
   * `archiveVar` (the name `MARATHON_DOCKER_CFG_ARCHIVE_URI`), or none
   * without registry credentials.  They are put into the build's variables
   * before any file is substituted, and injected into the build after the
   * task.
   */
  function ExtraEnvVars(copied: Copied, archiveVar: string): (r: map<string, string>)
    ensures copied.archiveUri.None? ==> r == map[]
    ensures copied.archiveUri.Some? ==> r.Keys == {archiveVar} && r[archiveVar] == copied.archiveUri.value
  {
    match copied.archiveUri
    case None => map[]
    case Some(uri) => map[archiveVar := uri]
  }

  /**
   * The task body: without a configuration file `Factory.build` throws
   * before any connection (the body's own check for an empty list is never
   * reached); otherwise the credentials are copied and each file is
   * deployed, and the state is `Success` once a file has been.  `copied`
   * is the outcome of the copy, remote failures included (`CopyWithFault`),
   * and `fault` the index of the first failing step among the file steps.
   */
  function RunTask(files: seq<AppFile>, copied: Result<Copied, CommandError>, fault: Option<nat>, archiveVar: string)
    : (r: Result<TaskResult, CommandError>)
    ensures files == [] ==> r == Failure(NoConfigFilesFound)
    ensures files != [] && copied.Failure? ==> r == Failure(copied.error)
    ensures files != [] && copied.Success? && fault.Some? && fault.value < 4 * |files| ==>
              r == Failure(RemoteFailed(DeploySteps(files)[fault.value]))
    ensures r.Success? <==> files != [] && copied.Success? && !(fault.Some? && fault.value < 4 * |files|)
    ensures r.Success? ==>
              && r.value.state == BaseContext.Success
              && r.value.extraEnvVars == ExtraEnvVars(copied.value, archiveVar)
              && r.value.steps == copied.value.steps + DeploySteps(files)
  {
    if files == [] then Failure(NoConfigFilesFound)
    else
      var c :- copied;
      var deploy := DeploySteps(files);
      if fault.Some? && fault.value < |deploy| then Failure(RemoteFailed(deploy[fault.value]))
      else Success(TaskResult(BaseContext.Success, c.steps + deploy, ExtraEnvVars(c, archiveVar)))
  }

  /**
   * `execute` after the task: an exception is logged as an error, with the
   * exception's message, and nothing is injected; otherwise the task's
   * variables are injected into the build, the task's state becomes the
   * command's state and nothing is logged.  The result is the context and
   * the variables injected.
   */
  function Execute(c: BaseContext.Context, files: seq<AppFile>, copied: Result<Copied, CommandError>, fault: Option<nat>,
                   archiveVar: string, errorPrefix: string, message: CommandError -> string)
    : (r: (BaseContext.Context, map<string, string>))
    ensures r.0.state == BaseContext.Success <==>
              files != [] && copied.Success? && !(fault.Some? && fault.value < 4 * |files|)
    ensures BaseContext.InError(r.0) <==>
              !(files != [] && copied.Success? && !(fault.Some? && fault.value < 4 * |files|))
    ensures files == [] ==> r.0.log == c.log + [BaseContext.ErrorLine(errorPrefix + message(NoConfigFilesFound))]
    ensures files != [] && copied.Failure? ==> r.0.log == c.log + [BaseContext.ErrorLine(errorPrefix + message(copied.error))]
    ensures files != [] && copied.Success? && fault.Some? && fault.value < 4 * |files| ==>
              r.0.log == c.log + [BaseContext.ErrorLine(errorPrefix + message(RemoteFailed(DeploySteps(files)[fault.value])))]
    ensures r.0.state == BaseContext.Success ==> r.0.log == c.log && r.1 == ExtraEnvVars(copied.value, archiveVar)
    ensures r.0.state != BaseContext.Success ==> r.1 == map[]
  {
    match RunTask(files, copied, fault, archiveVar)
    case Failure(e) => (BaseContext.LogException(c, errorPrefix, message(e)), map[])
    case Success(t) => (BaseContext.SetState(c, t.state), t.extraEnvVars)
  }

  /**
   * A run with registry credentials whose remote steps all succeed injects
   * exactly one variable: `archiveVar`, holding the `file://` URI of the
   * encoded archive path.
   */
  lemma CredentialsRunInjectsArchiveUri(c: BaseContext.Context, files: seq<AppFile>, expandedPath: Option<string>,
                                        shared: bool, dirName: string, user: string, archiveName: string,
                                        report: Value, archiveVar: string, errorPrefix: string,
                                        message: CommandError -> string)
    requires files != []
    requires CopyCredentials(true, expandedPath, shared, dirName, user, archiveName, report).Success?
    ensures var copied := CopyWithFault(true, expandedPath, shared, dirName, user, archiveName, report, None);
            var r := Execute(c, files, copied, None, archiveVar, errorPrefix, message);
            var path := PrepareCredentialsPath(expandedPath, dirName, user).value + "/" + archiveName;
            && r.0.state == BaseContext.Success
            && r.1 == map[archiveVar := "file://" + EncodeUriPath(path).value]
  {
  }

  /**
   * A file step that fails after the credentials were copied is logged as
   * an error, and the archive variable is not injected.
   */
  lemma FailingFileStepInjectsNothing(c: BaseContext.Context, f: AppFile, copied: Copied, archiveVar: string,
                                      errorPrefix: string, message: CommandError -> string)
    ensures var r := Execute(c, [f], Success(copied), Some(2), archiveVar, errorPrefix, message);
            && BaseContext.InError(r.0)
            && r.0.log == c.log + [BaseContext.ErrorLine(errorPrefix + message(RemoteFailed(Exec(Master, PostApp(f.deployedName)))))]
            && r.1 == map[]
  {
    assert DeploySteps([f]) == FileSteps(f) + DeploySteps([]);
  }
}

=== FILE: marathon_config.dfy ===
/**
 * `MarathonDeploymentConfig`: the ports a DC/OS deployment publishes, read
 * from the `container.docker.portMappings` of each Marathon application
 * file.
 */
module MarathonConfig {
  import opened Wrappers
  import opened JavaStrings
  import opened Documents
  import opened ServicePorts
  import opened Seqs

  /** Resources the plugin creates for DC/OS are named with this prefix. */
  const ResourcePrefix: string := "dcos"

  /** The path of the first node the file lacks, as the error names it. */
  datatype MarathonError = NodeNotFound(path: string)

  const PortMappingsPath: seq<string> := ["container", "docker", "portMappings"]
  const ContainerPortPath: string := "container.docker.portMapping[].containerPort"
  const HostPortPath: string := "container.docker.portMapping[].hostPort"

  /**
   * The walk down `keys`: each step is Jackson's `get(String)`, which finds
   * nothing in anything but an object; the first key not found is the error.
   */
  function Descend(node: Value, keys: seq<string>): (r: Result<Value, MarathonError>)
    ensures r.Failure? ==> r.error.path in keys
    decreases |keys|
  {
    if keys == [] then Success(node)
    else
      match Field(node, keys[0])
      case None => Failure(NodeNotFound(keys[0]))
      case Some(child) => Descend(child, keys[1..])
  }

  /** The `portMappings` node, found through objects at each level. */
  function PortMappingsOf(root: Value): (r: Result<Value, MarathonError>)
    ensures r.Success? <==> Field(root, "container").Some?
                            && Field(Field(root, "container").value, "docker").Some?
                            && Field(Field(Field(root, "container").value, "docker").value, "portMappings").Some?
    ensures r.Success? ==> r.value == Field(Field(Field(root, "container").value, "docker").value, "portMappings").value
    ensures Field(root, "container").None? ==> r == Failure(NodeNotFound("container"))
  {
    assert PortMappingsPath[1..][1..][1..] == [];
    Descend(root, PortMappingsPath)
  }

  /**
   * One port mapping: `containerPort` and `hostPort` must be present and
   * are read with Jackson's `asInt`; the protocol is UDP exactly when the
   * `protocol` field is the text `udp` in any case, and TCP otherwise.
   */
  function PortOfMapping(element: Value): (r: Result<seq<ServicePort>, MarathonError>)
    ensures Field(element, "containerPort").None? ==> r == Failure(NodeNotFound(ContainerPortPath))
    ensures Field(element, "containerPort").Some? && Field(element, "hostPort").None? ==> r == Failure(NodeNotFound(HostPortPath))
    ensures r.Success? <==> Field(element, "containerPort").Some? && Field(element, "hostPort").Some?
    ensures r.Success? ==> |r.value| == 1 && ValidPort(r.value[0])
    ensures r.Success? ==> r.value[0].containerPort == AsInt(Field(element, "containerPort").value)
    ensures r.Success? ==> r.value[0].hostPort == AsInt(Field(element, "hostPort").value)
    ensures r.Success? ==> (r.value[0].protocol == Udp <==>
      Field(element, "protocol").Some? && TextEqualsIgnoreCase(Field(element, "protocol").value, "udp"))
  {
    match Field(element, "containerPort")
    case None => Failure(NodeNotFound(ContainerPortPath))
    case Some(containerPort) =>
      match Field(element, "hostPort")
      case None => Failure(NodeNotFound(HostPortPath))
      case Some(hostPort) =>
        var protocol := Field(element, "protocol");
        var udp := protocol.Some? && TextEqualsIgnoreCase(protocol.value, "udp");
        Success([ServicePort(AsInt(hostPort), AsInt(containerPort), if udp then Udp else Tcp)])
  }

  /** A port written as text with a fraction is truncated: `"8080.5"` maps port 8080. */
  lemma FractionalTextPortTruncated(element: Value, w: string, f: string)
    requires Field(element, "containerPort") == Some(Str(w + "." + f)) && Field(element, "hostPort").Some?
    requires w != [] && AllDigits(w) && AllDigits(f) && DigitsValue(w) <= IntMax
    ensures PortOfMapping(element).Success?
    ensures PortOfMapping(element).value[0].containerPort == DigitsValue(w)
  {
    FractionTextTruncated(w, f);
  }

  /** The ports of one application file, in the order of its mappings. */
  function PortsOfFile(root: Value): Result<seq<ServicePort>, MarathonError> {
    var mappings :- PortMappingsOf(root);
    FlatMapResult(PortOfMapping, Elements(mappings))
  }

  /** `getServicePorts`: the ports of every file, one file after another. */
  function ServicePortsOf(files: seq<Value>): Result<seq<ServicePort>, MarathonError> {
    FlatMapResult(PortsOfFile, files)
  }

  // ---------------------------------------------------------------------
  // Documents that publish given ports
  // ---------------------------------------------------------------------

  /** A port mapping as a Marathon file writes it. */
  function MappingOf(p: ServicePort): Value {
    Obj([(Str("containerPort"), Int(p.containerPort)),
         (Str("hostPort"), Int(p.hostPort)),
         (Str("protocol"), Str(if p.protocol == Udp then "udp" else "tcp"))])
  }

  /** A written mapping reads back as the port it was written from. */
  lemma MappingKeysDiffer()
    ensures Str("containerPort") != Str("hostPort") && Str("containerPort") != Str("protocol") && Str("hostPort") != Str("protocol")
  {
    assert "containerPort"[0] != "hostPort"[0] && "containerPort"[0] != "protocol"[0] && "hostPort"[0] != "protocol"[0];
  }

  lemma MappingReadsBack(p: ServicePort)
    requires ValidPort(p)
    ensures PortOfMapping(MappingOf(p)) == Success([p])
  {
    MappingKeysDiffer();
    LookupOfThree(Str("containerPort"), Int(p.containerPort), Str("hostPort"), Int(p.hostPort),
                  Str("protocol"), Str(if p.protocol == Udp then "udp" else "tcp"));
    ProtocolWordReads(p.protocol == Udp);
    var node := MappingOf(p);
    assert Field(node, "containerPort") == Some(Int(p.containerPort));
    assert Field(node, "hostPort") == Some(Int(p.hostPort));
    assert Field(node, "protocol") == Some(Str(if p.protocol == Udp then "udp" else "tcp"));
    var r := PortOfMapping(node);
    assert r.Success? && r.value[0] == p;
  }

  /** The mappings written into an application file. */
  function MappingsOf(ports: seq<ServicePort>): (r: seq<Value>)
    ensures |r| == |ports|
  {
    seq(|ports|, i requires 0 <= i < |ports| => MappingOf(ports[i]))
  }

  /** An application file whose mappings publish `ports`. */
  function AppOf(ports: seq<ServicePort>): Value {
    Obj([(Str("container"), Obj([(Str("docker"), Obj([(Str("portMappings"), Arr(MappingsOf(ports)))]))]))])
  }

  lemma AppMappingsFound(ports: seq<ServicePort>)
    ensures PortMappingsOf(AppOf(ports)) == Success(Arr(MappingsOf(ports)))
  {
    var docker := Obj([(Str("portMappings"), Arr(MappingsOf(ports)))]);
    var container := Obj([(Str("docker"), docker)]);
    assert Field(AppOf(ports), "container") == Some(container);
    assert Field(container, "docker") == Some(docker);
    assert Field(docker, "portMappings") == Some(Arr(MappingsOf(ports)));
  }

  /** The application file written from a list of ports publishes exactly that list. */
  lemma AppReadsBack(ports: seq<ServicePort>)
    requires forall i :: 0 <= i < |ports| ==> ValidPort(ports[i])
    ensures PortsOfFile(AppOf(ports)) == Success(ports)
  {
    var mappings := MappingsOf(ports);
    AppMappingsFound(ports);
    forall i | 0 <= i < |mappings|
      ensures PortOfMapping(mappings[i]) == Success([ports[i]])
    {
      MappingReadsBack(ports[i]);
    }
    FlatMapResultSuccess(PortOfMapping, mappings);
    FlatMapSingletons(OrEmpty(PortOfMapping), mappings, ports);
  }

  /** A `portMappings` written as `null` publishes nothing, as Jackson iterates no elements of it. */
  lemma NullMappingsPublishNothing()
    ensures PortsOfFile(Obj([(Str("container"), Obj([(Str("docker"), Obj([(Str("portMappings"), Null)]))]))])) == Success([])
  {
  }

  /** A file without the `container` object is rejected, naming that node. */
  lemma MissingContainerRejected(root: Value)
    requires Field(root, "container").None?
    ensures PortsOfFile(root) == Failure(NodeNotFound("container"))
  {
  }

  /** The walk fails when any file fails, and otherwise lists the files' ports one file after another. */
  lemma ServicePortsInFileOrder(a: seq<Value>, b: seq<Value>)
    ensures ServicePortsOf(a + b).Success? <==> ServicePortsOf(a).Success? && ServicePortsOf(b).Success?
    ensures ServicePortsOf(a + b).Success? ==> ServicePortsOf(a + b).value == ServicePortsOf(a).value + ServicePortsOf(b).value
  {
    FlatMapResultAppend(PortsOfFile, a, b);
  }
}

=== FILE: pipeline.dfy ===
/**
 * The deployment pipeline: `CommandService.executeCommands`, which runs the
 * commands of a transition table one after another on a shared context, and
 * the commands whose decisions steer it: the orchestrator choice and proxy,
 * the build-result gate (`RunOn`, `CheckBuildResultCommand`) and the
 * container-service lookups.
 *
 * Each command is a function of the context and of what the outside world
 * answered (the container service the management API returned, the build's
 * result); the answers are parameters. Messages from the plugin's message
 * bundle are logged under their bundle key, since the bundle text is not
 * part of this model.
 */
module Pipeline {
  import opened Wrappers
  import opened JavaStrings
  import opened Constants
  import BaseContext

  // ---------------------------------------------------------------------
  // CommandService.executeCommands
  // ---------------------------------------------------------------------

  /** A command class: the key of the transition table. */
  type CommandClass = string

  /** Where to go after a command: on `Success`, and on `UnSuccessful`. */
  datatype Successors = Successors(success: Option<CommandClass>, fail: Option<CommandClass>)

  /** `TransitionInfo`: the command an entry runs and its successors. */
  datatype Transition = Transition(command: CommandClass, next: Successors)

  type Table = map<CommandClass, Transition>

  /**
   * What running one command did: the shared context afterwards and, for a
   * command that is next-command aware, the successors it names itself.
   */
  datatype Outcome = Outcome(context: BaseContext.Context, own: Option<Successors>)

  /** How a command behaves: a pure function of its class and the context. */
  type Behaviour = (CommandClass, BaseContext.Context) -> Outcome

  /** What the loop does after a command: return an answer, or run an entry. */
  datatype Decision = Stop(ok: bool) | Continue(next: Transition)

  /** The successors that count: the command's own when it names them, else the entry's. */
  function Links(current: Transition, o: Outcome): Successors {
    if o.own.Some? then o.own.value else current.next
  }

  /**
   * One turn of the loop after `current` ran: `Success` follows the success
   * link and `UnSuccessful` the fail link when that link is set; `HasError`
   * answers `false`; everything else, including a link to a class the table
   * does not hold, ends the loop with `true`.
   */
  function Decide(table: Table, current: Transition, o: Outcome): (d: Decision)
    ensures d == Stop(false) <==> BaseContext.InError(o.context)
    ensures d.Continue? <==>
              || (o.context.state == BaseContext.Success
                  && Links(current, o).success.Some? && Links(current, o).success.value in table)
              || (o.context.state == BaseContext.UnSuccessful
                  && Links(current, o).fail.Some? && Links(current, o).fail.value in table)
    ensures d.Continue? && o.context.state == BaseContext.Success ==>
              d.next == table[Links(current, o).success.value]
    ensures d.Continue? && o.context.state == BaseContext.UnSuccessful ==>
              d.next == table[Links(current, o).fail.value]
  {
    var links := Links(current, o);
    var state := o.context.state;
    if state == BaseContext.Success && links.success.Some? then
      if links.success.value in table then Continue(table[links.success.value]) else Stop(true)
    else if state == BaseContext.UnSuccessful && links.fail.Some? then
      if links.fail.value in table then Continue(table[links.fail.value]) else Stop(true)
    else if state == BaseContext.HasError then Stop(false)
    else Stop(true)
  }

  /** A command the loop ran, and the state it left the deployment in. */
  datatype Executed = Executed(command: CommandClass, state: BaseContext.DeploymentState)

  /**
   * The loop's result: its answer (`None` when the fuel ran out before the
   * loop ended), the final context and the commands run, in order.
   */
  datatype Run = Run(answer: Option<bool>, context: BaseContext.Context, trace: seq<Executed>)

  /** Every command but the last let the pipeline go on. */
  predicate WentOn(trace: seq<Executed>) {
    forall i :: 0 <= i < |trace| - 1 ==>
      trace[i].state == BaseContext.Success || trace[i].state == BaseContext.UnSuccessful
  }

  /**
   * The `while (current != null)` loop, run for at most `fuel` commands
   * (the table may contain a cycle, so the source's loop need not end).
   */
  function Loop(table: Table, run: Behaviour, current: Transition, c: BaseContext.Context, fuel: nat): (r: Run)
    decreases fuel
    ensures |r.trace| <= fuel
    ensures r.answer.None? ==> |r.trace| == fuel
    ensures fuel > 0 ==> r.trace != [] && r.trace[0].command == current.command
    ensures r.trace == [] ==> r.context == c
    ensures r.trace != [] ==> r.trace[|r.trace| - 1].state == r.context.state
    ensures WentOn(r.trace)
    ensures r.answer.None? && r.trace != [] ==>
              r.context.state == BaseContext.Success || r.context.state == BaseContext.UnSuccessful
    ensures r.answer.Some? ==> r.trace != [] && (r.answer.value <==> !BaseContext.InError(r.context))
  {
    if fuel == 0 then Run(None, c, [])
    else
      var o := run(current.command, c);
      var here := Executed(current.command, o.context.state);
      match Decide(table, current, o)
      case Stop(ok) => Run(Some(ok), o.context, [here])
      case Continue(next) =>
        var rest := Loop(table, run, next, o.context, fuel - 1);
        Run(rest.answer, rest.context, [here] + rest.trace)
  }

  /**
   * `executeCommands`: an empty table or no start class answers `false`
   * without running anything; otherwise the loop starts at the start
   * class's entry (a start class the table does not hold runs nothing and
   * answers `true`).
   */
  function ExecuteCommands(table: Table, start: Option<CommandClass>, run: Behaviour,
                           c: BaseContext.Context, fuel: nat): (r: Run)
    ensures |table| == 0 || start.None? ==> r == Run(Some(false), c, [])
    ensures |table| > 0 && start.Some? && start.value !in table ==> r == Run(Some(true), c, [])
    ensures start.Some? && start.value in table && fuel > 0 ==>
              r.trace != [] && r.trace[0].command == table[start.value].command
    ensures r.answer == Some(false) ==> r.trace == [] || BaseContext.InError(r.context)
    ensures r.answer == Some(true) && r.trace != [] ==> !BaseContext.InError(r.context)
    ensures WentOn(r.trace)
  {
    if |table| == 0 || start.None? then Run(Some(false), c, [])
    else if start.value !in table then Run(Some(true), c, [])
    else Loop(table, run, table[start.value], c, fuel)
  }

  /** Once the loop has answered, more fuel changes nothing. */
  lemma {:induction false} MoreFuelSameRun(table: Table, run: Behaviour, current: Transition,
                                           c: BaseContext.Context, fuel: nat, more: nat)
    requires Loop(table, run, current, c, fuel).answer.Some?
    requires fuel <= more
    ensures Loop(table, run, current, c, more) == Loop(table, run, current, c, fuel)
    decreases fuel
  {
    var o := run(current.command, c);
    var d := Decide(table, current, o);
    if d.Continue? {
      MoreFuelSameRun(table, run, d.next, o.context, fuel - 1, more - 1);
      LoopContinues(table, run, current, c, fuel);
      LoopContinues(table, run, current, c, more);
    }
  }

  /** One turn of the loop that goes on to the next command. */
  lemma LoopContinues(table: Table, run: Behaviour, current: Transition, c: BaseContext.Context, fuel: nat)
    requires fuel > 0 && Decide(table, current, run(current.command, c)).Continue?
    ensures var o := run(current.command, c);
            var rest := Loop(table, run, Decide(table, current, o).next, o.context, fuel - 1);
            Loop(table, run, current, c, fuel) == Run(rest.answer, rest.context, [Executed(current.command, o.context.state)] + rest.trace)
  {
  }

  /** A command that leaves `HasError` ends the loop at once with `false`. */
  lemma ErrorStopsAtOnce(table: Table, run: Behaviour, current: Transition, c: BaseContext.Context, fuel: nat)
    requires fuel > 0
    requires BaseContext.InError(run(current.command, c).context)
    ensures Loop(table, run, current, c, fuel) ==
              Run(Some(false), run(current.command, c).context,
                  [Executed(current.command, BaseContext.HasError)])
  {
  }

  /**
   * A next-command-aware command's own successors replace the entry's: the
   * entry's links do not matter, and the loop goes on as if the entry had
   * held the command's links.
   */
  lemma OwnSuccessorsOverrideEntry(table: Table, cmd: CommandClass, entry: Successors, o: Outcome)
    requires o.own.Some?
    ensures Decide(table, Transition(cmd, entry), o) ==
              Decide(table, Transition(cmd, o.own.value), o.(own := None))
  {
  }

  // ---------------------------------------------------------------------
  // DeploymentChoiceCommand and DeploymentProxyCommand
  // ---------------------------------------------------------------------

  /** The deployment commands the choice and the proxy hand over to. */
  datatype Deployer = KubernetesDeployment | MarathonDeployment | SwarmDeployment

  /** Why `nextCommand` throws. */
  datatype NextError =
    | NoOrchestrator                         // switch on a null type: NullPointerException
    | NotSupported(t: Orchestrator)          // IllegalStateException

  /** The choice command's effect: the context, and the type it stored. */
  datatype Choice = Choice(context: BaseContext.Context, stored: Option<Orchestrator>)

  /**
   * `DeploymentChoiceCommand.execute`: a missing or unsupported type logs an
   * error; a supported one is stored and the state becomes `Success`.
   */
  function ChooseDeployment(c: BaseContext.Context, t: Option<Orchestrator>, stored: Option<Orchestrator>): (r: Choice)
    ensures r.context.state == BaseContext.Success <==> t.Some? && Supported(t.value)
    ensures t.Some? && Supported(t.value) ==> r == Choice(c.(state := BaseContext.Success), t)
    ensures !(t.Some? && Supported(t.value)) ==>
              && BaseContext.InError(r.context) && r.stored == stored
              && |r.context.log| == |c.log| + 1 && r.context.log[|c.log|].ErrorLine?
  {
    if t.None? then Choice(BaseContext.LogError(c, "DeploymentChoiceCommand_orchestratorNotFound"), stored)
    else if !Supported(t.value) then
      Choice(BaseContext.LogError(c, "DeploymentChoiceCommand_orchestratorNotSupported: " + Name(t.value)), stored)
    else Choice(BaseContext.SetState(c, BaseContext.Success), t)
  }

  /** `nextCommand`: the deployment command for the stored type. */
  function NextCommand(stored: Option<Orchestrator>): (r: Result<Deployer, NextError>)
    ensures stored.None? ==> r == Failure(NoOrchestrator)
    ensures r.Failure? && stored.Some? ==> r.error == NotSupported(stored.value) && stored.value == Custom
    ensures stored == Some(Kubernetes) <==> r == Success(KubernetesDeployment)
    ensures stored == Some(DCOS) <==> r == Success(MarathonDeployment)
    ensures stored == Some(Swarm) <==> r == Success(SwarmDeployment)
  {
    match stored
    case None => Failure(NoOrchestrator)
    case Some(Kubernetes) => Success(KubernetesDeployment)
    case Some(DCOS) => Success(MarathonDeployment)
    case Some(Swarm) => Success(SwarmDeployment)
    case Some(Custom) => Failure(NotSupported(Custom))
  }

  /**
   * After the choice accepted a type, `nextCommand` picks a deployment
   * command; the Swarm branch of `nextCommand` is never reached that way,
   * because Swarm is not a supported type.
   */
  lemma AcceptedChoiceHasNext(c: BaseContext.Context, t: Option<Orchestrator>, stored: Option<Orchestrator>)
    requires ChooseDeployment(c, t, stored).context.state == BaseContext.Success
    ensures NextCommand(ChooseDeployment(c, t, stored).stored).Success?
    ensures NextCommand(ChooseDeployment(c, t, stored).stored) != Success(SwarmDeployment)
  {
  }

  /** What the proxy does with the configured type. */
  datatype ProxyOutcome =
    | Delegate(deployer: Deployer)           // run that deployment command on the context
    | Rejected(context: BaseContext.Context) // logged, state UnSuccessful
    | NullType                               // switch on a null type: NullPointerException

  /**
   * `DeploymentProxyCommand.execute`: DC/OS and Kubernetes are handed to
   * their deployment commands; any other type logs an error and then sets
   * `UnSuccessful`, which overwrites the `HasError` the log set.
   */
  function Proxy(c: BaseContext.Context, t: Option<Orchestrator>): (r: ProxyOutcome)
    ensures t.None? <==> r.NullType?
    ensures r.Delegate? <==> t.Some? && Supported(t.value)
    ensures r.Rejected? ==>
              && r.context.state == BaseContext.UnSuccessful && !BaseContext.InError(r.context)
              && |r.context.log| == |c.log| + 1 && r.context.log[|c.log|].ErrorLine?
  {
    match t
    case None => NullType
    case Some(DCOS) => Delegate(MarathonDeployment)
    case Some(Kubernetes) => Delegate(KubernetesDeployment)
    case Some(other) =>
      Rejected(BaseContext.SetState(
        BaseContext.LogError(c, "Unsupported container service orchestrator type: " + Name(other)),
        BaseContext.UnSuccessful))
  }

  /**
   * The proxy and the choice agree: the proxy delegates exactly for the
   * types the choice accepts, and to the command `nextCommand` names.
   */
  lemma ProxyAgreesWithChoice(c: BaseContext.Context, t: Orchestrator, stored: Option<Orchestrator>)
    ensures Proxy(c, Some(t)).Delegate? <==>
              ChooseDeployment(c, Some(t), stored).context.state == BaseContext.Success
    ensures Proxy(c, Some(t)).Delegate? ==>
              NextCommand(ChooseDeployment(c, Some(t), stored).stored) == Success(Proxy(c, Some(t)).deployer)
  {
  }

  // ---------------------------------------------------------------------
  // RunOn and CheckBuildResultCommand
  // ---------------------------------------------------------------------

  /** `hudson.model.Result`, in the order of its ordinals, best first. */
  datatype BuildResult = Succeeded | Unstable | Failed | NotBuilt | Aborted

  /** The ordinal `isBetterOrEqualTo` compares. */
  function Ordinal(b: BuildResult): nat {
    match b
    case Succeeded => 0
    case Unstable => 1
    case Failed => 2
    case NotBuilt => 3
    case Aborted => 4
  }

  /** `Result.isBetterOrEqualTo`. */
  predicate BetterOrEqual(b: BuildResult, than: BuildResult) {
    Ordinal(b) <= Ordinal(than)
  }

  /** `RunOn`: when the deployment may go ahead. */
  datatype RunOn = OnSuccess | OnSuccessOrUnstable

  /** `shouldRunOn`: a missing result (a pipeline run) always lets it go ahead. */
  function ShouldRunOn(option: RunOn, result: Option<BuildResult>): (go: bool)
    ensures result.None? ==> go
    ensures option == OnSuccess && result.Some? ==> (go <==> result.value == Succeeded)
    ensures option == OnSuccessOrUnstable && result.Some? ==>
              (go <==> result.value == Succeeded || result.value == Unstable)
  {
    if result.None? then true
    else match option
      case OnSuccess => result.value == Succeeded
      case OnSuccessOrUnstable => BetterOrEqual(result.value, Unstable)
  }

  /** `SuccessOrUnstable` lets through everything `Success` lets through, and `UNSTABLE` besides. */
  lemma SuccessOrUnstableIsWider(result: Option<BuildResult>)
    ensures ShouldRunOn(OnSuccess, result) ==> ShouldRunOn(OnSuccessOrUnstable, result)
    ensures ShouldRunOn(OnSuccessOrUnstable, Some(Unstable)) && !ShouldRunOn(OnSuccess, Some(Unstable))
  {
  }

  /** The enum constant's name. */
  function RunOnName(option: RunOn): string {
    match option
    case OnSuccess => "Success"
    case OnSuccessOrUnstable => "SuccessOrUnstable"
  }

  /**
   * `RunOn.fromString`: `"SuccessOrUnstable"` gives that option, any other
   * text gives `Success`, and a switch on `null` throws.
   */
  function RunOnFromString(value: Option<string>): (r: Option<RunOn>)
    ensures value.None? <==> r.None?
    ensures r == Some(OnSuccessOrUnstable) <==> value == Some("SuccessOrUnstable")
  {
    if value.None? then None
    else if value.value == "SuccessOrUnstable" then Some(OnSuccessOrUnstable)
    else Some(OnSuccess)
  }

  /** Every option's name reads back as that option. */
  lemma RunOnNameReadsBack(option: RunOn)
    ensures RunOnFromString(Some(RunOnName(option))) == Some(option)
  {
    if option == OnSuccess {
      assert RunOnName(option)[0..2] == "Su" && RunOnName(option) != "SuccessOrUnstable" by {
        assert |RunOnName(option)| == 7;
      }
    }
  }

  /**
   * `CheckBuildResultCommand.execute`: one status line, then `Success` when
   * the option lets the build's result through and `Done` (not an error)
   * when it does not.
   */
  function CheckBuildResult(c: BaseContext.Context, option: RunOn, result: Option<BuildResult>): (r: BaseContext.Context)
    ensures r.state == BaseContext.Success <==> ShouldRunOn(option, result)
    ensures r.state == BaseContext.Success || r.state == BaseContext.Done
    ensures !BaseContext.InError(r)
    ensures |r.log| == |c.log| + 1 && r.log[..|c.log|] == c.log && r.log[|c.log|].Status?
  {
    if ShouldRunOn(option, result) then
      BaseContext.SetState(BaseContext.LogStatus(c, "CheckBuildResultCommand_continue"), BaseContext.Success)
    else
      BaseContext.SetState(BaseContext.LogStatus(c, "CheckBuildResultCommand_abort"), BaseContext.Done)
  }

  /** The six option and result combinations of the gate's tests. */
  lemma GateCombinations(c: BaseContext.Context)
    ensures CheckBuildResult(c, OnSuccess, Some(Succeeded)).state == BaseContext.Success
    ensures CheckBuildResult(c, OnSuccess, Some(Unstable)).state == BaseContext.Done
    ensures CheckBuildResult(c, OnSuccess, Some(Failed)).state == BaseContext.Done
    ensures CheckBuildResult(c, OnSuccessOrUnstable, Some(Succeeded)).state == BaseContext.Success
    ensures CheckBuildResult(c, OnSuccessOrUnstable, Some(Unstable)).state == BaseContext.Success
    ensures CheckBuildResult(c, OnSuccessOrUnstable, Some(Failed)).state == BaseContext.Done
  {
  }

  /**
   * A gate that holds the deployment back ends the pipeline with `true`
   * after that one command: `Done` follows no link.
   */
  lemma HeldBackPipelineSucceeds(table: Table, run: Behaviour, current: Transition, c: BaseContext.Context,
                                 fuel: nat, option: RunOn, result: Option<BuildResult>)
    requires fuel > 0
    requires !ShouldRunOn(option, result)
    requires run(current.command, c).context == CheckBuildResult(c, option, result)
    ensures Loop(table, run, current, c, fuel) ==
              Run(Some(true), CheckBuildResult(c, option, result), [Executed(current.command, BaseContext.Done)])
  {
  }

  // ---------------------------------------------------------------------
  // Container-service lookups
  // ---------------------------------------------------------------------

  /** A container service as the management API returns it. */
  datatype Service = Service(name: Option<string>, orchestrator: Orchestrator,
                             masterFqdn: Option<string>, rootUser: Option<string>)

  /** `GetContainerServiceInfoCommand.TaskResult`. */
  datatype Info = Info(state: BaseContext.DeploymentState, orchestrator: Option<Orchestrator>,
                       fqdn: Option<string>, adminUser: Option<string>)

  /**
   * `getAcsInfo`: a missing service or a configured type that is missing or
   * differs from the service's fails (the service's type is still
   * recorded); a match succeeds with the service's FQDN and admin user.
   */
  function AcsInfo(service: Option<Service>, configured: Option<Orchestrator>): (r: Info)
    ensures service.None? ==> r == Info(BaseContext.HasError, None, None, None)
    ensures r.state == BaseContext.Success <==> service.Some? && configured == Some(service.value.orchestrator)
    ensures r.state == BaseContext.Success || r.state == BaseContext.HasError
    ensures service.Some? ==> r.orchestrator == Some(service.value.orchestrator)
    ensures r.state == BaseContext.Success ==>
              r.fqdn == service.value.masterFqdn && r.adminUser == service.value.rootUser
    ensures r.state == BaseContext.HasError ==> r.fqdn.None? && r.adminUser.None?
  {
    if service.None? then Info(BaseContext.HasError, None, None, None)
    else if configured.None? || service.value.orchestrator != configured.value then
      Info(BaseContext.HasError, Some(service.value.orchestrator), None, None)
    else Info(BaseContext.Success, Some(service.value.orchestrator), service.value.masterFqdn, service.value.rootUser)
  }

  /** The context of the lookup commands: the deployment state plus what they set. */
  datatype ServiceContext = ServiceContext(base: BaseContext.Context, mgmtFqdn: Option<string>,
                                           adminUser: Option<string>)

  /**
   * `GetContainerServiceInfoCommand.execute`. The type text `"AKS"` (exact
   * case) succeeds without a lookup. Otherwise the lookup either throws
   * (`lookup` is a failure carrying the exception's message), which is
   * logged, or answers with the service; the task's state becomes the
   * context's, and the FQDN is set only when that state is not an error.
   */
  function GetContainerServiceInfo(c: ServiceContext, serviceType: Option<string>,
                                   lookup: Result<Option<Service>, string>,
                                   configured: Option<Orchestrator>): (r: ServiceContext)
    ensures serviceType == Some(Aks) ==> r == c.(base := c.base.(state := BaseContext.Success))
    ensures r.adminUser == c.adminUser
    ensures r.mgmtFqdn != c.mgmtFqdn ==> r.base.state == BaseContext.Success
    ensures r.base.state == BaseContext.Success <==>
              serviceType == Some(Aks) || (lookup.Success? && AcsInfo(lookup.value, configured).state == BaseContext.Success)
    ensures serviceType != Some(Aks) && lookup.Success? && AcsInfo(lookup.value, configured).state == BaseContext.Success ==>
              r.mgmtFqdn == lookup.value.value.masterFqdn
    ensures serviceType != Some(Aks) ==> (BaseContext.InError(r.base) <==> r.base.state != BaseContext.Success)
  {
    if serviceType == Some(Aks) then c.(base := BaseContext.SetState(c.base, BaseContext.Success))
    else
      var logged := BaseContext.LogStatus(c.base, "GetContainserServiceInfoCommand_getFQDN");
      match lookup
      case Failure(message) =>
        c.(base := BaseContext.LogException(logged, "AbstractBaseContext_error", message))
      case Success(service) =>
        var info := AcsInfo(service, configured);
        var stated := BaseContext.SetState(logged, info.state);
        if info.state == BaseContext.HasError then c.(base := stated)
        else c.(base := stated, mgmtFqdn := info.fqdn)
  }

  /**
   * `GetContainserServiceInfoCommand.execute`, the older lookup: a missing
   * service logs an error and sets nothing; a found one always sets the
   * FQDN and admin user and ends in `Success`, even after logging that its
   * type does not match the configured one.
   */
  function GetContainerServiceInfoLegacy(c: ServiceContext, service: Option<Service>,
                                         configured: Option<Orchestrator>): (r: ServiceContext)
    ensures service.None? ==> BaseContext.InError(r.base) && r.mgmtFqdn == c.mgmtFqdn && r.adminUser == c.adminUser
    ensures service.Some? ==>
              && r.base.state == BaseContext.Success
              && r.mgmtFqdn == service.value.masterFqdn && r.adminUser == service.value.rootUser
    ensures |r.base.log| > |c.base.log| + 1 && r.base.log[..|c.base.log|] == c.base.log
    ensures service.Some? ==> |r.base.log| >= |c.base.log| + 4
    ensures service.Some? && configured != Some(service.value.orchestrator) ==>
              r.base.log[|c.base.log| + 2].ErrorLine?
    ensures service.Some? && configured == Some(service.value.orchestrator) ==>
              forall i :: |c.base.log| <= i < |r.base.log| ==> r.base.log[i].Status?
  {
    var logged := BaseContext.LogStatus(c.base, "GetContainserServiceInfoCommand_getFQDN");
    match service
    case None =>
      c.(base := BaseContext.LogError(logged, "GetContainserServiceInfoCommand_containerServiceNotFound"))
    case Some(s) =>
      var typed := BaseContext.LogStatus(logged, "GetContainserServiceInfoCommand_orchestratorType");
      var checked :=
        if configured.None? || s.orchestrator != configured.value then
          BaseContext.LogError(typed, "GetContainserServiceInfoCommand_orchestratorTypeNotMatch")
        else typed;
      var told := BaseContext.LogStatus(BaseContext.LogStatus(checked, "GetContainserServiceInfoCommand_fqdn"),
                                        "GetContainserServiceInfoCommand_adminUser");
      ServiceContext(BaseContext.SetState(told, BaseContext.Success), s.masterFqdn, s.rootUser)
  }

  /**
   * The two lookups disagree on a type mismatch: the current one fails and
   * leaves the FQDN alone, the older one logs the mismatch and succeeds.
   */
  lemma MismatchOnlyLegacySucceeds(c: ServiceContext, s: Service, configured: Option<Orchestrator>)
    requires configured != Some(s.orchestrator)
    ensures BaseContext.InError(GetContainerServiceInfo(c, None, Success(Some(s)), configured).base)
    ensures GetContainerServiceInfo(c, None, Success(Some(s)), configured).mgmtFqdn == c.mgmtFqdn
    ensures GetContainerServiceInfoLegacy(c, Some(s), configured).base.state == BaseContext.Success
  {
  }

  const PublicFqdnStatus: string := "Getting management public FQDN."

  /**
   * `GetPublicFQDNCommand.execute`: a status line first; a missing service
   * logs an error and sets nothing, a found one sets the FQDN and admin
   * user from the service and then `Success`.
   */
  function GetPublicFqdn(c: ServiceContext, resourceGroup: Option<string>, serviceName: Option<string>,
                         service: Option<Service>): (r: ServiceContext)
    ensures |r.base.log| > |c.base.log| && r.base.log[..|c.base.log|] == c.base.log
    ensures r.base.log[|c.base.log|] == BaseContext.Status(PublicFqdnStatus)
    ensures service.None? <==> BaseContext.InError(r.base)
    ensures service.None? ==> r.mgmtFqdn == c.mgmtFqdn && r.adminUser == c.adminUser
    ensures service.Some? ==>
              && r.base.state == BaseContext.Success
              && r.mgmtFqdn == service.value.masterFqdn && r.adminUser == service.value.rootUser
              && |r.base.log| == |c.base.log| + 3
              && r.base.log[|c.base.log| + 1] == BaseContext.Status("Management master FQDN: " + ValueOf(service.value.masterFqdn))
  {
    var logged := BaseContext.LogStatus(c.base, PublicFqdnStatus);
    match service
    case None =>
      c.(base := BaseContext.LogError(logged, "Cannot load Container Service " + ValueOf(serviceName)
                                              + " from Resource Group " + ValueOf(resourceGroup)))
    case Some(s) =>
      var told := BaseContext.LogStatus(BaseContext.LogStatus(logged, "Management master FQDN: " + ValueOf(s.masterFqdn)),
                                        "Management admin username: " + ValueOf(s.rootUser));
      ServiceContext(BaseContext.SetState(told, BaseContext.Success), s.masterFqdn, s.rootUser)
  }

  // ---------------------------------------------------------------------
  // ValidateContainerCommand
  // ---------------------------------------------------------------------

  const ServiceNamePrefix: string := "containerservice-"

  /** The service name searched for; a `null` prefix concatenates as `"null"`. */
  function WantedName(dnsPrefix: Option<string>): string {
    ServiceNamePrefix + ValueOf(dnsPrefix)
  }

  /** The scan's result: found or not, or a `null` name reached first (`name.equals` throws). */
  datatype Scan = Found(index: nat) | NotFound | NullName(index: nat)

  /**
   * The loop over the listed services: it stops at the first name equal to
   * `wanted`, and throws at a `null` name met before any match.
   */
  method FindService(names: seq<Option<string>>, wanted: string) returns (r: Scan)
    ensures r.Found? ==>
              && r.index < |names| && names[r.index] == Some(wanted)
              && forall j :: 0 <= j < r.index ==> names[j].Some? && names[j] != Some(wanted)
    ensures r.NullName? ==>
              && r.index < |names| && names[r.index].None?
              && forall j :: 0 <= j < r.index ==> names[j] != Some(wanted)
    ensures r.NotFound? <==> forall j :: 0 <= j < |names| ==> names[j].Some? && names[j] != Some(wanted)
  {
    var i := 0;
    while i < |names|
      invariant 0 <= i <= |names|
      invariant forall j :: 0 <= j < i ==> names[j].Some? && names[j] != Some(wanted)
    {
      if names[i].None? {
        return NullName(i);
      }
      if names[i].value == wanted {
        return Found(i);
      }
      i := i + 1;
    }
    return NotFound;
  }

  /** The prefix of the "found" and "not found" status lines. */
  function Quoted(dnsPrefix: Option<string>): string {
    "'" + WantedName(dnsPrefix) + "'"
  }

  /**
   * `ValidateContainerCommand.execute`: `Success` when some listed service
   * has the wanted name, `UnSuccessful` (not an error) when none has; a
   * failed listing or a `null` name met first is a runtime exception, which
   * is logged as an error.
   */
  method ValidateContainer(c: BaseContext.Context, dnsPrefix: Option<string>,
                           listing: Result<seq<Option<string>>, string>) returns (r: BaseContext.Context)
    ensures listing.Failure? ==> BaseContext.InError(r)
    ensures listing.Success? && (exists j :: 0 <= j < |listing.value| && listing.value[j] == Some(WantedName(dnsPrefix))) ==>
              r.state == BaseContext.Success || BaseContext.InError(r)
    ensures r.state == BaseContext.Success ==>
              listing.Success? && exists j :: 0 <= j < |listing.value| && listing.value[j] == Some(WantedName(dnsPrefix))
    ensures r.state == BaseContext.UnSuccessful <==>
              listing.Success? && forall j :: 0 <= j < |listing.value| ==>
                listing.value[j].Some? && listing.value[j] != Some(WantedName(dnsPrefix))
    ensures listing.Success? && (forall j :: 0 <= j < |listing.value| ==> listing.value[j].Some?) ==> !BaseContext.InError(r)
    ensures r.state == BaseContext.Success || r.state == BaseContext.UnSuccessful || BaseContext.InError(r)
  {
    var checking := BaseContext.LogStatus(c, "Checking if the Azure Container Service with name "
                                             + Quoted(dnsPrefix) + " exist.");
    if listing.Failure? {
      return BaseContext.LogException(checking, "Error creating resource group:", listing.error);
    }
    var scan := FindService(listing.value, WantedName(dnsPrefix));
    match scan
    case Found(_) =>
      r := BaseContext.SetState(BaseContext.LogStatus(checking, "Azure Container Service with name "
                                                      + Quoted(dnsPrefix) + " found."), BaseContext.Success);
    case NotFound =>
      r := BaseContext.SetState(BaseContext.LogStatus(checking, "Azure Container Service "
                                                      + Quoted(dnsPrefix) + " not found."), BaseContext.UnSuccessful);
    case NullName(_) =>
      r := BaseContext.LogException(checking, "Error creating resource group:", ValueOf(None));
  }

  /** A `null` DNS prefix matches a service literally named `containerservice-null`. */
  lemma NullPrefixMatchesLiteralNull()
    ensures WantedName(None) == "containerservice-null"
  {
  }
}

=== FILE: plugin_telemetry.dfy ===
/**
 * `AzureACSPlugin`: the telemetry helpers. The orchestrator type is
 * normalised to one of five canonical names, and the variadic
 * `String... properties` of `sendEvent` / `sendEventFor` are read as
 * (key, value) pairs into the event's property map. Sending the event is
 * not part of the model; the property map it would carry is.
 *
 * The canonical names and the property keys are constants of the plugin's
 * `Constants` class that are not part of this model, so they are
 * parameters here.
 */
module PluginTelemetry {
  import opened Wrappers
  import opened JavaStrings

  // ---------------------------------------------------------------------
  // normalizeContainerSerivceType
  // ---------------------------------------------------------------------

  /** The five canonical type names telemetry reports. */
  datatype TypeNames = TypeNames(kubernetes: string, dcos: string, swarm: string, aks: string, custom: string)

  predicate IsCanonical(names: TypeNames, s: string) {
    s == names.kubernetes || s == names.dcos || s == names.swarm || s == names.aks || s == names.custom
  }

  /** `equalsIgnoreCase` with an argument that may be `null` (never equal). */
  predicate SameIgnoringCase(name: string, s: Option<string>) {
    s.Some? && EqualsIgnoreCase(name, s.value)
  }

  /**
   * `normalizeContainerSerivceType`: the first of Kubernetes, DC/OS, Swarm
   * and AKS whose name equals the type ignoring case, and the custom name
   * for anything else, `null` included.
   */
  function NormalizeType(names: TypeNames, t: Option<string>): (r: string)
    ensures IsCanonical(names, r)
    ensures SameIgnoringCase(names.kubernetes, t) ==> r == names.kubernetes
    ensures !SameIgnoringCase(names.kubernetes, t) && SameIgnoringCase(names.dcos, t) ==> r == names.dcos
    ensures (!SameIgnoringCase(names.kubernetes, t) && !SameIgnoringCase(names.dcos, t)
             && SameIgnoringCase(names.swarm, t)) ==> r == names.swarm
    ensures (!SameIgnoringCase(names.kubernetes, t) && !SameIgnoringCase(names.dcos, t)
             && !SameIgnoringCase(names.swarm, t) && SameIgnoringCase(names.aks, t)) ==> r == names.aks
    ensures (!SameIgnoringCase(names.kubernetes, t) && !SameIgnoringCase(names.dcos, t)
             && !SameIgnoringCase(names.swarm, t) && !SameIgnoringCase(names.aks, t)) ==> r == names.custom
    ensures t.None? ==> r == names.custom
  {
    if SameIgnoringCase(names.kubernetes, t) then names.kubernetes
    else if SameIgnoringCase(names.dcos, t) then names.dcos
    else if SameIgnoringCase(names.swarm, t) then names.swarm
    else if SameIgnoringCase(names.aks, t) then names.aks
    else names.custom
  }

  /** No two canonical names are equal ignoring case. */
  predicate Distinct(names: TypeNames) {
    var all := [names.kubernetes, names.dcos, names.swarm, names.aks, names.custom];
    forall i, j :: 0 <= i < j < 5 ==> !EqualsIgnoreCase(all[i], all[j])
  }

  /**
   * With distinct names, each of the four types is recognised in any ASCII
   * case, whatever its position in the chain of comparisons.
   */
  lemma RecognisedInAnyCase(names: TypeNames, s: string)
    requires Distinct(names)
    ensures EqualsIgnoreCase(names.kubernetes, s) ==> NormalizeType(names, Some(s)) == names.kubernetes
    ensures EqualsIgnoreCase(names.dcos, s) ==> NormalizeType(names, Some(s)) == names.dcos
    ensures EqualsIgnoreCase(names.swarm, s) ==> NormalizeType(names, Some(s)) == names.swarm
    ensures EqualsIgnoreCase(names.aks, s) ==> NormalizeType(names, Some(s)) == names.aks
  {
    var all := [names.kubernetes, names.dcos, names.swarm, names.aks, names.custom];
    assert !EqualsIgnoreCase(all[0], all[1]) && !EqualsIgnoreCase(all[0], all[2]) && !EqualsIgnoreCase(all[0], all[3]);
    assert !EqualsIgnoreCase(all[1], all[2]) && !EqualsIgnoreCase(all[1], all[3]) && !EqualsIgnoreCase(all[2], all[3]);
  }

  /** A canonical name equals itself ignoring case. */
  lemma SelfIgnoringCase(s: string)
    ensures EqualsIgnoreCase(s, s)
  {
  }

  /**
   * Normalising is idempotent when the canonical names are distinct
   * ignoring case: a canonical name normalises to itself.
   */
  lemma {:induction false} NormalizeIdempotent(names: TypeNames, t: Option<string>)
    requires Distinct(names)
    ensures NormalizeType(names, Some(NormalizeType(names, t))) == NormalizeType(names, t)
  {
    var all := [names.kubernetes, names.dcos, names.swarm, names.aks, names.custom];
    var r := NormalizeType(names, t);
    SelfIgnoringCase(r);
    if r == names.dcos {
      assert !EqualsIgnoreCase(all[0], all[1]);
    } else if r == names.swarm {
      assert !EqualsIgnoreCase(all[0], all[2]) && !EqualsIgnoreCase(all[1], all[2]);
    } else if r == names.aks {
      assert !EqualsIgnoreCase(all[0], all[3]) && !EqualsIgnoreCase(all[1], all[3]);
      assert !EqualsIgnoreCase(all[2], all[3]);
    } else if r == names.custom && r != names.kubernetes {
      assert !EqualsIgnoreCase(all[0], all[4]) && !EqualsIgnoreCase(all[1], all[4]);
      assert !EqualsIgnoreCase(all[2], all[4]) && !EqualsIgnoreCase(all[3], all[4]);
    }
  }

  // ---------------------------------------------------------------------
  // Property pairs
  // ---------------------------------------------------------------------

  /** An event's properties: a `HashMap`, whose keys and values may be `null`. */
  type Properties = map<Option<string>, Option<string>>

  /** The keys of the complete pairs, in order. */
  function PairKeys(props: seq<Option<string>>): (ks: set<Option<string>>)
    decreases |props|
  {
    if |props| < 2 then {} else {props[0]} + PairKeys(props[2..])
  }

  /**
   * The loop `for (i = 1; i < n; i += 2) props.put(p[i - 1], p[i])`: each
   * complete pair is put in order, so a later pair with the same key wins,
   * and a trailing key without a value is dropped.
   */
  function PutPairs(m: Properties, props: seq<Option<string>>): (r: Properties)
    decreases |props|
    ensures r.Keys == m.Keys + PairKeys(props)
    ensures forall k :: k in m && k !in PairKeys(props) ==> r[k] == m[k]
  {
    if |props| < 2 then m else PutPairs(m[props[0] := props[1]], props[2..])
  }

  /** One more complete pair appended to an even list is put last. */
  lemma {:induction false} PutPairsAppend(m: Properties, props: seq<Option<string>>, k: Option<string>, v: Option<string>)
    requires |props| % 2 == 0
    ensures PutPairs(m, props + [k, v]) == PutPairs(m, props)[k := v]
    decreases |props|
  {
    if |props| == 0 {
      assert props + [k, v] == [k, v];
      assert ([k, v])[2..] == [];
    } else {
      assert (props + [k, v])[2..] == props[2..] + [k, v];
      assert (props + [k, v])[0] == props[0] && (props + [k, v])[1] == props[1];
      PutPairsAppend(m[props[0] := props[1]], props[2..], k, v);
    }
  }

  /** A key without a value after an even list changes nothing. */
  lemma {:induction false} TrailingKeyDropped(m: Properties, props: seq<Option<string>>, k: Option<string>)
    requires |props| % 2 == 0
    ensures PutPairs(m, props + [k]) == PutPairs(m, props)
    decreases |props|
  {
    if |props| > 0 {
      assert (props + [k])[2..] == props[2..] + [k];
      assert (props + [k])[0] == props[0] && (props + [k])[1] == props[1];
      TrailingKeyDropped(m[props[0] := props[1]], props[2..], k);
    }
  }

  /** A later pair with the key of an earlier one overrides it. */
  lemma LaterPairWins(m: Properties, props: seq<Option<string>>, k: Option<string>, v: Option<string>)
    requires |props| % 2 == 0
    ensures k in PutPairs(m, props + [k, v]) && PutPairs(m, props + [k, v])[k] == v
  {
    PutPairsAppend(m, props, k, v);
  }

  /** `sendEvent(item, action, String...)`: the pairs alone. */
  function EventProperties(props: seq<Option<string>>): (r: Properties)
    ensures r.Keys == PairKeys(props)
  {
    PutPairs(map[], props)
  }

  /** The keys `sendEventFor` seeds its map with. */
  datatype SeedKeys = SeedKeys(orchestrator: string, run: string)

  /**
   * `sendEventFor`: the orchestrator and the run's hashed URL are put
   * first, then the caller's pairs, so a caller pair with one of those
   * keys overrides the seeded value.
   */
  function EventForProperties(keys: SeedKeys, orchestrator: Option<string>, runHash: Option<string>,
                              props: seq<Option<string>>): (r: Properties)
    ensures Some(keys.orchestrator) in r && Some(keys.run) in r
    ensures Some(keys.orchestrator) !in PairKeys(props) && keys.orchestrator != keys.run ==>
              r[Some(keys.orchestrator)] == orchestrator
    ensures Some(keys.run) !in PairKeys(props) ==> r[Some(keys.run)] == runHash
    ensures r.Keys == {Some(keys.orchestrator), Some(keys.run)} + PairKeys(props)
  {
    PutPairs(map[Some(keys.orchestrator) := orchestrator][Some(keys.run) := runHash], props)
  }

  /** A caller pair naming the orchestrator key replaces the seeded orchestrator. */
  lemma CallerOverridesSeed(keys: SeedKeys, orchestrator: Option<string>, runHash: Option<string>,
                            props: seq<Option<string>>, v: Option<string>)
    requires |props| % 2 == 0
    ensures EventForProperties(keys, orchestrator, runHash, props + [Some(keys.orchestrator), v])[Some(keys.orchestrator)] == v
  {
    LaterPairWins(map[Some(keys.orchestrator) := orchestrator][Some(keys.run) := runHash], props, Some(keys.orchestrator), v);
  }
}

=== FILE: seqs.dfy ===
/**
 * Sequence helpers shared by the models: mapping each element to a
 * (possibly empty) run of results and concatenating the runs in order,
 * which is how the plugin's loops build their output lists.
 */
module Seqs {
  import opened Wrappers

  /** The runs `f` produces for the elements of `xs`, concatenated in order. */
  function FlatMap<T, U>(f: T -> seq<U>, xs: seq<T>): seq<U>
  {
    if xs == [] then [] else f(xs[0]) + FlatMap(f, xs[1..])
  }

  /** Concatenating inputs concatenates outputs: each element is handled on its own, in order. */
  lemma {:induction false} FlatMapAppend<T, U>(f: T -> seq<U>, a: seq<T>, b: seq<T>)
    ensures FlatMap(f, a + b) == FlatMap(f, a) + FlatMap(f, b)
    decreases |a|
  {
    if a == [] {
      assert a + b == b;
    } else {
      assert (a + b)[0] == a[0];
      assert (a + b)[1..] == a[1..] + b;
      FlatMapAppend(f, a[1..], b);
    }
  }

  /** When every element maps to itself alone, the whole sequence is unchanged. */
  lemma {:induction false} FlatMapIdentity<T>(f: T -> seq<T>, xs: seq<T>)
    requires forall i :: 0 <= i < |xs| ==> f(xs[i]) == [xs[i]]
    ensures FlatMap(f, xs) == xs
    decreases |xs|
  {
    if xs != [] {
      assert f(xs[0]) == [xs[0]];
      assert forall i :: 0 <= i < |xs[1..]| ==> xs[1..][i] == xs[i + 1];
      FlatMapIdentity(f, xs[1..]);
      assert xs == [xs[0]] + xs[1..];
    }
  }

  /** Mapping each element to its own one-element run rebuilds a given sequence. */
  lemma {:induction false} FlatMapSingletons<T, U>(f: T -> seq<U>, xs: seq<T>, ys: seq<U>)
    requires |xs| == |ys|
    requires forall i :: 0 <= i < |xs| ==> f(xs[i]) == [ys[i]]
    ensures FlatMap(f, xs) == ys
    decreases |xs|
  {
    if xs != [] {
      assert f(xs[0]) == [ys[0]];
      assert forall i :: 0 <= i < |xs[1..]| ==> xs[1..][i] == xs[i + 1];
      FlatMapSingletons(f, xs[1..], ys[1..]);
      assert ys == [ys[0]] + ys[1..];
    }
  }

  /** Every output element comes from some input element's run. */
  lemma {:induction false} FlatMapMember<T, U>(f: T -> seq<U>, xs: seq<T>, y: U)
    requires y in FlatMap(f, xs)
    ensures exists i :: 0 <= i < |xs| && y in f(xs[i])
    decreases |xs|
  {
    if y !in f(xs[0]) {
      FlatMapMember(f, xs[1..], y);
      var i :| 0 <= i < |xs[1..]| && y in f(xs[1..][i]);
      assert xs[1..][i] == xs[i + 1];
    }
  }

  /** Each input element's run appears in the output. */
  lemma {:induction false} FlatMapContains<T, U>(f: T -> seq<U>, xs: seq<T>, i: int, y: U)
    requires 0 <= i < |xs| && y in f(xs[i])
    ensures y in FlatMap(f, xs)
    decreases |xs|
  {
    if i > 0 {
      assert xs[1..][i - 1] == xs[i];
      FlatMapContains(f, xs[1..], i - 1, y);
    }
  }

  /**
   * `FlatMap` for a step that can fail: the runs in order, or the error of
   * the first element whose step fails (the later elements are not looked at).
   */
  function FlatMapResult<T, U, E>(f: T -> Result<seq<U>, E>, xs: seq<T>): Result<seq<U>, E>
  {
    if xs == [] then Success([])
    else
      var head :- f(xs[0]);
      var tail :- FlatMapResult(f, xs[1..]);
      Success(head + tail)
  }

  /** The run of a step that succeeds, and nothing for one that fails. */
  function OrEmpty<T, U, E>(f: T -> Result<seq<U>, E>): T -> seq<U> {
    x => if f(x).Success? then f(x).value else []
  }

  /** The whole succeeds exactly when every step does, and then it is the runs in order. */
  lemma {:induction false} FlatMapResultSuccess<T, U, E>(f: T -> Result<seq<U>, E>, xs: seq<T>)
    ensures FlatMapResult(f, xs).Success? <==> forall i :: 0 <= i < |xs| ==> f(xs[i]).Success?
    ensures FlatMapResult(f, xs).Success? ==> FlatMapResult(f, xs).value == FlatMap(OrEmpty(f), xs)
    decreases |xs|
  {
    if xs != [] {
      FlatMapResultSuccess(f, xs[1..]);
      assert forall i :: 0 <= i < |xs| - 1 ==> xs[1..][i] == xs[i + 1];
      if f(xs[0]).Success? && FlatMapResult(f, xs[1..]).Success? {
        assert forall i :: 0 <= i < |xs| ==> f(xs[i]).Success? by {
          forall i | 0 <= i < |xs| ensures f(xs[i]).Success? {
            if i > 0 { assert xs[i] == xs[1..][i - 1]; }
          }
        }
      } else if f(xs[0]).Success? {
        var i :| 0 <= i < |xs| - 1 && !f(xs[1..][i]).Success?;
        assert xs[1..][i] == xs[i + 1];
      }
    }
  }

  /** A failure is the error of the first step that fails. */
  lemma {:induction false} FlatMapResultFailure<T, U, E>(f: T -> Result<seq<U>, E>, xs: seq<T>)
    requires FlatMapResult(f, xs).Failure?
    ensures exists i :: 0 <= i < |xs| && f(xs[i]).Failure? && FlatMapResult(f, xs).error == f(xs[i]).error
                        && forall j :: 0 <= j < i ==> f(xs[j]).Success?
    decreases |xs|
  {
    if f(xs[0]).Success? {
      FlatMapResultFailure(f, xs[1..]);
      var i :| 0 <= i < |xs| - 1 && f(xs[1..][i]).Failure? && FlatMapResult(f, xs[1..]).error == f(xs[1..][i]).error
               && forall j :: 0 <= j < i ==> f(xs[1..][j]).Success?;
      assert xs[1..][i] == xs[i + 1];
      assert forall j :: 1 <= j < i + 1 ==> xs[j] == xs[1..][j - 1];
    } else {
      assert f(xs[0]).Failure?;
    }
  }

  /** Concatenated inputs succeed when both halves do, with the outputs concatenated. */
  lemma FlatMapResultAppend<T, U, E>(f: T -> Result<seq<U>, E>, a: seq<T>, b: seq<T>)
    ensures FlatMapResult(f, a + b).Success? <==> FlatMapResult(f, a).Success? && FlatMapResult(f, b).Success?
    ensures FlatMapResult(f, a + b).Success? ==>
      FlatMapResult(f, a + b).value == FlatMapResult(f, a).value + FlatMapResult(f, b).value
  {
    FlatMapResultSuccess(f, a);
    FlatMapResultSuccess(f, b);
    FlatMapResultSuccess(f, a + b);
    FlatMapAppend(OrEmpty(f), a, b);
    assert forall i :: 0 <= i < |a| ==> (a + b)[i] == a[i];
    assert forall i :: 0 <= i < |b| ==> (a + b)[|a| + i] == b[i];
    if FlatMapResult(f, a).Success? && FlatMapResult(f, b).Success? {
      assert forall i :: 0 <= i < |a + b| ==> f((a + b)[i]).Success? by {
        forall i | 0 <= i < |a + b| ensures f((a + b)[i]).Success? {
          if i >= |a| { assert (a + b)[i] == b[i - |a|]; }
        }
      }
    }
  }

  /** A `for` loop that returns at the first element satisfying `p`: its index, or `None`. */
  method FirstIndex<T>(xs: seq<T>, p: T -> bool) returns (r: Option<nat>)
    ensures r.Some? ==> r.value < |xs| && p(xs[r.value])
    ensures r.Some? ==> forall j :: 0 <= j < r.value ==> !p(xs[j])
    ensures r.None? <==> forall j :: 0 <= j < |xs| ==> !p(xs[j])
  {
    var i := 0;
    while i < |xs|
      invariant 0 <= i <= |xs|
      invariant forall j :: 0 <= j < i ==> !p(xs[j])
    {
      if p(xs[i]) {
        return Some(i);
      }
      i := i + 1;
    }
    return None;
  }
}

=== FILE: service_port.dfy ===
/**
 * `ServicePort`: one port a deployment exposes, as host port, container
 * port and protocol, with the string form that also serves as its hash,
 * and the test for whether a load-balancing rule already serves it.
 */
module ServicePorts {
  import opened Wrappers
  import opened JavaStrings

  /** The network protocols the plugin assigns to a port (the Azure `Protocol` values it uses). */
  datatype Protocol = Tcp | Udp

  /** The protocol's `toString`, as the Azure management API spells it. */
  function ProtocolName(p: Protocol): string {
    match p
    case Tcp => "Tcp"
    case Udp => "Udp"
  }

  /** The transport protocols of an Azure load-balancing rule. */
  datatype TransportProtocol = TransportTcp | TransportUdp | TransportAll

  /** Host port, container port and protocol; two ports are equal when all three are. */
  datatype ServicePort = ServicePort(hostPort: int, containerPort: int, protocol: Protocol)

  predicate ValidPort(p: ServicePort) {
    InInt32(p.hostPort) && InInt32(p.containerPort)
  }

  /** `getTransportProtocol`: the load-balancer protocol of the same name. */
  function TransportOf(p: Protocol): (t: TransportProtocol)
    ensures t != TransportAll
    ensures (t == TransportTcp) <==> (p == Tcp)
  {
    match p
    case Tcp => TransportTcp
    case Udp => TransportUdp
  }

  /** The part of a load-balancing rule the match looks at. */
  datatype RuleKey = RuleKey(frontendPort: int, protocol: TransportProtocol)

  /**
   * `matchesLoadBalancingRule`: the rule's front-end port is the host port
   * and its protocol is this port's protocol.
   */
  predicate MatchesRule(p: ServicePort, rule: RuleKey) {
    rule.frontendPort == p.hostPort && rule.protocol == TransportOf(p.protocol)
  }

  /** A rule for all protocols never counts as serving a port, and at most one protocol matches a rule. */
  lemma MatchIsProtocolExact(p: ServicePort, q: ServicePort, rule: RuleKey)
    requires MatchesRule(p, rule) && MatchesRule(q, rule)
    ensures p.hostPort == q.hostPort && p.protocol == q.protocol
    ensures rule.protocol != TransportAll
  {
  }

  /** `toString`: `host:container/Protocol`, for example `8080:80/Tcp`. */
  function ToString(p: ServicePort): string {
    IntToString(p.hostPort) + ":" + IntToString(p.containerPort) + "/" + ProtocolName(p.protocol)
  }

  /** Reads the `toString` form back; `None` when the text is not of that form. */
  function Parse(s: string): (r: Option<ServicePort>)
    ensures r.Some? ==> ValidPort(r.value)
  {
    var first := SplitFirst(s, ':');
    if |first| != 2 then None
    else
      var second := SplitFirst(first[1], '/');
      if |second| != 2 then None
      else
        var host := ParseInt(first[0]);
        var container := ParseInt(second[0]);
        var protocol := if second[1] == "Tcp" then Some(Tcp) else if second[1] == "Udp" then Some(Udp) else None;
        if host.Some? && container.Some? && protocol.Some? then
          Some(ServicePort(host.value, container.value, protocol.value))
        else None
  }

  /** Every valid port reads back from its string form. */
  lemma ParseToString(p: ServicePort)
    requires ValidPort(p)
    ensures Parse(ToString(p)) == Some(p)
  {
    var h := IntToString(p.hostPort);
    var c := IntToString(p.containerPort);
    var n := ProtocolName(p.protocol);
    var tail := c + "/" + n;
    assert SplitFirst(ToString(p), ':') == [h, tail] by {
      assert ToString(p) == h + [':'] + tail;
      SplitFirstAtFirst(h, tail, ':');
    }
    assert SplitFirst(tail, '/') == [c, n] by {
      SplitFirstAtFirst(c, n, '/');
    }
    assert ParseInt(h) == Some(p.hostPort) by {
      IntToStringParses(p.hostPort);
    }
    assert ParseInt(c) == Some(p.containerPort) by {
      IntToStringParses(p.containerPort);
    }
    ParseFromParts(ToString(p), h, tail, c, n, p);
  }

  lemma ParseFromParts(s: string, h: string, tail: string, c: string, n: string, p: ServicePort)
    requires SplitFirst(s, ':') == [h, tail] && SplitFirst(tail, '/') == [c, n]
    requires ParseInt(h) == Some(p.hostPort) && ParseInt(c) == Some(p.containerPort)
    requires n == ProtocolName(p.protocol)
    ensures Parse(s) == Some(p)
  {
    var first := SplitFirst(s, ':');
    var second := SplitFirst(first[1], '/');
    assert second == [c, n];
    if p.protocol == Tcp {
      assert second[1] == "Tcp";
    } else {
      assert second[1] != "Tcp" by { assert second[1][0] == 'U'; }
      assert second[1] == "Udp";
    }
  }

  lemma SplitFirstAtFirst(a: string, b: string, d: char)
    requires d !in a
    ensures SplitFirst(a + [d] + b, d) == [a, b]
  {
    var s := a + [d] + b;
    assert s[|a|] == d;
    var i := IndexOf(s, d);
    assert i == |a| by {
      assert forall j :: 0 <= j < |a| ==> s[j] == a[j];
      assert forall j :: 0 <= j < i ==> s[..i][j] == s[j];
    }
    assert s[..i] == a;
    assert s[i + 1..] == b;
  }

  /**
   * Two valid ports have the same string form exactly when they are equal,
   * so `equals` and `hashCode` (the hash of the string form) agree.
   */
  lemma ToStringInjective(p: ServicePort, q: ServicePort)
    requires ValidPort(p) && ValidPort(q)
    ensures ToString(p) == ToString(q) <==> p == q
  {
    if ToString(p) == ToString(q) {
      ParseToString(p);
      ParseToString(q);
    }
  }

  /** `String.hashCode`: the base-31 polynomial of the character codes, in 32-bit arithmetic. */
  function StringHash(s: string): (h: int)
    ensures InInt32(h)
  {
    if s == [] then 0 else Wrap32(31 * StringHash(s[..|s| - 1]) + s[|s| - 1] as int)
  }

  /** `hashCode`: the hash of the string form. */
  function HashCode(p: ServicePort): (h: int)
    ensures InInt32(h)
  {
    StringHash(ToString(p))
  }
}

=== FILE: swarm_command.dfy ===
/**
 * `SwarmDeploymentCommand`: logs the Swarm master in to the configured
 * container registries and runs `docker-compose` for each configuration
 * file.  The remote side is the list of steps the command performs over
 * its SSH client, together with the error that ended the run, if any.
 */
module SwarmCommand {
  import opened Wrappers
  import opened JavaStrings
  import opened DeployHelper
  import BaseContext

  /**
   * A registry endpoint: its token (`None` when no credentials are filled
   * in for it) and its effective URL.
   */
  datatype Registry = Registry(token: Option<string>, server: string)

  /** Why the run stops before its end. */
  datatype SwarmError =
    | NoAuthToken(server: string)        // the token is empty once trimmed
    | MalformedAuthToken(server: string) // the decoded token holds no `:`
    | StepFailed(step: Step, exitStatus: bool) // a remote step failed; see `Escapes`

  /** What the command does over SSH, in order. */
  datatype Step =
    | Connect                 // the client is built
    | Exec(command: string)   // a remote command
    | Copy(target: string)    // a file copied to the master
    | Close                   // the client is closed

  /** The steps performed, and the error that ended them early. */
  datatype Run = Run(steps: seq<Step>, error: Option<SwarmError>)

  // ---------------------------------------------------------------------
  // Registry logins
  // ---------------------------------------------------------------------

  /**
   * The user name and password in a decoded token: `split(":", 2)`, so the
   * text before the first `:` and everything after it.
   */
  function UserAndPassword(decoded: string): (r: Option<(string, string)>)
    ensures r.Some? <==> ':' in decoded
    ensures r.Some? ==> ':' !in r.value.0 && decoded == r.value.0 + ":" + r.value.1
  {
    var parts := SplitFirst(decoded, ':');
    if |parts| != 2 then None else Some((parts[0], parts[1]))
  }

  /** A token written as `user:password` reads back as that pair, whatever the password holds. */
  lemma UserAndPasswordRoundTrip(user: string, password: string)
    requires ':' !in user
    ensures UserAndPassword(user + ":" + password) == Some((user, password))
  {
    var r := UserAndPassword(user + ":" + password);
    assert ':' in user + ":" + password by { assert (user + ":" + password)[|user|] == ':'; }
    SplitAtFirst(user, ':', password);
    assert user + [':'] + password == user + ":" + password;
  }

  /** The remote login command for one registry. */
  function LoginCommand(user: string, password: string, server: string): string {
    "docker login -u '" + EscapeSingleQuote(user) + "' -p '" + EscapeSingleQuote(password)
      + "' '" + EscapeSingleQuote(server) + "'"
  }

  /** Each argument of the login command is one quoted word that reads back as itself. */
  lemma LoginCommandQuotesArguments(user: string, password: string, server: string)
    ensures LoginCommand(user, password, server)
            == "docker login -u " + SingleQuoted(user) + " -p " + SingleQuoted(password) + " " + SingleQuoted(server)
    ensures ShellWord(SingleQuoted(user)) == Some(user)
    ensures ShellWord(SingleQuoted(password)) == Some(password)
    ensures ShellWord(SingleQuoted(server)) == Some(server)
  {
    QuotedArgumentReadsBack(user);
    QuotedArgumentReadsBack(password);
    QuotedArgumentReadsBack(server);
    LoginLayout(EscapeSingleQuote(user), EscapeSingleQuote(password), EscapeSingleQuote(server));
  }

  lemma LoginLayout(u: string, p: string, s: string)
    ensures "docker login -u '" + u + "' -p '" + p + "' '" + s + "'"
            == "docker login -u " + ("'" + u + "'") + " -p " + ("'" + p + "'") + " " + ("'" + s + "'")
  {
  }

  /**
   * One endpoint of the loop: skipped without a token; otherwise the
   * trimmed token must be non-empty and decode (`decode` is Base64 then
   * UTF-8) to `user:password`, which gives one login.
   */
  function LoginOf(r: Registry, decode: string -> string): (x: Result<seq<Step>, SwarmError>)
    ensures r.token.None? ==> x == Success([])
    ensures r.token.Some? && Trim(r.token.value) == [] ==> x == Failure(NoAuthToken(r.server))
    ensures x.Success? && r.token.Some? ==>
              var up := UserAndPassword(decode(Trim(r.token.value)));
              up.Some? && x.value == [Exec(LoginCommand(up.value.0, up.value.1, r.server))]
  {
    match r.token
    case None => Success([])
    case Some(token) =>
      var auth := TrimToEmpty(Some(token));
      if auth == [] then Failure(NoAuthToken(r.server))
      else
        match UserAndPassword(decode(auth))
        case None => Failure(MalformedAuthToken(r.server))
        case Some((user, password)) => Success([Exec(LoginCommand(user, password, r.server))])
  }

  /**
   * `prepareCredendtialsOnAgents`: the logins of the endpoints in order;
   * the first endpoint that fails stops the loop, after the logins of the
   * endpoints before it.
   */
  function Logins(rs: seq<Registry>, decode: string -> string): (run: Run)
    ensures run.error.None? ==> forall i :: 0 <= i < |rs| ==> LoginOf(rs[i], decode).Success?
    decreases |rs|
  {
    if rs == [] then Run([], None)
    else
      match LoginOf(rs[0], decode)
      case Failure(e) => Run([], Some(e))
      case Success(steps) =>
        var rest := Logins(rs[1..], decode);
        assert forall i :: 1 <= i < |rs| ==> rs[1..][i - 1] == rs[i];
        Run(steps + rest.steps, rest.error)
  }

  /** Only the endpoints with a token log in: one without a token changes nothing. */
  lemma {:induction false} EndpointWithoutTokenSkipped(a: seq<Registry>, r: Registry, b: seq<Registry>, decode: string -> string)
    requires r.token.None?
    ensures Logins(a + [r] + b, decode) == Logins(a + b, decode)
    decreases |a|
  {
    if a == [] {
      assert a + [r] + b == [r] + b && ([r] + b)[1..] == b && a + b == b;
      assert Logins(b, decode).steps == [] + Logins(b, decode).steps;
    } else {
      assert (a + [r] + b)[0] == a[0] && (a + b)[0] == a[0];
      assert (a + [r] + b)[1..] == a[1..] + [r] + b;
      assert (a + b)[1..] == a[1..] + b;
      EndpointWithoutTokenSkipped(a[1..], r, b, decode);
    }
  }

  /**
   * A run of good endpoints followed by one whose token is empty: the good
   * ones have logged in, the bad one stops the loop and names its server.
   */
  lemma {:induction false} EmptyTokenStopsAfterEarlierLogins(a: seq<Registry>, r: Registry, b: seq<Registry>, decode: string -> string)
    requires forall i :: 0 <= i < |a| ==> LoginOf(a[i], decode).Success?
    requires r.token.Some? && Trim(r.token.value) == []
    ensures Logins(a + [r] + b, decode) == Run(Logins(a, decode).steps, Some(NoAuthToken(r.server)))
    decreases |a|
  {
    if a == [] {
      assert a + [r] + b == [r] + b;
    } else {
      assert (a + [r] + b)[0] == a[0];
      assert (a + [r] + b)[1..] == a[1..] + [r] + b;
      assert forall i :: 0 <= i < |a[1..]| ==> a[1..][i] == a[i + 1];
      EmptyTokenStopsAfterEarlierLogins(a[1..], r, b, decode);
    }
  }

  /** A token whose decoded text has no `:` stops the loop, naming the endpoint. */
  lemma MalformedTokenRejected(r: Registry, decode: string -> string)
    requires r.token.Some? && Trim(r.token.value) != []
    requires ':' !in decode(Trim(r.token.value))
    ensures Logins([r], decode) == Run([], Some(MalformedAuthToken(r.server)))
  {
  }

  // ---------------------------------------------------------------------
  // Deploying the configuration files
  // ---------------------------------------------------------------------

  function ComposeDown(name: string): string {
    "DOCKER_HOST=:2375 docker-compose -f '" + EscapeSingleQuote(name) + "' down"
  }

  function ComposeUp(name: string): string {
    "DOCKER_HOST=:2375 docker-compose -f '" + EscapeSingleQuote(name) + "' up -d"
  }

  function RemoveFile(name: string): string {
    "rm -f -- '" + EscapeSingleQuote(name) + "'"
  }

  /**
   * One file, copied to the random name `name`: the copy, `down` when the
   * containers are removed first, `up -d`, and removing the copy.
   */
  function FileSteps(name: string, removeFirst: bool): (r: seq<Step>)
    ensures |r| == if removeFirst then 4 else 3
    ensures r[0] == Copy(name) && r[|r| - 2] == Exec(ComposeUp(name)) && r[|r| - 1] == Exec(RemoveFile(name))
    ensures removeFirst ==> r[1] == Exec(ComposeDown(name))
  {
    [Copy(name)] + (if removeFirst then [Exec(ComposeDown(name))] else [])
      + [Exec(ComposeUp(name)), Exec(RemoveFile(name))]
  }

  /** The files one after another. */
  function DeploySteps(names: seq<string>, removeFirst: bool): (r: seq<Step>)
    ensures |r| == |names| * (if removeFirst then 4 else 3)
    ensures names == [] ==> r == []
    decreases |names|
  {
    if names == [] then []
    else FileSteps(names[0], removeFirst) + DeploySteps(names[1..], removeFirst)
  }

  /** The files are deployed in order: the steps of a longer list extend those of its prefix. */
  lemma {:induction false} DeployInFileOrder(a: seq<string>, b: seq<string>, removeFirst: bool)
    ensures DeploySteps(a + b, removeFirst) == DeploySteps(a, removeFirst) + DeploySteps(b, removeFirst)
    decreases |a|
  {
    if a == [] {
      assert a + b == b;
    } else {
      assert (a + b)[0] == a[0] && (a + b)[1..] == a[1..] + b;
      DeployInFileOrder(a[1..], b, removeFirst);
    }
  }

  /**
   * The first remote step that fails, counted among the logins and file
   * steps of the run: `exitStatus` when a command ran and exited with a
   * non-zero status, otherwise the SSH channel or the SFTP transfer
   * failed.  The remote side decides this, so it is an input.
   */
  datatype RemoteFault = RemoteFault(at: nat, exitStatus: bool)

  /**
   * A non-zero exit status is a `RuntimeException` (JSchClient.java:186),
   * which the command does not catch; every other remote failure is a
   * `JSchException` and is logged as an error.
   */
  predicate Escapes(e: SwarmError) {
    e.StepFailed? && e.step.Exec? && e.exitStatus
  }

  /** The logins, then the file steps when every login was accepted. */
  function Planned(registries: seq<Registry>, names: seq<string>, removeFirst: bool, decode: string -> string): (r: Run)
    ensures r.error == Logins(registries, decode).error
    ensures r.error.None? ==> r.steps == Logins(registries, decode).steps + DeploySteps(names, removeFirst)
    ensures r.error.Some? ==> r.steps == Logins(registries, decode).steps
  {
    var logins := Logins(registries, decode);
    if logins.error.None? then Run(logins.steps + DeploySteps(names, removeFirst), None) else logins
  }

  /**
   * A run cut short by the remote side: a fault at a step the run reaches
   * ends it there, with that step's failure, before any later check.
   */
  function WithFault(run: Run, fault: Option<RemoteFault>): (r: Run)
    ensures fault.Some? && fault.value.at < |run.steps| ==>
              r == Run(run.steps[..fault.value.at + 1], Some(StepFailed(run.steps[fault.value.at], fault.value.exitStatus)))
    ensures !(fault.Some? && fault.value.at < |run.steps|) ==> r == run
  {
    match fault
    case Some(f) =>
      if f.at < |run.steps| then Run(run.steps[..f.at + 1], Some(StepFailed(run.steps[f.at], f.exitStatus))) else run
    case None => run
  }

  /**
   * `execute`: without a deployment configuration an error is logged and
   * no client is built; otherwise the client is built, the registries are
   * logged in to, each file (under the random name `names` gives it) is
   * deployed, and the client is closed whatever happened.  The state is
   * `Success` only when the run got through; a login error or a failed
   * transfer or channel is logged as an error, and a command exiting
   * non-zero leaves the context as it was and escapes the command.
   */
  function Execute(c: BaseContext.Context, hasConfig: bool, registries: seq<Registry>, names: seq<string>,
                   removeFirst: bool, decode: string -> string, fault: Option<RemoteFault>,
                   invalidConfig: string, errorText: SwarmError -> string)
    : (r: (Run, BaseContext.Context))
    ensures !hasConfig ==> r.0.steps == [] && r.1 == BaseContext.LogError(c, invalidConfig)
    ensures hasConfig ==> |r.0.steps| >= 2 && r.0.steps[0] == Connect && r.0.steps[|r.0.steps| - 1] == Close
    ensures hasConfig ==>
              var planned := Planned(registries, names, removeFirst, decode);
              && (r.0.error.None? <==> planned.error.None? && !(fault.Some? && fault.value.at < |planned.steps|))
              && (fault.Some? && fault.value.at < |planned.steps| ==>
                    && r.0.steps == [Connect] + planned.steps[..fault.value.at + 1] + [Close]
                    && r.0.error == Some(StepFailed(planned.steps[fault.value.at], fault.value.exitStatus)))
              && (!(fault.Some? && fault.value.at < |planned.steps|) ==>
                    r.0.steps == [Connect] + planned.steps + [Close] && r.0.error == planned.error)
    ensures r.1.state == BaseContext.Success <==>
              || (hasConfig && r.0.error.None?)
              || (hasConfig && r.0.error.Some? && Escapes(r.0.error.value) && c.state == BaseContext.Success)
    ensures hasConfig && r.0.error.None? ==> r.1 == BaseContext.SetState(c, BaseContext.Success)
    ensures hasConfig && r.0.error.Some? && !Escapes(r.0.error.value) ==> r.1 == BaseContext.LogError(c, errorText(r.0.error.value))
    ensures hasConfig && r.0.error.Some? && Escapes(r.0.error.value) ==> r.1 == c
  {
    if !hasConfig then (Run([], None), BaseContext.LogError(c, invalidConfig))
    else
      var run := WithFault(Planned(registries, names, removeFirst, decode), fault);
      var steps := [Connect] + run.steps + [Close];
      match run.error
      case None => (Run(steps, None), BaseContext.SetState(c, BaseContext.Success))
      case Some(e) =>
        if Escapes(e) then (Run(steps, run.error), c)
        else (Run(steps, run.error), BaseContext.LogError(c, errorText(e)))
  }

  /**
   * A `docker-compose up -d` that exits non-zero escapes the command: the
   * file was copied, the client is closed, nothing is logged, and the
   * state is left as it was.
   */
  lemma FailingComposeEscapes(c: BaseContext.Context, name: string, decode: string -> string,
                              invalidConfig: string, errorText: SwarmError -> string)
    ensures var r := Execute(c, true, [], [name], false, decode, Some(RemoteFault(1, true)), invalidConfig, errorText);
            && r.0.steps == [Connect, Copy(name), Exec(ComposeUp(name)), Close]
            && r.0.error == Some(StepFailed(Exec(ComposeUp(name)), true))
            && r.1 == c
  {
    var f := FileSteps(name, false);
    assert DeploySteps([name], false) == f + DeploySteps([], false);
    assert Planned([], [name], false, decode).steps == f;
    assert f[..2] == [Copy(name), Exec(ComposeUp(name))];
  }

  /** A failed copy of the first file is a `JSchException`: it is logged as an error, and no command runs. */
  lemma FailingCopyLogged(c: BaseContext.Context, name: string, removeFirst: bool, decode: string -> string,
                          invalidConfig: string, errorText: SwarmError -> string)
    ensures var r := Execute(c, true, [], [name], removeFirst, decode, Some(RemoteFault(0, true)), invalidConfig, errorText);
            && r.0.steps == [Connect, Copy(name), Close]
            && BaseContext.InError(r.1)
  {
    var f := FileSteps(name, removeFirst);
    assert DeploySteps([name], removeFirst) == f + DeploySteps([], removeFirst);
    assert Planned([], [name], removeFirst, decode).steps == f;
    assert f[..1] == [Copy(name)];
  }

  /** The files copied to the master, in order. */
  function CopiedFiles(steps: seq<Step>): (r: seq<string>)
    ensures |r| <= |steps|
  {
    if steps == [] then []
    else (if steps[0].Copy? then [steps[0].target] else []) + CopiedFiles(steps[1..])
  }

  lemma {:induction false} CopiedFilesAppend(a: seq<Step>, b: seq<Step>)
    ensures CopiedFiles(a + b) == CopiedFiles(a) + CopiedFiles(b)
    decreases |a|
  {
    if a == [] {
      assert a + b == b;
    } else {
      assert (a + b)[0] == a[0] && (a + b)[1..] == a[1..] + b;
      CopiedFilesAppend(a[1..], b);
    }
  }

  lemma {:induction false} NoCopiesCopyNothing(steps: seq<Step>)
    requires NoCopies(steps)
    ensures CopiedFiles(steps) == []
    decreases |steps|
  {
    if steps != [] {
      NoCopiesCopyNothing(steps[1..]);
    }
  }

  lemma FileCopiedOnce(name: string, removeFirst: bool)
    ensures CopiedFiles(FileSteps(name, removeFirst)) == [name]
  {
    var f := FileSteps(name, removeFirst);
    assert NoCopies(f[1..]);
    NoCopiesCopyNothing(f[1..]);
  }

  /** Each file is copied once, under its random name, in file order. */
  lemma {:induction false} DeployCopiesEachFile(names: seq<string>, removeFirst: bool)
    ensures CopiedFiles(DeploySteps(names, removeFirst)) == names
    decreases |names|
  {
    if names != [] {
      var f := FileSteps(names[0], removeFirst);
      FileCopiedOnce(names[0], removeFirst);
      CopiedFilesAppend(f, DeploySteps(names[1..], removeFirst));
      DeployCopiesEachFile(names[1..], removeFirst);
    }
  }

  /**
   * Once every login went through and no remote step fails, the run
   * succeeds and the files copied to the master are exactly the
   * configuration files, in order.
   */
  lemma SuccessfulRunCopiesEachFile(c: BaseContext.Context, registries: seq<Registry>, names: seq<string>,
                                    removeFirst: bool, decode: string -> string, invalidConfig: string,
                                    errorText: SwarmError -> string)
    requires Logins(registries, decode).error.None?
    ensures var r := Execute(c, true, registries, names, removeFirst, decode, None, invalidConfig, errorText);
            && r.1.state == BaseContext.Success
            && CopiedFiles(r.0.steps) == names
  {
    var logins := Logins(registries, decode);
    var deploy := DeploySteps(names, removeFirst);
    var r := Execute(c, true, registries, names, removeFirst, decode, None, invalidConfig, errorText);
    assert r.0.steps == [Connect] + (logins.steps + deploy) + [Close];
    assert [Connect] + (logins.steps + deploy) + [Close] == [Connect] + logins.steps + deploy + [Close];
    LoginsOnlyExec(registries, decode);
    NoCopiesCopyNothing(logins.steps);
    assert CopiedFiles([Connect]) == [] && CopiedFiles([Close]) == [];
    CopiedFilesAppend([Connect], logins.steps);
    CopiedFilesAppend([Connect] + logins.steps, deploy);
    CopiedFilesAppend([Connect] + logins.steps + deploy, [Close]);
    DeployCopiesEachFile(names, removeFirst);
  }

  predicate NoCopies(steps: seq<Step>) {
    forall i :: 0 <= i < |steps| ==> !steps[i].Copy?
  }

  lemma NoCopiesConcat(a: seq<Step>, b: seq<Step>)
    requires NoCopies(a) && NoCopies(b)
    ensures NoCopies(a + b)
  {
    assert forall i :: |a| <= i < |a + b| ==> (a + b)[i] == b[i - |a|];
  }

  /** Logging in copies nothing. */
  lemma {:induction false} LoginsOnlyExec(rs: seq<Registry>, decode: string -> string)
    ensures NoCopies(Logins(rs, decode).steps)
    decreases |rs|
  {
    if rs != [] && LoginOf(rs[0], decode).Success? {
      LoginsOnlyExec(rs[1..], decode);
      NoCopiesConcat(LoginOf(rs[0], decode).value, Logins(rs[1..], decode).steps);
    }
  }
}

=== FILE: swarm_config.dfy ===
/**
 * The ports a Docker Compose file publishes (`SwarmDeploymentConfig`): the
 * short syntax `[[host:]ext[-extEnd]:]int[-intEnd][/udp|/tcp]`, the long
 * syntax with `target`, `published` and `protocol`, and the walk over the
 * services of each file.
 */
module SwarmConfig {
  import opened Wrappers
  import opened JavaStrings
  import opened Documents
  import opened ServicePorts
  import opened Seqs

  /** Resources the plugin creates for Swarm are named with this prefix. */
  const ResourcePrefix: string := "swarm"

  /** The reasons `getServicePorts` gives up. */
  datatype PortError =
    | InvalidPortSyntax        // the short syntax does not match the pattern
    | NumberFormat             // `Integer.valueOf` rejects a matched number (unchecked)
    | RangeLengthMismatch      // external and internal ranges differ in length
    | NoTargetPort
    | NoPublishedPort
    | InvalidPortDefinition    // a port entry that is neither text nor a mapping
    | ServicesNotFound         // a versioned file without `services`
    | NotAMap                  // a node the code casts to `Map` is not one

  // ---------------------------------------------------------------------
  // The short-syntax pattern
  // ---------------------------------------------------------------------

  /** `[a-fA-F\d.:]`, the characters of the host address group. */
  predicate IsHostChar(c: char) {
    IsDigit(c) || 'a' <= c <= 'f' || 'A' <= c <= 'F' || c == '.' || c == ':'
  }

  predicate IsHostText(s: string) {
    s != [] && forall i :: 0 <= i < |s| ==> IsHostChar(s[i])
  }

  predicate IsNumberText(s: string) {
    s != [] && AllDigits(s)
  }

  /** The text of the named groups of a match; `None` is a group that did not take part. */
  datatype PortGroups = PortGroups(
    host: Option<string>,
    ext: Option<string>,
    extEnd: Option<string>,
    inter: string,
    interEnd: Option<string>,
    proto: Option<string>)

  /**
   * The group values a match can have: the external part (host, `ext`,
   * `extEnd`) is present as a whole or not at all, and `ext` may be empty.
   */
  predicate WellFormed(g: PortGroups) {
    && (g.ext.None? ==> g.host.None? && g.extEnd.None?)
    && (g.host.Some? ==> IsHostText(g.host.value))
    && (g.ext.Some? ==> AllDigits(g.ext.value))
    && (g.extEnd.Some? ==> IsNumberText(g.extEnd.value))
    && IsNumberText(g.inter)
    && (g.interEnd.Some? ==> IsNumberText(g.interEnd.value))
    && (g.proto.Some? ==> g.proto.value == "/udp" || g.proto.value == "/tcp")
  }

  /** `prefix` followed by the group's text, or nothing for an absent group. */
  function Optional(prefix: string, o: Option<string>): string {
    if o.Some? then prefix + o.value else ""
  }

  /** `host:` when there is a host. */
  function HostPrefix(host: Option<string>): string {
    if host.Some? then host.value + ":" else ""
  }

  /** The external part without its closing `:`. */
  function ExternalText(host: Option<string>, ext: string, extEnd: Option<string>): string {
    HostPrefix(host) + ext + Optional("-", extEnd)
  }

  function RenderExternal(g: PortGroups): string {
    if g.ext.Some? then ExternalText(g.host, g.ext.value, g.extEnd) + ":" else ""
  }

  function RenderInternal(g: PortGroups): string {
    g.inter + Optional("-", g.interEnd) + Optional("", g.proto)
  }

  /** The text a match with these groups spans. */
  function Render(g: PortGroups): string {
    RenderExternal(g) + RenderInternal(g)
  }

  /** Length of the run of decimal digits at the start. */
  function DigitRun(s: string): (n: nat)
    ensures n <= |s| && AllDigits(s[..n])
    ensures n < |s| ==> !IsDigit(s[n])
  {
    if s == [] || !IsDigit(s[0]) then 0
    else
      var n := 1 + DigitRun(s[1..]);
      assert s[..n] == [s[0]] + s[1..][..n - 1];
      n
  }

  /** `\d*(-\d+)?` against the whole of `e`: the start and the optional end of a range. */
  function MatchRange(e: string): (r: Option<(string, Option<string>)>)
    ensures r.Some? ==> AllDigits(r.value.0) && (r.value.1.Some? ==> IsNumberText(r.value.1.value))
                        && e == r.value.0 + Optional("-", r.value.1)
  {
    var n := DigitRun(e);
    var rest := e[n..];
    if rest == [] then
      assert e[..n] == e;
      Some((e, None))
    else if rest[0] == '-' && |rest| > 1 && DigitRun(rest[1..]) == |rest| - 1 then
      assert rest[1..][..|rest| - 1] == rest[1..];
      assert e == e[..n] + "-" + rest[1..];
      Some((e[..n], Some(rest[1..])))
    else None
  }

  /** `(/(udp|tcp))?` against the whole of `tail`. */
  function MatchProto(tail: string): (r: Option<Option<string>>)
    ensures r.Some? ==> tail == Optional("", r.value)
                        && (r.value.Some? ==> r.value.value == "/udp" || r.value.value == "/tcp")
  {
    if tail == [] then Some(None)
    else if tail == "/udp" || tail == "/tcp" then
      assert Optional("", Some(tail)) == tail;
      Some(Some(tail))
    else None
  }

  /** `(-\d+)?(/(udp|tcp))?` against the whole of `rest`. */
  function MatchInterEndAndProto(rest: string): (r: Option<(Option<string>, Option<string>)>)
    ensures r.Some? ==> (r.value.0.Some? ==> IsNumberText(r.value.0.value))
                        && (r.value.1.Some? ==> r.value.1.value == "/udp" || r.value.1.value == "/tcp")
                        && rest == Optional("-", r.value.0) + Optional("", r.value.1)
  {
    var m := if |rest| > 0 && rest[0] == '-' then DigitRun(rest[1..]) else 0;
    if m > 0 then
      var proto := MatchProto(rest[1 + m..]);
      if proto.Some? then
        InterEndSplit(rest, m);
        Some((Some(rest[1..1 + m]), proto.value))
      else None
    else
      var proto := MatchProto(rest);
      if proto.Some? then Some((None, proto.value)) else None
  }

  /** A `-` followed by a run of `m` digits splits off as the end of the internal range. */
  lemma InterEndSplit(rest: string, m: nat)
    requires |rest| > 0 && rest[0] == '-' && 0 < m == DigitRun(rest[1..])
    ensures IsNumberText(rest[1..1 + m]) && rest == "-" + rest[1..1 + m] + rest[1 + m..]
  {
    assert rest[1..1 + m] == rest[1..][..m];
  }

  /** `\d+(-\d+)?(/(udp|tcp))?` against the whole of `b`. */
  function MatchInternal(b: string): (r: Option<(string, Option<string>, Option<string>)>)
    ensures r.Some? ==> IsNumberText(r.value.0)
                        && (r.value.1.Some? ==> IsNumberText(r.value.1.value))
                        && (r.value.2.Some? ==> r.value.2.value == "/udp" || r.value.2.value == "/tcp")
                        && b == r.value.0 + Optional("-", r.value.1) + Optional("", r.value.2)
  {
    var n := DigitRun(b);
    var rest := MatchInterEndAndProto(b[n..]);
    if n > 0 && rest.Some? then
      SplitAfter(b, n, Optional("-", rest.value.0), Optional("", rest.value.1));
      Some((b[..n], rest.value.0, rest.value.1))
    else None
  }

  /** A text split after its first `n` characters is the head followed by the tail's parts. */
  lemma SplitAfter(b: string, n: nat, o1: string, o2: string)
    requires n <= |b| && b[n..] == o1 + o2
    ensures b == b[..n] + o1 + o2
  {
    assert b == b[..n] + b[n..];
  }

  /**
   * `((host):)?ext(-extEnd)?` against the whole of `p`. The host group is
   * greedy but must be followed by `:` and a range without `:`, so it ends
   * at the last `:`.
   */
  function MatchExternal(p: string): (r: Option<(Option<string>, string, Option<string>)>)
    ensures r.Some? ==> (r.value.0.Some? ==> IsHostText(r.value.0.value))
                        && AllDigits(r.value.1)
                        && (r.value.2.Some? ==> IsNumberText(r.value.2.value))
                        && p == ExternalText(r.value.0, r.value.1, r.value.2)
  {
    if ':' in p then
      var k := LastIndexOf(p, ':');
      var h := p[..k];
      var range := MatchRange(p[k + 1..]);
      if IsHostText(h) && range.Some? then
        SplitAtHost(p, k, range.value.0, range.value.1);
        Some((Some(h), range.value.0, range.value.1))
      else None
    else
      var range := MatchRange(p);
      if range.Some? then
        assert ExternalText(None, range.value.0, range.value.1) == p;
        Some((None, range.value.0, range.value.1))
      else None
  }

  lemma SplitAtHost(p: string, k: nat, ext: string, extEnd: Option<string>)
    requires k < |p| && p[k] == ':' && p[k + 1..] == ext + Optional("-", extEnd)
    ensures p == ExternalText(Some(p[..k]), ext, extEnd)
  {
    assert p == p[..k] + ":" + p[k + 1..];
  }

  lemma SplitAtExternal(s: string, k: nat, g: PortGroups)
    requires k < |s| && s[k] == ':' && g.ext.Some?
    requires s[..k] == ExternalText(g.host, g.ext.value, g.extEnd)
    requires s[k + 1..] == g.inter + Optional("-", g.interEnd) + Optional("", g.proto)
    ensures Render(g) == s
  {
    assert s == s[..k] + ":" + s[k + 1..];
  }

  /**
   * `PATTERN_PORT_SPEC` with `Matcher.matches`: the groups of the match, or
   * `None` when the text does not match. The internal part has no `:`, so
   * the external part, when there is one, ends at the last `:`.
   */
  function MatchPortSpec(s: string): (r: Option<PortGroups>)
    ensures r.Some? ==> WellFormed(r.value) && Render(r.value) == s
  {
    if ':' in s then
      var k := LastIndexOf(s, ':');
      var x := MatchExternal(s[..k]);
      var y := MatchInternal(s[k + 1..]);
      if x.Some? && y.Some? then
        var g := PortGroups(x.value.0, Some(x.value.1), x.value.2, y.value.0, y.value.1, y.value.2);
        SplitAtExternal(s, k, g);
        Some(g)
      else None
    else
      var y := MatchInternal(s);
      if y.Some? then
        var g := PortGroups(None, None, None, y.value.0, y.value.1, y.value.2);
        assert RenderExternal(g) == "";
        assert Render(g) == RenderInternal(g);
        Some(g)
      else None
  }

  // ---------------------------------------------------------------------
  // Every text of the pattern's form matches, with exactly its groups
  // ---------------------------------------------------------------------

  lemma {:induction false} DigitRunOf(d: string, rest: string)
    requires AllDigits(d) && (rest == [] || !IsDigit(rest[0]))
    ensures DigitRun(d + rest) == |d|
    decreases |d|
  {
    if d != [] {
      assert (d + rest)[1..] == d[1..] + rest;
      DigitRunOf(d[1..], rest);
    } else {
      assert d + rest == rest;
    }
  }

  lemma MatchRangeOf(ext: string, extEnd: Option<string>)
    requires AllDigits(ext) && (extEnd.Some? ==> IsNumberText(extEnd.value))
    ensures MatchRange(ext + Optional("-", extEnd)) == Some((ext, extEnd))
  {
    var e := ext + Optional("-", extEnd);
    DigitRunOf(ext, Optional("-", extEnd));
    assert e[..|ext|] == ext;
    assert e[|ext|..] == Optional("-", extEnd);
    if extEnd.Some? {
      var rest := e[|ext|..];
      assert rest[1..] == extEnd.value;
      DigitRunOf(extEnd.value, []);
      assert extEnd.value + [] == extEnd.value;
    }
  }

  lemma MatchProtoOf(proto: Option<string>)
    requires proto.Some? ==> proto.value == "/udp" || proto.value == "/tcp"
    ensures MatchProto(Optional("", proto)) == Some(proto)
  {
    assert proto.Some? ==> Optional("", proto) == proto.value;
  }

  /** A protocol group starts with `/`, so it never continues a digit run. */
  lemma ProtoTextStart(proto: Option<string>)
    requires proto.Some? ==> proto.value == "/udp" || proto.value == "/tcp"
    ensures Optional("", proto) == [] || Optional("", proto)[0] == '/'
  {
    assert proto.Some? ==> Optional("", proto) == proto.value;
  }

  lemma InterEndOf(end: string, proto: Option<string>)
    requires IsNumberText(end)
    requires proto.Some? ==> proto.value == "/udp" || proto.value == "/tcp"
    ensures MatchInterEndAndProto("-" + end + Optional("", proto)) == Some((Some(end), proto))
  {
    var tail := Optional("", proto);
    MatchProtoOf(proto);
    ProtoTextStart(proto);
    DigitRunOf(end, tail);
    InterEndRun(end, tail, proto);
  }

  /** The range end is the digit run after the `-`, and the protocol group is what follows it. */
  lemma InterEndRun(end: string, tail: string, proto: Option<string>)
    requires |end| > 0 && DigitRun(end + tail) == |end| && MatchProto(tail) == Some(proto)
    ensures MatchInterEndAndProto("-" + end + tail) == Some((Some(end), proto))
  {
    var rest := "-" + end + tail;
    assert rest[1..] == end + tail;
    assert rest[1..1 + |end|] == end;
    assert rest[1 + |end|..] == tail;
  }

  lemma MatchInterEndAndProtoOf(interEnd: Option<string>, proto: Option<string>)
    requires interEnd.Some? ==> IsNumberText(interEnd.value)
    requires proto.Some? ==> proto.value == "/udp" || proto.value == "/tcp"
    ensures MatchInterEndAndProto(Optional("-", interEnd) + Optional("", proto)) == Some((interEnd, proto))
  {
    var tail := Optional("", proto);
    if interEnd.Some? {
      assert Optional("-", interEnd) + tail == "-" + interEnd.value + tail;
      InterEndOf(interEnd.value, proto);
    } else {
      assert Optional("-", interEnd) + tail == tail;
      MatchProtoOf(proto);
      ProtoTextStart(proto);
    }
  }

  lemma MatchInternalOf(inter: string, interEnd: Option<string>, proto: Option<string>)
    requires IsNumberText(inter) && (interEnd.Some? ==> IsNumberText(interEnd.value))
    requires proto.Some? ==> proto.value == "/udp" || proto.value == "/tcp"
    ensures MatchInternal(inter + Optional("-", interEnd) + Optional("", proto)) == Some((inter, interEnd, proto))
  {
    var rest := Optional("-", interEnd) + Optional("", proto);
    assert inter + rest == inter + Optional("-", interEnd) + Optional("", proto);
    MatchInterEndAndProtoOf(interEnd, proto);
    assert rest == [] || !IsDigit(rest[0]) by {
      if interEnd.None? { ProtoTextStart(proto); assert rest == Optional("", proto); }
    }
    DigitRunOf(inter, rest);
    InternalRun(inter, rest, (inter, interEnd, proto));
  }

  /** The internal start is the leading digit run, and the rest of the text matches the range end and protocol. */
  lemma InternalRun(inter: string, rest: string, groups: (string, Option<string>, Option<string>))
    requires |inter| > 0 && DigitRun(inter + rest) == |inter| && groups.0 == inter
    requires MatchInterEndAndProto(rest) == Some((groups.1, groups.2))
    ensures MatchInternal(inter + rest) == Some(groups)
  {
    var b := inter + rest;
    assert b[..|inter|] == inter;
    assert b[|inter|..] == rest;
  }

  lemma NoColonInRange(ext: string, extEnd: Option<string>)
    requires AllDigits(ext) && (extEnd.Some? ==> IsNumberText(extEnd.value))
    ensures ':' !in ext + Optional("-", extEnd)
  {
    var e := ext + Optional("-", extEnd);
    forall i | 0 <= i < |e| ensures e[i] != ':' {
      if i < |ext| { assert e[i] == ext[i]; }
      else if i > |ext| { assert e[i] == extEnd.value[i - |ext| - 1]; }
    }
  }

  lemma NoColonInInternal(g: PortGroups)
    requires WellFormed(g)
    ensures ':' !in RenderInternal(g)
  {
    NoColonInRange(g.inter, g.interEnd);
    var a := g.inter + Optional("-", g.interEnd);
    var b := Optional("", g.proto);
    assert ':' !in b;
    assert forall i :: 0 <= i < |a + b| ==> (a + b)[i] == if i < |a| then a[i] else b[i - |a|];
  }

  lemma MatchExternalOf(host: Option<string>, ext: string, extEnd: Option<string>)
    requires host.Some? ==> IsHostText(host.value)
    requires AllDigits(ext) && (extEnd.Some? ==> IsNumberText(extEnd.value))
    ensures MatchExternal(ExternalText(host, ext, extEnd)) == Some((host, ext, extEnd))
  {
    NoColonInRange(ext, extEnd);
    MatchRangeOf(ext, extEnd);
    if host.Some? {
      MatchExternalWithHost(host.value, ext + Optional("-", extEnd));
      assert ExternalText(host, ext, extEnd) == host.value + [':'] + (ext + Optional("-", extEnd));
    } else {
      assert ExternalText(host, ext, extEnd) == ext + Optional("-", extEnd);
    }
  }

  lemma MatchExternalWithHost(h: string, range: string)
    requires IsHostText(h) && ':' !in range && MatchRange(range).Some?
    ensures MatchExternal(h + [':'] + range) == Some((Some(h), MatchRange(range).value.0, MatchRange(range).value.1))
  {
    var p := h + [':'] + range;
    LastIndexOfSplit(h, ':', range);
    assert p[..|h|] == h;
    assert p[|h| + 1..] == range;
  }

  /**
   * The pattern accepts every text of its form and reports exactly the
   * groups the text was built from.
   */
  lemma RenderMatches(g: PortGroups)
    requires WellFormed(g)
    ensures MatchPortSpec(Render(g)) == Some(g)
  {
    var s := Render(g);
    NoColonInInternal(g);
    MatchInternalOf(g.inter, g.interEnd, g.proto);
    if g.ext.Some? {
      var x := ExternalText(g.host, g.ext.value, g.extEnd);
      assert s == x + [':'] + RenderInternal(g);
      LastIndexOfSplit(x, ':', RenderInternal(g));
      assert s[..|x|] == x;
      assert s[|x| + 1..] == RenderInternal(g);
      MatchExternalOf(g.host, g.ext.value, g.extEnd);
    } else {
      assert s == RenderInternal(g);
    }
  }

  /** A text matches exactly when it has the pattern's form. */
  lemma MatchesIffRendered(s: string)
    ensures MatchPortSpec(s).Some? <==> exists g :: WellFormed(g) && Render(g) == s
  {
    if exists g :: WellFormed(g) && Render(g) == s {
      var g :| WellFormed(g) && Render(g) == s;
      RenderMatches(g);
    }
  }

  // ---------------------------------------------------------------------
  // Short syntax: from groups to ports
  // ---------------------------------------------------------------------

  /** `Integer.valueOf` on a matched number; an empty or too large number is a `NumberFormatException`. */
  function ValueOf(t: string): (r: Result<int, PortError>)
    ensures r.Success? ==> 0 <= r.value <= IntMax
    ensures r.Failure? ==> r.error == NumberFormat
    ensures IsNumberText(t) ==> (r.Success? <==> DigitsValue(t) <= IntMax)
    ensures IsNumberText(t) && r.Success? ==> r.value == DigitsValue(t)
    ensures t == [] ==> r.Failure?
  {
    if AllDigits(t) then
      match ParseInt(t)
      case None => Failure(NumberFormat)
      case Some(v) => Success(v)
    else Failure(NumberFormat)
  }

  /**
   * The ports from `ext` to `extEnd` in ascending order, the i-th mapping
   * `ext + i` to `inter + i`; none when the range is reversed.
   */
  function PortRange(ext: int, extEnd: int, inter: int, protocol: Protocol): (r: seq<ServicePort>)
    ensures |r| == if extEnd < ext then 0 else extEnd - ext + 1
    ensures forall i :: 0 <= i < |r| ==> r[i] == ServicePort(ext + i, inter + i, protocol)
  {
    if extEnd < ext then []
    else seq(extEnd - ext + 1, i requires 0 <= i <= extEnd - ext => ServicePort(ext + i, inter + i, protocol))
  }

  /** The protocol group read with `equalsIgnoreCase("/udp")`; no group reads as the empty text. */
  function ProtocolOf(proto: Option<string>): (p: Protocol)
    requires proto.Some? ==> proto.value == "/udp" || proto.value == "/tcp"
    ensures p == Udp <==> proto == Some("/udp")
  {
    var text := Optional("", proto);
    assert proto.Some? ==> text == proto.value;
    assert ToLowerAscii("/tcp") != ToLowerAscii("/udp") by { assert ToLowerAscii("/tcp")[1] == 't'; }
    assert ToLowerAscii("") != ToLowerAscii("/udp");
    if EqualsIgnoreCase(text, "/udp") then Udp else Tcp
  }

  /** Each port follows the first on both sides by its offset, with the first's protocol. */
  predicate ConsecutivePorts(ports: seq<ServicePort>) {
    forall i :: 0 <= i < |ports| ==>
      ports[i] == ServicePort(ports[0].hostPort + i, ports[0].containerPort + i, ports[0].protocol)
  }

  /**
   * The ports of a match. The numbers are read in the order `int`, `intEnd`,
   * `ext`, `extEnd`; a missing `intEnd` is `int`, a missing `ext` is `int`,
   * and a missing `extEnd` is `ext` for a single internal port but `intEnd`
   * for an internal range. The port loop is written as the range it is
   * meant to produce (see `PortLoopAsWritten` for the loop itself).
   */
  function PortsOfGroups(g: PortGroups): (r: Result<seq<ServicePort>, PortError>)
    requires WellFormed(g)
    ensures r != Failure(InvalidPortSyntax)
    ensures r.Success? ==> ConsecutivePorts(r.value)
    ensures r.Success? ==> forall i :: 0 <= i < |r.value| ==>
      ValidPort(r.value[i]) && r.value[i].hostPort >= 0 && r.value[i].containerPort >= 0
    ensures r.Success? && r.value != [] ==> (r.value[0].protocol == Udp <==> g.proto == Some("/udp"))
  {
    var inter :- ValueOf(g.inter);
    var interEnd :- if g.interEnd.Some? then ValueOf(g.interEnd.value) else Success(inter);
    var ext :- if g.ext.Some? then ValueOf(g.ext.value) else Success(inter);
    var extEnd :- if g.extEnd.Some? then ValueOf(g.extEnd.value)
                  else Success(if interEnd == inter then ext else interEnd);
    if extEnd - ext != interEnd - inter then Failure(RangeLengthMismatch)
    else Success(PortRange(ext, extEnd, inter, ProtocolOf(g.proto)))
  }

  /** `parsePortShortSyntax`: the pattern must match, then the groups give the ports. */
  function ParseShortSyntax(def: string): (r: Result<seq<ServicePort>, PortError>)
    ensures MatchPortSpec(def).None? <==> r == Failure(InvalidPortSyntax)
  {
    var m := MatchPortSpec(def);
    if m.None? then Failure(InvalidPortSyntax) else PortsOfGroups(m.value)
  }

  /**
   * The ports of one short-syntax entry are consecutive on both sides and
   * share one protocol, UDP exactly when the entry ends in `/udp`.
   */
  lemma ShortSyntaxShape(def: string)
    ensures ParseShortSyntax(def).Success? ==> ConsecutivePorts(ParseShortSyntax(def).value)
    ensures ParseShortSyntax(def).Success? && ParseShortSyntax(def).value != [] ==>
      (ParseShortSyntax(def).value[0].protocol == Udp <==> MatchPortSpec(def).value.proto == Some("/udp"))
  {
    var m := MatchPortSpec(def);
    if m.Some? {
      var r := PortsOfGroups(m.value);
      assert ParseShortSyntax(def) == r;
    }
  }

  /** The decimal text of a port number reads back as that number. */
  lemma NumberReads(n: int)
    requires 0 <= n <= IntMax
    ensures IsNumberText(NatToString(n)) && ValueOf(NatToString(n)) == Success(n)
  {
    NatToStringValue(n);
  }

  /** Parsing a text of the pattern's form is reading its groups. */
  lemma ParseRendered(g: PortGroups)
    requires WellFormed(g)
    ensures ParseShortSyntax(Render(g)) == PortsOfGroups(g)
  {
    RenderMatches(g);
  }

  lemma RenderSingle(i: string)
    ensures Render(PortGroups(None, None, None, i, None, None)) == i
  {
    assert RenderInternal(PortGroups(None, None, None, i, None, None)) == i + "" + "";
  }

  lemma RenderMapped(e: string, i: string)
    ensures Render(PortGroups(None, Some(e), None, i, None, None)) == e + ":" + i
  {
    var g := PortGroups(None, Some(e), None, i, None, None);
    assert RenderExternal(g) == "" + e + "" + ":";
    assert RenderInternal(g) == i + "" + "";
  }

  lemma RenderMappedRange(e: string, i: string, j: string)
    ensures Render(PortGroups(None, Some(e), None, i, Some(j), None)) == e + ":" + i + "-" + j
  {
    var g := PortGroups(None, Some(e), None, i, Some(j), None);
    assert RenderExternal(g) == "" + e + "" + ":";
    assert RenderInternal(g) == i + ("-" + j) + "";
  }

  lemma RenderRanges(a: string, b: string, c: string, d: string, proto: Option<string>)
    ensures Render(PortGroups(None, Some(a), Some(b), c, Some(d), proto)) ==
      (a + ("-" + b)) + ":" + (c + ("-" + d) + Optional("", proto))
  {
    assert HostPrefix(None) + a == a;
  }

  /** `"N"` publishes port N on port N over TCP. */
  lemma SinglePortSpec(n: int)
    requires 0 <= n <= IntMax
    ensures ParseShortSyntax(NatToString(n)) == Success([ServicePort(n, n, Tcp)])
  {
    NumberReads(n);
    SingleTextPorts(NatToString(n), n);
  }

  lemma SingleTextPorts(x: string, n: int)
    requires IsNumberText(x) && ValueOf(x) == Success(n)
    ensures ParseShortSyntax(x) == Success([ServicePort(n, n, Tcp)])
  {
    var g := PortGroups(None, None, None, x, None, None);
    RenderSingle(x);
    ParseRendered(g);
    SingleGroupsPorts(g, n);
  }

  lemma SingleGroupsPorts(g: PortGroups, n: int)
    requires WellFormed(g) && g.ext.None? && g.interEnd.None? && g.proto.None?
    requires ValueOf(g.inter) == Success(n)
    ensures PortsOfGroups(g) == Success([ServicePort(n, n, Tcp)])
  {
    assert ProtocolOf(None) == Tcp;
    assert PortRange(n, n, n, Tcp) == [ServicePort(n, n, Tcp)];
  }

  /** `"A:B"` publishes host port A for container port B over TCP. */
  lemma MappedPortSpec(a: int, b: int)
    requires 0 <= a <= IntMax && 0 <= b <= IntMax
    ensures ParseShortSyntax(NatToString(a) + ":" + NatToString(b)) == Success([ServicePort(a, b, Tcp)])
  {
    NumberReads(a);
    NumberReads(b);
    MappedTextPorts(NatToString(a), NatToString(b), a, b);
  }

  lemma MappedTextPorts(x: string, y: string, a: int, b: int)
    requires IsNumberText(x) && IsNumberText(y) && ValueOf(x) == Success(a) && ValueOf(y) == Success(b)
    ensures ParseShortSyntax(x + ":" + y) == Success([ServicePort(a, b, Tcp)])
  {
    var g := PortGroups(None, Some(x), None, y, None, None);
    RenderMapped(x, y);
    ParseRendered(g);
    MappedGroupsPorts(g, a, b);
  }

  lemma MappedGroupsPorts(g: PortGroups, a: int, b: int)
    requires WellFormed(g) && g.ext.Some? && g.extEnd.None? && g.interEnd.None? && g.proto.None?
    requires ValueOf(g.ext.value) == Success(a) && ValueOf(g.inter) == Success(b)
    ensures PortsOfGroups(g) == Success([ServicePort(a, b, Tcp)])
  {
    assert ProtocolOf(None) == Tcp;
    assert PortRange(a, a, b, Tcp) == [ServicePort(a, b, Tcp)];
  }

  /** The text of `"A-B:C-D"`, with `/udp` appended when asked for. */
  function RangeSpecText(a: int, b: int, c: int, d: int, udp: bool): string
    requires 0 <= a && 0 <= b && 0 <= c && 0 <= d
  {
    (NatToString(a) + ("-" + NatToString(b))) + ":" + (NatToString(c) + ("-" + NatToString(d)) + (if udp then "/udp" else ""))
  }

  /**
   * `"A-B:C-D"`: ranges of equal length give the ports A..B mapped to
   * C..D in order, ranges of different length are rejected.
   */
  lemma RangeSpec(a: int, b: int, c: int, d: int, udp: bool)
    requires 0 <= a <= IntMax && 0 <= b <= IntMax && 0 <= c <= IntMax && 0 <= d <= IntMax
    ensures ParseShortSyntax(RangeSpecText(a, b, c, d, udp)) ==
      if b - a == d - c then Success(PortRange(a, b, c, if udp then Udp else Tcp))
      else Failure(RangeLengthMismatch)
  {
    var g := RangeGroups(a, b, c, d, udp);
    RangeGroupsRender(a, b, c, d, udp);
    ParseRendered(g);
    NumberReads(a);
    NumberReads(b);
    NumberReads(c);
    NumberReads(d);
  }

  function RangeGroups(a: int, b: int, c: int, d: int, udp: bool): PortGroups
    requires 0 <= a && 0 <= b && 0 <= c && 0 <= d
  {
    PortGroups(None, Some(NatToString(a)), Some(NatToString(b)), NatToString(c), Some(NatToString(d)),
               if udp then Some("/udp") else None)
  }

  lemma RangeGroupsRender(a: int, b: int, c: int, d: int, udp: bool)
    requires 0 <= a && 0 <= b && 0 <= c && 0 <= d
    ensures WellFormed(RangeGroups(a, b, c, d, udp))
    ensures Render(RangeGroups(a, b, c, d, udp)) == RangeSpecText(a, b, c, d, udp)
  {
    var proto: Option<string> := if udp then Some("/udp") else None;
    RenderRanges(NatToString(a), NatToString(b), NatToString(c), NatToString(d), proto);
    assert Optional("", proto) == (if udp then "/udp" else "");
  }

  /**
   * `"E:A-B"` with a real internal range: the external end defaults to the
   * internal end B, not to E + (B - A), so the spec is accepted only when E
   * is A.
   */
  lemma ExternalStartWithInternalRange(e: int, a: int, b: int)
    requires 0 <= e <= IntMax && 0 <= a <= IntMax && 0 <= b <= IntMax && a != b
    ensures ParseShortSyntax(NatToString(e) + ":" + NatToString(a) + "-" + NatToString(b)) ==
      if e == a then Success(PortRange(a, b, a, Tcp)) else Failure(RangeLengthMismatch)
  {
    var g := PortGroups(None, Some(NatToString(e)), None, NatToString(a), Some(NatToString(b)), None);
    NumberReads(e);
    NumberReads(a);
    NumberReads(b);
    RenderMappedRange(NatToString(e), NatToString(a), NatToString(b));
    RenderMatches(g);
  }

  /** The protocol group is case-sensitive: `/UDP` does not match the pattern. */
  lemma UppercaseProtocolRejected(n: int)
    requires 0 <= n <= IntMax
    ensures ParseShortSyntax(NatToString(n) + "/UDP") == Failure(InvalidPortSyntax)
  {
    var t := NatToString(n);
    var s := t + "/UDP";
    assert ':' !in s by {
      assert forall i :: 0 <= i < |t| ==> s[i] == t[i];
    }
    DigitRunOf(t, "/UDP");
    assert s[..|t|] == t && s[|t|..] == "/UDP";
    assert MatchProto("/UDP").None?;
  }

  /** `":N"` matches with an empty external start, which `Integer.valueOf` rejects. */
  lemma EmptyExternalStart(n: int)
    requires 0 <= n <= IntMax
    ensures ParseShortSyntax(":" + NatToString(n)) == Failure(NumberFormat)
  {
    NumberReads(n);
    EmptyExternalText(NatToString(n));
  }

  lemma EmptyExternalText(x: string)
    requires IsNumberText(x) && ValueOf(x).Success?
    ensures ParseShortSyntax(":" + x) == Failure(NumberFormat)
  {
    var g := PortGroups(None, Some(""), None, x, None, None);
    RenderMapped("", x);
    assert "" + ":" + x == ":" + x;
    ParseRendered(g);
  }

  // ---------------------------------------------------------------------
  // The port loop as written
  // ---------------------------------------------------------------------

  /**
   * `for (int p = ext; p <= extEnd; p++) add(new ServicePort(p, inter + p - ext, protocol))`
   * with Java `int` arithmetic, run for at most `fuel` iterations: `None`
   * when the loop is still running after them.
   */
  function PortLoopAsWritten(p: int, ext: int, extEnd: int, inter: int, protocol: Protocol, fuel: nat): Option<seq<ServicePort>>
    requires InInt32(p) && InInt32(extEnd)
    decreases fuel
  {
    if !(p <= extEnd) then Some([])
    else if fuel == 0 then None
    else
      match PortLoopAsWritten(Wrap32(p + 1), ext, extEnd, inter, protocol, fuel - 1)
      case None => None
      case Some(rest) => Some([ServicePort(p, Wrap32(Wrap32(inter + p) - ext), protocol)] + rest)
  }

  /**
   * With `extEnd` at `Integer.MAX_VALUE` the condition `p <= extEnd` holds
   * for every `int`, and `p++` wraps to `Integer.MIN_VALUE`: the loop never
   * ends, however many iterations it is given.
   */
  lemma {:induction false} PortLoopNeverEndsAtIntMax(p: int, ext: int, inter: int, protocol: Protocol, fuel: nat)
    requires InInt32(p)
    ensures PortLoopAsWritten(p, ext, IntMax, inter, protocol, fuel) == None
    decreases fuel
  {
    if fuel > 0 {
      PortLoopNeverEndsAtIntMax(Wrap32(p + 1), ext, inter, protocol, fuel - 1);
    }
  }

  /**
   * Below `Integer.MAX_VALUE` the loop produces exactly `PortRange`: no
   * arithmetic wraps, and it stops after `extEnd - p + 1` iterations.
   */
  lemma {:induction false} PortLoopIsRange(p: int, ext: int, extEnd: int, inter: int, protocol: Protocol, fuel: nat)
    requires 0 <= ext <= p && extEnd < IntMax && 0 <= inter && inter + extEnd - ext <= IntMax
    requires InInt32(p) && InInt32(extEnd) && fuel > extEnd - p
    ensures PortLoopAsWritten(p, ext, extEnd, inter, protocol, fuel) == Some(PortRange(p, extEnd, inter + p - ext, protocol))
    decreases fuel
  {
    if p <= extEnd {
      PortLoopIsRange(p + 1, ext, extEnd, inter, protocol, fuel - 1);
      PortLoopStep(p, ext, extEnd, inter, protocol, fuel, PortRange(p + 1, extEnd, inter + p + 1 - ext, protocol));
      PortRangeStep(p, extEnd, inter + p - ext, protocol);
    }
  }

  /** One iteration below `Integer.MAX_VALUE`: no arithmetic wraps. */
  lemma PortLoopStep(p: int, ext: int, extEnd: int, inter: int, protocol: Protocol, fuel: nat, rest: seq<ServicePort>)
    requires InInt32(p) && p <= extEnd < IntMax && InInt32(inter + p - ext) && fuel > 0
    requires PortLoopAsWritten(p + 1, ext, extEnd, inter, protocol, fuel - 1) == Some(rest)
    ensures PortLoopAsWritten(p, ext, extEnd, inter, protocol, fuel) == Some([ServicePort(p, inter + p - ext, protocol)] + rest)
  {
    Wrap32Sub(inter + p, ext);
    assert Wrap32(p + 1) == p + 1;
  }

  /** A non-empty range is its first port followed by the rest of the range. */
  lemma PortRangeStep(ext: int, extEnd: int, inter: int, protocol: Protocol)
    requires ext <= extEnd
    ensures PortRange(ext, extEnd, inter, protocol) == [ServicePort(ext, inter, protocol)] + PortRange(ext + 1, extEnd, inter + 1, protocol)
  {
    var rest := PortRange(ext + 1, extEnd, inter + 1, protocol);
    assert forall i :: 0 < i < |rest| + 1 ==> PortRange(ext, extEnd, inter, protocol)[i] == rest[i - 1];
  }

  /**
   * The spec `"2147483647"` shows the difference: the ports it is meant to
   * publish are the one port 2147483647, but the loop as written never
   * finishes.
   */
  lemma LargestPortNeverFinishes(fuel: nat)
    ensures ParseShortSyntax(NatToString(IntMax)) == Success([ServicePort(IntMax, IntMax, Tcp)])
    ensures PortLoopAsWritten(IntMax, IntMax, IntMax, IntMax, Tcp, fuel) == None
  {
    SinglePortSpec(IntMax);
    PortLoopNeverEndsAtIntMax(IntMax, IntMax, IntMax, Tcp, fuel);
  }

  // ---------------------------------------------------------------------
  // Long syntax
  // ---------------------------------------------------------------------

  /** A YAML integer that SnakeYAML hands over as an `Integer`. */
  predicate IsJavaInteger(v: Option<Value>) {
    v.Some? && v.value.Int? && InInt32(v.value.i)
  }

  /**
   * `parsePortLongSyntax`: `target` and `published` must be integers, and
   * the protocol is UDP when `protocol` is the text `udp` in any case.
   */
  function ParseLongSyntax(node: Value): (r: Result<seq<ServicePort>, PortError>)
    requires node.Obj?
    ensures !IsJavaInteger(Field(node, "target")) ==> r == Failure(NoTargetPort)
    ensures IsJavaInteger(Field(node, "target")) && !IsJavaInteger(Field(node, "published")) ==>
      r == Failure(NoPublishedPort)
    ensures r.Success? <==> IsJavaInteger(Field(node, "target")) && IsJavaInteger(Field(node, "published"))
    ensures r.Success? ==>
      && |r.value| == 1
      && r.value[0].hostPort == Field(node, "published").value.i
      && r.value[0].containerPort == Field(node, "target").value.i
      && (r.value[0].protocol == Udp <==>
          Field(node, "protocol").Some? && TextEqualsIgnoreCase(Field(node, "protocol").value, "udp"))
  {
    var target := Field(node, "target");
    var published := Field(node, "published");
    var protocolNode := Field(node, "protocol");
    if !IsJavaInteger(target) then Failure(NoTargetPort)
    else if !IsJavaInteger(published) then Failure(NoPublishedPort)
    else
      var protocol := if protocolNode.Some? && protocolNode.value.Str? && EqualsIgnoreCase(protocolNode.value.s, "udp")
                      then Udp else Tcp;
      Success([ServicePort(published.value.i, target.value.i, protocol)])
  }

  /** The long-syntax mapping that describes a port. */
  function LongSyntaxOf(p: ServicePort): Value {
    Obj([(Str("target"), Int(p.containerPort)),
         (Str("published"), Int(p.hostPort)),
         (Str("protocol"), Str(if p.protocol == Udp then "udp" else "tcp"))])
  }

  /** Every valid port written in the long syntax reads back as itself. */
  lemma LongSyntaxReadsBack(p: ServicePort)
    requires ValidPort(p)
    ensures ParseLongSyntax(LongSyntaxOf(p)) == Success([p])
  {
    var node := LongSyntaxOf(p);
    assert "protocol"[2] != "published"[2] && "protocol"[0] != "target"[0] && "published"[0] != "target"[0];
    var e := node.entries;
    LookupOfThree(e[0].0, e[0].1, e[1].0, e[1].1, e[2].0, e[2].1);
    assert e == [(e[0].0, e[0].1), (e[1].0, e[1].1), (e[2].0, e[2].1)];
    ProtocolWordReads(p.protocol == Udp);
    var r := ParseLongSyntax(node);
    assert r.Success? && |r.value| == 1;
    assert r.value[0] == p;
  }

  // ---------------------------------------------------------------------
  // Files and services
  // ---------------------------------------------------------------------

  /**
   * The services of a parsed file: a file without `version` is the legacy
   * format whose root holds the services; a versioned file must have a
   * `services` mapping.
   */
  function ServicesOf(root: Value): (r: Result<seq<Value>, PortError>)
    ensures root.Obj? && Lookup(root.entries, Str("version")).None? ==> r == Success(MapValues(root.entries))
    ensures root.Obj? ==> Lookup(root.entries, Str("version")).Some? ==>
      Field(root, "services").None? || Field(root, "services") == Some(Null) ==> r == Failure(ServicesNotFound)
    ensures !root.Obj? ==> r == Failure(NotAMap)
  {
    if !root.Obj? then Failure(NotAMap)
    else if Lookup(root.entries, Str("version")).None? then Success(MapValues(root.entries))
    else
      match Field(root, "services")
      case None => Failure(ServicesNotFound)
      case Some(services) =>
        if services.Null? then Failure(ServicesNotFound)
        else if services.Obj? then Success(MapValues(services.entries))
        else Failure(NotAMap)
  }

  /** One entry of a `ports` list: text is the short syntax, a mapping the long syntax. */
  function PortsOfPortNode(node: Value): (r: Result<seq<ServicePort>, PortError>)
    ensures node.Str? ==> r == ParseShortSyntax(node.s)
    ensures !node.Str? && !node.Obj? ==> r == Failure(InvalidPortDefinition)
  {
    match node
    case Str(text) => ParseShortSyntax(text)
    case Obj(_) => ParseLongSyntax(node)
    case _ => Failure(InvalidPortDefinition)
  }

  /** The ports of one service; a service whose `ports` is not a list publishes none. */
  function PortsOfService(service: Value): (r: Result<seq<ServicePort>, PortError>)
    ensures service.Obj? && !(Field(service, "ports").Some? && Field(service, "ports").value.Arr?) ==> r == Success([])
    ensures !service.Obj? ==> r == Failure(NotAMap)
  {
    if !service.Obj? then Failure(NotAMap)
    else
      match Field(service, "ports")
      case Some(Arr(items)) => FlatMapResult(PortsOfPortNode, items)
      case _ => Success([])
  }

  function PortsOfFile(root: Value): Result<seq<ServicePort>, PortError> {
    var services :- ServicesOf(root);
    FlatMapResult(PortsOfService, services)
  }

  /** `getServicePorts`: the ports of every file, service and entry, in that order. */
  function ServicePortsOf(files: seq<Value>): Result<seq<ServicePort>, PortError> {
    FlatMapResult(PortsOfFile, files)
  }

  /** The walk succeeds when every file does, and lists the files' ports one file after another. */
  lemma ServicePortsInFileOrder(a: seq<Value>, b: seq<Value>)
    ensures ServicePortsOf(a + b).Success? <==> ServicePortsOf(a).Success? && ServicePortsOf(b).Success?
    ensures ServicePortsOf(a + b).Success? ==> ServicePortsOf(a + b).value == ServicePortsOf(a).value + ServicePortsOf(b).value
  {
    FlatMapResultAppend(PortsOfFile, a, b);
  }

  /** Within a file, the services' ports follow the services' order. */
  lemma ServicePortsInServiceOrder(root: Value, i: int, p: ServicePort)
    requires ServicesOf(root).Success? && 0 <= i < |ServicesOf(root).value|
    requires PortsOfService(ServicesOf(root).value[i]).Success?
    requires p in PortsOfService(ServicesOf(root).value[i]).value
    requires PortsOfFile(root).Success?
    ensures p in PortsOfFile(root).value
  {
    var services := ServicesOf(root).value;
    FlatMapResultSuccess(PortsOfService, services);
    FlatMapContains(OrEmpty(PortsOfService), services, i, p);
  }

  /** A bare number in a `ports` list is neither syntax, so it is rejected. */
  lemma NumericPortEntryRejected(n: int)
    ensures PortsOfService(Obj([(Str("ports"), Arr([Int(n)]))])) == Failure(InvalidPortDefinition)
  {
    var service := Obj([(Str("ports"), Arr([Int(n)]))]);
    assert Field(service, "ports") == Some(Arr([Int(n)]));
    assert [Int(n)][1..] == [];
  }
}

=== FILE: wrappers.dfy ===
/**
 * The two outcome types the rest of the model uses: `Option` for Java
 * references that may be `null`, and `Result` for operations that either
 * return a value or throw.
 */
module Wrappers {

  datatype Option<+T> = None | Some(value: T)

  datatype Result<+T, +E> = Success(value: T) | Failure(error: E)
  {
    predicate IsFailure() {
      Failure?
    }

    function PropagateFailure<U>(): Result<U, E>
      requires Failure?
    {
      Failure(this.error)
    }

    function Extract(): T
      requires Success?
    {
      value
    }
  }
}
